=== FILE: README.md ===
# PresentationTemplate, modelled in Dafny

PresentationTemplate is a browser slide editor built on Reveal.js. Its main menu is a
mind map of topic tiles with subtopic child tiles. An admin panel edits the topics and
subtopics. A zoom camera focuses one tile. The deck skeleton is generated from a topic
count. Text on the slides can be edited inline, and the edits are kept in `localStorage`.
Teachers can keep one layer of edits and bookmarks per student. The page is exported
back to the save server with the editor markup and Word paste artefacts removed.

This project models the parts of that code that make decisions about data, one Dafny
module per source file:

- `StudentManager`: the student registry, an object with the student list, the current
  index and the layer-mode switch, mirrored into `localStorage`.
- `StudentLayerController`: the save-then-switch protocol, the dropdown selection, the
  overview title and the edit filter.
- `Storage`: bookmarks, slide edits and the fallback content.
- `AdminPanel`, `Menu`, `Normalize` and `Splice`: subtopic editing, drag and drop and the
  normalisers.
- `Camera`: the camera state machine.
- `LayoutEngine`, `MenuLayout` and `MathUtil`: layout arithmetic on exact reals.
- `Identifiers`, `SlideEditor`, `Sanitizer` and `Export`: edit identifiers, inline
  editing and the export pipeline.
- `SubtopicDetail`: `escapeHtml` and the content lookup.
- `SlideGenerator`: the deck skeleton.
- `Presentation` and `Navigation`: key handling and navigation.

The shared modules `Text`, `JsValues`, `Dom` and `WebStorage` give the JavaScript
built-ins these files rely on: string trimming, `split`, `join`, `parseInt`, untyped
values, DOM trees as values, and `localStorage` as a map.

Code that changes state in place is modelled as classes whose methods change their
fields. This covers the student registry, the shared content object, the drag context,
the camera, the editable elements, the nav boxes and the arrow-key hover state. Each
method's postcondition ties the new state to a specification function, and lemmas
prove the promised properties of those functions. Code that only computes is modelled
as functions and lemmas.

`src/editor.js` carries its own copies of the identifier functions and of
`purgeMsOfficeMarkup`, in the same form as `js/modules/slide-editor.js` and
`js/modules/export-html.js`. They are modelled once. Where the two files differ, both
variants are modelled:

- slide validation;
- the nav-box sync guard;
- the save path;
- the set of controls removed on export;
- the export's success test and its clearing of the stored edits.

## Model

| member | source | states |
|---|---|---|
| Text.Trim | js/modules/slide-editor.js:216 | `trim` leaves no white space at either end, and gives the empty string exactly for an all-white-space string |
| Text.TrimKeepsCharacters | js/modules/slide-editor.js:216 | `trim` only removes white space from the ends: the characters it keeps are characters of the original |
| Text.TrimOfTrimmed | js/modules/export-html.js:106 | a string with no white space at either end is its own `trim` |
| Text.TrimSpacePrefix | js/modules/export-html.js:106 | `trim` takes off the space `join('; ')` puts in front of a trimmed piece |
| Text.Split | js/modules/slide-editor.js:273 | `split` on one character gives at least one piece, and no piece holds the separator |
| Text.SplitWithoutSeparator | js/modules/slide-editor.js:273 | a string without the separator splits into itself alone |
| Text.SplitAtFirst | js/modules/slide-editor.js:273 | a string splits at its first separator into the part before it and the pieces of the rest |
| Text.JoinCons | js/modules/student-layer-controller.js:184 | `join` of two or more pieces is the first, the separator, and the join of the rest |
| Text.JoinStartsWithHead | js/modules/student-layer-controller.js:184 | the result of `join` starts with its first piece |
| Text.JoinFirstCharacter | js/modules/student-layer-controller.js:184 | when the first piece is not empty, the first character of the `join` is the first character of that piece |
| Text.JoinOfNonEmpty | js/modules/export-html.js:109-110 | a `join` whose first piece is not empty is empty exactly when there are no pieces |
| Text.SuffixAtMatch | js/modules/student-layer-controller.js:182 | from the position where `indexOf` finds the separator, the text is the separator followed by the rest |
| Text.JoinSplit | js/modules/student-layer-controller.js:182-184 | joining the pieces of a split with the same separator gives back the original string |
| Text.ParseInt | js/modules/slide-editor.js:276 | `parseInt` is `NaN` for a string that, after leading white space, does not start with a digit or a sign |
| Text.ParseInt10 | js/modules/slide-editor.js:170 | `parseInt(s, 10)` is `NaN` for a string that, after leading white space, does not start with a digit or a sign |
| Text.ParseIntOfIntToString | js/modules/slide-editor.js:276-279 | `parseInt`, with or without radix 10, reads back every integer `String` prints |
| Text.IntToString | js/modules/slide-editor.js:248 | the template string's number is non-empty and starts with `-` exactly when the number is negative |
| Text.NatToString | js/modules/slide-editor.js:248 | a non-negative number prints as digits only, with no leading zero |
| Text.UnderscoreWhitespace | js/modules/slide-editor.js:244 | after `replace(/\s+/g, '_')` no white space is left and the string is no longer than before |
| Text.UnderscoreWhitespaceIdentity | js/modules/slide-editor.js:244 | a class name without white space is left unchanged |
| Text.UnderscoreWhitespaceHasUnderscore | js/modules/slide-editor.js:244 | a class name with white space gets at least one `_` |
| Text.AsciiLowerIdempotent | src/presentation.js:202 | lower-casing twice is lower-casing once, so a case-insensitive test may lower-case its input first |
| JsValues.FalsyValues | js/modules/menu.js:52 | exactly `undefined`, `null`, `false`, `0` and `''` are falsy; arrays and objects, even empty ones, are truthy |
| JsValues.Coalesce | js/modules/utils/normalize.js:18-19 | `v ?? fallback` is `v` unless `v` is `null` or `undefined`, and the fallback then |
| JsValues.Or | js/modules/subtopic-detail.js:87 | `v \|\| fallback` is `v` when it is truthy and the fallback otherwise |
| JsValues.ToJsString | js/modules/admin-panel.js:468 | `String(v)` of a string is the string itself, and of an integral number its decimal form |
| StudentManager.NewStudents | js/modules/student-manager.js:99-111 | the students a creation loop pushes for indices `from .. to-1`: exactly `to - from` of them, entry `k` the default record for index `from + k` |
| StudentManager.Merge | js/modules/student-manager.js:175-179 | `{...student, ...updates, lastModified}`: every field the update carries overrides, every other field is kept, `id` and `createdAt` never change, `lastModified` is the new time |
| StudentManager.FindLabel | js/modules/student-manager.js:344 | the leftmost position where `/Schüler \d+/` matches at or after `from`, or none when it matches nowhere |
| StudentManager.DigitsEnd | js/modules/student-manager.js:344 | the greedy `\d+`: every character up to the end is a digit and the one after is not |
| StudentManager.RenumberDefaultName | js/modules/student-manager.js:344 | a default name `Schüler k` is renamed to `Schüler n` as a whole |
| StudentManager.RenumberLabelledDigits | js/modules/student-manager.js:344 | the label followed only by digits is replaced entirely, however many digits follow |
| StudentManager.RenumberCustomName | js/modules/student-manager.js:344 | a name the pattern does not match is left unchanged |
| StudentManager.RenumberAll | js/modules/student-manager.js:342-345 | the renumbering `forEach` keeps the length and makes entry `k` the entry renumbered for position `k` |
| StudentManager.IndexAfterDelete | js/modules/student-manager.js:197-201 | after a delete the index is 0 when the list is empty, stays valid while students remain, and is unchanged when it still points into the list |
| StudentManager.IndexAfterShrink | js/modules/student-manager.js:253-256 | after a confirmed shrink the index is below the new length, non-negative if it was, and unchanged when it was already in range |
| StudentManager.StudentRegistry.constructor | js/modules/student-manager.js:15-17 | the module state starts with no students, index 0 and layer mode off |
| StudentManager.StudentRegistry.InitStudentManager | js/modules/student-manager.js:23-45 | layer mode is on iff the stored flag is `'true'`; a stored non-empty list replaces the one in memory (empty when it does not parse), while a missing or empty one leaves it; a stored index that parses replaces the current one |
| StudentManager.StudentRegistry.GetCurrentStudent | js/modules/student-manager.js:127-133 | a student is returned iff layer mode is on and the index points into a non-empty list, and it is the student at that index |
| StudentManager.StudentRegistry.GetStudentConfig | js/modules/student-manager.js:140-146 | a student is returned iff the index is in range, and it is the one at that index |
| StudentManager.StudentRegistry.LoadStudentState | js/modules/student-manager.js:314-324 | the student's edits and bookmarks for a valid index; empty edits and bookmarks for an out-of-range index |
| StudentManager.StudentRegistry.SetLayerMode | js/modules/student-manager.js:60-75 | the flag is stored; switching off empties the list, resets the index to 0, removes the stored list and index, and stores the layer count `'0'`; switching on changes nothing else |
| StudentManager.StudentRegistry.AppendStudents | js/modules/student-manager.js:99-111 | the creation loop appends exactly the default students for the missing indices and keeps the existing ones |
| StudentManager.StudentRegistry.PersistList | js/modules/student-manager.js:114-115 | the list and its length are written to storage |
| StudentManager.StudentRegistry.CreateStudentConfigs | js/modules/student-manager.js:89-118 | a count outside [1, 25] changes nothing; otherwise the list (cleared first when asked) is filled up to `count`, and with clearing it holds exactly `count` students with ids `0 .. count-1` |
| StudentManager.StudentRegistry.UpdateStudentConfig | js/modules/student-manager.js:169-183 | an out-of-range index changes nothing; otherwise only that entry becomes the merge of the updates, and the list is stored |
| StudentManager.StudentRegistry.DeleteStudent | js/modules/student-manager.js:189-208 | an out-of-range index changes nothing; otherwise exactly that entry is removed, the rest keep their order, and a valid index stays valid while students remain and becomes 0 when none remain |
| StudentManager.StudentRegistry.SwitchStudent | js/modules/student-manager.js:216-228 | succeeds iff layer mode is on and the index is in range; success sets and stores the index and returns that student; failure changes nothing |
| StudentManager.StudentRegistry.UpdateLayerCount | js/modules/student-manager.js:235-282 | an invalid count or an unconfirmed shrink changes nothing; a confirmed shrink keeps the first `newCount` entries and clamps the index; a grow appends default students and keeps the existing ones; afterwards the length is `newCount` and the list, length and index are stored |
| StudentManager.StudentRegistry.SaveStudentState | js/modules/student-manager.js:290-308 | an out-of-range index changes nothing; otherwise only that entry takes the given edits and bookmarks and the new time; saving both and loading the same index gives them back |
| StudentManager.StudentRegistry.RenumberIds | js/modules/student-manager.js:341-345 | every student's id becomes its position and its default name is renumbered to match |
| StudentManager.StudentRegistry.ReorderStudents | js/modules/student-manager.js:331-361 | out-of-range indices change nothing; otherwise the list is the move `from → to`, renumbered by position, and the current index still points at the same student |
| Dom.Dedup | js/modules/export-html.js:115 | the ordered set of a class list holds exactly the classes of the list, none twice, and a list without repeats is its own ordered set |
| Dom.ChildrenWhere | js/modules/slide-editor.js:213 | the filter of the direct children is no longer than them and keeps only nodes the test accepts |
| Dom.ChildrenWhereMembers | js/modules/slide-editor.js:213 | a node is kept exactly when it is a child and the test accepts it |
| Dom.ChildrenWhereAppend | js/modules/slide-editor.js:213 | the filter keeps document order: it distributes over concatenation and keeps a single child exactly when the test accepts it |
| Storage.GetDefaultColor | js/modules/storage.js:111-114 | for a 1-based topic index the colour is the palette entry at `(index - 1) mod 6`; for index 0 or below the truncating remainder is negative, so the lookup is `undefined` unless it is a multiple of six |
| Storage.DefaultColorCycles | js/modules/storage.js:111-114 | the default colours repeat every six topics |
| Storage.TextOr | js/modules/storage.js:80-82 | an element's text is used when it is present and non-empty, and the fallback otherwise |
| Storage.FallbackTopics | js/modules/storage.js:85-96 | the fallback builds exactly the requested number of topics, the i-th with id i+1, title `Thema i+1`, the matching default colour and one overview slide |
| Storage.ExtractContentFromHtml | js/modules/storage.js:79-105 | the extracted content holds six fallback topics and takes title, subtitle, author and closing message from the page, falling back to `Masterarbeit`, `Präsentation`, `Autor` and `Danke!` |
| Storage.FallbackTopicsUseThePalette | js/modules/storage.js:85-96 | the six fallback topics get the six palette colours in order, no two the same |
| Storage.PaletteIsDistinct | js/modules/storage.js:112 | no colour appears twice in the palette |
| Storage.GetSlideEdits | js/modules/storage.js:309-317 | the stored edit map, or the empty map when the key is absent or its value does not parse |
| Storage.SaveSlideEdits | js/modules/storage.js:323-330 | only the slide-edits key changes, and reading it back yields exactly the saved map |
| Storage.UpdateSlideEdit | js/modules/storage.js:337-341 | afterwards the identifier maps to the new content and every other stored edit is unchanged |
| Storage.RemoveSlideEdit | js/modules/storage.js:347-351 | afterwards the identifier has no edit and every other stored edit is unchanged |
| Storage.ClearAllSlideEdits | js/modules/storage.js:356-359 | the key is removed, so the edits read back as the empty map |
| Storage.GetBookmarks | js/modules/storage.js:375-386 | the stored bookmark list, or the empty list when the key is absent or its value does not parse |
| Storage.HasBookmark | js/modules/storage.js:403-406 | true exactly when some stored bookmark has that parent id and that child index |
| Storage.FindBookmark | js/modules/storage.js:418-420 | `findIndex` finds the first equal entry, and finds none exactly when the bookmark is not in the list |
| Storage.Toggled | js/modules/storage.js:416-435 | an absent bookmark is appended at the end; a present one is spliced out at its first occurrence, every other entry staying in order, so exactly one copy is removed |
| Storage.ToggleBookmarkStorage | js/modules/storage.js:416-435 | the result is true exactly when the bookmark was not stored before; only the bookmarks key changes, to the toggled list |
| Storage.Without | js/modules/storage.js:442-447 | the filtered list holds no copy of the removed bookmark, adds nothing, and keeps every other entry with its multiplicity |
| Storage.WithoutAppend | js/modules/storage.js:442-447 | filtering distributes over concatenation, so the kept entries stay in their original order |
| Storage.WithoutSingle | js/modules/storage.js:442-447 | a single entry is kept exactly when it differs from the removed bookmark, and a list without it is returned unchanged |
| Storage.RemoveBookmark | js/modules/storage.js:442-447 | the bookmarks key is set to the filtered list (every other entry in order), so the bookmark is no longer stored; no other key changes |
| Storage.ClearAllBookmarks | js/modules/storage.js:453-456 | the empty list is saved, so the bookmarks read back empty |
| Storage.ToggleResultIsMembership | js/modules/storage.js:416-435 | on a list without duplicates the toggle's result says exactly whether the bookmark is now stored |
| Storage.DuplicateDefeatsToggle | js/modules/storage.js:423-428 | with a duplicated bookmark the toggle reports removal while a copy stays stored |
| Storage.ToggleKeepsNoDuplicates | js/modules/storage.js:416-435 | toggling keeps a duplicate-free list duplicate-free |
| Storage.ToggleTwice | js/modules/storage.js:416-435 | toggling an absent bookmark twice restores the list; on a duplicate-free list toggling twice restores the stored multiset, and a present bookmark ends up moved to the end |
| Storage.WithoutSplice | js/modules/storage.js:442-447 | filtering out an entry that occurs once between two runs free of it leaves the two runs joined, in order |
| Storage.ToggledIsWithout | js/modules/storage.js:416-447 | on a duplicate-free list, toggling a present bookmark off gives the same list as `removeBookmark`'s filter |
| StudentLayerController.ReplaceFirstLine | js/modules/student-layer-controller.js:179-187 | the new overview text starts with the title, and is the title alone when the old text has no `<br>` |
| StudentLayerController.ReplaceFirstLineKeepsTheRest | js/modules/student-layer-controller.js:179-187 | the overview title update replaces only the first `<br>`-separated line: without a `<br>` the result is the title, otherwise the title followed by everything from the first `<br>` on |
| StudentLayerController.DropdownSelection | js/modules/student-layer-controller.js:348-349 | the dropdown selects the current index when it is below the student count and option 0 when it is not; no option when the list is empty or the index is negative |
| StudentLayerController.DropdownShowsCurrentStudent | js/modules/student-layer-controller.js:348-349 | while a student is current, the dropdown selects that student |
| StudentLayerController.EditTargetOf | js/modules/student-layer-controller.js:200-214 | identifiers not starting with `slide` or with fewer than five `_` fields are skipped; a target names a slide below the slide count and the element index parsed from the fifth field |
| StudentLayerController.TargetAgreesWithEditorLookup | js/modules/student-layer-controller.js:200-214 | for names of five or more fields with a non-empty class field, the controller skips exactly the names the editor's lookup as written does not find, and otherwise queries the same slide, selector and fifth-field index |
| StudentLayerController.ControllerFindsTheNamedElement | js/modules/student-layer-controller.js:200-214 | the name built for an element with a class list of tokens without `_` leads the controller to that element's slide and selector, with the element index for a single class and the parsed second class otherwise |
| StudentLayerController.WriteFor | js/modules/student-layer-controller.js:216-218 | one entry writes its HTML iff its target is valid and `elements[elementIndex]` exists, and then into exactly that element |
| StudentLayerController.ApplyEditsFromState | js/modules/student-layer-controller.js:198-222 | the loop over `Object.entries(slideEdits)` makes the writes of the entries in order |
| StudentLayerController.WritesAreTheFoundTargets | js/modules/student-layer-controller.js:198-222 | a write happens iff some entry aims at an existing element with that HTML |
| StudentLayerController.SavedEditLands | js/modules/student-layer-controller.js:198-222 | a saved edit of an element with a single class (after `makeEditable`, one without a class of its own) whose element is still on the page is written into that element |
| StudentLayerController.ClassedEditNeverLands | js/modules/student-layer-controller.js:205-218 | the saved edit of an element whose second class starts with neither a digit nor a sign, such as `c editable-field`, is never written |
| StudentLayerController.ReloadedItems | js/modules/student-layer-controller.js:306-310 | after a reload the stored generation metadata reads back as the student's topic count with `{title, author, student}`, and no other key changes |
| StudentLayerController.ReloadPresentationForStudent | js/modules/student-layer-controller.js:252-310 | nothing happens without a current student or without content data; otherwise the student's generation metadata is stored |
| StudentLayerController.TitleFor | js/modules/student-layer-controller.js:162-169 | the overview gets the student's name when the student asks for it, else a truthy `contentData.title`, else no new title |
| StudentLayerController.AutoSaved | js/modules/student-layer-controller.js:132-139 | the student being left (when one is current) receives the live edits and bookmarks; every other student is unchanged |
| StudentLayerController.HandleStudentSwitchAsWritten | js/modules/student-layer-controller.js:123-173 | switching to the current index changes nothing; otherwise the live state is first saved to the old student; the switch fails iff layer mode is off or the index is out of range, and then nothing is loaded or regenerated; on success the new student's state and title are returned, the live edits stay as they were, and the metadata is stored when content exists |
| StudentLayerController.AutoSavedKeepsMirroredState | js/modules/student-layer-controller.js:132-139 | when the live stores hold the current student's saved state, the auto-save changes no student's edits or bookmarks |
| StudentLayerController.LiveStateSurvivesReload | js/modules/student-layer-controller.js:306-310 | the reload writes neither the slide edits nor the bookmarks |
| StudentLayerController.HandleStudentSwitch | js/modules/student-layer-controller.js:123-173 | the same switch, which also loads the new student's state into the live stores: after a successful switch they hold that student's state, and a switch that starts from such a state changes no student's saved edits or bookmarks |
| StudentLayerController.EditsLeakAsWritten | js/modules/student-layer-controller.js:132-159 | as written, switching A → B → A with A's edit on the page stores A's edit under B |
| StudentLayerController.EditsStayWithTheirStudent | js/modules/student-layer-controller.js:132-159 | with the correction the same two switches leave B without edits and A with its own |
| SubtopicDetail.EscapeChar | js/modules/subtopic-detail.js:127-134 | a character outside `& < > " '` is kept; each of the five becomes an entity, which contains none of `< > " '` |
| SubtopicDetail.EscapeHtml | js/modules/subtopic-detail.js:126-135 | the output is at least as long as the input and contains none of `< > " '` |
| SubtopicDetail.EscapeHtmlAppend | js/modules/subtopic-detail.js:134 | the global replace works character by character: escaping a concatenation concatenates the escaped parts |
| SubtopicDetail.EscapeHtmlIdentity | js/modules/subtopic-detail.js:134 | text without any of the five characters comes out unchanged |
| SubtopicDetail.UnescapeChar | js/modules/subtopic-detail.js:127-133 | each entity of the table reads back as its character, whatever follows it |
| SubtopicDetail.UnescapeEscapeHtml | js/modules/subtopic-detail.js:126-135 | reading the entities back undoes the escaping |
| SubtopicDetail.EscapeHtmlInjective | js/modules/subtopic-detail.js:126-135 | different texts escape to different strings |
| SubtopicDetail.EscapeHtmlNotIdempotent | js/modules/subtopic-detail.js:128 | escaping is not idempotent: `&` becomes `&amp;` and then `&amp;amp;` |
| SubtopicDetail.FindTopic | js/modules/subtopic-detail.js:88 | `find` returns the first entry whose `id` equals the topic id; it throws when a `null` or `undefined` entry comes before any match; no match leaves every entry non-null and different |
| SubtopicDetail.GetSubtopicContent | js/modules/subtopic-detail.js:79-121 | no content data (`undefined` or `null`) gives `null`; any content returned is truthy |
| SubtopicDetail.ContentOfObjectSubtopic | js/modules/subtopic-detail.js:95-108 | an object subtopic with truthy `content` in a found topic gives that content |
| SubtopicDetail.StringSubtopicHasNoContent | js/modules/subtopic-detail.js:110-113 | a string subtopic (the older format) gives `null` |
| SubtopicDetail.MissingTopicHasNoContent | js/modules/subtopic-detail.js:87-93 | a topic list without the id gives `null` |
| SubtopicDetail.MissingSubtopicHasNoContent | js/modules/subtopic-detail.js:95-103 | a subtopic index outside the list gives `null` |
| SubtopicDetail.FindTopicFindsFirst | js/modules/subtopic-detail.js:88 | when the first match is at `j` and no `null` entry precedes it, `find` returns `j` |
| SubtopicDetail.FindTopicMisses | js/modules/subtopic-detail.js:88 | a list of non-null entries without the id yields no match |
| AdminPanel.WithSubtopics | js/modules/admin-panel.js:643 | replacing one topic's subtopic list leaves every other topic and that topic's id, title and colour as they were |
| AdminPanel.AddedSubtopic | js/modules/admin-panel.js:636-650 | a missing topic changes nothing; an existing topic with fewer than six entries gets `{title: 'Neues Subtopic', position: null}` appended, one with six or more stays as it was; normalised content stays normalised |
| AdminPanel.AddButtonMatchesAdd | js/modules/admin-panel.js:629-646 | the add button is disabled exactly when adding to that topic would change nothing |
| AdminPanel.AddNeverExceedsCap | js/modules/admin-panel.js:644-646 | adding never takes a topic past six subtopics, and a topic already at six or more keeps its list |
| AdminPanel.RemovedSubtopic | js/modules/admin-panel.js:652-663 | a missing topic or a non-array list changes nothing; otherwise the list is `splice(index, 1)`, with a negative index counting from the end; normalised content stays normalised |
| AdminPanel.RemoveAtKeepsEntries | js/modules/admin-panel.js:659 | removal never invents an entry: everything left was in the list before |
| AdminPanel.RemoveValidIndex | js/modules/admin-panel.js:652-663 | with an index inside the list exactly that entry goes and the rest keep their order |
| AdminPanel.UpdatedSubtopicValue | js/modules/admin-panel.js:665-678 | the entry at the index gets the new title and keeps its normalised position; an index past the end pads the list; no other topic or entry changes |
| AdminPanel.TitleEditKeepsPosition | js/modules/admin-panel.js:673-674 | on normalised content a title edit replaces only that entry's title |
| AdminPanel.ReorderedSubtopics | js/modules/admin-panel.js:680-699 | the topic's list is normalised; equal or out-of-range indices stop there, otherwise the entry at `from` is moved to `to` |
| AdminPanel.InverseMoveIndex | js/modules/admin-panel.js:695-696 | every position after the move comes from exactly one position before it |
| AdminPanel.ReorderIsPermutation | js/modules/admin-panel.js:680-699 | an accepted reorder puts the dragged entry at `to` and keeps the same multiset of entries |
| AdminPanel.FindByStringId | js/modules/admin-panel.js:468 | the found topic is the first whose id has the same string form as the input's id, and no topic matches when none is found |
| AdminPanel.TitleTarget | js/modules/admin-panel.js:459-469 | the target is `topics[index]` when the parsed index names an existing topic, else the topic found by string id, always inside the list |
| AdminPanel.ApplyTitleInput | js/modules/admin-panel.js:455-474 | a value blank after trimming, or one with no target, changes nothing; otherwise only the target's title becomes the trimmed value |
| AdminPanel.SaveTouchesOnlyTitles | js/modules/admin-panel.js:455-474 | the save loop keeps the number of topics and every id, colour and subtopic list |
| AdminPanel.OneInputTouchesOnlyTitles | js/modules/admin-panel.js:455-474 | one pass of the loop changes titles only |
| AdminPanel.BlankInputsChangeNothing | js/modules/admin-panel.js:456-457 | inputs that are all blank after trimming leave the topics as they were |
| AdminPanel.FocusSize | js/modules/admin-panel.js:558 | the focus size is the integer nearest to 1.6 times the size |
| AdminPanel.ApplyChildSize | js/modules/admin-panel.js:556-560 | the idle size is the slider value and the focus size is `round(1.6 × size)` |
| AdminPanel.FocusSizeOfMultipleOfFive | js/modules/admin-panel.js:558 | sizes that are multiples of five scale exactly by 1.6 |
| AdminPanel.Panel.constructor | js/modules/admin-panel.js:43-48 | the panel starts with no drag source |
| AdminPanel.Panel.AddSubtopic | js/modules/admin-panel.js:636-650 | without topics nothing changes; otherwise the topics become `AddedSubtopic`, and normalised content stays normalised |
| AdminPanel.Panel.RemoveSubtopic | js/modules/admin-panel.js:652-663 | without topics nothing changes; otherwise the topics become `RemovedSubtopic` |
| AdminPanel.Panel.UpdateSubtopicValue | js/modules/admin-panel.js:665-678 | without topics nothing changes; otherwise the topics become `UpdatedSubtopicValue` |
| AdminPanel.Panel.ReorderSubtopics | js/modules/admin-panel.js:680-699 | without topics nothing changes; otherwise the topics become `ReorderedSubtopics` |
| AdminPanel.Panel.StartDrag | js/modules/admin-panel.js:708-711 | the dragged index is remembered |
| AdminPanel.Panel.OnDrop | js/modules/admin-panel.js:718-724 | without a drag source nothing happens; otherwise the remembered entry is reordered to the target and the drag source is cleared |
| AdminPanel.Panel.SaveCircleTitles | js/modules/admin-panel.js:442-474 | without topics nothing is saved; otherwise the topics are the result of applying every input in document order |
| AdminPanel.RequestedCount | js/modules/admin-panel.js:729-734 | a number passed in is used as it is; without one and without an input the count is 10; an input whose text does not start with a digit or a sign gives `NaN` |
| AdminPanel.GenerateAsWritten | js/modules/admin-panel.js:728-755 | as written: for a count that is a number the guard refuses exactly the counts outside 3..12, but `NaN` is always let through to the generator |
| AdminPanel.BlankCountWipesTopicSlides | js/modules/admin-panel.js:728-739 | as written, a blank count field parses to `NaN`, passes the range guard and produces a deck with no circles and no topic stacks |
| AdminPanel.HandleGenerateSlides | js/modules/admin-panel.js:728-781 | with the intended guard a count outside 3..12 (or `NaN`) is refused and stores nothing; an accepted count on a page without `.reveal .slides` stores nothing either; otherwise it yields the generated deck and stores its metadata and circle count |
| AdminPanel.AcceptedCountBuildsFullDeck | js/modules/admin-panel.js:742-747 | an accepted count builds a deck with exactly that many circles and topic stacks |
| AdminPanel.HandleRefreshOverviewAsWritten | js/modules/admin-panel.js:783-830 | as written: the guard agrees with the intended one on numbers but lets `NaN` through; a page without the overview section, or with neither a circle container nor a title, stores nothing; otherwise an accepted count replaces the overview circles by the generated ones and is stored as `toString` prints it |
| AdminPanel.BlankCountEmptiesOverview | js/modules/admin-panel.js:783-824 | as written, a blank count field passes the refresh guard as `NaN`: no circle is generated, so the overview loses all its circles, and `'NaN'` is stored as the circle count |
| AdminPanel.HandleRefreshOverview | js/modules/admin-panel.js:783-830 | with the intended guard a count outside 3..12 (or `NaN`) is refused and stores nothing, and so does a page without the overview section or without a circle container or title; otherwise the count yields exactly that many overview circles and is stored |
| Menu.Content.constructor | js/modules/menu.js:25 | the menu starts without content |
| Menu.FindTopic | js/modules/menu.js:478 | `find` by strict id returns the first topic with that id, and none exactly when no topic has it |
| Menu.NormalizeTopics | js/modules/menu.js:52-54 | the topic list keeps its length and every entry is `normalizeTopic` of the entry before |
| Menu.SetContentData | js/modules/menu.js:51-56 | an array of topics is normalised entry by entry; falsy topics leave no topics; truthy topics that are not an array make `.map` throw and change nothing; afterwards the content is normalised |
| Menu.RenormalizeChangesNothing | js/modules/menu.js:51-56 | setting content that is already normalised again changes nothing |
| Menu.MindmapStateClasses | js/modules/menu.js:196-209 | only the three state classes change: idle gets the idle class, focusing and focused get the focused class, returning gets neither, and the hover class is always removed |
| Menu.LatestStateWins | js/modules/menu.js:196-209 | the container's classes depend only on the latest state |
| Menu.TileFocusedMark | js/modules/menu.js:217-232 | idle clears every tile's focus mark; any other state marks exactly the tile whose id equals the focused id with `true` |
| Menu.ChildTitle | js/modules/menu.js:342 | on a normalised subtopic the child tile shows its title |
| Menu.BuildChildTiles | js/modules/menu.js:320-331 | `min(length, 6)` child tiles are built, the i-th for the i-th subtopic with its parent id and index |
| Menu.ComputeRelativePosition | js/modules/menu.js:427-437 | both coordinates are the pointer's offset from the tile centre as a percentage of the tile size, clamped to [-200, 200] |
| Menu.CentreIsOrigin | js/modules/menu.js:427-437 | a pointer at the tile centre gives position (0, 0) |
| Menu.WithPosition | js/modules/menu.js:439-447 | only the named subtopic's position changes; a missing topic or subtopic changes nothing |
| Menu.Reordered | js/modules/menu.js:476-484 | the move happens exactly when the topic exists, has a list and both indices differ and lie inside it; then the entry at `from` lands at `to` |
| Menu.MenuDrag.constructor | js/modules/menu.js:25-29 | the drag state starts with no drag context and no dispatched event |
| Menu.MenuDrag.SetSubtopicPosition | js/modules/menu.js:439-447 | without content nothing changes; otherwise only the named subtopic of the normalised topic gets the position |
| Menu.MenuDrag.ReorderSubtopicsInData | js/modules/menu.js:476-490 | a refused move changes no order; an accepted move reorders the list and dispatches one event carrying a copy of the new list |
| Menu.MenuDrag.OnChildDragStart | js/modules/menu.js:375-382 | in admin mode the drag context becomes the dragged child; outside admin mode nothing changes |
| Menu.MenuDrag.OnChildDragEnd | js/modules/menu.js:421-425 | the drag context is cleared |
| Menu.MenuDrag.OnChildDrop | js/modules/menu.js:399-419 | outside admin mode, or without a drag from the same parent, nothing happens; otherwise the context is cleared, the dragged subtopic gets the drop position when the parent tile and the topics exist, and the move to the target index is then tried in every case: when it is accepted the topics are the moved list and one reorder event carries the parent's new subtopics, otherwise the topics stay as placed and no event is sent |
| Menu.MenuDrag.OnContainerDrop | js/modules/menu.js:456-474 | with a drag in admin mode the context is cleared and, when the parent tile exists, the dragged subtopic gets the drop position without moving |
| Menu.DroppedSubtopicArrivesWithPosition | js/modules/menu.js:412-418 | the dragged subtopic arrives at the target index carrying the new position |
| Menu.FindTopicUnchanged | js/modules/menu.js:478 | topic lookup is unaffected by changes that keep every id |
| Menu.ChildPlacements | js/modules/menu.js:570-587 | one placement per child: the stored position when both coordinates are finite, otherwise the computed default |
| Menu.DroppedPositionIsUsed | js/modules/menu.js:575-582 | a subtopic with a stored position is placed there, at the angle of that position |
| Menu.NoStoredPositionsTakeDefaults | js/modules/menu.js:575-586 | without stored positions every child takes the computed default |
| Menu.ToggleBookmark | js/modules/menu.js:610-620 | the stored bookmarks are toggled and the tile is marked bookmarked exactly when the bookmark was not stored before; no other class changes |
| Menu.HandleChildnodeClick | js/modules/menu.js:646-660 | a child click opens the detail view exactly in the focused state, with the clicked parent, index and title |
| Menu.HexByte | js/modules/menu.js:501-503 | two hex digits give a byte |
| Menu.HexDigits | js/modules/menu.js:499 | a match is exactly six hex digits after an optional `#` |
| Menu.HexToRgb | js/modules/menu.js:498-505 | the result is always three bytes, and `[0, 0, 0]` when the colour does not match |
| Menu.HexChar | js/modules/menu.js:499 | each value below 16 has a hex digit that parses back to it |
| Menu.ByteToHex | js/modules/menu.js:501-503 | each byte has a two-digit hex form that parses back to it |
| Menu.HexToRgbRoundTrip | js/modules/menu.js:498-505 | every colour written as six hex digits, with or without `#`, parses back to its three bytes |
| Normalize.SubtopicsToJs | js/modules/utils/normalize.js:39 | a list of normalised subtopics keeps its length and order as JavaScript values |
| Normalize.NormalizeSubtopic | js/modules/utils/normalize.js:11-22 | a string becomes `{title: s, position: null}`; an object keeps a title or position that is not `null`/`undefined` (so `''` and `0` stay) and defaults the others; anything else becomes `{title: '', position: null}` |
| Normalize.NormalizeSubtopics | js/modules/utils/normalize.js:38-40 | an array of subtopics is normalised element by element, keeping its length |
| Normalize.NormalizeTopic | js/modules/utils/normalize.js:29-42 | a non-object becomes `{id: null, title: '', color: '#000', subtopics: []}`; an object keeps defined fields, defaults the others, and a non-array subtopics becomes `[]`; the result is a new value, the argument is left as it was |
| Normalize.NormalizeSubtopicFixpoint | js/modules/utils/normalize.js:11-22 | a normalised subtopic normalises to itself |
| Normalize.NormalizeTopicFixpoint | js/modules/utils/normalize.js:29-42 | a normalised topic normalises to itself |
| Normalize.NormalizeSubtopicIdempotent | js/modules/utils/normalize.js:11-22 | `normalizeSubtopic` is idempotent |
| Normalize.NormalizeTopicIdempotent | js/modules/utils/normalize.js:29-42 | `normalizeTopic` is idempotent |
| Normalize.NormalizeSubtopicList | js/modules/admin-panel.js:685 | normalising a subtopic list keeps its length, makes every entry normalised and keeps entries that already are |
| Splice.Move | js/modules/admin-panel.js:695-696 | removing the entry at `from` and inserting it at `to` keeps the length and puts that entry at `to` |
| Splice.MoveTracksIndex | js/modules/student-manager.js:348-355 | the index adjustment follows the move: the entry at `i` is found at its adjusted index |
| Splice.MoveIsPermutation | js/modules/menu.js:486-487 | a move neither adds nor drops an entry |
| Splice.SpliceStart | js/modules/admin-panel.js:659 | `splice` starts at the index when it lies inside the list, counts a negative index from the end, and clamps to the list |
| Splice.RemoveAt | js/modules/admin-panel.js:659 | `splice(index, 1)` removes exactly one entry when the start lies inside the list, nothing past the end, and with an index inside the list exactly that entry |
| MathUtil.Clamp | src/utils/math.js:1 | the result lies in `[lo, hi]` when `lo <= hi`, is the value itself inside that range, and is `hi` when `lo > hi` |
| MathUtil.ClampUnit | src/utils/math.js:1 | with the default bounds the result lies in `[0, 1]` and is the value itself inside it |
| MathUtil.ClampIdempotent | src/utils/math.js:1 | clamping twice is clamping once |
| MathUtil.ClampMonotone | src/utils/math.js:1 | clamping preserves order |
| MathUtil.Lerp | src/utils/math.js:2 | progress 0 gives `a` and progress 1 gives `b` |
| MathUtil.LerpBetween | src/utils/math.js:2 | for progress between 0 and 1 the result lies between the two end points |
| Camera.ComputeCameraTarget | js/modules/camera-controller.js:178-214 | the scale lies in `[minZoom, maxZoom] = [1, 2.4]`, and scale times translation is the viewport centre minus the tile centre, with a zero viewport size replaced by the window size |
| Camera.FocusScaleFits | js/modules/camera-controller.js:191-199 | unless the minimum zoom forces more, the zoomed tile covers at most the focus bias of the viewport in both directions, and between the zoom limits exactly in one |
| Camera.CenteredTileZoomsToMax | js/modules/camera-controller.js:178-214 | a 150 px tile at the centre of a 1920 × 1080 viewport is zoomed to the maximum without translation |
| Camera.Interpolate | js/modules/camera-controller.js:255-260 | eased progress 0 gives the start transform and 1 the target |
| Camera.CameraController.constructor | js/modules/camera-controller.js:13-42 | the camera starts idle at the identity transform, with no animation, no tile and no events |
| Camera.CameraController.FocusTile | js/modules/camera-controller.js:58-108 | ignored while an animation runs or the camera is not idle; otherwise records the tile, locks the keyboard, sets the animation flag, notifies `focusing` and heads for the camera target (with reduced motion it lands there and is focused within the call, the flag still set) |
| Camera.CameraController.Unfocus | js/modules/camera-controller.js:121-151 | ignored unless focused; otherwise notifies `returning` and heads for the identity transform `{1, 0, 0}`, at once with reduced motion |
| Camera.CameraController.FinishUnfocusStep | js/modules/camera-controller.js:153-166 | back to idle, the tile forgotten, the animation flag cleared, the keyboard unlocked, and the idle notification carries a null tile id |
| Camera.CameraController.AnimationFrame | js/modules/camera-controller.js:246-287 | before the end a frame applies the interpolated transform; at the end the transform is exactly the target, the flag is cleared and the completion step runs (`focusing` becomes focused, `returning` becomes idle) |
| LayoutEngine.Margin | js/modules/layout-engine.js:64 | the margin is a tenth of the smaller viewport side |
| LayoutEngine.DetermineLayoutMode | js/modules/layout-engine.js:62-91 | stack when both horizontal or both vertical clearances are below the margin; otherwise half-ring when some clearance is short and ring was not preferred; otherwise the preferred mode |
| LayoutEngine.RingNeverBecomesHalfring | js/modules/layout-engine.js:76-90 | with `'ring'` preferred the mode is never half-ring; an unrequested half-ring needs a short clearance; with room on every side the preferred mode stands |
| LayoutEngine.StackImpliesShort | js/modules/layout-engine.js:77-82 | the stack condition implies the half-ring condition |
| LayoutEngine.RingRadiusPx | js/modules/layout-engine.js:36 | the CSS ring radius is used when it parses to a non-zero number, and 50 otherwise, so it is never zero |
| LayoutEngine.RingLayout | js/modules/layout-engine.js:97-113 | one position per child, child i at angle `-π/2 + (i/n)·2π` on the ring radius |
| LayoutEngine.RingAnglesEvenlySpaced | js/modules/layout-engine.js:99-103 | the ring starts at `-π/2` and steps by `2π/n` |
| LayoutEngine.Progress | js/modules/layout-engine.js:138 | progress lies in [0, 1], runs from 0 at the first to 1 at the last child, and is 0.5 for a single child |
| LayoutEngine.HalfringLayout | js/modules/layout-engine.js:119-148 | one position per child on an arc of `0.9π` centred on the direction away from the viewport centre |
| LayoutEngine.HalfringSpansSpread | js/modules/layout-engine.js:129-139 | every angle lies within `base ± 0.45π`, and a single child sits on the base angle |
| LayoutEngine.StackLayout | js/modules/layout-engine.js:154-175 | one position per child, all at x = +120 when the parent is left of the viewport centre and -120 otherwise, at rows 60 apart |
| LayoutEngine.StackIsSymmetric | js/modules/layout-engine.js:162-168 | stack rows are 60 apart and mirror each other about the parent's centre line |
| LayoutEngine.ComputeMindmapLayout | js/modules/layout-engine.js:31-56 | no children give `[]`; otherwise exactly `childCount` positions from the layout of the chosen mode |
| LayoutEngine.CrampedParentStacks | js/modules/layout-engine.js:44-85 | when both horizontal or both vertical clearances are short the children are stacked, whatever mode was preferred |
| LayoutEngine.CheckCollision | js/modules/layout-engine.js:183-188 | two boxes collide exactly when their closed x-extents and their closed y-extents both intersect, so edges that touch collide |
| LayoutEngine.CollisionProperties | js/modules/layout-engine.js:183-188 | collision is symmetric, boxes touching at an edge collide, and separated boxes do not |
| LayoutEngine.IsInsideViewport | js/modules/layout-engine.js:197-202 | a box inside with margin `m` is at most the viewport less `2m` wide and high, and with a margin of zero or more it lies within the viewport |
| LayoutEngine.InsideMonotoneInMargin | js/modules/layout-engine.js:197-202 | a box inside with some margin is inside with any smaller margin |
| MenuLayout.RadiusFactor | js/modules/menu-layout.js:40-48 | 0.32 above aspect 2, 0.24 below 1.4 (portrait included), 0.28 otherwise |
| MenuLayout.TileSizeFactor | js/modules/menu-layout.js:57-63 | 0.12 above aspect 2, 0.16 below 1.4, 0.14 otherwise |
| MenuLayout.Bounded | js/modules/menu-layout.js:51 | `max(lo, min(x, hi))` is at least `lo`, at most `hi` when the bounds are ordered, and `x` between them |
| MenuLayout.TilePositions | js/modules/menu-layout.js:122-132 | one position per tile, tile i at angle `(i/n)·2π − π/2` on the menu radius around the centre |
| MenuLayout.ComputeLayout | js/modules/menu-layout.js:24-178 | the radius is at least 200, the tile size lies in [90, 220], the spacing base in [4, 16], the container is `2·radius + tileSize + space6` with the centre at its middle, and there is one position per tile |
| MenuLayout.LayoutFactors | js/modules/menu-layout.js:30-63 | the ultrawide, wide, narrow and portrait flags and both factors follow the aspect ratio |
| MenuLayout.FontAndSpacingBounds | js/modules/menu-layout.js:79-97 | every font size lies within its bounds and each spacing token is its fixed multiple of the base |
| MenuLayout.FullHdLayout | js/modules/menu-layout.js:24-66 | on 1920 × 1080 the radius is 302.4 and the tile size 151.2 |
| MenuLayout.TileCount | js/modules/menu-layout.js:242 | the tile count is the number of tiles on the page, or 5 when there is none |
| MenuLayout.UpdateLayout | js/modules/menu-layout.js:239-250 | the layout has one position per tile on the page, five when there is none |
| Identifiers.IdentifierText | js/modules/slide-editor.js:243-248 | the name always starts with `slide_` and joins slide index, lower-case tag, class attribute with white-space runs turned into `_`, and element index |
| Identifiers.ElementIdentifier | js/modules/slide-editor.js:236-249 | no enclosing section gives `null`; an element whose first class is empty makes the sibling selector invalid and the call throws; for any other class the name is built from its fields (other invalid selectors are not modelled) |
| Identifiers.FindElementAsWritten | js/modules/slide-editor.js:272-286 | as written: a name not starting with `slide` finds nothing before any query; a query needs four fields, a non-empty class field and a slide in range |
| Identifiers.LookupFieldsAsWritten | js/modules/slide-editor.js:273-285 | as written, on the split fields: the `slide` prefix is required, and a query needs a non-empty class field and a slide in range |
| Identifiers.FindElement | js/modules/slide-editor.js:272-286 | corrected: a name not starting with `slide` finds nothing, a query names a slide in range, and on names of at most five fields it agrees with the lookup as written |
| Identifiers.LookupFields | js/modules/slide-editor.js:273-285 | corrected, on the split fields: it fails exactly where the lookup as written fails and otherwise queries the same slide and selector; only the index differs, and only on more than five fields, where it is the last field parsed |
| Identifiers.EditableFieldIsNameSafe | js/modules/slide-editor.js:129 | the class `editable-field` that `makeEditable` adds is a class token without `_` |
| Identifiers.SplitJoin | js/modules/slide-editor.js:273 | fields free of `_`, joined with `_`, split back into exactly those fields |
| Identifiers.UnderscorePrefix | js/modules/slide-editor.js:244 | `replace(/\s+/g, '_')` keeps a leading word without white space as it is and rewrites only what follows |
| Identifiers.UnderscoreLeadingSpace | js/modules/slide-editor.js:244 | `replace(/\s+/g, '_')` turns a single space before text that does not start with white space into one `_` |
| Identifiers.UnderscoreClassAttr | js/modules/slide-editor.js:244 | the class attribute of a token list, with white space turned into `_`, is the tokens joined by `_` |
| Identifiers.SlideFieldsJoin | js/modules/slide-editor.js:248 | the name begins with `slide_`, the slide index, `_` and the tag: the first three fields joined by `_` |
| Identifiers.NameIsJoin | js/modules/slide-editor.js:248 | the name of an element with a class list is `slide`, slide index, tag, one field per class and element index, joined by `_` |
| Identifiers.NameSplits | js/modules/slide-editor.js:243-248 | when tag and classes hold no `_`, the name splits on `_` into exactly those fields, one per class |
| Identifiers.FirstClassOfClassAttr | js/modules/slide-editor.js:245 | the first class of a class list's attribute is its first token |
| Identifiers.ClassListIsNamed | js/modules/slide-editor.js:236-249 | an element with at least one class never makes naming throw, and inside a section it always gets a name |
| Identifiers.LookupOfFieldsAsWritten | js/modules/slide-editor.js:276-285 | as written, five or more fields with the `slide` prefix, a slide in range and a class field without `_` give the query of that slide, `tag.class` and the parsed fifth field |
| Identifiers.LookupOfNameFieldsAsWritten | js/modules/slide-editor.js:276-285 | as written, the fields of a class list's name give the query of its slide and `tag.firstClass`, indexed by the parsed fifth field |
| Identifiers.LookupOfNameFields | js/modules/slide-editor.js:276-285 | the corrected lookup of those fields queries the same slide and selector at the element index itself |
| Identifiers.FindAsWrittenReadsTheSecondClass | js/modules/slide-editor.js:236-286 | as written, build-then-parse finds the right slide and the selector that numbered the element, but the index is the fifth field: the element index for a single class, the parsed second class otherwise |
| Identifiers.FindFindsTheNamedElement | js/modules/slide-editor.js:236-286 | corrected build-then-parse round trip for every class list of tokens without `_`: the element is named, and the lookup queries the same slide, the same selector and the same element index |
| Identifiers.WordIsNaN | js/modules/slide-editor.js:279 | `parseInt` without a radix of a word whose first character is neither white space, a digit nor a sign is `NaN` |
| Identifiers.EditableFieldIsNaN | js/modules/slide-editor.js:279 | `parseInt('editable-field')` is `NaN` |
| Identifiers.TwoClassesAreNeverFound | js/modules/slide-editor.js:244-285 | as written, an element whose second class starts with neither a digit nor a sign is looked up with index `NaN`, so it is never found again by the name it was saved under |
| Identifiers.ClasslessEditableElementIsFound | js/modules/slide-editor.js:129-279 | an element without a class of its own, after `makeEditable`, is named after `editable-field` alone and the lookup as written finds it |
| Identifiers.ClassedEditableElementIsLost | js/modules/slide-editor.js:129-279 | an element with the class `c`, after `makeEditable`, has the classes `c editable-field`; the lookup as written of its name queries `tag.c` with index `NaN` and finds nothing, and the corrected lookup finds the element |
| SlideEditor.CheckDetailSlide | src/editor.js:80-111 | a slide outside a stack is warned about first, then a missing parent topic, then a missing topic id, then a mismatch; otherwise it is valid |
| SlideEditor.BothChecksAgree | js/modules/slide-editor.js:101-119 | the two files accept exactly the same detail slides: inside a stack, both ids non-empty and equal |
| SlideEditor.CountValid | js/modules/slide-editor.js:101-120 | the number of valid slides is at most the number of slides |
| SlideEditor.AllCountedIffAllValid | js/modules/slide-editor.js:101-120 | every slide is counted exactly when every slide is valid |
| SlideEditor.ValidateSlideStructure | js/modules/slide-editor.js:94-123 | every detail slide is counted either valid or as a warning, and there is no warning exactly when every slide is valid (the success message of the other file) |
| SlideEditor.GeneratedDetailsAreValid | js/modules/slide-generator.js:53-98 | every detail slide the generator emits sits in a stack whose topic id equals its own non-empty parent topic, so it passes the check |
| SlideEditor.AddClass | js/modules/slide-editor.js:129 | `classList.add` makes the class present, adds nothing else and writes the list back without repeats; on a list without repeats it appends the class at the end, or leaves the list as it is when the class is there |
| SlideEditor.AddClassKeepsTokens | js/modules/slide-editor.js:129 | adding `editable-field` to a list of class tokens leaves a list of class tokens |
| SlideEditor.EditableElement.constructor | js/modules/slide-editor.js:125 | an element starts with its tag, editable state and class tokens, and no handlers; it is valid |
| SlideEditor.EditableElement.MakeEditable | js/modules/slide-editor.js:125-141 | an element that is already editable is left as it was; otherwise it becomes editable, gets the `editable-field` class and one pair of blur and keydown handlers; validity is kept: the classes stay tokens and an element with handlers carries `editable-field` |
| SlideEditor.EditableElement.BlursOnKey | js/modules/slide-editor.js:135-139 | Enter without Shift leaves every element except a paragraph; any other key, or Shift+Enter, does not |
| SlideEditor.MakeEditableTwice | js/modules/slide-editor.js:125-141 | making an element editable twice attaches one pair of handlers and one class, like doing it once, and keeps it valid |
| SlideEditor.SaveElementContent | js/modules/slide-editor.js:143-157 | the blur handler's save of an element `makeEditable` switched on: it is named from its lower-case tag and the class list `makeEditable` left, so naming never throws; an element outside every section is not saved and syncs nothing; otherwise only its name's entry in the edit map is set to the content, and then the detail slide is synced to its navigation box exactly as `syncDetailToNavBox` does |
| SlideEditor.SavedEditIsFoundAgain | js/modules/slide-editor.js:143-286 | after a save the edits hold the content under the new name and every other edit is unchanged; the corrected lookup of the name runs the query that numbered the element, while the lookup as written does so only for a single class and otherwise takes the parsed second class as the index |
| SlideEditor.LoadStoredEdits | src/editor.js:449-452 | a missing or empty value loads as `{}`, a stored map as itself, and anything else throws |
| SlideEditor.LoadAgreesWithGetSlideEdits | src/editor.js:449-452 | where it succeeds the load agrees with the storage module's read, and it throws exactly on a non-empty value that is not a map |
| SlideEditor.EditorSaveElementContent | src/editor.js:250-266 | named as in the other file, from the class list `makeEditable` left, so naming never throws; a stored value that does not parse throws and nothing is saved or synced; otherwise only the name's entry changes, and then the detail slide is synced to its navigation box as this file's `syncDetailToNavBox` does |
| SlideEditor.PageLookup | js/modules/slide-editor.js:272-286 | the lookup of each stored name is the corrected `findElementByIdentifier` on the page's slides |
| SlideEditor.PageLookupAsWritten | js/modules/slide-editor.js:272-286 | the lookup of each stored name is `findElementByIdentifier` as written |
| SlideEditor.Landing | js/modules/slide-editor.js:256-285 | a name whose lookup does not query lands nowhere |
| SlideEditor.WritesComeFromEdits | js/modules/slide-editor.js:254-261 | every write comes from an edit whose element was found outside every nav box and whose content is not empty |
| SlideEditor.WritesCoverApplicableEdits | js/modules/slide-editor.js:254-261 | every such edit writes its element |
| SlideEditor.LastEditWins | js/modules/slide-editor.js:254-261 | an element shows the last applicable edit that lands on it |
| SlideEditor.ApplyStoredEdits | js/modules/slide-editor.js:251-270 | over `Object.keys(edits)`, each stored name once: the edits are applied in key order until a lookup throws, the writes are exactly those of the edits handled before, and when none throws every stored edit was handled |
| SlideEditor.SavedEditIsApplied | js/modules/slide-editor.js:143-286 | with the corrected lookup a saved edit shows again after a reload, for every class list: its name finds the element it was saved from, which receives the content unless a later edit lands on it |
| SlideEditor.ClassedEditIsNeverApplied | js/modules/slide-editor.js:251-285 | as written, the edit of an element whose second class starts with neither a digit nor a sign (every element with a class of its own, whose second class is `editable-field`) lands nowhere, is never applied, and every write of the reload comes from another name |
| SlideEditor.TextChildren | js/modules/slide-editor.js:209 | setting `textContent` gives children whose text is exactly that string |
| SlideEditor.TitleCopy | js/modules/slide-editor.js:205-211 | the copy is one `<h4>` with the text of the first `h3` or `h5`, or nothing when the slide has none |
| SlideEditor.NonBlankParagraphs | js/modules/slide-editor.js:213-217 | the selection is no longer than the children and holds only `<p>` elements |
| SlideEditor.NonBlankParagraphsAppend | js/modules/slide-editor.js:213-217 | the selection keeps document order: it distributes over concatenation, and keeps a single child exactly when it is a non-blank paragraph |
| SlideEditor.NonBlankParagraphsSelect | js/modules/slide-editor.js:213-217 | exactly the direct `<p>` children with text left after trimming are kept |
| SlideEditor.CopyParagraphs | js/modules/slide-editor.js:215-222 | one copy per selected paragraph |
| SlideEditor.CopyParagraphsAt | js/modules/slide-editor.js:215-222 | the copies keep the order of the paragraphs |
| SlideEditor.NavBoxContent | js/modules/slide-editor.js:203-222 | the fragment is the title copy followed by one copy per non-blank paragraph |
| SlideEditor.NavBoxContentAt | js/modules/slide-editor.js:213-222 | after the title the fragment holds the copy of each non-blank paragraph in order |
| SlideEditor.CopyIsTrimmed | js/modules/slide-editor.js:216-220 | a copied paragraph holds its trimmed, non-empty text |
| SlideEditor.NavBoxParagraphsAreTrimmed | js/modules/slide-editor.js:213-222 | every paragraph of the fragment is a `<p>` with one trimmed, non-empty text |
| SlideEditor.NavBoxElement.constructor | js/modules/slide-generator.js:68 | a nav box starts with its target indices, expanded state, children and stored original content |
| SlideEditor.NavBoxElement.Receive | js/modules/slide-editor.js:224-231 | an expanded box keeps what it shows and only records the new content; a collapsed box shows it |
| SlideEditor.HorizontalIndex | js/modules/slide-editor.js:168-181 | the `data-index-h` attribute wins when present (parsed base 10), then Reveal's index, then the section's position |
| SlideEditor.VerticalIndex | js/modules/slide-editor.js:183-196 | as the horizontal index, but Reveal's index is used only for the present slide |
| SlideEditor.FindBox | js/modules/slide-editor.js:198-201 | the first box whose target indices match, and none exactly when no box matches |
| SlideEditor.SyncDetailToNavBox | js/modules/slide-editor.js:159-234 | nothing happens outside a stack, on a topic mismatch (the other file only) or when no box matches; otherwise the box synced is the first whose targets spell the slide's horizontal and vertical indices, and only it changes: an expanded box gets the new title and paragraphs as the content it restores, a collapsed one shows them |
| SlideGenerator.CircleAngle | js/modules/slide-generator.js:24-28 | the first circle sits at -90 degrees |
| SlideGenerator.CircleAngleWithinTurn | js/modules/slide-generator.js:24-28 | every one of the `circleCount` circles lies within one turn from -90 degrees |
| SlideGenerator.CircleStep | js/modules/slide-generator.js:24-28 | neighbouring circles are `360 / circleCount` degrees apart |
| SlideGenerator.FullTurn | js/modules/slide-generator.js:24-28 | the angle one past the last circle closes the full turn |
| SlideGenerator.Iterations | js/modules/slide-generator.js:27 | a count loop runs the count's number of times, and never for `NaN` or a count below 1 |
| SlideGenerator.TitleAt | js/modules/slide-generator.js:31 | the topic's title when it is truthy, else `Thema {i+1}`; never falsy |
| SlideGenerator.GenerateOverviewCircles | js/modules/slide-generator.js:16-43 | exactly `circleCount` circles; circle i has `data-slide` i+1, the title of topic i or its fallback, and angle `i·(360/n) − 90` |
| SlideGenerator.CirclesSpreadEvenly | js/modules/slide-generator.js:24-28 | the circles start at −90 degrees and are spaced `360/n` apart around the full turn |
| SlideGenerator.GenerateTopicSlide | js/modules/slide-generator.js:53-98 | `detailSlidesCount` nav boxes with target-v 1..n and box-index 0..n−1, and as many detail slides whose parent topic is the stack's topic id |
| SlideGenerator.GenerateAllTopicSlides | js/modules/slide-generator.js:106-131 | one stack per topic with id `topic-{i}`; a current student's topic count and details per topic override the argument and the default 3 |
| SlideGenerator.GenerateCompleteSlides | js/modules/slide-generator.js:156-192 | a current student's topic count overrides the argument; a count below 3 or above 25 gives the empty result (`NaN` fails both comparisons and passes); otherwise overview circles and topic stacks for that count |
| SlideGenerator.CirclesMatchStacks | js/modules/slide-generator.js:156-192 | for an accepted count there is one circle per stack and circle i opens stack i |
| SlideGenerator.StudentOverridesCount | js/modules/slide-generator.js:158-161 | a current student's counts decide the deck, whatever count was asked for |
| SlideGenerator.SaveGenerationMetadata | js/modules/slide-generator.js:199-210 | the metadata record (always with 3 detail slides) and the circle count as text are stored, nothing else changes |
| SlideGenerator.LoadGenerationMetadata | js/modules/slide-generator.js:216-223 | a missing or empty value gives `null`, a stored record gives itself, other stored JSON gives that value, and any other non-empty text throws |
| SlideGenerator.LoadAfterSave | js/modules/slide-generator.js:199-223 | loading after saving gives back the saved record |
| Sanitizer.Pieces | js/modules/export-html.js:105-107 | the style value is split at every `;` and each piece is trimmed |
| Sanitizer.KeepAllSelects | js/modules/export-html.js:108 | the filter keeps exactly the pieces that pass its test |
| Sanitizer.KeptAreDeclarations | js/modules/export-html.js:105-108 | every surviving declaration is non-empty, trimmed, free of `;` and not an `mso-` one |
| Sanitizer.CleanStyle | js/modules/export-html.js:105-110 | the cleaned value is empty exactly when no declaration survives the filter, which is when the attribute is removed |
| Sanitizer.KeptAreNotEmpty | js/modules/export-html.js:108 | the filter keeps no empty declaration |
| Sanitizer.Spaced | js/modules/export-html.js:109 | joining with `"; "` puts a space in front of every piece but the first |
| Sanitizer.SplitJoinSpaced | js/modules/export-html.js:105-109 | declarations joined with `"; "` split at `;` into those declarations, each but the first behind a space |
| Sanitizer.PiecesOfJoin | js/modules/export-html.js:105-109 | splitting and trimming joined declarations gives them back |
| Sanitizer.PiecesOfEmpty | js/modules/export-html.js:108 | the empty value is one empty piece, which the filter drops |
| Sanitizer.PiecesOfCleanStyle | js/modules/export-html.js:105-110 | splitting and trimming a cleaned value gives back the declarations it was made of |
| Sanitizer.CleanStyleHasNoMso | js/modules/export-html.js:102-112 | the cleaned value holds no `mso-` declaration (case-insensitive) and no empty one |
| Sanitizer.CleanStyleKeepsTheRest | js/modules/export-html.js:105-109 | a declaration survives exactly when it is a non-empty, non-`mso-` piece of the original |
| Sanitizer.CleanStyleIdempotent | js/modules/export-html.js:105-109 | cleaning twice is cleaning once |
| Sanitizer.CleanStyleAttribute | js/modules/export-html.js:102-112 | only the style attribute changes: an empty one is skipped, a cleaned one is set, and one with nothing left is removed |
| Sanitizer.CleanStyleAttributeOfCleaned | js/modules/export-html.js:102-112 | an element whose style is already clean and not empty is left as it was |
| Sanitizer.CleanStyleAttributeIdempotent | js/modules/export-html.js:102-112 | the style step applied twice equals applying it once |
| Sanitizer.DropToken | js/modules/export-html.js:115 | every occurrence of the class goes, every other class stays, and a list without repeats stays without |
| Sanitizer.DropTokenSplices | js/modules/export-html.js:115 | on a list without repeats, the class at position k is spliced out and the others keep their order |
| Sanitizer.RemoveToken | js/modules/export-html.js:115 | `classList.remove` drops every occurrence of the class, keeps every other class once and writes back no repeats; a list without repeats that lacks the class is left as it is |
| Sanitizer.RemoveTokenSplices | js/modules/export-html.js:115 | on a list without repeats, `classList.remove` takes out exactly the class's one occurrence and keeps the order of the rest |
| Sanitizer.DropMsoNormal | js/modules/export-html.js:114-117 | `MsoNormal` is removed, and the class attribute goes too when it becomes empty; elements without it are left alone |
| Sanitizer.UnwrapFirst | js/modules/export-html.js:121-124 | one pass removes one paragraph and keeps the text in its original order |
| Sanitizer.ParagraphCountAppend | js/modules/export-html.js:121 | paragraphs of two forests add up |
| Sanitizer.UnwrapFirstPreserves | js/modules/export-html.js:121-124 | a pass leaves every other element's tag, attributes and classes as they were |
| Sanitizer.HasNestedAppend | js/modules/export-html.js:121 | a forest has a `<p>` inside a `<p>` exactly when one of its two pieces has |
| Sanitizer.Flattened | js/modules/export-html.js:120-125 | the flattened forest has no `<p>` inside a `<p>` and the text of the original, in order |
| Sanitizer.FlattenedAppend | js/modules/export-html.js:120-125 | flattening works piece by piece: pieces keep their order |
| Sanitizer.FlattenedCons | js/modules/export-html.js:120-125 | a node is flattened independently of the nodes after it |
| Sanitizer.FlattenedIdentity | js/modules/export-html.js:121 | a forest with no nested paragraph is left exactly as it is |
| Sanitizer.FlattenedIdempotent | js/modules/export-html.js:120-125 | flattening twice is flattening once |
| Sanitizer.UnwrapFirstKeepsFlattened | js/modules/export-html.js:121-124 | moving the first nested paragraph's children up in its place does not change the fully flattened forest |
| Sanitizer.FlattenedPreserves | js/modules/export-html.js:120-125 | flattening removes paragraphs only: every element left keeps its tag, attributes and classes |
| Sanitizer.FlattenedWithoutParagraphs | js/modules/export-html.js:120-125 | a forest without paragraphs is not changed by flattening |
| Sanitizer.NoParagraphNoNesting | js/modules/export-html.js:121 | a forest without paragraphs has none nested |
| Sanitizer.FlattenNestedParagraphs | js/modules/export-html.js:120-125 | the loop's result is the flattened forest, where each nested `<p>` is replaced in place by its children in order; it ends with no `<p>` inside a `<p>`, the text in its original order, no new paragraph, and every other element as it was |
| Sanitizer.RemoveEmptyParagraphs | js/modules/export-html.js:127-130 | the removal never adds a node, and a forest with no whitespace-only childless paragraph is left exactly as it is |
| Sanitizer.RemoveEmptyAppend | js/modules/export-html.js:127-130 | the removal works node by node: the pieces of a forest keep their order |
| Sanitizer.RemoveEmptyCons | js/modules/export-html.js:127-130 | a node's removal result is independent of the nodes after it |
| Sanitizer.RemoveEmptySingle | js/modules/export-html.js:127-130 | an empty paragraph goes with everything in it, a text node stays, and every other element stays with its tag, attributes and classes, only its own empty paragraphs removed |
| Sanitizer.RemoveEmptyKeepsVisibleText | js/modules/export-html.js:127-130 | only white space is lost: every other character of the text stays, in order |
| Sanitizer.RemoveEmptyWithoutParagraphs | js/modules/export-html.js:127-130 | a forest without paragraphs loses nothing |
| Sanitizer.NoNestedInsideParagraph | js/modules/export-html.js:121 | inside a paragraph of a flattened forest there is no paragraph at all |
| Sanitizer.NoEmptyParagraphLeft | js/modules/export-html.js:127-130 | after flattening, the removal leaves no whitespace-only childless paragraph and nests none |
| Sanitizer.NoEmptyParagraphLeftInside | js/modules/export-html.js:127-130 | a forest without paragraphs has none empty and none nested |
| Sanitizer.RemoveEmptyPreserves | js/modules/export-html.js:127-130 | the removal deletes paragraphs only: every element kept keeps its tag, attributes and classes |
| Sanitizer.CleanAttributesDropOfficeParagraphs | js/modules/export-html.js:100 | no `<o:p>` element is left |
| Sanitizer.CleanAttributesCleanStyles | js/modules/export-html.js:102-112 | every element's style is clean afterwards |
| Sanitizer.MsoNormalStepRemovesClass | js/modules/export-html.js:114-117 | the class step changes only an element's own class list and leaves no `MsoNormal` |
| Sanitizer.CleanAttributesDropMsoNormal | js/modules/export-html.js:114-117 | no element keeps the `MsoNormal` class |
| Sanitizer.CleanAttributesPreserves | js/modules/export-html.js:100-117 | what the style and class steps keep on an element survives them and the `<o:p>` removal |
| Sanitizer.PurgeMsOfficeMarkup | js/modules/export-html.js:99-131 | the result is the attribute steps, then the flattening, then the empty-paragraph removal, each on the result of the one before; no `<o:p>`, no `mso-` declaration, no `MsoNormal` class, no nested and no empty paragraph is left, and what the attribute steps keep is kept |
| Sanitizer.Purged | js/modules/export-html.js:119-131 | after the flattening and the empty-paragraph removal no `<p>` is nested in a `<p>` and no empty paragraph is left |
| Sanitizer.UpdateFirstKeepsNesting | js/modules/export-html.js:102-117 | changing the attributes or classes of an element leaves paragraph nesting as it was |
| Sanitizer.UpdateFirstKeepsNoEmpty | js/modules/export-html.js:102-117 | and creates no empty paragraph |
| Export.WithoutAttributes | js/modules/export-html.js:86-91 | the element keeps its tag, classes and children and loses exactly the named attributes; a text node is left alone |
| Export.CleanupRevealRuntime | js/modules/export-html.js:73-94 | a page without `.reveal` is left unchanged, and the cleanup never adds or drops a top-level node |
| Export.ClearSectionStateIsAShellStep | js/modules/export-html.js:86-91 | the section loop changes no tag, class or child, and a cleaned section has no `style` or Reveal index attribute left |
| Export.CleanSlides | js/modules/export-html.js:83-92 | the cleaned `.slides` has no `style`, keeps its tag and classes, no section inside it keeps runtime attributes, and its text is unchanged |
| Export.CleanSlidesKeepsRuntimeFree | js/modules/export-html.js:83-92 | cleaning `.slides` brings back none of the runtime containers |
| Export.CleanReveal | js/modules/export-html.js:76-82 | the cleaned `.reveal` is still an element with the same tag and classes, and has no `style` left |
| Export.CleanRevealClears | js/modules/export-html.js:76-92 | the cleaned `.reveal` has no `style`, holds none of the seven runtime containers, and its first `.slides` is the cleaned first `.slides` of what remained |
| Export.CleanupCleansTheFirstReveal | js/modules/export-html.js:73-94 | after the cleanup the first `.reveal` of the page is the cleaned version of the page's first `.reveal` |
| Export.CleanSlidesPreserves | js/modules/export-html.js:83-92 | any element property that survives losing attributes survives the `.slides` cleanup |
| Export.CleanRevealPreserves | js/modules/export-html.js:76-92 | any element property that survives losing attributes survives the `.reveal` cleanup |
| Export.CleanupPreserves | js/modules/export-html.js:73-94 | the cleanup only removes nodes and attributes, so any such property of the page holds of the cleaned page |
| Export.RemoveEditorControls | js/modules/export-html.js:20-25 | after the two removal passes no editor control is left anywhere in the clone, and the export module also removes toasts, overlays and the student selector |
| Export.RemoveClass | js/modules/export-html.js:30 | `classList.remove` takes out every copy of the token, keeps every other class and leaves no repeats; on a list without repeats the rest keep their order; an element without classes stays without |
| Export.StripEditing | js/modules/export-html.js:28-31 | no `contenteditable` attribute is left, no `editable-field` class is left when the page only ever added the two together, and the text is unchanged |
| Export.RemoveEditModeClass | js/modules/export-html.js:39-42 | a page without a body is left unchanged |
| Export.BodyLeavesEditMode | js/modules/export-html.js:39-42 | the body found after the step no longer has the `edit-mode` class |
| Export.LeaveEditModeKeepsShape | js/modules/export-html.js:41 | removing the class changes no tag, attribute or child |
| Export.RemoveEditModeClassPreserves | js/modules/export-html.js:39-42 | any element property that survives losing a class survives the body step |
| Export.PurgeKeepsExportFacts | js/modules/export-html.js:99-131 | the Office purge cannot bring back an editor control or an editing marker |
| Export.BodyStepKeepsExportFacts | js/modules/export-html.js:39-42 | taking a class away breaks none of the export's facts: no controls, no editing markers, no Office paragraphs, `mso-` styles or `MsoNormal` classes |
| Export.MarkedTogetherSurvivesRemoval | js/modules/export-html.js:17-25 | when the page only ever marks editable elements with both the attribute and the class, the cleaned clone still does |
| Export.StripKeepsControlsOut | js/modules/export-html.js:28-31 | stripping the editing markers brings back no removed control |
| Export.CleanedCloneIsUnmarked | js/modules/export-html.js:17-31 | after the cleanup, the control removal and the marker loop, the clone has no controls and no editing markers |
| Export.PurgedCloneIsUnmarked | js/modules/export-html.js:33-37 | the purge keeps the clone free of controls and editing markers |
| Export.BodyStepKeepsUnmarked | js/modules/export-html.js:39-42 | the body step keeps the clone free of controls and editing markers |
| Export.BodyStepKeepsPurge | js/modules/export-html.js:39-42 | the body step undoes none of the purge: no Office paragraph, `mso-` style, `MsoNormal` class, nested paragraph or empty paragraph comes back |
| Export.PrepareClone | js/modules/export-html.js:15-42 | the clone is the page put through the Reveal cleanup, the control removal, the marker loop, the Office purge and the body step, each on the result of the one before; it has no editor controls, no editing markers, no Office markup, and a body without `edit-mode` |
| Export.ExportClone | js/modules/export-html.js:39-42 | the clone's `<body>`, when there is one, no longer carries `edit-mode` |
| Export.ExportHtml | js/modules/export-html.js:14-66 | the posted clone is exactly that cleaned clone of the page and is ready for export, and the success notice shows exactly when the server answered with an OK status and a JSON body |
| Export.EditorExportHtml | src/editor.js:457-513 | the posted clone is exactly that cleaned clone of the page (with this file's control list) and is ready for export; the success notice shows exactly when the reply body parses as JSON, and only then is the `slideEdits` key removed, so the edits read back empty; otherwise the store is unchanged |
| Presentation.DirectionClass | src/presentation.js:436 | the colour class of a hovered section is never the `simulated-hover` marker itself |
| Presentation.AddClasses | src/presentation.js:437 | `classList.add` gives the slide exactly its old classes plus the new ones and touches no other slide |
| Presentation.RemoveClasses | src/presentation.js:374 | `classList.remove` gives the slide exactly its old classes minus the removed ones and touches no other slide |
| Presentation.ClearHover | src/presentation.js:341-347 | the hover record is forgotten, and the hovered slide loses `simulated-hover` and its colour class |
| Presentation.HoverPlaceholder | src/presentation.js:412-445 | a missing section changes nothing; otherwise that section gains `simulated-hover` and its colour class and is recorded as hovered |
| Presentation.ToggleHover | src/presentation.js:370-390 | the hover is forgotten exactly when the hovered key is pressed again; otherwise it records the new key, and when that section exists it is the hovered slide and carries `simulated-hover`; no slide but the old and the new hovered one changes classes |
| Presentation.SameKeyClearsHover | src/presentation.js:370-378 | pressing the hovered key again forgets the hover and takes both marks off the slide, leaving every other slide alone |
| Presentation.OtherKeyMovesHover | src/presentation.js:379-389 | another key moves the hover: the new section carries both marks and the key, and the old slide loses its marks |
| Presentation.ToggleTwiceRestores | src/presentation.js:370-389 | from no hover, the same key twice leaves every slide's classes as they were |
| Presentation.MissingSectionKeepsStaleHover | src/presentation.js:379-389 | when the new key's section is missing, the old slide loses its marks yet stays recorded as hovered under the new key |
| Presentation.NextTopic | src/presentation.js:392-410 | the jump always lands on section 1 of a topic 1 to 12: the overview and topics 1 to 11 go to the next one, anything else wraps to topic 1 |
| Presentation.NextTopicCycles | src/presentation.js:400-406 | on the twelve topics the right arrow is a cycle: topic `k` leads to `k % 12 + 1` |
| Presentation.ArrowControls.constructor | src/presentation.js:323-367 | the controls start with no hover and the slides' classes as given |
| Presentation.ArrowControls.OnKeyDown | src/presentation.js:324-363 | non-arrow keys and modified arrows change nothing; right clears the hover and jumps to the next topic; left, up and down toggle the hover of sections 0, 2 and 3 |
| Presentation.NavBoxes.constructor | src/presentation.js:447-456 | no box is recorded or expanded and the overlay is inactive |
| Presentation.NavBoxes.Collapse | src/presentation.js:545-557 | the box loses the `expanded` class and the overlay turns inactive; the record stays |
| Presentation.NavBoxes.ClickBox | src/presentation.js:458-479 | an expanded box collapses and the record clears; any other box is recorded and expanded when its target slide exists, after the previous one collapsed; at most one box is ever expanded |
| Presentation.NavBoxes.ClickOverlay | src/presentation.js:482-487 | the overlay click leaves no box expanded or recorded |
| Presentation.NavBoxes.ClickClose | src/presentation.js:530-533 | the close button collapses its box but keeps the record |
| Presentation.AtMostOneExpanded | src/presentation.js:458-479 | with the recorded box the only one that can be expanded, at most one box carries `expanded` |
| Presentation.FragmentShown | src/presentation.js:58-78 | a shown flash loses `done` and its next sibling, when a circle, loses `shown`; a shown circle gains `shown` and its previous sibling, when a flash, gains `done`; any other fragment or neighbour is left alone, and no other class changes |
| Presentation.FragmentHidden | src/presentation.js:80-100 | a hidden flash gains `done` and its next sibling, when a circle, gains `shown`; a hidden circle loses `shown` and its previous sibling, when a flash, loses `done`; any other fragment or neighbour is left alone, and no other class changes |
| Presentation.FragmentHandlersUndo | src/presentation.js:58-100 | the `fragmenthidden` handler undoes `fragmentshown` and the other way round, and neither touches any class but `done` and `shown` |
| Presentation.CircleFragmentMarks | src/presentation.js:71-77 | a shown circle gets `shown` and marks its flash `done`; a hidden one loses both |
| Presentation.SetupCircleAngle | src/presentation.js:624-636 | the first circle sits at -90 degrees (twelve o'clock) and every circle of the ring lies within one turn from there |
| Presentation.CircleAnglesAgree | src/presentation.js:627-636 | the angle set for each circle at start-up is the angle the generator wrote for it |
| Presentation.CircleClick | src/presentation.js:638-643 | a click goes to section 0 of the parsed `data-slide` exactly when it parses |
| Presentation.GeneratedCircleOpensItsTopic | src/presentation.js:638-643 | clicking the `i`-th generated circle opens topic `i + 1` |
| Presentation.BackgroundPath | src/presentation.js:204-206 | an `http` link is kept; any other lands under `assets/background/` with one leading `/` dropped |
| Presentation.FirstImageInDirectory | src/presentation.js:200-207 | nothing is found exactly when no listed file has an image extension; otherwise the result is the path of the first one that has |
| Presentation.UpperCaseImageExample | src/presentation.js:202 | the extension test ignores case |
| Presentation.ImageHrefIgnoresCase | src/presentation.js:202 | for every link, it and its lower-cased form are both images or both not |
| Presentation.TextFileExample | src/presentation.js:202 | a file with another extension is not taken |
| Navigation.HandleKeyboardNavigation | js/modules/navigation.js:29-69 | Escape unfocuses exactly a focused camera; only an idle camera lets a key move the deck; an unmodified Home key goes to the menu unless it is already shown, an unmodified End to the last slide; every other key does nothing |
| Navigation.HandleBackAction | js/modules/navigation.js:76-86 | the back action unfocuses exactly a focused camera and otherwise does nothing |
| Navigation.GoToClosing | js/modules/navigation.js:100-107 | the closing action opens the top of the last horizontal slide, below the horizontal slide count |
| Navigation.EscapeIsBack | js/modules/navigation.js:34-42 | Escape and the back action ask for the same thing in every camera state |
| Navigation.OnlyIdleNavigates | js/modules/navigation.js:44-68 | a key moves the deck only when the camera is idle, and only to the menu or the closing slide |
| Navigation.NavigateToTopic | js/modules/navigation.js:161-167 | topic `t` opens horizontal slide `t + 1` at the requested section |
| Navigation.TopicsFollowTheMenu | js/modules/navigation.js:161-167 | topic 1 is the slide right after the menu, and distinct topics open distinct slides |

## Left out

- Network and file I/O are not modelled. This covers `loadContent`, `saveContent`, `importContent`, `handleFileInputChange` and `saveIndexHTML` of `js/modules/storage.js`, the `fetch` of the background folder, and the two Python servers (`server.py`, `save_server.py`). The export's `POST /save` is reduced to the server's reply, which is a parameter.
- Serialisation is not modelled. The clone's `outerHTML` and the generated deck's HTML strings are represented by the structures they encode.
- `JSON.stringify` and `JSON.parse` are taken as an exact round trip. Fields holding `undefined` are not dropped. A stored value of the wrong JSON kind counts as one that does not parse.
- SlideGenerator.LoadGenerationMetadata: non-empty text under the key is reported as a parse error, even when it is valid JSON (such as `5` or `"x"`) that `JSON.parse` would return. The model does not parse text. The application only ever stores a record there.
- Numbers are exact reals: there is no `NaN`, no `Infinity` and no rounding. Where the source can meet `NaN` (a blank count field, a non-numeric `data-slide`, an identifier's index field), the value is `Option<int>` with `None` for `NaN`. A `NaN` index from the student dropdown or from stored state is not modelled.
- `cos`, `sin` and `atan2` are parameters, and nothing is assumed about them.
- JsValues.IsFinite: strings and arrays are treated as not finite. In JavaScript `isFinite("5")`, `isFinite([])` and `isFinite([5])` coerce their argument to a number and are true. Stored positions are written as numbers, so only hand-edited content can hold such a value.
- Animation timing is not modelled. `requestAnimationFrame`, `performance.now`, `easeOutExpo` and `matchMedia` are left out. A frame's progress and eased value are supplied by the caller of `Camera.CameraController.AnimationFrame`. Reduced motion is a constructor flag.
- Every `setTimeout` is taken to have run. This covers the nav boxes' `expanded` class and overlay, and the delayed restore of a collapsed box's content.
- DOM rendering and `Reveal.*` calls are reduced to the data they decide. This leaves out:
  - the detail panel's show and close;
  - `updateBookmarksFromState`;
  - `applyLayoutToCSS` and `updateTilePositions`;
  - the background image, the hover images of the overview circles and the disabled overview loop;
  - `closeBook` and `reopenBook`;
  - the outline styling of `src/editor.js`.
- `StudentLayerController.ReloadPresentationForStudent` models only the metadata write. Replacing the slides and re-initialising Reveal are DOM work. As a side effect, that DOM work replaces the overview title and the edits just written into the page.
- `initStudentLayerController`, `setupSlideEditing` and `enableInlineEditing` are not modelled. They only call modelled operations on DOM query results. `makeEditable` is modelled per element.
- Queries are parameters. `SlideEditor.ApplyStoredEdits` takes the page lookup (which element a name finds, and whether it lies in a nav box) as a parameter. `Identifiers` takes the slide index and match position of an element the same way.
- The in-place rewriting of the cloned tree by the export and by `purgeMsOfficeMarkup` is modelled as rewriting of tree values. Aliasing between nodes is not represented. Neither is the `try/catch` around the purge, since the model's purge cannot throw.
- Several imports name exports that their modules do not have:
  - `saveIndexHTML` and `saveContentToServer` (imported by `js/modules/admin-panel.js` from `storage.js`);
  - the per-student storage helpers (imported by `js/modules/student-layer-controller.js`);
  - the shared circle-title functions (imported by `js/modules/admin-panel.js` from `student-manager.js`);
  - `debounce` from a `utils/math.js` under `js/modules`.

  A module loader would refuse these modules. The model treats them as loading. The circle-title sync to all students is left out, because its functions do not exist.
- `js/modules/admin.js`, the UI files (`student-ui.js`, `student-drag-drop.js`, `overlay.js`, `edit-mode.js`, `pdf-export.js`, notifications), the wrappers (`viewport-controller.js`, `src/reveal/adapter.js`, `src/utils/dom.js`), `src/app.js` and the configuration files are not part of this model. The constants taken from `js/config/index.js` (minimum zoom 1, maximum zoom 2.4, focus bias 0.65) are written out in `Camera`.
- The camera's listener callbacks are modelled as logs of notifications. The detail-panel behaviour that `js/modules/menu.js` builds on them reads fields the callbacks never pass, and it is not modelled.
- Menu.ComputeRelativePosition: requires a tile of non-zero width and height. JavaScript would divide by zero and produce `Infinity` or `NaN`.
- LayoutEngine.ComputeMindmapLayout: requires a parent of non-zero width, for the same reason.
- MenuLayout.ComputeLayout: requires a viewport of non-zero height, because the aspect ratio divides by it.
- Presentation.NavBoxes.ClickClose: requires that the box is expanded. Only an expanded box shows the close button.
- AdminPanel.UpdatedSubtopicValue: an index more than one past the end leaves holes in the JavaScript array. The model fills them with empty subtopics, which is what they become once the list is saved and normalised again.
- StudentManager.StudentRegistry.DeleteStudent: deleting a student before the current one leaves the index unchanged. The same index then names the next student. The model states this behaviour as the source has it.
- `findElementByIdentifier` as written loses the stored edit of every editable element that has a class of its own, such as `.overview-title`, `.overview-subtitle` and `.group-subtitle`: `makeEditable` adds `editable-field` as a second class, and the lookup reads that class as the element index (see "## Findings"). The model states this as `SlideEditor.ClassedEditIsNeverApplied` and uses the corrected lookup (`SlideEditor.PageLookup`) for the reload properties.
- StudentLayerController.SavedEditLands: stated only for an element with a single class (after `makeEditable`, one without a class of its own). The controller's loop reads the index from the fifth field like the editor's lookup as written, so the edit of an element with a class of its own is never written (`StudentLayerController.ClassedEditNeverLands`). The controller is modelled only as written.
- Identifiers.FindFindsTheNamedElement: stated for tags and classes without `_`. A class such as `a_b` splits into two fields, and even the corrected lookup then takes `a` as the first class.
- Identifiers.ElementIdentifier: throws only when the first class is empty. A first class that is not a CSS identifier (`2col`, `-1x`, `a:b`) also makes `querySelectorAll` throw in a browser; CSS selector syntax is not modelled.
- Identifiers.FindElementAsWritten: the lookup's selector `tag.class` throws for the same invalid classes; only the empty class field is modelled as throwing.
- Identifiers.FindElement: as for the lookup as written, only the empty class field is modelled as throwing; other invalid selectors are not modelled.
- LayoutEngine.IsInsideViewport: the margin is always an argument. The source's default `margin = 0` is the call with `0.0`.
- Presentation.MissingSectionKeepsStaleHover: when the section for a new arrow key is missing, the old slide stays recorded as hovered. The model states this behaviour as the source has it.

## Findings

| source | as written | input that shows it | evidently intended | confidence | as-written member | corrected member |
|---|---|---|---|---|---|---|
| js/modules/admin-panel.js:728-739 | the count guard `count < 3 \|\| count > 12` refuses out-of-range counts, but `parseInt` of a blank field is `NaN`, which fails both comparisons and gets through | generating with the topic-count field left empty (layer mode off): the guard passes, and the generated deck has no topic slides | a count that is not a number in [3, 12] is refused before any slide is touched | not executed | AdminPanel.BlankCountWipesTopicSlides | AdminPanel.HandleGenerateSlides |
| js/modules/admin-panel.js:783-824 | `handleRefreshOverview` has the same guard: a blank count field parses to `NaN` and gets through | refreshing the overview with the topic-count field left empty: every `.circle-item` is removed, `generateOverviewCircles(NaN)` builds none, and `'NaN'` is stored as the circle count | a count that is not a number in [3, 12] is refused before the overview is touched | not executed | AdminPanel.BlankCountEmptiesOverview | AdminPanel.HandleRefreshOverview |
| js/modules/slide-editor.js:279 | `findElementByIdentifier` reads the element index from the fifth `_` field. `makeEditable` has added `editable-field` to every editable element, so an element with the class `c` is named `slide_i_tag_c_editable-field_j`, the fifth field is `editable-field`, and `parseInt` of it is `NaN` | editing the element with the class `overview-title` and reloading: the stored edit is never shown again | the element index is read from the last field, so every name leads back to the element it was saved from | not executed | Identifiers.ClassedEditableElementIsLost | Identifiers.FindFindsTheNamedElement |
| js/modules/student-layer-controller.js:132-159 | the switch saves the live edits and bookmarks into the student being left, but never loads the new student's state into the live stores | with student A's edit on the page, switch A → B → A: A's edit is saved under B too | after a switch the live stores hold the new student's saved state, so edits stay with their student | not executed | StudentLayerController.EditsLeakAsWritten | StudentLayerController.EditsStayWithTheirStudent |

=== FILE: admin_panel.dfy ===
/**
 * The data side of `js/modules/admin-panel.js`: subtopic CRUD with its cap
 * of six, the drag-reorder of the child list, the circle-title save loop,
 * the child-size slider and the count guard of slide generation.
 *
 * Every CRUD handler ends in `updateContentData(data)`, which runs
 * `setContentData` on the same object again; on normalised content that
 * changes nothing (`Menu.RenormalizeChangesNothing`), so it is not repeated
 * here.
 */
module AdminPanel {
  import opened Text
  import opened JsValues
  import opened Normalize
  import opened Splice
  import opened Menu
  import opened WebStorage
  import SlideGenerator

  const MaxSubtopics := 6

  /** The entry `addSubtopic` pushes. */
  const NewSubtopic := Subtopic(Str("Neues Subtopic"), Null)

  /** Changes only the subtopics of topic `k`. */
  function WithSubtopics(ts: seq<Topic>, k: nat, subs: seq<Subtopic>): (r: seq<Topic>)
    requires k < |ts|
    ensures |r| == |ts| && r[k] == ts[k].(subtopics := subs)
    ensures forall j :: 0 <= j < |ts| && j != k ==> r[j] == ts[j]
  {
    ts[k := ts[k].(subtopics := subs)]
  }

  /** `addSubtopic(topicId)`: appends the new entry to the topic with that id while it has fewer than six. */
  function AddedSubtopic(ts: seq<Topic>, topicId: JsValue): (r: seq<Topic>)
    ensures FindTopic(ts, topicId).None? ==> r == ts
    ensures FindTopic(ts, topicId).Some? ==>
      var k := FindTopic(ts, topicId).value;
      && (|ts[k].subtopics| >= MaxSubtopics ==> r == ts)
      && (|ts[k].subtopics| < MaxSubtopics ==> r == WithSubtopics(ts, k, ts[k].subtopics + [NewSubtopic]))
    ensures AllWellFormed(ts) ==> AllWellFormed(r)
  {
    match FindTopic(ts, topicId)
    case None => ts
    case Some(k) =>
      if |ts[k].subtopics| >= MaxSubtopics then ts
      else WithSubtopics(ts, k, ts[k].subtopics + [NewSubtopic])
  }

  /** `updateAddButtonState(count)`: the add button is disabled at six entries or more. */
  predicate AddButtonDisabled(count: int) {
    count >= MaxSubtopics
  }

  /** The add button is disabled exactly when adding would change nothing. */
  lemma AddButtonMatchesAdd(ts: seq<Topic>, topicId: JsValue)
    requires FindTopic(ts, topicId).Some?
    ensures var k := FindTopic(ts, topicId).value;
      AddButtonDisabled(|ts[k].subtopics|) <==> AddedSubtopic(ts, topicId) == ts
  {
    var k := FindTopic(ts, topicId).value;
    if !AddButtonDisabled(|ts[k].subtopics|) {
      assert |AddedSubtopic(ts, topicId)[k].subtopics| == |ts[k].subtopics| + 1;
    }
  }

  /** Adding never takes a topic past six subtopics, and a topic at six or more keeps its count. */
  lemma {:induction false} AddNeverExceedsCap(ts: seq<Topic>, topicId: JsValue, j: nat)
    requires j < |ts|
    ensures |AddedSubtopic(ts, topicId)| == |ts|
    ensures |ts[j].subtopics| <= MaxSubtopics ==> |AddedSubtopic(ts, topicId)[j].subtopics| <= MaxSubtopics
    ensures |ts[j].subtopics| >= MaxSubtopics ==> AddedSubtopic(ts, topicId)[j] == ts[j]
  {
  }

  /** `removeSubtopic(topicId, index)`: `splice(index, 1)` on that topic's list (a negative index counts from the end). */
  function RemovedSubtopic(ts: seq<Topic>, topicId: JsValue, index: int): (r: seq<Topic>)
    ensures FindTopic(ts, topicId).None? ==> r == ts
    ensures FindTopic(ts, topicId).Some? ==>
      r == WithSubtopics(ts, FindTopic(ts, topicId).value, RemoveAt(ts[FindTopic(ts, topicId).value].subtopics, index))
    ensures AllWellFormed(ts) ==> AllWellFormed(r)
  {
    match FindTopic(ts, topicId)
    case None => ts
    case Some(k) =>
      var r := WithSubtopics(ts, k, RemoveAt(ts[k].subtopics, index));
      assert AllWellFormed(ts) ==> WellFormedTopic(r[k]) by {
        if AllWellFormed(ts) {
          RemoveAtKeepsEntries(ts[k].subtopics, index);
        }
      }
      r
  }

  /** Every entry left by `RemoveAt` was an entry before. */
  lemma RemoveAtKeepsEntries(s: seq<Subtopic>, index: int)
    ensures forall j :: 0 <= j < |RemoveAt(s, index)| ==> RemoveAt(s, index)[j] in s
  {
    var k := SpliceStart(index, |s|);
    if k < |s| {
      var r := RemoveAt(s, index);
      assert r == s[..k] + s[k + 1..];
      forall j | 0 <= j < |r|
        ensures r[j] in s
      {
        if j < k {
          assert r[j] == s[j];
        } else {
          assert r[j] == s[j + 1];
        }
      }
    }
  }

  /** With a valid index, exactly that entry goes and the others keep their order. */
  lemma RemoveValidIndex(ts: seq<Topic>, topicId: JsValue, index: int)
    requires FindTopic(ts, topicId).Some?
    requires 0 <= index < |ts[FindTopic(ts, topicId).value].subtopics|
    ensures var k := FindTopic(ts, topicId).value;
      RemovedSubtopic(ts, topicId, index)[k].subtopics == ts[k].subtopics[..index] + ts[k].subtopics[index + 1..]
  {
  }

  /**
   * `updateSubtopicValue(topicId, childIndex, value)`: the normalised entry
   * at `childIndex` gets the new title and keeps its position. An index one
   * past the end appends; further past the end the gap holds empty
   * subtopics; a negative index names no array entry and changes nothing.
   */
  function UpdatedSubtopicValue(ts: seq<Topic>, topicId: JsValue, childIndex: int, value: string): (r: seq<Topic>)
    ensures FindTopic(ts, topicId).None? || childIndex < 0 ==> r == ts
    ensures FindTopic(ts, topicId).Some? && childIndex >= 0 ==>
      var k := FindTopic(ts, topicId).value;
      var subs := ts[k].subtopics;
      && |r| == |ts|
      && (forall j :: 0 <= j < |ts| && j != k ==> r[j] == ts[j])
      && r[k].id == ts[k].id && r[k].title == ts[k].title && r[k].color == ts[k].color
      && |r[k].subtopics| == (if childIndex < |subs| then |subs| else childIndex + 1)
      && r[k].subtopics[childIndex].title == Str(value)
      && (childIndex < |subs| ==> r[k].subtopics[childIndex].position == NormalizeSubtopic(SubtopicToJs(subs[childIndex])).position)
      && (childIndex >= |subs| ==> r[k].subtopics[childIndex].position == Null)
      && (forall j :: 0 <= j < |r[k].subtopics| && j != childIndex ==>
            r[k].subtopics[j] == if j < |subs| then subs[j] else EmptySubtopic)
    ensures AllWellFormed(ts) ==> AllWellFormed(r)
  {
    match FindTopic(ts, topicId)
    case None => ts
    case Some(k) =>
      if childIndex < 0 then ts
      else
        var subs := ts[k].subtopics;
        var padded := if childIndex < |subs| then subs else subs + seq(childIndex + 1 - |subs|, _ => EmptySubtopic);
        var existing := if childIndex < |subs| then NormalizeSubtopic(SubtopicToJs(subs[childIndex])) else EmptySubtopic;
        WithSubtopics(ts, k, padded[childIndex := existing.(title := Str(value))])
  }

  /** A title edit on a normalised entry keeps its position as it was. */
  lemma TitleEditKeepsPosition(ts: seq<Topic>, topicId: JsValue, childIndex: int, value: string)
    requires AllWellFormed(ts) && FindTopic(ts, topicId).Some?
    requires 0 <= childIndex < |ts[FindTopic(ts, topicId).value].subtopics|
    ensures var k := FindTopic(ts, topicId).value;
      UpdatedSubtopicValue(ts, topicId, childIndex, value)[k].subtopics
        == ts[k].subtopics[childIndex := ts[k].subtopics[childIndex].(title := Str(value))]
  {
    var k := FindTopic(ts, topicId).value;
    NormalizeSubtopicFixpoint(ts[k].subtopics[childIndex]);
  }

  /**
   * `reorderSubtopics(topicId, fromIndex, toIndex)`: the list is normalised
   * first (also when the move is then refused), and the entry at `from`
   * is moved to `to`.
   */
  function ReorderedSubtopics(ts: seq<Topic>, topicId: JsValue, from: int, to: int): (r: seq<Topic>)
    ensures FindTopic(ts, topicId).None? ==> r == ts
    ensures FindTopic(ts, topicId).Some? ==>
      var k := FindTopic(ts, topicId).value;
      var normal := NormalizeSubtopicList(ts[k].subtopics);
      && (from == to || !(0 <= from < |normal|) || !(0 <= to < |normal|) ==> r == WithSubtopics(ts, k, normal))
      && (from != to && 0 <= from < |normal| && 0 <= to < |normal| ==> r == WithSubtopics(ts, k, Move(normal, from, to)))
    ensures AllWellFormed(ts) ==> AllWellFormed(r)
  {
    match FindTopic(ts, topicId)
    case None => ts
    case Some(k) =>
      var normal := NormalizeSubtopicList(ts[k].subtopics);
      if from == to || from < 0 || to < 0 || from >= |normal| || to >= |normal| then WithSubtopics(ts, k, normal)
      else
        var moved := Move(normal, from, to);
        assert forall j :: 0 <= j < |moved| ==> WellFormedSubtopic(moved[j]) by {
          forall j | 0 <= j < |moved|
            ensures WellFormedSubtopic(moved[j])
          {
            MoveTracksIndex(normal, from, to, InverseMoveIndex(j, from, to));
          }
        }
        WithSubtopics(ts, k, moved)
  }

  /** The old index of the entry that `Move(s, from, to)` puts at `j`. */
  function InverseMoveIndex(j: int, from: int, to: int): (i: int)
    ensures IndexAfterMove(i, from, to) == j
  {
    if j == to then from
    else if from < to && from <= j < to then j + 1
    else if to < from && to < j <= from then j - 1
    else j
  }

  /** On normalised content an accepted reorder is a permutation that puts the dragged entry at `to`. */
  lemma ReorderIsPermutation(ts: seq<Topic>, topicId: JsValue, from: int, to: int)
    requires AllWellFormed(ts) && FindTopic(ts, topicId).Some?
    requires var n := |ts[FindTopic(ts, topicId).value].subtopics|; 0 <= from < n && 0 <= to < n && from != to
    ensures var k := FindTopic(ts, topicId).value;
      var subs := ReorderedSubtopics(ts, topicId, from, to)[k].subtopics;
      && subs[to] == ts[k].subtopics[from]
      && multiset(subs) == multiset(ts[k].subtopics)
  {
    var k := FindTopic(ts, topicId).value;
    assert NormalizeSubtopicList(ts[k].subtopics) == ts[k].subtopics;
    MoveIsPermutation(ts[k].subtopics, from, to);
  }

  // ------------------------------------------------------------ circle titles

  /** One `.circle-title-input`: its value and its `data-topic-index` / `data-topic-id` attributes, if present. */
  datatype TitleInput = TitleInput(value: string, topicIndex: Option<string>, topicId: Option<string>)

  /** `topics.find(t => String(t.id) === String(topicId))`. */
  function FindByStringId(ts: seq<Topic>, id: string): (k: Option<nat>)
    ensures k.Some? ==> k.value < |ts| && ToJsString(ts[k.value].id) == Some(id)
    ensures k.Some? ==> forall j :: 0 <= j < k.value ==> ToJsString(ts[j].id) != Some(id)
    ensures k.None? ==> forall j :: 0 <= j < |ts| ==> ToJsString(ts[j].id) != Some(id)
  {
    if ts == [] then None
    else if ToJsString(ts[0].id) == Some(id) then Some(0)
    else match FindByStringId(ts[1..], id) case None => None case Some(k) => Some(k + 1)
  }

  /** The topic an input writes to: `topics[parseInt(topicIndex, 10)]` if that exists, else the topic with the same id. */
  function TitleTarget(ts: seq<Topic>, input: TitleInput): (k: Option<nat>)
    ensures k.Some? ==> k.value < |ts|
  {
    var index := if input.topicIndex.Some? then ParseInt10(input.topicIndex.value) else None;
    if index.Some? && 0 <= index.value < |ts| then Some(index.value)
    else if input.topicId.Some? then FindByStringId(ts, input.topicId.value)
    else None
  }

  /** One pass of the save loop: a non-blank trimmed value becomes the target topic's title. */
  function ApplyTitleInput(ts: seq<Topic>, input: TitleInput): (r: seq<Topic>)
    ensures Trim(input.value) == [] || TitleTarget(ts, input).None? ==> r == ts
    ensures Trim(input.value) != [] && TitleTarget(ts, input).Some? ==>
      r == ts[TitleTarget(ts, input).value := ts[TitleTarget(ts, input).value].(title := Str(Trim(input.value)))]
  {
    var title := Trim(input.value);
    if title == [] then ts
    else match TitleTarget(ts, input)
      case None => ts
      case Some(k) => ts[k := ts[k].(title := Str(title))]
  }

  /** The topics after the save loop has run over `inputs` in document order. */
  function ApplyTitleInputs(ts: seq<Topic>, inputs: seq<TitleInput>): seq<Topic>
    decreases |inputs|
  {
    if inputs == [] then ts
    else ApplyTitleInput(ApplyTitleInputs(ts, inputs[..|inputs| - 1]), inputs[|inputs| - 1])
  }

  /** The save loop only ever writes titles: ids, colours, subtopics and the number of topics stay. */
  lemma {:induction false} SaveTouchesOnlyTitles(ts: seq<Topic>, inputs: seq<TitleInput>)
    ensures |ApplyTitleInputs(ts, inputs)| == |ts|
    ensures forall j :: 0 <= j < |ts| ==>
      ApplyTitleInputs(ts, inputs)[j] == ts[j].(title := ApplyTitleInputs(ts, inputs)[j].title)
    decreases |inputs|
  {
    if inputs != [] {
      var prev := ApplyTitleInputs(ts, inputs[..|inputs| - 1]);
      var r := ApplyTitleInput(prev, inputs[|inputs| - 1]);
      assert ApplyTitleInputs(ts, inputs) == r;
      SaveTouchesOnlyTitles(ts, inputs[..|inputs| - 1]);
      OneInputTouchesOnlyTitles(prev, inputs[|inputs| - 1]);
      forall j | 0 <= j < |ts| ensures r[j] == ts[j].(title := r[j].title) {
        assert r[j] == prev[j].(title := r[j].title);
        assert prev[j] == ts[j].(title := prev[j].title);
      }
    }
  }

  lemma OneInputTouchesOnlyTitles(ts: seq<Topic>, input: TitleInput)
    ensures |ApplyTitleInput(ts, input)| == |ts|
    ensures forall j :: 0 <= j < |ts| ==> ApplyTitleInput(ts, input)[j] == ts[j].(title := ApplyTitleInput(ts, input)[j].title)
  {
    var r := ApplyTitleInput(ts, input);
    var target := TitleTarget(ts, input);
    if Trim(input.value) != [] && target.Some? {
      var k := target.value;
      assert r == ts[k := ts[k].(title := Str(Trim(input.value)))];
      forall j | 0 <= j < |ts| ensures r[j] == ts[j].(title := r[j].title) {
        if j != k {
          assert r[j] == ts[j];
        }
      }
    } else {
      assert r == ts;
    }
  }

  /** Inputs that are blank after trimming leave every title as it was. */
  lemma {:induction false} BlankInputsChangeNothing(ts: seq<Topic>, inputs: seq<TitleInput>)
    requires forall i :: 0 <= i < |inputs| ==> Trim(inputs[i].value) == []
    ensures ApplyTitleInputs(ts, inputs) == ts
    decreases |inputs|
  {
    if inputs != [] {
      BlankInputsChangeNothing(ts, inputs[..|inputs| - 1]);
    }
  }

  /** The size pair the child-size slider writes. */
  datatype ChildSizes = ChildSizes(idle: int, focus: int)

  /** `Math.round(sizePx * 1.6)`: the integer nearest to 1.6 times the size, halves rounded up. */
  function FocusSize(sizePx: int): (f: int)
    ensures -5 < 10 * f - 16 * sizePx <= 5
  {
    (16 * sizePx + 5) / 10
  }

  /** `applyChildSize(sizePx)`: the idle size as given and the rounded focus size. */
  function ApplyChildSize(sizePx: int): (s: ChildSizes)
    ensures s.idle == sizePx
    ensures -5 < 10 * s.focus - 16 * sizePx <= 5
  {
    ChildSizes(sizePx, FocusSize(sizePx))
  }

  /** Sizes that are multiples of 5 scale exactly by 1.6. */
  lemma FocusSizeOfMultipleOfFive(n: int)
    ensures FocusSize(5 * n) == 8 * n
  {
  }

  // ------------------------------------------------------------ the admin panel object

  class Panel {
    const content: Content
    var dragSourceIndex: Option<int>

    constructor (content: Content)
      ensures this.content == content && dragSourceIndex == None
    {
      this.content := content;
      dragSourceIndex := None;
    }

    method AddSubtopic(topicId: JsValue)
      modifies content
      ensures content.topics == (if old(content.topics).None? then None else Some(AddedSubtopic(old(content.topics).value, topicId)))
      ensures old(content.Valid()) ==> content.Valid()
    {
      if content.topics.None? {
        return;
      }
      content.topics := Some(AddedSubtopic(content.topics.value, topicId));
    }

    method RemoveSubtopic(topicId: JsValue, index: int)
      modifies content
      ensures content.topics == (if old(content.topics).None? then None else Some(RemovedSubtopic(old(content.topics).value, topicId, index)))
      ensures old(content.Valid()) ==> content.Valid()
    {
      if content.topics.None? {
        return;
      }
      content.topics := Some(RemovedSubtopic(content.topics.value, topicId, index));
    }

    method UpdateSubtopicValue(topicId: JsValue, childIndex: int, value: string)
      modifies content
      ensures content.topics == (if old(content.topics).None? then None else Some(UpdatedSubtopicValue(old(content.topics).value, topicId, childIndex, value)))
      ensures old(content.Valid()) ==> content.Valid()
    {
      if content.topics.None? {
        return;
      }
      content.topics := Some(UpdatedSubtopicValue(content.topics.value, topicId, childIndex, value));
    }

    method ReorderSubtopics(topicId: JsValue, from: int, to: int)
      modifies content
      ensures content.topics == (if old(content.topics).None? then None else Some(ReorderedSubtopics(old(content.topics).value, topicId, from, to)))
      ensures old(content.Valid()) ==> content.Valid()
    {
      if content.topics.None? {
        return;
      }
      content.topics := Some(ReorderedSubtopics(content.topics.value, topicId, from, to));
    }

    /** `startDrag(event, index)`. */
    method StartDrag(index: int)
      modifies this
      ensures dragSourceIndex == Some(index)
    {
      dragSourceIndex := Some(index);
    }

    /** `onDrop(event, topicId, targetIndex)`: without a drag source nothing happens; otherwise reorder and forget the source. */
    method OnDrop(topicId: JsValue, targetIndex: int)
      modifies this, content
      ensures old(dragSourceIndex).None? ==> content.topics == old(content.topics) && dragSourceIndex == None
      ensures old(dragSourceIndex).Some? ==>
        && dragSourceIndex == None
        && content.topics == (if old(content.topics).None? then None
                              else Some(ReorderedSubtopics(old(content.topics).value, topicId, old(dragSourceIndex).value, targetIndex)))
      ensures old(content.Valid()) ==> content.Valid()
    {
      if dragSourceIndex.None? {
        return;
      }
      ReorderSubtopics(topicId, dragSourceIndex.value, targetIndex);
      dragSourceIndex := None;
    }

    /**
     * The save button of the circle-title editor: without topics it only
     * reports the error (`false`); otherwise each input is applied in turn.
     */
    method SaveCircleTitles(inputs: seq<TitleInput>) returns (saved: bool)
      modifies content
      ensures saved <==> old(content.topics).Some?
      ensures !saved ==> content.topics == old(content.topics)
      ensures saved ==> content.topics == Some(ApplyTitleInputs(old(content.topics).value, inputs))
    {
      if content.topics.None? {
        return false;
      }
      var i := 0;
      while i < |inputs|
        invariant 0 <= i <= |inputs|
        invariant content.topics == Some(ApplyTitleInputs(old(content.topics).value, inputs[..i]))
      {
        assert inputs[..i + 1][..i] == inputs[..i];
        content.topics := Some(ApplyTitleInput(content.topics.value, inputs[i]));
        i := i + 1;
      }
      assert inputs[..i] == inputs;
      saved := true;
    }
  }

  // ------------------------------------------------------------ slide generation

  const MinCount := 3
  const MaxCount := 12

  /**
   * The count the generate and refresh handlers work with: the argument if
   * it is a number (`None` is a non-number or `NaN`), else `parseInt` of the
   * count input, else 10 when there is no input.
   */
  function RequestedCount(arg: Option<int>, input: Option<string>): (r: Option<int>)
    ensures arg.Some? ==> r == arg
    ensures arg.None? && input.None? ==> r == Some(10)
    ensures arg.None? && input.Some? && !StartsNumber(input.value) ==> r.None?
  {
    if arg.Some? then arg
    else if input.None? then Some(10)
    else ParseInt10(input.value)
  }

  /** The guard as written, `count < 3 || count > 12` refuses; `NaN` fails both comparisons and gets through. */
  predicate CountAcceptedAsWritten(count: Option<int>) {
    !(count.Some? && (count.value < MinCount || count.value > MaxCount))
  }

  /** The guard as intended: a number between 3 and 12. */
  predicate CountAccepted(count: Option<int>) {
    count.Some? && MinCount <= count.value <= MaxCount
  }

  /** What the generate handler ends in: refused, or the slides container filled with the generator's result. */
  datatype GenerateOutcome = Refused | NoSlidesContainer | Generated(slides: Option<SlideGenerator.Deck>)

  const DeckTitle := "Neue Präsentation"
  const DeckSubtitle := "Automatisch generiert"
  const DeckAuthor := "Autor"

  /**
   * `handleGenerateSlides` with the guard as written. It differs from the
   * intended guard only on `NaN`: for a number, it refuses exactly the
   * counts outside 3..12.
   */
  function GenerateAsWritten(arg: Option<int>, input: Option<string>, student: Option<StudentConfig>, topics: seq<Topic>): (r: GenerateOutcome)
    ensures RequestedCount(arg, input).Some? ==> (r.Refused? <==> !CountAccepted(RequestedCount(arg, input)))
    ensures RequestedCount(arg, input).None? ==> r.Generated?
  {
    var count := RequestedCount(arg, input);
    if !CountAcceptedAsWritten(count) then Refused
    else Generated(SlideGenerator.GenerateCompleteSlides(count, DeckTitle, DeckSubtitle, DeckAuthor, student, topics))
  }

  /**
   * A blank count field (outside layer mode) gets past the guard as `NaN`,
   * and the deck that replaces the slides has no circles and no topic
   * stacks: every topic slide is lost.
   */
  lemma BlankCountWipesTopicSlides(topics: seq<Topic>)
    ensures ParseInt10("") == None
    ensures CountAcceptedAsWritten(RequestedCount(None, Some("")))
    ensures var r := GenerateAsWritten(None, Some(""), None, topics);
      && r.Generated? && r.slides.Some?
      && r.slides.value.circles == [] && r.slides.value.stacks == []
  {
    assert TrimStart("") == "";
    assert LeadingDigits("", 10) == [];
  }

  /**
   * `handleGenerateSlides` with the intended guard: a refused count changes
   * nothing; so does a page without a `.reveal .slides` container
   * (`slidesContainerFound` is that query); otherwise the deck is built and
   * the metadata recorded.
   */
  method HandleGenerateSlides(store: LocalStore, arg: Option<int>, input: Option<string>, student: Option<StudentConfig>,
                              topics: seq<Topic>, now: string, slidesContainerFound: bool) returns (r: GenerateOutcome)
    modifies store
    ensures var count := RequestedCount(arg, input);
      && (r.Refused? <==> !CountAccepted(count))
      && (r.NoSlidesContainer? <==> CountAccepted(count) && !slidesContainerFound)
      && (!r.Generated? ==> store.items == old(store.items))
      && (r.Generated? ==>
            && r.slides == SlideGenerator.GenerateCompleteSlides(count, DeckTitle, DeckSubtitle, DeckAuthor, student, topics)
            && store.items == old(store.items)
                 [SlideGenerator.MetadataKey := MetadataRecord(GenerationMetadata(now, count.value, SlideGenerator.DefaultDetailSlides,
                    Obj(map["title" := Str(DeckTitle), "subtitle" := Str(DeckSubtitle), "author" := Str(DeckAuthor)])))]
                 [SlideGenerator.CircleCountKey := Text(IntToString(count.value))])
  {
    var count := RequestedCount(arg, input);
    if !CountAccepted(count) {
      return Refused;
    }
    if !slidesContainerFound {
      return NoSlidesContainer;
    }
    r := Generated(SlideGenerator.GenerateCompleteSlides(count, DeckTitle, DeckSubtitle, DeckAuthor, student, topics));
    SlideGenerator.SaveGenerationMetadata(store, count.value,
      Obj(map["title" := Str(DeckTitle), "subtitle" := Str(DeckSubtitle), "author" := Str(DeckAuthor)]), now);
  }

  /** With the intended guard, a generated deck (outside layer mode) has exactly the requested number of circles and stacks. */
  lemma AcceptedCountBuildsFullDeck(arg: Option<int>, input: Option<string>, topics: seq<Topic>)
    requires CountAccepted(RequestedCount(arg, input))
    ensures var count := RequestedCount(arg, input).value;
      var d := SlideGenerator.GenerateCompleteSlides(Some(count), DeckTitle, DeckSubtitle, DeckAuthor, None, topics);
      d.Some? && |d.value.circles| == count && |d.value.stacks| == count
  {
  }

  /**
   * The overview the refresh works on: `#overview .spiral-container` is
   * missing, or it is there with or without a `.circles-container` and an
   * `.overview-title`.
   */
  datatype OverviewSection = NoOverviewSection | OverviewSection(hasCircleContainer: bool, hasTitle: bool)

  /** A circle container is found, or created after the title; without either the refresh stops. */
  predicate CircleContainerFound(overview: OverviewSection) {
    overview.OverviewSection? && (overview.hasCircleContainer || overview.hasTitle)
  }

  /**
   * `handleRefreshOverview` with the guard as written: a count the guard
   * lets through replaces the overview circles and is stored as the circle
   * count in the form `toString` prints it, `'NaN'` included.
   */
  method HandleRefreshOverviewAsWritten(store: LocalStore, arg: Option<int>, input: Option<string>, topics: seq<Topic>,
                                        overview: OverviewSection)
    returns (circles: Option<seq<SlideGenerator.Circle>>)
    modifies store
    ensures RequestedCount(arg, input).Some? ==>
      (circles.None? <==> !CountAccepted(RequestedCount(arg, input)) || !CircleContainerFound(overview))
    ensures var count := RequestedCount(arg, input);
      && (circles.None? <==> !CountAcceptedAsWritten(count) || !CircleContainerFound(overview))
      && (circles.None? ==> store.items == old(store.items))
      && (circles.Some? ==>
            && circles.value == SlideGenerator.GenerateOverviewCircles(count, topics)
            && store.items == old(store.items)[SlideGenerator.CircleCountKey := Text(NumberText(count))])
  {
    var count := RequestedCount(arg, input);
    if !CountAcceptedAsWritten(count) || !CircleContainerFound(overview) {
      return None;
    }
    circles := Some(SlideGenerator.GenerateOverviewCircles(count, topics));
    store.SetItem(SlideGenerator.CircleCountKey, Text(NumberText(count)));
  }

  /**
   * A blank count field gets past the refresh guard as `NaN` too: every
   * overview circle is removed, none is built, and `'NaN'` is stored as
   * the circle count.
   */
  lemma BlankCountEmptiesOverview(topics: seq<Topic>)
    ensures CountAcceptedAsWritten(RequestedCount(None, Some("")))
    ensures SlideGenerator.GenerateOverviewCircles(RequestedCount(None, Some("")), topics) == []
    ensures NumberText(RequestedCount(None, Some(""))) == "NaN"
  {
    assert TrimStart("") == "";
    assert LeadingDigits("", 10) == [];
  }

  /**
   * `handleRefreshOverview` with the intended guard: the overview circles
   * for the count, which is also stored as the circle count; a refused
   * count, or a page with no overview section or no place for the circles,
   * changes nothing.
   */
  method HandleRefreshOverview(store: LocalStore, arg: Option<int>, input: Option<string>, topics: seq<Topic>,
                               overview: OverviewSection)
    returns (circles: Option<seq<SlideGenerator.Circle>>)
    modifies store
    ensures var count := RequestedCount(arg, input);
      && (circles.None? <==> !CountAccepted(count) || !CircleContainerFound(overview))
      && (circles.None? ==> store.items == old(store.items))
      && (circles.Some? ==>
            && circles.value == SlideGenerator.GenerateOverviewCircles(count, topics)
            && |circles.value| == count.value
            && store.items == old(store.items)[SlideGenerator.CircleCountKey := Text(IntToString(count.value))])
  {
    var count := RequestedCount(arg, input);
    if !CountAccepted(count) || !CircleContainerFound(overview) {
      return None;
    }
    circles := Some(SlideGenerator.GenerateOverviewCircles(count, topics));
    store.SetItem(SlideGenerator.CircleCountKey, Text(IntToString(count.value)));
  }
}

=== FILE: camera.dfy ===
/**
 * The zoom camera of the mind-map menu (`js/modules/camera-controller.js`):
 * a four-state machine idle -> focusing -> focused -> returning -> idle that
 * owns one transform `{scale, tx, ty}`.
 *
 * Animation frames are driven from outside: `AnimationFrame` is one call of
 * the `requestAnimationFrame` callback, with the frame's progress and its
 * eased value supplied by the caller. Listener callbacks are modelled as
 * the logs of the notifications they would receive.
 */
module Camera {
  import opened MathUtil
  import opened JsValues
  import opened Text

  datatype CamState = Idle | Focusing | Focused | Returning

  datatype Transform = Transform(scale: real, tx: real, ty: real)

  /** A `getBoundingClientRect()` result. */
  datatype Rect = Rect(left: real, top: real, width: real, height: real)

  datatype Completion = FinishFocus | FinishUnfocus

  /** A running `runCameraAnimation`: its end points and the callback run on completion. */
  datatype Animation = Animation(from: Transform, to: Transform, onComplete: Completion)

  /** What a state-change listener receives: the new state and `focusedTileId`. */
  datatype StateEvent = StateEvent(state: CamState, tileId: JsValue)

  /** What an animation listener receives: the animation type and `'start'` or `'end'`. */
  datatype AnimationEvent = AnimationEvent(kind: string, phase: string)

  /** `LAYOUT.focusScaleBias`, `LAYOUT.minZoom`, `LAYOUT.maxZoom`. */
  const FocusScaleBias: real := 0.65
  const MinZoom: real := 1.0
  const MaxZoom: real := 2.4

  const Identity := Transform(1.0, 0.0, 0.0)

  /** `x || fallback` for a number. */
  function OrNumber(x: real, fallback: real): real {
    if x != 0.0 then x else fallback
  }

  /** Horizontal centre of the tile, relative to the viewport's left edge. */
  function TileCenterX(tile: Rect, viewport: Rect): real {
    tile.left - viewport.left + tile.width / 2.0
  }

  function TileCenterY(tile: Rect, viewport: Rect): real {
    tile.top - viewport.top + tile.height / 2.0
  }

  /**
   * `computeCameraTarget`: the zoom that makes the tile cover the viewport
   * at `focusScaleBias`, clamped to [minZoom, maxZoom], and the translation
   * that brings the tile's centre to the viewport's centre once scaled.
   * A zero tile width or height counts as 1, a zero viewport size falls
   * back to the window size.
   */
  function ComputeCameraTarget(tile: Rect, viewport: Rect, innerWidth: real, innerHeight: real): (t: Transform)
    ensures MinZoom <= t.scale <= MaxZoom
    ensures t.tx * t.scale == OrNumber(viewport.width, innerWidth) / 2.0 - TileCenterX(tile, viewport)
    ensures t.ty * t.scale == OrNumber(viewport.height, innerHeight) / 2.0 - TileCenterY(tile, viewport)
  {
    var vw := OrNumber(viewport.width, innerWidth);
    var vh := OrNumber(viewport.height, innerHeight);
    var tw := OrNumber(tile.width, 1.0);
    var th := OrNumber(tile.height, 1.0);
    var desired := Min(vw / (tw * FocusScaleBias), vh / (th * FocusScaleBias));
    var scale := Clamp(desired, MinZoom, MaxZoom);
    var dx := vw / 2.0 - TileCenterX(tile, viewport);
    var dy := vh / 2.0 - TileCenterY(tile, viewport);
    Transform(scale, dx / scale, dy / scale)
  }

  /**
   * For a tile and viewport of positive size the zoom lets the scaled tile
   * cover at most `focusScaleBias` of the viewport in both directions (unless
   * the minimum zoom forces more), and strictly between the zoom limits one
   * of the two directions is covered exactly.
   */
  lemma FocusScaleFits(tile: Rect, viewport: Rect, innerWidth: real, innerHeight: real)
    requires tile.width > 0.0 && tile.height > 0.0 && viewport.width > 0.0 && viewport.height > 0.0
    ensures var s := ComputeCameraTarget(tile, viewport, innerWidth, innerHeight).scale;
      && (s == MinZoom || (s * tile.width * FocusScaleBias <= viewport.width && s * tile.height * FocusScaleBias <= viewport.height))
      && (s == MinZoom || s == MaxZoom
          || s * tile.width * FocusScaleBias == viewport.width || s * tile.height * FocusScaleBias == viewport.height)
  {
    var s := ComputeCameraTarget(tile, viewport, innerWidth, innerHeight).scale;
    var a := viewport.width / (tile.width * FocusScaleBias);
    var b := viewport.height / (tile.height * FocusScaleBias);
    assert a * (tile.width * FocusScaleBias) == viewport.width;
    assert b * (tile.height * FocusScaleBias) == viewport.height;
    assert s == Clamp(Min(a, b), MinZoom, MaxZoom);
    if s != MinZoom {
      assert s <= Min(a, b);
      MulLe(s, a, tile.width * FocusScaleBias);
      MulLe(s, b, tile.height * FocusScaleBias);
    }
  }

  lemma MulLe(x: real, y: real, k: real)
    requires x <= y && k > 0.0
    ensures x * k <= y * k
  {
  }

  /** A 150 px tile at the centre of a 1920 x 1080 viewport is zoomed to the maximum without translation. */
  lemma CenteredTileZoomsToMax()
    ensures ComputeCameraTarget(Rect(885.0, 465.0, 150.0, 150.0), Rect(0.0, 0.0, 1920.0, 1080.0), 1920.0, 1080.0)
         == Transform(MaxZoom, 0.0, 0.0)
  {
    var vw, th := 1920.0, 150.0;
    assert 1080.0 / (th * FocusScaleBias) > MaxZoom;
    assert vw / (th * FocusScaleBias) > MaxZoom;
  }

  /** The transform a frame applies at eased progress `e`. */
  function Interpolate(from: Transform, to: Transform, e: real): (t: Transform)
    ensures e == 0.0 ==> t == from
    ensures e == 1.0 ==> t == to
  {
    Transform(Lerp(from.scale, to.scale, e), Lerp(from.tx, to.tx, e), Lerp(from.ty, to.ty, e))
  }

  class CameraController {
    var state: CamState
    var focusedTileId: JsValue
    var focusedTile: Option<Rect>
    var animationInProgress: bool
    var transform: Transform
    /** The animation whose frames are still being requested, if any. */
    var pending: Option<Animation>
    /** Reveal.js's `keyboard` setting, which the camera switches off while a tile is focused. */
    var revealKeyboard: bool
    var stateEvents: seq<StateEvent>
    var animationEvents: seq<AnimationEvent>
    /** `prefers-reduced-motion`, read once when the controller is created. */
    const reducedMotion: bool

    /**
     * The states the controller can be in. With reduced motion a focus
     * leaves `animationInProgress` set until the next unfocus.
     */
    ghost predicate Valid()
      reads this
    {
      && (animationInProgress <==> (state == Focusing || (reducedMotion && state == Focused)))
      && (pending.Some? <==> (state == Focusing || state == Returning))
      && (reducedMotion ==> state == Idle || state == Focused)
      && (state == Focusing ==> pending.Some? && pending.value.onComplete == FinishFocus)
      && (state == Returning ==> pending.Some? && pending.value.onComplete == FinishUnfocus && pending.value.to == Identity)
      && (state == Idle ==> focusedTileId == Null && focusedTile.None?)
      && (revealKeyboard <==> state == Idle)
    }

    constructor (prefersReducedMotion: bool)
      ensures Valid()
      ensures reducedMotion == prefersReducedMotion
      ensures state == Idle && transform == Identity && !animationInProgress
      ensures stateEvents == [] && animationEvents == []
    {
      reducedMotion := prefersReducedMotion;
      state := Idle;
      focusedTileId := Null;
      focusedTile := None;
      animationInProgress := false;
      transform := Identity;
      pending := None;
      revealKeyboard := true;
      stateEvents := [];
      animationEvents := [];
    }

    function IsAnimating(): bool
      reads this
    {
      animationInProgress
    }

    /**
     * `focusTile`: ignored while an animation runs or the camera is not idle;
     * otherwise records the tile, locks the keyboard, notifies `focusing`
     * and starts the zoom towards `computeCameraTarget` (or, with reduced
     * motion, jumps there and finishes at once).
     */
    method FocusTile(tileId: JsValue, tile: Rect, viewport: Rect, innerWidth: real, innerHeight: real)
      requires Valid()
      modifies this
      ensures Valid()
      ensures old(animationInProgress) || old(state) != Idle ==>
        && state == old(state) && transform == old(transform) && pending == old(pending)
        && stateEvents == old(stateEvents) && animationEvents == old(animationEvents)
        && focusedTileId == old(focusedTileId)
      ensures !old(animationInProgress) && old(state) == Idle ==>
        var target := ComputeCameraTarget(tile, viewport, innerWidth, innerHeight);
        && focusedTileId == tileId && focusedTile == Some(tile) && !revealKeyboard
        && animationInProgress
        && (if reducedMotion then
              && state == Focused && transform == target && pending == None
              && stateEvents == old(stateEvents) + [StateEvent(Focusing, tileId), StateEvent(Focused, tileId)]
              && animationEvents == old(animationEvents) + [AnimationEvent("zoom-in", "start"), AnimationEvent("zoom-in", "end")]
            else
              && state == Focusing && transform == old(transform)
              && pending == Some(Animation(old(transform), target, FinishFocus))
              && stateEvents == old(stateEvents) + [StateEvent(Focusing, tileId)]
              && animationEvents == old(animationEvents) + [AnimationEvent("zoom-in", "start")])
    {
      if animationInProgress || state != Idle {
        return;
      }
      focusedTileId := tileId;
      focusedTile := Some(tile);
      state := Focusing;
      animationInProgress := true;
      revealKeyboard := false;
      stateEvents := stateEvents + [StateEvent(Focusing, focusedTileId)];
      animationEvents := animationEvents + [AnimationEvent("zoom-in", "start")];
      var target := ComputeCameraTarget(tile, viewport, innerWidth, innerHeight);
      if reducedMotion {
        transform := target;
        state := Focused;
        stateEvents := stateEvents + [StateEvent(Focused, focusedTileId)];
        animationEvents := animationEvents + [AnimationEvent("zoom-in", "end")];
        return;
      }
      pending := Some(Animation(transform, target, FinishFocus));
    }

    /**
     * `unfocus`: only from `focused`; notifies `returning` and heads back to
     * the identity transform (at once with reduced motion).
     */
    method Unfocus()
      requires Valid()
      modifies this
      ensures Valid()
      ensures old(state) != Focused ==>
        && state == old(state) && transform == old(transform) && pending == old(pending)
        && stateEvents == old(stateEvents) && animationEvents == old(animationEvents)
        && animationInProgress == old(animationInProgress)
      ensures old(state) == Focused ==>
        if reducedMotion then
          && state == Idle && transform == Identity && !animationInProgress && revealKeyboard
          && focusedTileId == Null && focusedTile == None
          && stateEvents == old(stateEvents) + [StateEvent(Returning, old(focusedTileId)), StateEvent(Idle, Null)]
          && animationEvents == old(animationEvents) + [AnimationEvent("zoom-out", "start"), AnimationEvent("zoom-out", "end")]
        else
          && state == Returning && transform == old(transform) && !animationInProgress
          && pending == Some(Animation(old(transform), Identity, FinishUnfocus))
          && focusedTileId == old(focusedTileId)
          && stateEvents == old(stateEvents) + [StateEvent(Returning, old(focusedTileId))]
          && animationEvents == old(animationEvents) + [AnimationEvent("zoom-out", "start")]
    {
      if state != Focused {
        return;
      }
      state := Returning;
      stateEvents := stateEvents + [StateEvent(Returning, focusedTileId)];
      animationEvents := animationEvents + [AnimationEvent("zoom-out", "start")];
      if reducedMotion {
        transform := Identity;
        FinishUnfocusStep();
        return;
      }
      pending := Some(Animation(transform, Identity, FinishUnfocus));
    }

    /** `finishUnfocus`: back to idle, the tile forgotten, the keyboard unlocked. */
    method FinishUnfocusStep()
      modifies this
      ensures state == Idle && focusedTileId == Null && focusedTile == None
      ensures !animationInProgress && revealKeyboard && pending == None
      ensures transform == old(transform)
      ensures stateEvents == old(stateEvents) + [StateEvent(Idle, Null)]
      ensures animationEvents == old(animationEvents) + [AnimationEvent("zoom-out", "end")]
    {
      state := Idle;
      focusedTileId := Null;
      focusedTile := None;
      animationInProgress := false;
      pending := None;
      stateEvents := stateEvents + [StateEvent(Idle, Null)];
      animationEvents := animationEvents + [AnimationEvent("zoom-out", "end")];
      revealKeyboard := true;
    }

    /**
     * One frame of `runCameraAnimation` at `progress` (already capped at 1)
     * with `eased` the eased progress: before the end the transform is
     * interpolated; at the end it is exactly the target, the animation flag
     * is cleared and the completion callback runs.
     */
    method AnimationFrame(progress: real, eased: real)
      requires Valid()
      modifies this
      ensures Valid()
      ensures old(pending).None? ==>
        && state == old(state) && transform == old(transform) && pending == None
        && stateEvents == old(stateEvents) && animationEvents == old(animationEvents)
      ensures old(pending).Some? && progress < 1.0 ==>
        && state == old(state) && pending == old(pending)
        && transform == Interpolate(old(pending).value.from, old(pending).value.to, eased)
        && stateEvents == old(stateEvents) && animationEvents == old(animationEvents)
      ensures old(pending).Some? && progress >= 1.0 ==>
        && transform == old(pending).value.to && !animationInProgress && pending == None
        && (old(state) == Focusing ==>
              && state == Focused && focusedTileId == old(focusedTileId)
              && stateEvents == old(stateEvents) + [StateEvent(Focused, old(focusedTileId))]
              && animationEvents == old(animationEvents) + [AnimationEvent("zoom-in", "end")])
        && (old(state) == Returning ==>
              && state == Idle && focusedTileId == Null && revealKeyboard
              && stateEvents == old(stateEvents) + [StateEvent(Idle, Null)]
              && animationEvents == old(animationEvents) + [AnimationEvent("zoom-out", "end")])
    {
      if pending.None? {
        return;
      }
      var anim := pending.value;
      transform := Interpolate(anim.from, anim.to, eased);
      if progress < 1.0 {
        return;
      }
      transform := anim.to;
      animationInProgress := false;
      pending := None;
      match anim.onComplete
      case FinishFocus =>
        state := Focused;
        stateEvents := stateEvents + [StateEvent(Focused, focusedTileId)];
        animationEvents := animationEvents + [AnimationEvent("zoom-in", "end")];
      case FinishUnfocus =>
        FinishUnfocusStep();
    }
  }
}

=== FILE: dom.dfy ===
/**
 * The part of the DOM the editor and the exporter work on, as values: an
 * element has a lower-case tag, its attributes other than `class`, its
 * class list (`None` when it has no `class` attribute) and its children;
 * a text node has its text. A forest is the children of some node, in
 * document order.
 */
module Dom {
  import opened Text

  datatype Node =
    | TextNode(text: string)
    | Element(tag: string, attrs: map<string, string>, classes: Option<seq<string>>, children: seq<Node>)

  /** `el.classList.contains(c)`. */
  predicate HasClass(n: Node, c: string) {
    n.Element? && n.classes.Some? && c in n.classes.value
  }

  /** No class occurs twice. */
  predicate Distinct(cs: seq<string>) {
    forall i, j :: 0 <= i < j < |cs| ==> cs[i] != cs[j]
  }

  /**
   * The ordered set a `DOMTokenList` keeps of a class attribute: each class
   * once, where it first occurs. `classList.add` and `classList.remove`
   * write this set back, so they also drop repeated classes.
   */
  function Dedup(cs: seq<string>): (r: seq<string>)
    ensures forall x :: x in r <==> x in cs
    ensures Distinct(r)
    ensures Distinct(cs) ==> r == cs
    decreases |cs|
  {
    if cs == [] then []
    else
      var init := cs[..|cs| - 1];
      var last := cs[|cs| - 1];
      assert cs == init + [last];
      var d := Dedup(init);
      assert Distinct(cs) ==> Distinct(init) && last !in init;
      if last in d then d else d + [last]
  }

  predicate HasTag(n: Node, tag: string) {
    n.Element? && n.tag == tag
  }

  /** `textContent` of a forest: its text nodes, in document order. */
  function TextContent(ns: seq<Node>): string
    decreases ns
  {
    if ns == [] then ""
    else match ns[0]
      case TextNode(t) => t + TextContent(ns[1..])
      case Element(_, _, _, cs) => TextContent(cs) + TextContent(ns[1..])
  }

  /** `P` holds of every node of the forest, at every depth. */
  predicate Every(ns: seq<Node>, P: Node -> bool)
    decreases ns
  {
    ns == [] ||
    match ns[0]
    case TextNode(_) => P(ns[0]) && Every(ns[1..], P)
    case Element(_, _, _, cs) => P(ns[0]) && Every(cs, P) && Every(ns[1..], P)
  }

  /** The elements that are direct children (`el.children`). */
  function ElementChildren(ns: seq<Node>): (es: seq<Node>)
    ensures |es| <= |ns|
    ensures forall i :: 0 <= i < |es| ==> es[i].Element? && es[i] in ns
    ensures (forall i :: 0 <= i < |ns| ==> !ns[i].Element?) ==> es == []
  {
    if ns == [] then []
    else if ns[0].Element? then [ns[0]] + ElementChildren(ns[1..])
    else ElementChildren(ns[1..])
  }

  /** `querySelector`: the first node of the forest in document order that `P` accepts. */
  function FirstMatch(ns: seq<Node>, P: Node -> bool): (r: Option<Node>)
    ensures r.Some? ==> P(r.value)
    ensures r.None? <==> Every(ns, n => !P(n))
    decreases ns
  {
    if ns == [] then None
    else if P(ns[0]) then Some(ns[0])
    else match ns[0]
      case TextNode(_) => FirstMatch(ns[1..], P)
      case Element(_, _, _, cs) =>
        var inner := FirstMatch(cs, P);
        if inner.Some? then inner else FirstMatch(ns[1..], P)
  }
  /** The direct children `P` accepts, in order (`Array.from(el.children).filter(P)`). */
  function ChildrenWhere(ns: seq<Node>, P: Node -> bool): (r: seq<Node>)
    ensures |r| <= |ns|
    ensures forall i :: 0 <= i < |r| ==> P(r[i])
    decreases ns
  {
    if ns == [] then []
    else
      var rest := ChildrenWhere(ns[1..], P);
      if P(ns[0]) then
        assert forall i :: 0 < i < |rest| + 1 ==> ([ns[0]] + rest)[i] == rest[i - 1];
        [ns[0]] + rest
      else rest
  }

  /** The filter keeps exactly the children `P` accepts. */
  lemma {:induction false} ChildrenWhereMembers(ns: seq<Node>, P: Node -> bool)
    ensures forall n :: n in ChildrenWhere(ns, P) <==> n in ns && P(n)
    decreases ns
  {
    if ns != [] {
      ChildrenWhereMembers(ns[1..], P);
      assert forall n :: n in ns <==> n == ns[0] || n in ns[1..];
    }
  }

  /**
   * The filter keeps document order: it distributes over concatenation, and
   * keeps a single child exactly when `P` accepts it.
   */
  lemma {:induction false} ChildrenWhereAppend(a: seq<Node>, b: seq<Node>, P: Node -> bool)
    ensures ChildrenWhere(a + b, P) == ChildrenWhere(a, P) + ChildrenWhere(b, P)
    ensures |a| == 1 ==> ChildrenWhere(a, P) == (if P(a[0]) then a else [])
    decreases a
  {
    if a == [] {
      assert a + b == b;
    } else {
      assert (a + b)[0] == a[0];
      assert (a + b)[1..] == a[1..] + b;
      ChildrenWhereAppend(a[1..], b, P);
      if |a| == 1 {
        assert a[1..] == [];
      }
    }
  }

  /** Node by node, `textContent` of a concatenation is the concatenation. */
  lemma {:induction false} TextContentAppend(a: seq<Node>, b: seq<Node>)
    ensures TextContent(a + b) == TextContent(a) + TextContent(b)
    decreases a
  {
    if a != [] {
      assert (a + b)[0] == a[0];
      assert (a + b)[1..] == a[1..] + b;
      TextContentAppend(a[1..], b);
    } else {
      assert a + b == b;
    }
  }

  lemma {:induction false} EveryAppend(a: seq<Node>, b: seq<Node>, P: Node -> bool)
    ensures Every(a + b, P) <==> Every(a, P) && Every(b, P)
    decreases a
  {
    if a != [] {
      assert (a + b)[0] == a[0];
      assert (a + b)[1..] == a[1..] + b;
      EveryAppend(a[1..], b, P);
    } else {
      assert a + b == b;
    }
  }

  /** A property weaker than one that holds everywhere also holds everywhere. */
  lemma {:induction false} EveryWeaken(ns: seq<Node>, P: Node -> bool, Q: Node -> bool)
    requires Every(ns, P)
    requires forall n :: P(n) ==> Q(n)
    ensures Every(ns, Q)
    decreases ns
  {
    if ns != [] {
      match ns[0]
      case TextNode(_) => EveryWeaken(ns[1..], P, Q);
      case Element(_, _, _, cs) =>
        EveryWeaken(cs, P, Q);
        EveryWeaken(ns[1..], P, Q);
    }
  }

  /** An element without its children: what a selector or an attribute step looks at. */
  function Shell(n: Node): (s: Node)
    ensures s.Element? <==> n.Element?
    ensures n.Element? ==> s == Element(n.tag, n.attrs, n.classes, [])
  {
    match n
    case TextNode(_) => n
    case Element(t, a, c, _) => Element(t, a, c, [])
  }

  /** `Q` holds of the tag, attributes and classes of every element of the forest. */
  predicate EveryElement(ns: seq<Node>, Q: Node -> bool)
    decreases ns
  {
    ns == [] ||
    match ns[0]
    case TextNode(_) => EveryElement(ns[1..], Q)
    case Element(t, a, c, cs) => Q(Element(t, a, c, [])) && EveryElement(cs, Q) && EveryElement(ns[1..], Q)
  }

  lemma {:induction false} EveryElementAppend(a: seq<Node>, b: seq<Node>, Q: Node -> bool)
    ensures EveryElement(a + b, Q) <==> EveryElement(a, Q) && EveryElement(b, Q)
    decreases a
  {
    if a != [] {
      assert (a + b)[0] == a[0];
      assert (a + b)[1..] == a[1..] + b;
      EveryElementAppend(a[1..], b, Q);
    } else {
      assert a + b == b;
    }
  }

  lemma {:induction false} EveryElementWeaken(ns: seq<Node>, P: Node -> bool, Q: Node -> bool)
    requires EveryElement(ns, P)
    requires forall n :: P(n) ==> Q(n)
    ensures EveryElement(ns, Q)
    decreases ns
  {
    if ns != [] {
      match ns[0]
      case TextNode(_) => EveryElementWeaken(ns[1..], P, Q);
      case Element(_, _, _, cs) =>
        EveryElementWeaken(cs, P, Q);
        EveryElementWeaken(ns[1..], P, Q);
    }
  }

  /**
   * An attribute or class step applied to every element: `g` maps an
   * element shell to an element shell, and the children are rewritten the
   * same way.
   */
  ghost predicate ShellStep(g: Node -> Node) {
    forall t, a, c :: g(Element(t, a, c, [])).Element? && g(Element(t, a, c, [])).children == []
  }

  function MapElements(ns: seq<Node>, g: Node -> Node): (r: seq<Node>)
    requires ShellStep(g)
    ensures |r| == |ns|
    decreases ns
  {
    if ns == [] then []
    else match ns[0]
      case TextNode(_) => [ns[0]] + MapElements(ns[1..], g)
      case Element(t, a, c, cs) =>
        var s := g(Element(t, a, c, []));
        [Element(s.tag, s.attrs, s.classes, MapElements(cs, g))] + MapElements(ns[1..], g)
  }

  /** A step whose result always satisfies `Q` leaves every element satisfying `Q`. */
  lemma {:induction false} MapElementsEstablishes(ns: seq<Node>, g: Node -> Node, Q: Node -> bool)
    requires ShellStep(g)
    requires forall t, a, c :: Q(g(Element(t, a, c, [])))
    ensures EveryElement(MapElements(ns, g), Q)
    decreases ns
  {
    if ns != [] {
      var r := MapElements(ns, g);
      match ns[0]
      case TextNode(_) =>
        MapElementsEstablishes(ns[1..], g, Q);
        assert r[1..] == MapElements(ns[1..], g);
      case Element(t, a, c, cs) =>
        MapElementsEstablishes(cs, g, Q);
        MapElementsEstablishes(ns[1..], g, Q);
        var s := g(Element(t, a, c, []));
        assert Element(s.tag, s.attrs, s.classes, []) == s;
        assert r[1..] == MapElements(ns[1..], g);
    }
  }

  /** A step that keeps `Q` keeps it on every element. */
  lemma {:induction false} MapElementsPreserves(ns: seq<Node>, g: Node -> Node, Q: Node -> bool)
    requires ShellStep(g)
    requires forall t, a, c :: Q(Element(t, a, c, [])) ==> Q(g(Element(t, a, c, [])))
    requires EveryElement(ns, Q)
    ensures EveryElement(MapElements(ns, g), Q)
    decreases ns
  {
    if ns != [] {
      var r := MapElements(ns, g);
      match ns[0]
      case TextNode(_) =>
        MapElementsPreserves(ns[1..], g, Q);
        assert r[1..] == MapElements(ns[1..], g);
      case Element(t, a, c, cs) =>
        MapElementsPreserves(cs, g, Q);
        MapElementsPreserves(ns[1..], g, Q);
        var s := g(Element(t, a, c, []));
        assert Element(s.tag, s.attrs, s.classes, []) == s;
        assert r[1..] == MapElements(ns[1..], g);
    }
  }

  /** A step that turns `Q` into `R` on each element turns a forest satisfying `Q` into one satisfying `R`. */
  lemma {:induction false} MapElementsTransforms(ns: seq<Node>, g: Node -> Node, Q: Node -> bool, R: Node -> bool)
    requires ShellStep(g)
    requires forall t, a, c :: Q(Element(t, a, c, [])) ==> R(g(Element(t, a, c, [])))
    requires EveryElement(ns, Q)
    ensures EveryElement(MapElements(ns, g), R)
    decreases ns
  {
    if ns != [] {
      var r := MapElements(ns, g);
      match ns[0]
      case TextNode(_) =>
        MapElementsTransforms(ns[1..], g, Q, R);
        assert r[1..] == MapElements(ns[1..], g);
      case Element(t, a, c, cs) =>
        MapElementsTransforms(cs, g, Q, R);
        MapElementsTransforms(ns[1..], g, Q, R);
        var s := g(Element(t, a, c, []));
        assert Element(s.tag, s.attrs, s.classes, []) == s;
        assert r[1..] == MapElements(ns[1..], g);
    }
  }

  /** An attribute or class step leaves the text alone. */
  lemma {:induction false} MapElementsKeepsText(ns: seq<Node>, g: Node -> Node)
    requires ShellStep(g)
    ensures TextContent(MapElements(ns, g)) == TextContent(ns)
    decreases ns
  {
    if ns != [] {
      var r := MapElements(ns, g);
      assert r[1..] == MapElements(ns[1..], g);
      match ns[0]
      case TextNode(_) =>
        MapElementsKeepsText(ns[1..], g);
      case Element(t, a, c, cs) =>
        MapElementsKeepsText(cs, g);
        MapElementsKeepsText(ns[1..], g);
    }
  }

  /** `el.remove()` for every element whose shell `P` accepts (with everything inside it). */
  function DropWhere(ns: seq<Node>, P: Node -> bool): (r: seq<Node>)
    ensures |r| <= |ns|
    decreases ns
  {
    if ns == [] then []
    else match ns[0]
      case TextNode(_) => [ns[0]] + DropWhere(ns[1..], P)
      case Element(t, a, c, cs) =>
        if P(Element(t, a, c, [])) then DropWhere(ns[1..], P)
        else [Element(t, a, c, DropWhere(cs, P))] + DropWhere(ns[1..], P)
  }

  /** After the removal every element left is one `P` rejects, so `Q` holds of it. */
  lemma {:induction false} DropWhereRemovesAll(ns: seq<Node>, P: Node -> bool, Q: Node -> bool)
    requires forall n :: !P(n) ==> Q(n)
    ensures EveryElement(DropWhere(ns, P), Q)
    decreases ns
  {
    if ns != [] {
      match ns[0]
      case TextNode(_) =>
        DropWhereRemovesAll(ns[1..], P, Q);
        assert DropWhere(ns, P)[1..] == DropWhere(ns[1..], P);
      case Element(t, a, c, cs) =>
        DropWhereRemovesAll(cs, P, Q);
        DropWhereRemovesAll(ns[1..], P, Q);
        if !P(Element(t, a, c, [])) {
          assert DropWhere(ns, P)[1..] == DropWhere(ns[1..], P);
        }
    }
  }

  /** Every element the removal keeps keeps its tag, attributes and classes. */
  lemma {:induction false} DropWherePreserves(ns: seq<Node>, P: Node -> bool, Q: Node -> bool)
    requires EveryElement(ns, Q)
    ensures EveryElement(DropWhere(ns, P), Q)
    decreases ns
  {
    if ns != [] {
      match ns[0]
      case TextNode(_) =>
        DropWherePreserves(ns[1..], P, Q);
        assert DropWhere(ns, P)[1..] == DropWhere(ns[1..], P);
      case Element(t, a, c, cs) =>
        DropWherePreserves(cs, P, Q);
        DropWherePreserves(ns[1..], P, Q);
        if !P(Element(t, a, c, [])) {
          assert DropWhere(ns, P)[1..] == DropWhere(ns[1..], P);
        }
    }
  }

  /** `querySelector(...)` followed by a change to the node found: `f` is applied to the first node `P` accepts. */
  function UpdateFirst(ns: seq<Node>, P: Node -> bool, f: Node -> Node): (r: seq<Node>)
    ensures |r| == |ns|
    ensures FirstMatch(ns, P).None? ==> r == ns
    decreases ns
  {
    if ns == [] then []
    else if P(ns[0]) then [f(ns[0])] + ns[1..]
    else match ns[0]
      case TextNode(_) => [ns[0]] + UpdateFirst(ns[1..], P, f)
      case Element(t, a, c, cs) =>
        if FirstMatch(cs, P).Some? then [Element(t, a, c, UpdateFirst(cs, P, f))] + ns[1..]
        else [ns[0]] + UpdateFirst(ns[1..], P, f)
  }

  /** If `f` keeps `Q` on the node it changes (children included), `Q` still holds everywhere. */
  lemma {:induction false} UpdateFirstPreserves(ns: seq<Node>, P: Node -> bool, f: Node -> Node, Q: Node -> bool)
    requires forall n :: EveryElement([n], Q) ==> EveryElement([f(n)], Q)
    requires EveryElement(ns, Q)
    ensures EveryElement(UpdateFirst(ns, P, f), Q)
    decreases ns
  {
    if ns != [] {
      var r := UpdateFirst(ns, P, f);
      EveryElementAppend([ns[0]], ns[1..], Q);
      assert [ns[0]] + ns[1..] == ns;
      if P(ns[0]) {
        EveryElementAppend([f(ns[0])], ns[1..], Q);
      } else {
        match ns[0]
        case TextNode(_) =>
          UpdateFirstPreserves(ns[1..], P, f, Q);
          EveryElementAppend([ns[0]], UpdateFirst(ns[1..], P, f), Q);
        case Element(t, a, c, cs) =>
          if FirstMatch(cs, P).Some? {
            UpdateFirstPreserves(cs, P, f, Q);
            var e := Element(t, a, c, UpdateFirst(cs, P, f));
            assert EveryElement([e], Q) by {
              assert [e][1..] == [];
              assert [ns[0]][1..] == [];
            }
            EveryElementAppend([e], ns[1..], Q);
          } else {
            UpdateFirstPreserves(ns[1..], P, f, Q);
            EveryElementAppend([ns[0]], UpdateFirst(ns[1..], P, f), Q);
          }
      }
    }
  }

  /** A selector that looks only at an element's tag, attributes and classes, never at its content. */
  ghost predicate ShellPredicate(P: Node -> bool) {
    forall t, a, c, cs :: P(Element(t, a, c, cs)) == P(Element(t, a, c, []))
  }

  /** A change to the found node that keeps it a node of the same kind, with the same tag and children. */
  ghost predicate KeepsShape(f: Node -> Node) {
    forall n: Node :: (n.TextNode? ==> f(n) == n) && (n.Element? ==> f(n).Element? && f(n).tag == n.tag && f(n).children == n.children)
  }

  /** After the update, the same query finds the changed node. */
  lemma {:induction false} UpdateFirstAppliesToFirst(ns: seq<Node>, P: Node -> bool, f: Node -> Node)
    requires ShellPredicate(P)
    requires forall n :: P(n) ==> P(f(n))
    requires FirstMatch(ns, P).Some?
    ensures FirstMatch(UpdateFirst(ns, P, f), P) == Some(f(FirstMatch(ns, P).value))
    decreases ns
  {
    var r := UpdateFirst(ns, P, f);
    if P(ns[0]) {
      assert r[0] == f(ns[0]);
    } else {
      match ns[0]
      case TextNode(_) =>
        UpdateFirstAppliesToFirst(ns[1..], P, f);
        assert r[1..] == UpdateFirst(ns[1..], P, f);
      case Element(t, a, c, cs) =>
        if FirstMatch(cs, P).Some? {
          UpdateFirstAppliesToFirst(cs, P, f);
          assert P(Element(t, a, c, UpdateFirst(cs, P, f))) == P(Element(t, a, c, cs));
          assert r[0] == Element(t, a, c, UpdateFirst(cs, P, f));
        } else {
          UpdateFirstAppliesToFirst(ns[1..], P, f);
          assert r[1..] == UpdateFirst(ns[1..], P, f);
        }
    }
  }

  /** A shape-keeping update keeps the text of the forest. */
  lemma {:induction false} UpdateFirstKeepsText(ns: seq<Node>, P: Node -> bool, f: Node -> Node)
    requires KeepsShape(f)
    ensures TextContent(UpdateFirst(ns, P, f)) == TextContent(ns)
    decreases ns
  {
    if ns != [] {
      var r := UpdateFirst(ns, P, f);
      if P(ns[0]) {
        assert r[1..] == ns[1..];
      } else {
        match ns[0]
        case TextNode(_) =>
          UpdateFirstKeepsText(ns[1..], P, f);
          assert r[1..] == UpdateFirst(ns[1..], P, f);
        case Element(t, a, c, cs) =>
          if FirstMatch(cs, P).Some? {
            UpdateFirstKeepsText(cs, P, f);
            assert r[1..] == ns[1..];
          } else {
            UpdateFirstKeepsText(ns[1..], P, f);
            assert r[1..] == UpdateFirst(ns[1..], P, f);
          }
      }
    }
  }

  /** ... and leaves a forest with element children exactly when it had them. */
  lemma {:induction false} UpdateFirstKeepsElements(ns: seq<Node>, P: Node -> bool, f: Node -> Node)
    requires KeepsShape(f)
    ensures ElementChildren(UpdateFirst(ns, P, f)) == [] <==> ElementChildren(ns) == []
    decreases ns
  {
    if ns != [] {
      var r := UpdateFirst(ns, P, f);
      assert r[0].Element? == ns[0].Element?;
      if !ns[0].Element? {
        if P(ns[0]) {
          assert r[1..] == ns[1..];
        } else {
          UpdateFirstKeepsElements(ns[1..], P, f);
          assert r[1..] == UpdateFirst(ns[1..], P, f);
        }
      }
    }
  }
}

=== FILE: export.dfy ===
/**
 * The two export pipelines: `exportHTML()` of `js/modules/export-html.js`
 * and of `src/editor.js`. Both clone the page, strip Reveal's runtime
 * markup, the editor's own controls, the editing markers and Office
 * markup, take `edit-mode` off the body and post the result to the save
 * server.
 *
 * The clone is the forest of children of `<html>`; every step is a value
 * rewrite of that forest. The server's reply is a parameter.
 */
module Export {
  import opened Text
  import opened Dom
  import opened Sanitizer
  import opened WebStorage
  import Storage

  // ---------------------------------------------------------------------
  // cleanupRevealRuntime
  // ---------------------------------------------------------------------

  /** The containers Reveal injects at run time. */
  const RevealRuntimeClasses: seq<string> :=
    ["backgrounds", "progress", "controls", "slide-number", "speaker-notes", "pause-overlay", "aria-status"]

  /** Section attributes that only hold Reveal's navigation state. */
  const SectionRuntimeAttributes: set<string> := {"style", "data-index-h", "data-index-v", "data-previous-indexv"}

  /** The element carries one of the given classes (a selector list of class selectors). */
  predicate HasAnyClass(n: Node, names: seq<string>) {
    exists c :: c in names && HasClass(n, c)
  }

  predicate IsRevealRuntime(n: Node) {
    HasAnyClass(n, RevealRuntimeClasses)
  }

  predicate NotRevealRuntime(n: Node) {
    !IsRevealRuntime(n)
  }

  predicate IsReveal(n: Node) {
    HasClass(n, "reveal")
  }

  predicate IsSlides(n: Node) {
    HasClass(n, "slides")
  }

  predicate IsSection(n: Node) {
    HasTag(n, "section")
  }

  /** `removeAttribute` for each of `names`. */
  function WithoutAttributes(n: Node, names: set<string>): (r: Node)
    ensures r.Element? ==> r.attrs.Keys !! names
    ensures r.Element? <==> n.Element?
    ensures n.Element? ==> r == Element(n.tag, n.attrs - names, n.classes, n.children)
  {
    match n
    case TextNode(_) => n
    case Element(t, a, c, cs) => Element(t, a - names, c, cs)
  }

  /** What the section loop does to one element: a section loses its runtime attributes. */
  function ClearSectionState(n: Node): Node {
    if IsSection(n) then WithoutAttributes(n, SectionRuntimeAttributes) else n
  }

  predicate HasNoSectionState(n: Node) {
    IsSection(n) ==> n.attrs.Keys !! SectionRuntimeAttributes
  }

  /**
   * `.slides` loses its `style`, and every section inside it its runtime
   * attributes; it keeps its tag and classes, and its text is unchanged.
   */
  function CleanSlides(slides: Node): (r: Node)
    ensures r.Element? <==> slides.Element?
    ensures slides.Element? ==> "style" !in r.attrs && r.tag == slides.tag && r.classes == slides.classes
    ensures slides.Element? ==> EveryElement(r.children, HasNoSectionState)
    ensures slides.Element? ==> TextContent(r.children) == TextContent(slides.children)
  {
    match slides
    case TextNode(_) => slides
    case Element(t, a, c, cs) =>
      ClearSectionStateIsAShellStep();
      MapElementsEstablishes(cs, ClearSectionState, HasNoSectionState);
      MapElementsKeepsText(cs, ClearSectionState);
      Element(t, a - {"style"}, c, MapElements(cs, ClearSectionState))
  }

  /**
   * The first `.reveal` loses the runtime containers inside it and its
   * `style`; then the first `.slides` inside what is left is cleaned.
   */
  function CleanReveal(deck: Node): (r: Node)
    ensures r.Element? <==> deck.Element?
    ensures deck.Element? ==> "style" !in r.attrs && r.tag == deck.tag && r.classes == deck.classes
  {
    match deck
    case TextNode(_) => deck
    case Element(t, a, c, cs) =>
      Element(t, a - {"style"}, c, UpdateFirst(DropWhere(cs, IsRevealRuntime), IsSlides, CleanSlides))
  }

  /** `cleanupRevealRuntime(root)`: a page without `.reveal` is left as it is. */
  function CleanupRevealRuntime(root: seq<Node>): (r: seq<Node>)
    ensures FirstMatch(root, IsReveal).None? ==> r == root
    ensures |r| == |root|
  {
    UpdateFirst(root, IsReveal, CleanReveal)
  }

  lemma ClearSectionStateIsAShellStep()
    ensures ShellStep(ClearSectionState)
    ensures forall t, a, c :: HasNoSectionState(ClearSectionState(Element(t, a, c, [])))
  {
  }

  lemma CleanSlidesKeepsRuntimeFree(n: Node)
    requires EveryElement([n], NotRevealRuntime)
    ensures EveryElement([CleanSlides(n)], NotRevealRuntime)
  {
    match n
    case TextNode(_) =>
    case Element(t, a, c, cs) =>
      assert [n][1..] == [];
      ClearSectionStateIsAShellStep();
      MapElementsPreserves(cs, ClearSectionState, NotRevealRuntime);
      assert [CleanSlides(n)][1..] == [];
  }

  /**
   * Inside the cleaned `.reveal` there is no runtime container and no
   * `style` on it, and the first `.slides` left is the cleaned one.
   */
  lemma CleanRevealClears(deck: Node)
    requires deck.Element?
    ensures CleanReveal(deck).Element? && "style" !in CleanReveal(deck).attrs
    ensures EveryElement(CleanReveal(deck).children, NotRevealRuntime)
    ensures var kept := DropWhere(deck.children, IsRevealRuntime);
      FirstMatch(kept, IsSlides).Some? ==>
        FirstMatch(CleanReveal(deck).children, IsSlides) == Some(CleanSlides(FirstMatch(kept, IsSlides).value))
  {
    var kept := DropWhere(deck.children, IsRevealRuntime);
    DropWhereRemovesAll(deck.children, IsRevealRuntime, NotRevealRuntime);
    forall n | EveryElement([n], NotRevealRuntime)
      ensures EveryElement([CleanSlides(n)], NotRevealRuntime)
    {
      CleanSlidesKeepsRuntimeFree(n);
    }
    UpdateFirstPreserves(kept, IsSlides, CleanSlides, NotRevealRuntime);
    if FirstMatch(kept, IsSlides).Some? {
      UpdateFirstAppliesToFirst(kept, IsSlides, CleanSlides);
    }
  }

  /** After the cleanup the first `.reveal` of the page is the cleaned one. */
  lemma CleanupCleansTheFirstReveal(root: seq<Node>)
    requires FirstMatch(root, IsReveal).Some?
    ensures FirstMatch(CleanupRevealRuntime(root), IsReveal) == Some(CleanReveal(FirstMatch(root, IsReveal).value))
  {
    UpdateFirstAppliesToFirst(root, IsReveal, CleanReveal);
  }

  /** A property that removing `style` or the section attributes cannot break. */
  ghost predicate SurvivesAttributeRemoval(Q: Node -> bool) {
    forall t, a, c :: Q(Element(t, a, c, [])) ==>
      Q(Element(t, a - {"style"}, c, [])) && Q(Element(t, a - SectionRuntimeAttributes, c, []))
  }

  lemma CleanSlidesPreserves(n: Node, Q: Node -> bool)
    requires SurvivesAttributeRemoval(Q)
    requires EveryElement([n], Q)
    ensures EveryElement([CleanSlides(n)], Q)
  {
    match n
    case TextNode(_) =>
    case Element(t, a, c, cs) =>
      assert [n][1..] == [];
      ClearSectionStateIsAShellStep();
      MapElementsPreserves(cs, ClearSectionState, Q);
      assert Q(Element(t, a - {"style"}, c, []));
      assert [CleanSlides(n)][1..] == [];
  }

  lemma CleanRevealPreserves(n: Node, Q: Node -> bool)
    requires SurvivesAttributeRemoval(Q)
    requires EveryElement([n], Q)
    ensures EveryElement([CleanReveal(n)], Q)
  {
    match n
    case TextNode(_) =>
    case Element(t, a, c, cs) =>
      assert [n][1..] == [];
      var kept := DropWhere(cs, IsRevealRuntime);
      DropWherePreserves(cs, IsRevealRuntime, Q);
      forall m | EveryElement([m], Q)
        ensures EveryElement([CleanSlides(m)], Q)
      {
        CleanSlidesPreserves(m, Q);
      }
      UpdateFirstPreserves(kept, IsSlides, CleanSlides, Q);
      assert Q(Element(t, a - {"style"}, c, []));
      assert [CleanReveal(n)][1..] == [];
  }

  /** The cleanup only removes nodes and attributes: what survives attribute removal survives it. */
  lemma CleanupPreserves(root: seq<Node>, Q: Node -> bool)
    requires SurvivesAttributeRemoval(Q)
    requires EveryElement(root, Q)
    ensures EveryElement(CleanupRevealRuntime(root), Q)
  {
    forall n | EveryElement([n], Q)
      ensures EveryElement([CleanReveal(n)], Q)
    {
      CleanRevealPreserves(n, Q);
    }
    UpdateFirstPreserves(root, IsReveal, CleanReveal, Q);
  }

  // ---------------------------------------------------------------------
  // Editor controls, editing markers, the body class
  // ---------------------------------------------------------------------

  /** The editor controls each file removes from the clone. */
  datatype Exporter = ExportHtmlModule | EditorModule

  /** `js/modules/export-html.js` removes these (two selector lists, one after the other). */
  const ExportHtmlUiClasses: seq<string> :=
    ["editor-controls", "edit-slide-btn", "editor-modal", "editor-hint", "floating-edit-toggle",
     "edit-mode-switch", "floating-action-btn", "notification-toast", "nav-box-overlay", "student-selector-wrapper"]

  /** `src/editor.js` removes only these. */
  const EditorUiClasses: seq<string> :=
    ["editor-controls", "edit-slide-btn", "editor-modal", "editor-hint", "notification-toast", "nav-box-overlay"]

  predicate IsExportHtmlUi(n: Node) {
    HasAnyClass(n, ExportHtmlUiClasses)
  }

  predicate IsEditorUi(n: Node) {
    HasAnyClass(n, EditorUiClasses)
  }

  predicate NotExportHtmlUi(n: Node) {
    !IsExportHtmlUi(n)
  }

  predicate NotEditorUi(n: Node) {
    !IsEditorUi(n)
  }

  /**
   * The two removal passes; removing in two passes removes what one pass
   * over both lists would. No control of the file's list is left, and the
   * list of `src/editor.js` is part of the other.
   */
  function RemoveEditorControls(root: seq<Node>, exporter: Exporter): (r: seq<Node>)
    ensures EveryElement(r, NotEditorUi)
    ensures exporter == ExportHtmlModule ==> EveryElement(r, NotExportHtmlUi)
  {
    match exporter
    case ExportHtmlModule =>
      assert forall c :: c in EditorUiClasses ==> c in ExportHtmlUiClasses;
      DropWhereRemovesAll(root, IsExportHtmlUi, NotExportHtmlUi);
      DropWhereRemovesAll(root, IsExportHtmlUi, NotEditorUi);
      DropWhere(root, IsExportHtmlUi)
    case EditorModule =>
      DropWhereRemovesAll(root, IsEditorUi, NotEditorUi);
      DropWhere(root, IsEditorUi)
  }

  /**
   * `classList.remove(token)`: an element without a class attribute gets
   * none; on a list without repeats exactly the token's occurrence goes
   * and the order is kept (`RemoveTokenSplices`).
   */
  function RemoveClass(classes: Option<seq<string>>, token: string): (r: Option<seq<string>>)
    ensures r.None? <==> classes.None?
    ensures r.Some? ==> token !in r.value && forall x :: x != token ==> (x in r.value <==> x in classes.value)
    ensures r.Some? ==> Distinct(r.value)
    ensures classes.Some? && Distinct(classes.value) ==> r.value == DropToken(classes.value, token)
  {
    match classes
    case None => None
    case Some(cs) => Some(RemoveToken(cs, token))
  }

  /** The `[contenteditable]` loop on one element. */
  function StripEditable(n: Node): Node {
    match n
    case TextNode(_) => n
    case Element(t, a, c, cs) =>
      if "contenteditable" in a then Element(t, a - {"contenteditable"}, RemoveClass(c, "editable-field"), cs) else n
  }

  /**
   * Every `contenteditable` attribute goes, and with it the
   * `editable-field` class of that element. No `contenteditable` is left;
   * where the class only came with the attribute, no `editable-field`
   * class is left either, and the text is kept.
   */
  function StripEditing(root: seq<Node>): (r: seq<Node>)
    ensures EveryElement(r, NotEditable)
    ensures EveryElement(root, MarkedTogether) ==> EveryElement(r, NoEditableClass)
    ensures TextContent(r) == TextContent(root)
  {
    assert ShellStep(StripEditable);
    MapElementsEstablishes(root, StripEditable, NotEditable);
    if EveryElement(root, MarkedTogether) then
      MapElementsTransforms(root, StripEditable, MarkedTogether, NoEditableClass);
      MapElementsKeepsText(root, StripEditable);
      MapElements(root, StripEditable)
    else
      MapElementsKeepsText(root, StripEditable);
      MapElements(root, StripEditable)
  }

  predicate NotEditable(n: Node) {
    n.Element? ==> "contenteditable" !in n.attrs
  }

  /** What `makeEditable` keeps true: the class is only ever added together with the attribute. */
  predicate MarkedTogether(n: Node) {
    HasClass(n, "editable-field") ==> "contenteditable" in n.attrs
  }

  predicate NoEditableClass(n: Node) {
    !HasClass(n, "editable-field")
  }

  predicate IsBody(n: Node) {
    HasTag(n, "body")
  }

  function LeaveEditMode(n: Node): Node {
    match n
    case TextNode(_) => n
    case Element(t, a, c, cs) => Element(t, a, RemoveClass(c, "edit-mode"), cs)
  }

  /** `clone.querySelector('body')?.classList.remove('edit-mode')`. */
  function RemoveEditModeClass(root: seq<Node>): (r: seq<Node>)
    ensures FirstMatch(root, IsBody).None? ==> r == root
  {
    UpdateFirst(root, IsBody, LeaveEditMode)
  }

  /** The body the export finds afterwards no longer has the `edit-mode` class. */
  lemma BodyLeavesEditMode(root: seq<Node>)
    ensures FirstMatch(RemoveEditModeClass(root), IsBody).Some? ==>
      !HasClass(FirstMatch(RemoveEditModeClass(root), IsBody).value, "edit-mode")
  {
    if FirstMatch(root, IsBody).Some? {
      UpdateFirstAppliesToFirst(root, IsBody, LeaveEditMode);
    }
  }

  /** A property the body step cannot break: it only takes a class away. */
  ghost predicate SurvivesClassRemoval(Q: Node -> bool) {
    forall t, a, c, token :: Q(Element(t, a, c, [])) ==> Q(Element(t, a, RemoveClass(c, token), []))
  }

  lemma LeaveEditModeKeepsShape()
    ensures KeepsShape(LeaveEditMode)
  {
  }

  lemma RemoveEditModeClassPreserves(root: seq<Node>, Q: Node -> bool)
    requires SurvivesClassRemoval(Q)
    requires EveryElement(root, Q)
    ensures EveryElement(RemoveEditModeClass(root), Q)
  {
    forall n | EveryElement([n], Q)
      ensures EveryElement([LeaveEditMode(n)], Q)
    {
      match n
      case TextNode(_) =>
      case Element(t, a, c, cs) =>
        assert [n][1..] == [];
        assert [LeaveEditMode(n)][1..] == [];
        assert Q(Element(t, a, RemoveClass(c, "edit-mode"), []));
    }
    UpdateFirstPreserves(root, IsBody, LeaveEditMode, Q);
  }

  // ---------------------------------------------------------------------
  // The pipelines
  // ---------------------------------------------------------------------

  /** Every class of `after` is a class of `before`. */
  ghost predicate FewerClasses(before: Node, after: Node) {
    forall x :: HasClass(after, x) ==> HasClass(before, x)
  }

  lemma HasAnyClassShrinks(before: Node, after: Node, names: seq<string>)
    requires FewerClasses(before, after)
    requires HasAnyClass(after, names)
    ensures HasAnyClass(before, names)
  {
    var c :| c in names && HasClass(after, c);
    assert HasClass(before, c);
  }

  lemma MsoNormalStepShrinks(n: Node)
    ensures FewerClasses(n, MsoNormalStep(n))
  {
  }

  /** The Office purge keeps the clone free of controls and editing markers. */
  lemma PurgeKeepsExportFacts()
    ensures KeptByAttributeSteps(NotEditorUi)
    ensures KeptByAttributeSteps(NotExportHtmlUi)
    ensures KeptByAttributeSteps(NotEditable)
    ensures KeptByAttributeSteps(NoEditableClass)
  {
    forall n | NotEditorUi(n)
      ensures NotEditorUi(MsoNormalStep(n))
    {
      MsoNormalStepShrinks(n);
      if IsEditorUi(MsoNormalStep(n)) {
        HasAnyClassShrinks(n, MsoNormalStep(n), EditorUiClasses);
      }
    }
    forall n | NotExportHtmlUi(n)
      ensures NotExportHtmlUi(MsoNormalStep(n))
    {
      MsoNormalStepShrinks(n);
      if IsExportHtmlUi(MsoNormalStep(n)) {
        HasAnyClassShrinks(n, MsoNormalStep(n), ExportHtmlUiClasses);
      }
    }
    forall n | NoEditableClass(n)
      ensures NoEditableClass(MsoNormalStep(n))
    {
      MsoNormalStepShrinks(n);
    }
  }

  lemma LeaveEditModeShrinks(t: string, a: map<string, string>, c: Option<seq<string>>, token: string)
    ensures FewerClasses(Element(t, a, c, []), Element(t, a, RemoveClass(c, token), []))
  {
  }

  /** Taking a class away cannot break any of the facts the export establishes. */
  lemma BodyStepKeepsExportFacts()
    ensures SurvivesClassRemoval(NotEditorUi)
    ensures SurvivesClassRemoval(NotExportHtmlUi)
    ensures SurvivesClassRemoval(NotEditable)
    ensures SurvivesClassRemoval(NoEditableClass)
    ensures SurvivesClassRemoval(NotOfficeParagraph)
    ensures SurvivesClassRemoval(HasCleanStyle)
    ensures SurvivesClassRemoval(HasNoMsoNormal)
  {
    forall t, a, c, token | NotEditorUi(Element(t, a, c, []))
      ensures NotEditorUi(Element(t, a, RemoveClass(c, token), []))
    {
      LeaveEditModeShrinks(t, a, c, token);
      if IsEditorUi(Element(t, a, RemoveClass(c, token), [])) {
        HasAnyClassShrinks(Element(t, a, c, []), Element(t, a, RemoveClass(c, token), []), EditorUiClasses);
      }
    }
    forall t, a, c, token | NotExportHtmlUi(Element(t, a, c, []))
      ensures NotExportHtmlUi(Element(t, a, RemoveClass(c, token), []))
    {
      LeaveEditModeShrinks(t, a, c, token);
      if IsExportHtmlUi(Element(t, a, RemoveClass(c, token), [])) {
        HasAnyClassShrinks(Element(t, a, c, []), Element(t, a, RemoveClass(c, token), []), ExportHtmlUiClasses);
      }
    }
    forall t, a, c, token | NoEditableClass(Element(t, a, c, []))
      ensures NoEditableClass(Element(t, a, RemoveClass(c, token), []))
    {
      LeaveEditModeShrinks(t, a, c, token);
    }
    forall t, a, c, token | HasNoMsoNormal(Element(t, a, c, []))
      ensures HasNoMsoNormal(Element(t, a, RemoveClass(c, token), []))
    {
      LeaveEditModeShrinks(t, a, c, token);
    }
  }

  /** What the clone that is posted satisfies. */
  predicate ReadyForExport(page: seq<Node>, r: seq<Node>, exporter: Exporter) {
    && EveryElement(r, NotEditorUi)
    && (exporter == ExportHtmlModule ==> EveryElement(r, NotExportHtmlUi))
    && EveryElement(r, NotEditable)
    && (EveryElement(page, MarkedTogether) ==> EveryElement(r, NoEditableClass))
    && EveryElement(r, NotOfficeParagraph)
    && EveryElement(r, HasCleanStyle)
    && EveryElement(r, HasNoMsoNormal)
    && !HasNested(r, false)
    && Every(r, NotEmptyParagraph)
    && (FirstMatch(r, IsBody).Some? ==> !HasClass(FirstMatch(r, IsBody).value, "edit-mode"))
  }

  /** The facts about the clone once the controls and the editing markers are gone. */
  predicate Unmarked(page: seq<Node>, r: seq<Node>, exporter: Exporter) {
    && EveryElement(r, NotEditorUi)
    && (exporter == ExportHtmlModule ==> EveryElement(r, NotExportHtmlUi))
    && EveryElement(r, NotEditable)
    && (EveryElement(page, MarkedTogether) ==> EveryElement(r, NoEditableClass))
  }

  lemma MarkedTogetherSurvivesRemoval(page: seq<Node>, exporter: Exporter)
    requires EveryElement(page, MarkedTogether)
    ensures EveryElement(RemoveEditorControls(CleanupRevealRuntime(page), exporter), MarkedTogether)
  {
    assert SurvivesAttributeRemoval(MarkedTogether);
    CleanupPreserves(page, MarkedTogether);
    var cleaned := CleanupRevealRuntime(page);
    match exporter
    case ExportHtmlModule => DropWherePreserves(cleaned, IsExportHtmlUi, MarkedTogether);
    case EditorModule => DropWherePreserves(cleaned, IsEditorUi, MarkedTogether);
  }

  lemma StripKeepsControlsOut(noUi: seq<Node>, exporter: Exporter)
    requires EveryElement(noUi, NotEditorUi)
    requires exporter == ExportHtmlModule ==> EveryElement(noUi, NotExportHtmlUi)
    ensures EveryElement(StripEditing(noUi), NotEditorUi)
    ensures exporter == ExportHtmlModule ==> EveryElement(StripEditing(noUi), NotExportHtmlUi)
  {
    assert ShellStep(StripEditable);
    MapElementsPreserves(noUi, StripEditable, NotEditorUi);
    if exporter == ExportHtmlModule {
      MapElementsPreserves(noUi, StripEditable, NotExportHtmlUi);
    }
  }

  lemma CleanedCloneIsUnmarked(page: seq<Node>, exporter: Exporter)
    ensures Unmarked(page, StripEditing(RemoveEditorControls(CleanupRevealRuntime(page), exporter)), exporter)
  {
    var noUi := RemoveEditorControls(CleanupRevealRuntime(page), exporter);
    StripKeepsControlsOut(noUi, exporter);
    if EveryElement(page, MarkedTogether) {
      MarkedTogetherSurvivesRemoval(page, exporter);
    }
  }

  lemma PurgedCloneIsUnmarked(page: seq<Node>, stripped: seq<Node>, purged: seq<Node>, exporter: Exporter)
    requires Unmarked(page, stripped, exporter)
    requires forall Q: Node -> bool :: KeptByAttributeSteps(Q) && EveryElement(stripped, Q) ==> EveryElement(purged, Q)
    ensures Unmarked(page, purged, exporter)
  {
    PurgeKeepsExportFacts();
  }

  lemma BodyStepKeepsUnmarked(page: seq<Node>, purged: seq<Node>, exporter: Exporter)
    requires Unmarked(page, purged, exporter)
    ensures Unmarked(page, RemoveEditModeClass(purged), exporter)
  {
    BodyStepKeepsExportFacts();
    RemoveEditModeClassPreserves(purged, NotEditorUi);
    if exporter == ExportHtmlModule {
      RemoveEditModeClassPreserves(purged, NotExportHtmlUi);
    }
    RemoveEditModeClassPreserves(purged, NotEditable);
    if EveryElement(page, MarkedTogether) {
      RemoveEditModeClassPreserves(purged, NoEditableClass);
    }
  }

  lemma BodyStepKeepsPurge(purged: seq<Node>)
    requires EveryElement(purged, NotOfficeParagraph)
    requires EveryElement(purged, HasCleanStyle)
    requires EveryElement(purged, HasNoMsoNormal)
    requires !HasNested(purged, false)
    requires Every(purged, NotEmptyParagraph)
    ensures EveryElement(RemoveEditModeClass(purged), NotOfficeParagraph)
    ensures EveryElement(RemoveEditModeClass(purged), HasCleanStyle)
    ensures EveryElement(RemoveEditModeClass(purged), HasNoMsoNormal)
    ensures !HasNested(RemoveEditModeClass(purged), false)
    ensures Every(RemoveEditModeClass(purged), NotEmptyParagraph)
  {
    BodyStepKeepsExportFacts();
    RemoveEditModeClassPreserves(purged, NotOfficeParagraph);
    RemoveEditModeClassPreserves(purged, HasCleanStyle);
    RemoveEditModeClassPreserves(purged, HasNoMsoNormal);
    LeaveEditModeKeepsShape();
    UpdateFirstKeepsNesting(purged, false, IsBody, LeaveEditMode);
    UpdateFirstKeepsNoEmpty(purged, IsBody, LeaveEditMode);
  }

  /** The clone as a value: each cleanup step applied to the result of the one before, in the order of the source. */
  function ExportClone(page: seq<Node>, exporter: Exporter): (r: seq<Node>)
    ensures FirstMatch(r, IsBody).Some? ==> !HasClass(FirstMatch(r, IsBody).value, "edit-mode")
  {
    var purged := Purged(StripEditing(RemoveEditorControls(CleanupRevealRuntime(page), exporter)));
    BodyLeavesEditMode(purged);
    RemoveEditModeClass(purged)
  }

  /**
   * The clone both `exportHTML()` functions build before posting it: the
   * Reveal cleanup, the removal of the editor controls, the
   * `[contenteditable]` loop, the Office purge and the body class.
   */
  method PrepareClone(page: seq<Node>, exporter: Exporter) returns (r: seq<Node>)
    ensures r == ExportClone(page, exporter)
    ensures ReadyForExport(page, r, exporter)
  {
    var cleaned := CleanupRevealRuntime(page);
    var noUi := RemoveEditorControls(cleaned, exporter);
    var stripped := StripEditing(noUi);
    CleanedCloneIsUnmarked(page, exporter);
    var purged := PurgeMsOfficeMarkup(stripped);
    PurgedCloneIsUnmarked(page, stripped, purged, exporter);
    r := RemoveEditModeClass(purged);
    BodyStepKeepsUnmarked(page, purged, exporter);
    BodyStepKeepsPurge(purged);
    BodyLeavesEditMode(purged);
  }

  /** The save server's answer: no answer at all, or a status and a body that does or does not parse as JSON. */
  datatype SaveReply = NetworkFailure | Reply(ok: bool, jsonBody: bool)

  /** The notification shown at the end. */
  datatype Notice = SavedNotice | FailedNotice

  /** `exportHTML()` of `js/modules/export-html.js`: success needs an OK status and a JSON body; the stored edits stay. */
  method ExportHtml(page: seq<Node>, reply: SaveReply) returns (posted: seq<Node>, notice: Notice)
    ensures posted == ExportClone(page, ExportHtmlModule)
    ensures ReadyForExport(page, posted, ExportHtmlModule)
    ensures notice == SavedNotice <==> reply.Reply? && reply.ok && reply.jsonBody
  {
    posted := PrepareClone(page, ExportHtmlModule);
    if reply.Reply? && reply.ok && reply.jsonBody {
      notice := SavedNotice;
    } else {
      notice := FailedNotice;
    }
  }

  /**
   * `exportHTML()` of `src/editor.js`: any reply whose body parses as
   * JSON counts as saved, and then the stored edits are removed; on every
   * other outcome the store is left alone.
   */
  method EditorExportHtml(store: LocalStore, page: seq<Node>, reply: SaveReply) returns (posted: seq<Node>, notice: Notice)
    modifies store
    ensures posted == ExportClone(page, EditorModule)
    ensures ReadyForExport(page, posted, EditorModule)
    ensures notice == SavedNotice <==> reply.Reply? && reply.jsonBody
    ensures notice == SavedNotice ==> store.items == old(store.items) - {Storage.SlideEditsKey}
    ensures notice == SavedNotice ==> Storage.GetSlideEdits(store.items) == map[]
    ensures notice == FailedNotice ==> store.items == old(store.items)
  {
    posted := PrepareClone(page, EditorModule);
    if reply.Reply? && reply.jsonBody {
      store.RemoveItem(Storage.SlideEditsKey);
      notice := SavedNotice;
    } else {
      notice := FailedNotice;
    }
  }
}

=== FILE: identifiers.dfy ===
/**
 * Edit identifiers of `js/modules/slide-editor.js` and `src/editor.js`
 * (both files carry the same two functions). An editable element is named
 * `slide_{slideIndex}_{tag}_{classes}_{elementIndex}`: the index of its
 * section among all slides, its lower-case tag, its class attribute with
 * white-space runs turned into `_`, and its position among the elements of
 * that slide the selector `tag.firstClass` matches. The lookup splits the
 * name on `_` and runs the same kind of selector again.
 *
 * Every element the editor names has been through `makeEditable`, which
 * adds the class `editable-field`: an element without a class of its own
 * has the class list `[editable-field]`, and one with the class `c` has
 * `[c, editable-field]`. Its name then has six fields, and the lookup as
 * written reads the fifth, `editable-field`, as the element index. The
 * corrected lookup reads the last field.
 *
 * The DOM queries are parameters: `section` is the slide index of the
 * element's closest section (`None` when it has none), `index` its
 * position among the selector's matches, and `slideCount` the number of
 * slides the lookup may index.
 */
module Identifiers {
  import opened Text

  /** What `getElementIdentifier` produces: `null`, an exception, or a name. */
  datatype BuildResult = NoSection | Throws | Id(name: string)

  /**
   * What `findElementByIdentifier` does: `null` before querying, an
   * exception, or a query of `selector` in slide `slide` whose result is
   * indexed by `index` (`None` is `NaN`, which finds nothing).
   */
  datatype Lookup = NotFound | LookupThrows | Query(slide: nat, selector: string, index: Option<int>)

  /** The class `makeEditable` adds to every element it switches on. */
  const EditableField: string := "editable-field"

  /** A token of a class list: not empty and free of white space. */
  predicate ClassToken(c: string) {
    c != "" && NoWhitespace(c)
  }

  /** Every class is a token without `_`, the separator of a name's fields. */
  predicate NameSafe(cs: seq<string>) {
    forall i :: 0 <= i < |cs| ==> ClassToken(cs[i]) && '_' !in cs[i]
  }

  /** `element.className` once `classList` has written it: the tokens joined by single spaces. */
  function ClassAttr(cs: seq<string>): string {
    Join(cs, " ")
  }

  /** The class the selector uses: the text before the first space. */
  function FirstClass(className: string): string {
    Split(className, ' ')[0]
  }

  /** The selector whose matches number an element: `tag + '.' + firstClass`. */
  function SiblingSelector(tagName: string, className: string): string {
    tagName + "." + FirstClass(className)
  }

  /** The name itself. */
  function IdentifierText(slideIndex: nat, tagName: string, className: string, index: nat): (name: string)
    ensures StartsWith(name, "slide_")
  {
    "slide_" + IntToString(slideIndex) + "_" + tagName + "_" + UnderscoreWhitespace(className) + "_" + IntToString(index)
  }

  /** The fields of the name of an element with the class list `cs`: one per class between the tag and the index. */
  function NameFields(slideIndex: nat, tagName: string, cs: seq<string>, index: nat): seq<string> {
    ["slide", IntToString(slideIndex), tagName] + cs + [IntToString(index)]
  }

  /**
   * `getElementIdentifier(element)`: `null` outside every section; the
   * sibling query `tag + '.' + firstClass` is not valid CSS when the first
   * class is empty, and throws before a name is returned.
   */
  function ElementIdentifier(section: Option<nat>, tagName: string, className: string, index: nat): (r: BuildResult)
    ensures section.None? <==> r == NoSection
    ensures r == Throws <==> section.Some? && FirstClass(className) == ""
    ensures r.Id? ==> r.name == IdentifierText(section.value, tagName, className, index)
  {
    match section
    case None => NoSection
    case Some(s) =>
      if FirstClass(className) == "" then Throws
      else Id(IdentifierText(s, tagName, className, index))
  }

  /** `findElementByIdentifier(identifier)` as written: the element index is the fifth field. */
  function FindElementAsWritten(identifier: string, slideCount: nat): (r: Lookup)
    ensures Split(identifier, '_')[0] != "slide" ==> r == NotFound
    ensures r.Query? ==> r.slide < slideCount && |Split(identifier, '_')| >= 4 && Split(identifier, '_')[3] != ""
  {
    LookupFieldsAsWritten(Split(identifier, '_'), slideCount)
  }

  /** The lookup as written, once the name is split into its fields. */
  function LookupFieldsAsWritten(parts: seq<string>, slideCount: nat): (r: Lookup)
    requires |parts| >= 1
    ensures parts[0] != "slide" ==> r == NotFound
    ensures r.Query? ==> r.slide < slideCount && |parts| >= 4 && parts[3] != ""
  {
    if parts[0] != "slide" then NotFound
    else
      var slideIndex := if |parts| > 1 then ParseInt(parts[1]) else None;
      if slideIndex.None? || slideIndex.value < 0 || slideIndex.value >= slideCount then NotFound
      else if |parts| < 4 then LookupThrows
      else
        var selector := parts[2] + "." + Split(parts[3], '_')[0];
        if Split(parts[3], '_')[0] == "" then LookupThrows
        else Query(slideIndex.value, selector, if |parts| > 4 then ParseInt(parts[4]) else None)
  }

  /**
   * `findElementByIdentifier`, corrected to read the element index from the
   * last field, where the name puts it whatever the number of classes.
   */
  function FindElement(identifier: string, slideCount: nat): (r: Lookup)
    ensures Split(identifier, '_')[0] != "slide" ==> r == NotFound
    ensures r.Query? ==> r.slide < slideCount
    ensures |Split(identifier, '_')| <= 5 ==> r == FindElementAsWritten(identifier, slideCount)
  {
    LookupFields(Split(identifier, '_'), slideCount)
  }

  /**
   * The corrected lookup once the name is split into its fields: it fails
   * where the lookup as written fails and queries the same slide with the
   * same selector; only the index may differ, and only on more than five
   * fields.
   */
  function LookupFields(parts: seq<string>, slideCount: nat): (r: Lookup)
    requires |parts| >= 1
    ensures parts[0] != "slide" ==> r == NotFound
    ensures !r.Query? || !LookupFieldsAsWritten(parts, slideCount).Query? ==> r == LookupFieldsAsWritten(parts, slideCount)
    ensures r.Query? ==>
      r.slide == LookupFieldsAsWritten(parts, slideCount).slide && r.selector == LookupFieldsAsWritten(parts, slideCount).selector
    ensures |parts| <= 5 ==> r == LookupFieldsAsWritten(parts, slideCount)
    ensures r.Query? && |parts| > 4 ==> r.index == ParseInt(parts[|parts| - 1])
  {
    if parts[0] != "slide" then NotFound
    else
      var slideIndex := if |parts| > 1 then ParseInt(parts[1]) else None;
      if slideIndex.None? || slideIndex.value < 0 || slideIndex.value >= slideCount then NotFound
      else if |parts| < 4 then LookupThrows
      else
        var selector := parts[2] + "." + Split(parts[3], '_')[0];
        if Split(parts[3], '_')[0] == "" then LookupThrows
        else Query(slideIndex.value, selector, if |parts| > 4 then ParseInt(parts[|parts| - 1]) else None)
  }

  lemma NumberHasNoUnderscore(n: nat)
    ensures '_' !in IntToString(n)
  {
    assert IntToString(n) == NatToString(n);
    assert AllDigits(NatToString(n));
  }

  /** `editable-field` is a class token without `_`. */
  lemma EditableFieldIsNameSafe()
    ensures NameSafe([EditableField])
  {
  }

  /** Fields free of the separator, joined by it, split back into those fields. */
  lemma {:induction false} SplitJoin(parts: seq<string>, sep: char)
    requires |parts| >= 1 && forall i :: 0 <= i < |parts| ==> sep !in parts[i]
    ensures Split(Join(parts, [sep]), sep) == parts
  {
    if |parts| == 1 {
      SplitWithoutSeparator(parts[0], sep);
    } else {
      SplitJoin(parts[1..], sep);
      SplitAtFirst(parts[0], sep, Join(parts[1..], [sep]));
      assert [parts[0]] + parts[1..] == parts;
    }
  }

  /** Text without white space in front of any text is kept as it is. */
  lemma {:induction false} UnderscorePrefix(a: string, t: string)
    requires NoWhitespace(a)
    ensures UnderscoreWhitespace(a + t) == a + UnderscoreWhitespace(t)
    decreases |a|
  {
    if a == [] {
      assert a + t == t;
    } else {
      var s := a + t;
      assert s[0] == a[0] && !IsWhitespace(a[0]);
      assert s[1..] == a[1..] + t;
      assert NoWhitespace(a[1..]) by {
        forall i | 0 <= i < |a[1..]| ensures !IsWhitespace(a[1..][i]) {
          assert a[1..][i] == a[i + 1];
        }
      }
      UnderscorePrefix(a[1..], t);
      assert UnderscoreWhitespace(s) == [a[0]] + UnderscoreWhitespace(s[1..]);
      assert a == [a[0]] + a[1..];
    }
  }

  /** One space in front of text that does not start with white space becomes `_`. */
  lemma UnderscoreLeadingSpace(b: string)
    requires b == [] || !IsWhitespace(b[0])
    ensures UnderscoreWhitespace(" " + b) == "_" + UnderscoreWhitespace(b)
  {
    var s := " " + b;
    assert s[0] == ' ' && s[1..] == b;
    assert DropWhitespace(b) == b;
    assert DropWhitespace(s) == b;
  }

  /** The class attribute of a token list, white space turned into `_`, is the tokens joined by `_`. */
  lemma {:induction false} UnderscoreClassAttr(cs: seq<string>)
    requires cs != [] && forall i :: 0 <= i < |cs| ==> ClassToken(cs[i])
    ensures UnderscoreWhitespace(ClassAttr(cs)) == Join(cs, "_")
    decreases |cs|
  {
    if |cs| == 1 {
      UnderscoreWhitespaceIdentity(cs[0]);
    } else {
      var rest := cs[1..];
      var tail := Join(rest, " ");
      UnderscoreClassAttr(rest);
      assert ClassToken(rest[0]);
      JoinFirstCharacter(rest, " ");
      AppendAssociative(cs[0], " ", tail);
      AppendAssociative(cs[0], "_", Join(rest, "_"));
      UnderscorePrefix(cs[0], " " + tail);
      UnderscoreLeadingSpace(tail);
    }
  }

  /** The first three fields of a name joined by `_`. */
  lemma SlideFieldsJoin(s1: string, tagName: string)
    ensures Join(["slide", s1, tagName], "_") == "slide_" + s1 + "_" + tagName
  {
    assert ["slide", s1, tagName][1..] == [s1, tagName];
    assert [s1, tagName][1..] == [tagName];
    assert Join([s1, tagName], "_") == s1 + "_" + tagName;
    assert "slide" + "_" == "slide_";
    assert Join(["slide", s1, tagName], "_") == "slide_" + (s1 + "_" + tagName);
    AppendAssociative("slide_", s1 + "_", tagName);
    AppendAssociative("slide_", s1, "_");
  }

  /** The name of an element with the class list `cs` is its fields joined by `_`. */
  lemma NameIsJoin(slideIndex: nat, tagName: string, cs: seq<string>, index: nat)
    requires cs != [] && forall i :: 0 <= i < |cs| ==> ClassToken(cs[i])
    ensures IdentifierText(slideIndex, tagName, ClassAttr(cs), index) == Join(NameFields(slideIndex, tagName, cs, index), "_")
  {
    var s1, s2 := IntToString(slideIndex), IntToString(index);
    var head := ["slide", s1, tagName];
    UnderscoreClassAttr(cs);
    SlideFieldsJoin(s1, tagName);
    JoinAppend(head, cs, "_");
    JoinAppend(head + cs, [s2], "_");
  }

  /** The name of a class list splits on `_` into its fields when tag and classes hold no `_`. */
  lemma NameSplits(slideIndex: nat, tagName: string, cs: seq<string>, index: nat)
    requires '_' !in tagName && cs != [] && NameSafe(cs)
    ensures Split(IdentifierText(slideIndex, tagName, ClassAttr(cs), index), '_') == NameFields(slideIndex, tagName, cs, index)
  {
    var fs := NameFields(slideIndex, tagName, cs, index);
    NameIsJoin(slideIndex, tagName, cs, index);
    NumberHasNoUnderscore(slideIndex);
    NumberHasNoUnderscore(index);
    forall i | 0 <= i < |fs| ensures '_' !in fs[i] {
      if 3 <= i < 3 + |cs| {
        assert fs[i] == cs[i - 3];
      }
    }
    SplitJoin(fs, '_');
  }

  /** The first class of a token list's attribute is its first token. */
  lemma FirstClassOfClassAttr(cs: seq<string>)
    requires cs != [] && forall i :: 0 <= i < |cs| ==> ClassToken(cs[i])
    ensures FirstClass(ClassAttr(cs)) == cs[0]
  {
    forall i | 0 <= i < |cs| ensures ' ' !in cs[i] {
      forall j | 0 <= j < |cs[i]| ensures cs[i][j] != ' ' {
        assert !IsWhitespace(cs[i][j]);
      }
    }
    SplitJoin(cs, ' ');
  }

  /** An element with at least one class, inside a section, always gets a name. */
  lemma ClassListIsNamed(section: Option<nat>, tagName: string, cs: seq<string>, index: nat)
    requires cs != [] && forall i :: 0 <= i < |cs| ==> ClassToken(cs[i])
    ensures ElementIdentifier(section, tagName, ClassAttr(cs), index) != Throws
    ensures section.Some? ==> ElementIdentifier(section, tagName, ClassAttr(cs), index).Id?
  {
    FirstClassOfClassAttr(cs);
  }

  /** The lookup as written of fields that start with `slide` and a slide in range and hold a class without `_`. */
  lemma LookupOfFieldsAsWritten(parts: seq<string>, k: nat, slideCount: nat)
    requires |parts| >= 5 && parts[0] == "slide" && ParseInt(parts[1]) == Some(k as int) && k < slideCount
    requires parts[3] != "" && '_' !in parts[3]
    ensures LookupFieldsAsWritten(parts, slideCount) == Query(k, parts[2] + "." + parts[3], ParseInt(parts[4]))
  {
    SplitWithoutSeparator(parts[3], '_');
  }

  /** The lookup as written of a class list's fields: the slide and the first class; the index from the fifth field. */
  lemma LookupOfNameFieldsAsWritten(slideIndex: nat, tagName: string, cs: seq<string>, index: nat, slideCount: nat)
    requires slideIndex < slideCount && cs != [] && NameSafe(cs)
    ensures var fs := NameFields(slideIndex, tagName, cs, index);
      LookupFieldsAsWritten(fs, slideCount) == Query(slideIndex, tagName + "." + cs[0], ParseInt(fs[4]))
  {
    var fs := NameFields(slideIndex, tagName, cs, index);
    assert |fs| > 4 && fs[0] == "slide" && fs[1] == IntToString(slideIndex) && fs[2] == tagName && fs[3] == cs[0];
    assert ClassToken(cs[0]) && '_' !in cs[0];
    ParseIntOfIntToString(slideIndex);
    LookupOfFieldsAsWritten(fs, slideIndex, slideCount);
  }

  /** The corrected lookup of a class list's fields: the same slide and selector; the index from the last field. */
  lemma LookupOfNameFields(slideIndex: nat, tagName: string, cs: seq<string>, index: nat, slideCount: nat)
    requires slideIndex < slideCount && cs != [] && NameSafe(cs)
    ensures var fs := NameFields(slideIndex, tagName, cs, index);
      LookupFields(fs, slideCount) == Query(slideIndex, tagName + "." + cs[0], Some(index))
  {
    var fs := NameFields(slideIndex, tagName, cs, index);
    LookupOfNameFieldsAsWritten(slideIndex, tagName, cs, index, slideCount);
    assert fs[|fs| - 1] == IntToString(index);
    ParseIntOfIntToString(index);
  }

  /**
   * As written, the lookup of a name finds the right slide and selector,
   * but reads the element index from the fifth field: the index itself for
   * a single class, the second class otherwise.
   */
  lemma FindAsWrittenReadsTheSecondClass(slideIndex: nat, tagName: string, cs: seq<string>, index: nat, slideCount: nat)
    requires slideIndex < slideCount && '_' !in tagName && cs != [] && NameSafe(cs)
    ensures var name := IdentifierText(slideIndex, tagName, ClassAttr(cs), index);
      FindElementAsWritten(name, slideCount) ==
        Query(slideIndex, SiblingSelector(tagName, ClassAttr(cs)), if |cs| == 1 then Some(index) else ParseInt(cs[1]))
  {
    var fs := NameFields(slideIndex, tagName, cs, index);
    NameSplits(slideIndex, tagName, cs, index);
    FirstClassOfClassAttr(cs);
    LookupOfNameFieldsAsWritten(slideIndex, tagName, cs, index, slideCount);
    assert fs[4] == if |cs| == 1 then IntToString(index) else cs[1];
    ParseIntOfIntToString(index);
  }

  /**
   * The corrected pair round-trips for every class list: the element is
   * named, and the lookup of its name queries the slide it was in, with the
   * selector that numbered it, at the position it had.
   */
  lemma FindFindsTheNamedElement(slideIndex: nat, tagName: string, cs: seq<string>, index: nat, slideCount: nat)
    requires slideIndex < slideCount && '_' !in tagName && cs != [] && NameSafe(cs)
    ensures var r := ElementIdentifier(Some(slideIndex), tagName, ClassAttr(cs), index);
      r.Id? && FindElement(r.name, slideCount) == Query(slideIndex, SiblingSelector(tagName, ClassAttr(cs)), Some(index))
  {
    NameSplits(slideIndex, tagName, cs, index);
    FirstClassOfClassAttr(cs);
    LookupOfNameFields(slideIndex, tagName, cs, index, slideCount);
  }

  /**
   * `parseInt` without a radix reads base 10 unless the text starts with
   * `0x`: a word whose first character is neither white space, a digit nor
   * a sign is `NaN`.
   */
  lemma WordIsNaN(b: string)
    requires b != [] && !IsWhitespace(b[0]) && !IsDigit(b[0]) && b[0] != '-' && b[0] != '+'
    ensures ParseInt(b) == None
  {
    assert TrimStart(b) == b;
  }

  /** `parseInt('editable-field')` is `NaN`. */
  lemma EditableFieldIsNaN()
    ensures ParseInt(EditableField) == None
  {
    WordIsNaN(EditableField);
  }

  /** So, as written, an element whose second class starts with neither a digit nor a sign is never found again by its name. */
  lemma TwoClassesAreNeverFound(slideIndex: nat, tagName: string, cs: seq<string>, index: nat, slideCount: nat)
    requires slideIndex < slideCount && '_' !in tagName && |cs| >= 2 && NameSafe(cs)
    requires !IsDigit(cs[1][0]) && cs[1][0] != '-' && cs[1][0] != '+'
    ensures FindElementAsWritten(IdentifierText(slideIndex, tagName, ClassAttr(cs), index), slideCount) ==
      Query(slideIndex, SiblingSelector(tagName, ClassAttr(cs)), None)
  {
    FindAsWrittenReadsTheSecondClass(slideIndex, tagName, cs, index, slideCount);
    assert ClassToken(cs[1]);
    WordIsNaN(cs[1]);
  }

  /** An element without a class of its own is named after `editable-field` alone, and the lookup as written finds it. */
  lemma ClasslessEditableElementIsFound(slideIndex: nat, tagName: string, index: nat, slideCount: nat)
    requires slideIndex < slideCount && '_' !in tagName
    ensures FindElementAsWritten(IdentifierText(slideIndex, tagName, ClassAttr([EditableField]), index), slideCount) ==
      Query(slideIndex, tagName + "." + EditableField, Some(index))
  {
    EditableFieldIsNameSafe();
    FindAsWrittenReadsTheSecondClass(slideIndex, tagName, [EditableField], index, slideCount);
    FirstClassOfClassAttr([EditableField]);
  }

  /**
   * The defect on the page: `makeEditable` turns the class `c` of an
   * element into `c editable-field`, so as written the lookup of its name
   * reads `editable-field` as the index and finds nothing, while the
   * corrected lookup finds the element.
   */
  lemma ClassedEditableElementIsLost(slideIndex: nat, tagName: string, c: string, index: nat, slideCount: nat)
    requires slideIndex < slideCount && '_' !in tagName && NameSafe([c])
    ensures var name := IdentifierText(slideIndex, tagName, ClassAttr([c, EditableField]), index);
      && FindElementAsWritten(name, slideCount) == Query(slideIndex, tagName + "." + c, None)
      && FindElement(name, slideCount) == Query(slideIndex, tagName + "." + c, Some(index))
  {
    var cs := [c, EditableField];
    EditableFieldIsNameSafe();
    assert NameSafe(cs) by {
      assert cs[0] == [c][0] && cs[1] == [EditableField][0];
    }
    EditableFieldIsNaN();
    FindAsWrittenReadsTheSecondClass(slideIndex, tagName, cs, index, slideCount);
    FindFindsTheNamedElement(slideIndex, tagName, cs, index, slideCount);
    FirstClassOfClassAttr(cs);
  }
}

=== FILE: js_values.dfy ===
/**
 * Untyped JavaScript data as it arrives from `content.json`, from
 * `localStorage` and from event payloads, with the three operations the
 * editor applies to such values: truthiness, `??` and property access.
 */
module JsValues {
  import opened Text

  /** A JSON-like value. Numbers are exact reals; `NaN` and the infinities are not represented. */
  datatype JsValue =
    | Undefined
    | Null
    | Bool(b: bool)
    | Num(n: real)
    | Str(s: string)
    | Arr(items: seq<JsValue>)
    | Obj(fields: map<string, JsValue>)

  /** JavaScript truthiness: `undefined`, `null`, `false`, `0` and `""` are falsy; arrays and objects are truthy. */
  predicate Truthy(v: JsValue) {
    match v
    case Undefined => false
    case Null => false
    case Bool(b) => b
    case Num(n) => n != 0.0
    case Str(s) => s != ""
    case Arr(_) => true
    case Obj(_) => true
  }

  /** Exactly the five falsy values are falsy: every array and object, even an empty one, is truthy. */
  lemma FalsyValues(v: JsValue)
    ensures !Truthy(v) <==> v == Undefined || v == Null || v == Bool(false) || v == Num(0.0) || v == Str("")
    ensures Truthy(Arr([])) && Truthy(Obj(map[]))
  {
  }

  predicate Nullish(v: JsValue) {
    v.Undefined? || v.Null?
  }

  /** `v ?? fallback`. */
  function Coalesce(v: JsValue, fallback: JsValue): (r: JsValue)
    ensures !Nullish(v) ==> r == v
    ensures Nullish(v) ==> r == fallback
  {
    if Nullish(v) then fallback else v
  }

  /** Property read `v.key` on an object; every other value yields `undefined` for the keys used here. */
  function Get(v: JsValue, key: string): JsValue
  {
    match v
    case Obj(fields) => if key in fields then fields[key] else Undefined
    case _ => Undefined
  }

  /** `v || fallback`. */
  function Or(v: JsValue, fallback: JsValue): (r: JsValue)
    ensures Truthy(v) ==> r == v
    ensures !Truthy(v) ==> r == fallback
  {
    if Truthy(v) then v else fallback
  }

  /** `typeof v === 'object' && v` : arrays and plain objects, not `null`. */
  predicate IsObjectLike(v: JsValue) {
    v.Arr? || v.Obj?
  }

  /**
   * `isFinite(v)` with JavaScript's coercion for the values that can reach it:
   * numbers are finite, `null` and booleans coerce to 0 or 1, `undefined` and
   * plain objects coerce to `NaN`.
   */
  predicate IsFinite(v: JsValue) {
    v.Num? || v.Null? || v.Bool?
  }

  /** `Number(v)` for the values `IsFinite` accepts. */
  function ToNumber(v: JsValue): real
    requires IsFinite(v)
  {
    match v
    case Num(n) => n
    case Null => 0.0
    case Bool(b) => if b then 1.0 else 0.0
  }

  /**
   * `String(v)` for primitive values: strings, booleans, `null`, `undefined`
   * and integral numbers; `None` for the values whose printed form the
   * model does not compute (fractional numbers, arrays).
   */
  function ToJsString(v: JsValue): (r: Option<string>)
    ensures v.Str? ==> r == Some(v.s)
    ensures v.Num? && v.n == v.n.Floor as real ==> r == Some(IntToString(v.n.Floor))
  {
    match v
    case Undefined => Some("undefined")
    case Null => Some("null")
    case Bool(b) => Some(if b then "true" else "false")
    case Num(n) => if n == n.Floor as real then Some(IntToString(n.Floor)) else None
    case Str(s) => Some(s)
    case Arr(_) => None
    case Obj(_) => Some("[object Object]")
  }
}

=== FILE: layout_engine.dfy ===
/**
 * `js/modules/layout-engine.js`: where the child tiles of a focused parent
 * go. Numbers are exact reals; `cos`, `sin` and `atan2` are passed in and
 * nothing is assumed about them.
 */
module LayoutEngine {
  import opened Text

  /** `Math.PI`. */
  const Pi: real := 3.141592653589793

  const DefaultRingRadius: real := 50.0
  const StackOffset: real := 120.0
  const StackSpacing: real := 60.0

  /** `preferredMode`; any other string falls through to the ring layout. */
  datatype Mode = Ring | Halfring | Stack | OtherMode(name: string)

  /** A parent rectangle, `x`/`y` being its centre. */
  datatype ParentRect = ParentRect(x: real, y: real, width: real, height: real)

  datatype Viewport = Viewport(width: real, height: real)

  /** A box for the collision and viewport tests. */
  datatype Box = Box(x: real, y: real, width: real, height: real)

  /** One child position, in percent of the parent size relative to its centre. */
  datatype ChildPos = ChildPos(x: real, y: real, angle: real)

  function MinReal(a: real, b: real): real {
    if a <= b then a else b
  }

  /** The safety margin: 10% of the smaller viewport side. */
  function Margin(v: Viewport): (m: real)
    ensures m <= v.width / 10.0 && m <= v.height / 10.0
    ensures m == v.width / 10.0 || m == v.height / 10.0
  {
    MinReal(v.width, v.height) * 0.1
  }

  /** The four clearances between the ring and the viewport edges. */
  datatype Clearances = Clearances(left: real, right: real, top: real, bottom: real)

  function ClearancesOf(p: ParentRect, v: Viewport, ringRadius: real): Clearances {
    Clearances(p.x - ringRadius, v.width - p.x - ringRadius, p.y - ringRadius, v.height - p.y - ringRadius)
  }

  predicate AnyShort(c: Clearances, margin: real) {
    c.left < margin || c.right < margin || c.top < margin || c.bottom < margin
  }

  predicate BothSidesShort(c: Clearances, margin: real) {
    (c.left < margin && c.right < margin) || (c.top < margin && c.bottom < margin)
  }

  /** `determineLayoutMode(parentRect, viewportRect, ringRadius, preferredMode)`. */
  function DetermineLayoutMode(p: ParentRect, v: Viewport, ringRadius: real, preferred: Mode): (m: Mode)
    ensures BothSidesShort(ClearancesOf(p, v, ringRadius), Margin(v)) ==> m == Stack
    ensures !BothSidesShort(ClearancesOf(p, v, ringRadius), Margin(v)) ==>
      (m == Halfring <==> (AnyShort(ClearancesOf(p, v, ringRadius), Margin(v)) && preferred != Ring) || preferred == Halfring)
    ensures m == Stack || m == Halfring || m == preferred
  {
    var c := ClearancesOf(p, v, ringRadius);
    var margin := Margin(v);
    if BothSidesShort(c, margin) then Stack
    else if AnyShort(c, margin) && preferred != Ring then Halfring
    else preferred
  }

  /** With `'ring'` preferred the mode is never half-ring; a half-ring that was not asked for needs a short clearance. */
  lemma RingNeverBecomesHalfring(p: ParentRect, v: Viewport, ringRadius: real, preferred: Mode)
    ensures preferred == Ring ==> DetermineLayoutMode(p, v, ringRadius, preferred) in {Ring, Stack}
    ensures DetermineLayoutMode(p, v, ringRadius, preferred) == Halfring && preferred != Halfring ==>
      AnyShort(ClearancesOf(p, v, ringRadius), Margin(v))
    ensures !AnyShort(ClearancesOf(p, v, ringRadius), Margin(v)) ==> DetermineLayoutMode(p, v, ringRadius, preferred) == preferred
  {
  }

  /** Stack needs at least one short clearance; so with room on every side the preferred mode stands. */
  lemma StackImpliesShort(c: Clearances, margin: real)
    ensures BothSidesShort(c, margin) ==> AnyShort(c, margin)
  {
  }

  /** `parseFloat(--childnode-ring-radius) || 50`: `None` is `NaN`; zero is falsy too. */
  function RingRadiusPx(cssValue: Option<real>): (r: real)
    ensures r != 0.0
    ensures cssValue.Some? && cssValue.value != 0.0 ==> r == cssValue.value
  {
    if cssValue.Some? && cssValue.value != 0.0 then cssValue.value else DefaultRingRadius
  }

  /** `computeRingLayout`: child `i` of `n` at angle `-π/2 + (i/n)·2π`. */
  function RingLayout(n: nat, radius: real, cos: real -> real, sin: real -> real): (ps: seq<ChildPos>)
    ensures |ps| == n
    ensures forall i :: 0 <= i < n ==>
      && ps[i].angle == -Pi / 2.0 + (i as real / n as real) * 2.0 * Pi
      && ps[i].x == cos(ps[i].angle) * radius && ps[i].y == sin(ps[i].angle) * radius
  {
    seq(n, i requires 0 <= i < n =>
      var angle := -Pi / 2.0 + (i as real / n as real) * 2.0 * Pi;
      ChildPos(cos(angle) * radius, sin(angle) * radius, angle))
  }

  /** The ring starts at twelve o'clock and steps by `2π/n`. */
  lemma RingAnglesEvenlySpaced(n: nat, radius: real, cos: real -> real, sin: real -> real, i: nat)
    requires i + 1 < n
    ensures RingLayout(n, radius, cos, sin)[0].angle == -Pi / 2.0
    ensures RingLayout(n, radius, cos, sin)[i + 1].angle - RingLayout(n, radius, cos, sin)[i].angle == 2.0 * Pi / n as real
  {
    var ps := RingLayout(n, radius, cos, sin);
    var step := 1.0 / n as real;
    assert (i + 1) as real / n as real == i as real / n as real + step;
    assert ps[i + 1].angle - ps[i].angle == step * 2.0 * Pi;
  }

  const HalfringSpread: real := Pi * 0.9

  /** How far along the arc child `i` of `n` sits: `i/(n-1)`, or the middle for a single child. */
  function Progress(i: nat, n: nat): (t: real)
    requires i < n
    ensures 0.0 <= t <= 1.0
    ensures n == 1 ==> t == 0.5
    ensures n > 1 && i == 0 ==> t == 0.0
    ensures n > 1 && i == n - 1 ==> t == 1.0
  {
    if n > 1 then i as real / (n - 1) as real else 0.5
  }

  /** `computeHalfringLayout`: an arc of `0.9π` centred on the direction away from the viewport centre's side. */
  function HalfringLayout(p: ParentRect, n: nat, v: Viewport, radius: real,
                          cos: real -> real, sin: real -> real, atan2: (real, real) -> real): (ps: seq<ChildPos>)
    ensures |ps| == n
    ensures var base := atan2(p.y - v.height / 2.0, p.x - v.width / 2.0) + Pi;
      forall i :: 0 <= i < n ==>
        && ps[i].angle == base - HalfringSpread / 2.0 + Progress(i, n) * HalfringSpread
        && ps[i].x == cos(ps[i].angle) * radius && ps[i].y == sin(ps[i].angle) * radius
  {
    var base := atan2(p.y - v.height / 2.0, p.x - v.width / 2.0) + Pi;
    var start := base - HalfringSpread / 2.0;
    seq(n, i requires 0 <= i < n =>
      var angle := start + Progress(i, n) * HalfringSpread;
      ChildPos(cos(angle) * radius, sin(angle) * radius, angle))
  }

  /** The arc runs from `base - 0.45π` to `base + 0.45π`, and a single child sits on `base`. */
  lemma HalfringSpansSpread(p: ParentRect, n: nat, v: Viewport, radius: real,
                            cos: real -> real, sin: real -> real, atan2: (real, real) -> real)
    requires n >= 1
    ensures var base := atan2(p.y - v.height / 2.0, p.x - v.width / 2.0) + Pi;
      var ps := HalfringLayout(p, n, v, radius, cos, sin, atan2);
      && (n == 1 ==> ps[0].angle == base)
      && (n > 1 ==> ps[0].angle == base - 0.45 * Pi && ps[n - 1].angle == base + 0.45 * Pi)
      && forall i :: 0 <= i < n ==> base - 0.45 * Pi <= ps[i].angle <= base + 0.45 * Pi
  {
    var base := atan2(p.y - v.height / 2.0, p.x - v.width / 2.0) + Pi;
    var ps := HalfringLayout(p, n, v, radius, cos, sin, atan2);
    forall i | 0 <= i < n
      ensures base - 0.45 * Pi <= ps[i].angle <= base + 0.45 * Pi
    {
      var t := Progress(i, n);
      assert ps[i].angle == base - 0.45 * Pi + t * (0.9 * Pi);
      ScaleWithin(t, 0.9 * Pi);
    }
  }

  /** `0 <= t <= 1` and `w >= 0` give `0 <= t*w <= w`. */
  lemma ScaleWithin(t: real, w: real)
    requires 0.0 <= t <= 1.0 && w >= 0.0
    ensures 0.0 <= t * w <= w
  {
    assert w - t * w == (1.0 - t) * w;
  }

  /** `computeStackLayout`: a column beside the parent on the side away from the nearer edge. */
  function StackLayout(p: ParentRect, n: nat, v: Viewport): (ps: seq<ChildPos>)
    ensures |ps| == n
    ensures forall i :: 0 <= i < n ==>
      && ps[i].x == (if p.x < v.width / 2.0 then StackOffset else -StackOffset)
      && ps[i].y == -((n - 1) as real * StackSpacing) / 2.0 + i as real * StackSpacing
      && ps[i].angle == (if p.x < v.width / 2.0 then 0.0 else Pi)
  {
    var isLeft := p.x < v.width / 2.0;
    var startY := -((n - 1) as real * StackSpacing) / 2.0;
    seq(n, i requires 0 <= i < n =>
      ChildPos(if isLeft then StackOffset else -StackOffset, startY + i as real * StackSpacing, if isLeft then 0.0 else Pi))
  }

  /** Stack rows are 60 apart and mirror each other about the parent's centre line. */
  lemma StackIsSymmetric(p: ParentRect, n: nat, v: Viewport, i: nat)
    requires i < n
    ensures var ps := StackLayout(p, n, v);
      && ps[i].y + ps[n - 1 - i].y == 0.0
      && (i + 1 < n ==> ps[i + 1].y - ps[i].y == StackSpacing)
  {
  }

  /**
   * `computeMindmapLayout(parentRect, childCount, viewportRect, preferredMode)`:
   * the ring radius in percent of half the parent width, scaled by 60.
   */
  function ComputeMindmapLayout(p: ParentRect, childCount: int, v: Viewport, preferred: Mode, cssRadius: Option<real>,
                                cos: real -> real, sin: real -> real, atan2: (real, real) -> real): (ps: seq<ChildPos>)
    requires p.width != 0.0
    ensures childCount <= 0 ==> ps == []
    ensures childCount > 0 ==> |ps| == childCount
    ensures childCount > 0 ==>
      var px := RingRadiusPx(cssRadius);
      var percent := px / (p.width / 2.0) * 60.0;
      match DetermineLayoutMode(p, v, px, preferred)
      case Halfring => ps == HalfringLayout(p, childCount, v, percent, cos, sin, atan2)
      case Stack => ps == StackLayout(p, childCount, v)
      case _ => ps == RingLayout(childCount, percent, cos, sin)
  {
    if childCount <= 0 then []
    else
      var px := RingRadiusPx(cssRadius);
      var percent := px / (p.width / 2.0) * 60.0;
      match DetermineLayoutMode(p, v, px, preferred)
      case Halfring => HalfringLayout(p, childCount, v, percent, cos, sin, atan2)
      case Stack => StackLayout(p, childCount, v)
      case _ => RingLayout(childCount, percent, cos, sin)
  }

  /** When both horizontal (or both vertical) clearances are short the children are stacked, whatever mode was preferred. */
  lemma CrampedParentStacks(p: ParentRect, childCount: int, v: Viewport, preferred: Mode, cssRadius: Option<real>,
                            cos: real -> real, sin: real -> real, atan2: (real, real) -> real)
    requires p.width != 0.0 && childCount > 0
    requires BothSidesShort(ClearancesOf(p, v, RingRadiusPx(cssRadius)), Margin(v))
    ensures ComputeMindmapLayout(p, childCount, v, preferred, cssRadius, cos, sin, atan2) == StackLayout(p, childCount, v)
  {
  }

  /** `checkCollision(box1, box2)`: the boxes overlap or touch. */
  predicate CheckCollision(a: Box, b: Box): (r: bool)
    ensures r <==> a.x <= b.x + b.width && b.x <= a.x + a.width && a.y <= b.y + b.height && b.y <= a.y + a.height
  {
    !(a.x + a.width < b.x || b.x + b.width < a.x || a.y + a.height < b.y || b.y + b.height < a.y)
  }

  /** Collision is symmetric, touching edges collide, and separated boxes do not. */
  lemma CollisionProperties(a: Box, b: Box)
    ensures CheckCollision(a, b) == CheckCollision(b, a)
    ensures a.y == b.y && a.width >= 0.0 && a.height >= 0.0 && b.width >= 0.0 && b.height >= 0.0 && a.x + a.width == b.x ==> CheckCollision(a, b)
    ensures a.x + a.width < b.x ==> !CheckCollision(a, b)
  {
  }

  /** `isInsideViewport(box, viewport, margin)`. */
  predicate IsInsideViewport(b: Box, v: Viewport, margin: real): (r: bool)
    ensures r ==> b.width <= v.width - 2.0 * margin && b.height <= v.height - 2.0 * margin
    ensures r && margin >= 0.0 ==> 0.0 <= b.x && b.x + b.width <= v.width && 0.0 <= b.y && b.y + b.height <= v.height
  {
    b.x >= margin && b.y >= margin && b.x + b.width <= v.width - margin && b.y + b.height <= v.height - margin
  }

  /** A box inside with some margin is inside with any smaller margin. */
  lemma InsideMonotoneInMargin(b: Box, v: Viewport, m1: real, m2: real)
    requires m2 <= m1 && IsInsideViewport(b, v, m1)
    ensures IsInsideViewport(b, v, m2)
  {
  }
}

=== FILE: math_util.dfy ===
/** `clamp` and `lerp` of `src/utils/math.js`, over exact reals. */
module MathUtil {

  function Min(a: real, b: real): real { if a <= b then a else b }
  function Max(a: real, b: real): real { if a >= b then a else b }

  /** `Math.min(Math.max(value, min), max)`. */
  function Clamp(value: real, lo: real, hi: real): (r: real)
    ensures lo <= hi ==> lo <= r <= hi
    ensures lo <= value <= hi ==> r == value
    ensures lo <= hi && value < lo ==> r == lo
    ensures value > hi ==> r == hi
    ensures lo > hi ==> r == hi
  {
    Min(Max(value, lo), hi)
  }

  /** `clamp` with its default bounds 0 and 1. */
  function ClampUnit(value: real): (r: real)
    ensures 0.0 <= r <= 1.0
    ensures 0.0 <= value <= 1.0 ==> r == value
  {
    Clamp(value, 0.0, 1.0)
  }

  /** Clamping twice is clamping once. */
  lemma ClampIdempotent(value: real, lo: real, hi: real)
    ensures Clamp(Clamp(value, lo, hi), lo, hi) == Clamp(value, lo, hi)
  {
  }

  /** `clamp` never decreases when its input grows (with ordered bounds). */
  lemma ClampMonotone(a: real, b: real, lo: real, hi: real)
    requires a <= b
    ensures Clamp(a, lo, hi) <= Clamp(b, lo, hi)
  {
  }

  /** `a + (b - a) * t`. */
  function Lerp(a: real, b: real, t: real): (r: real)
    ensures t == 0.0 ==> r == a
    ensures t == 1.0 ==> r == b
  {
    a + (b - a) * t
  }

  lemma ProductNonNegative(x: real, y: real)
    requires x >= 0.0 && y >= 0.0
    ensures x * y >= 0.0
  {
  }

  /** For a progress between 0 and 1 the interpolated value lies between the two end points. */
  lemma LerpBetween(a: real, b: real, t: real)
    requires 0.0 <= t <= 1.0
    ensures Min(a, b) <= Lerp(a, b, t) <= Max(a, b)
  {
    if a <= b {
      ProductNonNegative(b - a, t);
      ProductNonNegative(b - a, 1.0 - t);
    } else {
      ProductNonNegative(a - b, t);
      ProductNonNegative(a - b, 1.0 - t);
    }
  }
}

=== FILE: menu.dfy ===
/**
 * The data side of `js/modules/menu.js`: the content object the menu and
 * the admin panel share, the child-tile cap, drag-and-drop of child tiles
 * (position and order of subtopics), the placement override, the state
 * classes of the tile container and `hexToRgb`.
 *
 * `storage.js` hands every content object it loads to `setContentData`,
 * which normalises the topics inside that same object, so the admin panel
 * (through `getContentData`) and the menu see one shared object: the
 * `Content` class below.
 */
module Menu {
  import opened Text
  import opened JsValues
  import opened Normalize
  import opened MathUtil
  import opened Splice
  import Camera
  import WebStorage
  import Storage

  /** The shared content object; `topics` is `None` when there is no data or its `topics` is falsy. */
  class Content {
    var topics: Option<seq<Topic>>

    constructor ()
      ensures topics == None
    {
      topics := None;
    }

    /** Every topic went through `normalizeTopic`. */
    ghost predicate Valid()
      reads this
    {
      topics.Some? ==> AllWellFormed(topics.value)
    }
  }

  predicate AllWellFormed(ts: seq<Topic>) {
    forall i :: 0 <= i < |ts| ==> WellFormedTopic(ts[i])
  }

  /** `topics.find(t => t.id === id)`: the first topic with that id. */
  function FindTopic(ts: seq<Topic>, id: JsValue): (k: Option<nat>)
    ensures k.Some? ==> k.value < |ts| && ts[k.value].id == id
    ensures k.Some? ==> forall j :: 0 <= j < k.value ==> ts[j].id != id
    ensures k.None? ==> forall j :: 0 <= j < |ts| ==> ts[j].id != id
  {
    if ts == [] then None
    else if ts[0].id == id then Some(0)
    else match FindTopic(ts[1..], id) case None => None case Some(k) => Some(k + 1)
  }

  function NormalizeTopics(items: seq<JsValue>): (r: seq<Topic>)
    ensures |r| == |items|
    ensures forall i :: 0 <= i < |items| ==> r[i] == NormalizeTopic(items[i])
  {
    if items == [] then [] else [NormalizeTopic(items[0])] + NormalizeTopics(items[1..])
  }

  /**
   * `setContentData(data)`: an array of topics is normalised entry by
   * entry; falsy topics leave the content without topics; truthy topics
   * that are not an array make `.map` throw, and nothing changes.
   */
  method SetContentData(content: Content, data: JsValue) returns (threw: bool)
    modifies content
    ensures var t := Get(data, "topics");
      && (threw <==> Truthy(t) && !t.Arr?)
      && (threw ==> content.topics == old(content.topics))
      && (!Truthy(t) ==> content.topics == None)
      && (t.Arr? ==> content.topics == Some(NormalizeTopics(t.items)))
    ensures !threw ==> content.Valid()
  {
    var t := Get(data, "topics");
    if Truthy(t) {
      if !t.Arr? {
        return true;
      }
      content.topics := Some(NormalizeTopics(t.items));
    } else {
      content.topics := None;
    }
    threw := false;
  }

  /** Normalising the topics of content that is already normalised changes nothing (`updateContentData` re-runs `setContentData`). */
  lemma {:induction false} RenormalizeChangesNothing(ts: seq<Topic>)
    requires AllWellFormed(ts)
    ensures NormalizeTopics(seq(|ts|, i requires 0 <= i < |ts| => TopicToJs(ts[i]))) == ts
  {
    var items := seq(|ts|, i requires 0 <= i < |ts| => TopicToJs(ts[i]));
    forall i | 0 <= i < |ts|
      ensures NormalizeTopics(items)[i] == ts[i]
    {
      NormalizeTopicFixpoint(ts[i]);
    }
  }

  // ------------------------------------------------------------ container classes

  const IdleClass := "mindmap-idle"
  const HoverClass := "mindmap-hover"
  const FocusedClass := "mindmap-focused"

  /**
   * `updateMindmapStateClass(state)`: the three state classes are removed,
   * then idle adds `mindmap-idle` and focusing/focused add `mindmap-focused`.
   * Returning adds nothing, although the comment beside it says the
   * focused class stays.
   */
  function MindmapStateClasses(classes: set<string>, state: Camera.CamState): (r: set<string>)
    ensures r - {IdleClass, HoverClass, FocusedClass} == classes - {IdleClass, HoverClass, FocusedClass}
    ensures HoverClass !in r
    ensures IdleClass in r <==> state.Idle?
    ensures FocusedClass in r <==> state.Focusing? || state.Focused?
  {
    var cleared := classes - {IdleClass, HoverClass, FocusedClass};
    match state
    case Idle => cleared + {IdleClass}
    case Focusing => cleared + {FocusedClass}
    case Focused => cleared + {FocusedClass}
    case Returning => cleared
  }

  /** Only the latest state counts: the classes never depend on the state before. */
  lemma LatestStateWins(classes: set<string>, s1: Camera.CamState, s2: Camera.CamState)
    ensures MindmapStateClasses(MindmapStateClasses(classes, s1), s2) == MindmapStateClasses(classes, s2)
  {
  }

  /**
   * `updateTileVisibilityByState`: the `data-focused` attribute of a tile
   * whose `data-topic-id` parses to `tileId` (`None` is `NaN`); `None`
   * means the attribute is deleted.
   */
  function TileFocusedMark(state: Camera.CamState, tileId: Option<int>, focusedId: JsValue): (r: Option<string>)
    ensures state.Idle? <==> r.None?
    ensures r == Some("true") <==> !state.Idle? && tileId.Some? && focusedId == Num(tileId.value as real)
  {
    if state.Idle? then None
    else if tileId.Some? && focusedId == Num(tileId.value as real) then Some("true")
    else Some("false")
  }

  // ------------------------------------------------------------ child tiles

  const MaxChildTiles := 6

  /** What `createChildTile` renders and wires for one subtopic. */
  datatype ChildTile = ChildTile(parentId: JsValue, childIndex: nat, title: JsValue)

  /** `subtopic?.title ?? subtopic ?? ''`: the title, or the subtopic object itself when the title is nullish. */
  function ChildTitle(s: Subtopic): (r: JsValue)
    ensures WellFormedSubtopic(s) ==> r == s.title
  {
    Coalesce(Coalesce(s.title, SubtopicToJs(s)), Str(""))
  }

  /** `buildChildTiles(tile, topic)`: one child tile for each of the first six subtopics. */
  function BuildChildTiles(topic: Topic): (r: seq<ChildTile>)
    ensures |r| == Min(|topic.subtopics| as real, MaxChildTiles as real) as int
    ensures forall i :: 0 <= i < |r| ==> r[i] == ChildTile(topic.id, i, ChildTitle(topic.subtopics[i]))
  {
    var n := if |topic.subtopics| < MaxChildTiles then |topic.subtopics| else MaxChildTiles;
    seq(n, i requires 0 <= i < n => ChildTile(topic.id, i, ChildTitle(topic.subtopics[i])))
  }

  // ------------------------------------------------------------ drag positions

  /** A position relative to the parent tile's centre, in percent of its size. */
  datatype Position = Position(x: real, y: real)

  /** The subtopic `position` object a drop stores. */
  function PositionToJs(p: Position): JsValue {
    Obj(map["x" := Num(p.x), "y" := Num(p.y)])
  }

  const PositionLimit := 200.0

  /**
   * `computeRelativePosition(event, parentTile)`: the pointer's offset
   * from the tile centre in percent of the tile size, each coordinate
   * limited to [-200, 200].
   */
  function ComputeRelativePosition(clientX: real, clientY: real, parent: Camera.Rect): (p: Position)
    requires parent.width != 0.0 && parent.height != 0.0
    ensures -PositionLimit <= p.x <= PositionLimit && -PositionLimit <= p.y <= PositionLimit
    ensures p.x == Clamp((clientX - (parent.left + parent.width / 2.0)) / parent.width * 100.0, -PositionLimit, PositionLimit)
    ensures p.y == Clamp((clientY - (parent.top + parent.height / 2.0)) / parent.height * 100.0, -PositionLimit, PositionLimit)
  {
    var centerX := parent.left + parent.width / 2.0;
    var centerY := parent.top + parent.height / 2.0;
    var relX := (clientX - centerX) / parent.width * 100.0;
    var relY := (clientY - centerY) / parent.height * 100.0;
    Position(Max(-PositionLimit, Min(PositionLimit, relX)), Max(-PositionLimit, Min(PositionLimit, relY)))
  }

  /** A pointer at the tile centre gives the centre position. */
  lemma CentreIsOrigin(parent: Camera.Rect)
    requires parent.width != 0.0 && parent.height != 0.0
    ensures ComputeRelativePosition(parent.left + parent.width / 2.0, parent.top + parent.height / 2.0, parent) == Position(0.0, 0.0)
  {
  }

  /** The topics after `topic.subtopics[childIndex].position = position`, when that subtopic exists. */
  function WithPosition(ts: seq<Topic>, parentId: JsValue, childIndex: int, position: JsValue): (r: seq<Topic>)
    ensures |r| == |ts|
    ensures FindTopic(ts, parentId).None? ==> r == ts
    ensures FindTopic(ts, parentId).Some? ==>
      var k := FindTopic(ts, parentId).value;
      var subs := ts[k].subtopics;
      && (forall j :: 0 <= j < |ts| && j != k ==> r[j] == ts[j])
      && r[k].id == ts[k].id && r[k].title == ts[k].title && r[k].color == ts[k].color
      && (!(0 <= childIndex < |subs|) ==> r[k] == ts[k])
      && (0 <= childIndex < |subs| ==> r[k].subtopics == subs[childIndex := subs[childIndex].(position := position)])
  {
    match FindTopic(ts, parentId)
    case None => ts
    case Some(k) =>
      var subs := ts[k].subtopics;
      if 0 <= childIndex < |subs| then
        ts[k := ts[k].(subtopics := subs[childIndex := subs[childIndex].(position := position)])]
      else ts
  }

  /** The topics after the subtopic move of `reorderSubtopicsInData`, or `None` when the guard refuses it. */
  function Reordered(ts: seq<Topic>, parentId: JsValue, from: int, to: int): (r: Option<seq<Topic>>)
    ensures r.Some? <==> (
      && FindTopic(ts, parentId).Some? && from != to
      && 0 <= from < |ts[FindTopic(ts, parentId).value].subtopics|
      && 0 <= to < |ts[FindTopic(ts, parentId).value].subtopics|)
    ensures r.Some? ==>
      var k := FindTopic(ts, parentId).value;
      && |r.value| == |ts|
      && (forall j :: 0 <= j < |ts| && j != k ==> r.value[j] == ts[j])
      && r.value[k] == ts[k].(subtopics := Move(ts[k].subtopics, from, to))
  {
    match FindTopic(ts, parentId)
    case None => None
    case Some(k) =>
      var subs := ts[k].subtopics;
      if from == to || from < 0 || to < 0 || from >= |subs| || to >= |subs| then None
      else Some(ts[k := ts[k].(subtopics := Move(subs, from, to))])
  }

  /** `{parentId, childIndex}` of the child tile being dragged. */
  datatype DragContext = DragContext(parentId: JsValue, childIndex: int)

  /** The detail of a `childnodes:reordered` event: a copy of the reordered list. */
  datatype ReorderEvent = ReorderEvent(parentId: JsValue, subtopics: seq<Subtopic>)

  /** The drag state of the menu and the events it has dispatched. */
  class MenuDrag {
    const content: Content
    var dragContext: Option<DragContext>
    var events: seq<ReorderEvent>

    constructor (content: Content)
      ensures this.content == content && dragContext == None && events == []
    {
      this.content := content;
      dragContext := None;
      events := [];
    }

    /** `setSubtopicPosition(parentId, childIndex, position)`. */
    method SetSubtopicPosition(parentId: JsValue, childIndex: int, position: Position)
      modifies content
      ensures old(content.topics).None? ==> content.topics == None
      ensures old(content.topics).Some? ==>
        content.topics == Some(WithPosition(old(content.topics).value, parentId, childIndex, PositionToJs(position)))
    {
      if content.topics.None? {
        return;
      }
      content.topics := Some(WithPosition(content.topics.value, parentId, childIndex, PositionToJs(position)));
    }

    /**
     * `reorderSubtopicsInData(parentId, fromIndex, toIndex)`: moves one
     * subtopic and dispatches a copy of the new list; a refused move changes
     * nothing and dispatches nothing.
     */
    method ReorderSubtopicsInData(parentId: JsValue, from: int, to: int)
      modifies this, content
      ensures dragContext == old(dragContext)
      ensures old(content.topics).None? || Reordered(old(content.topics).value, parentId, from, to).None? ==>
        content.topics == old(content.topics) && events == old(events)
      ensures old(content.topics).Some? && Reordered(old(content.topics).value, parentId, from, to).Some? ==>
        var ts := Reordered(old(content.topics).value, parentId, from, to).value;
        && content.topics == Some(ts)
        && events == old(events) + [ReorderEvent(parentId, ts[FindTopic(old(content.topics).value, parentId).value].subtopics)]
    {
      if content.topics.None? {
        return;
      }
      var r := Reordered(content.topics.value, parentId, from, to);
      if r.None? {
        return;
      }
      var k := FindTopic(content.topics.value, parentId).value;
      content.topics := r;
      events := events + [ReorderEvent(parentId, r.value[k].subtopics)];
    }

    /** `onChildDragStart`: only in admin mode. */
    method OnChildDragStart(adminMode: bool, parentId: JsValue, childIndex: int)
      modifies this
      ensures events == old(events)
      ensures dragContext == if adminMode then Some(DragContext(parentId, childIndex)) else old(dragContext)
    {
      if adminMode {
        dragContext := Some(DragContext(parentId, childIndex));
      }
    }

    /** `onChildDragEnd`. */
    method OnChildDragEnd()
      modifies this
      ensures dragContext == None && events == old(events)
    {
      dragContext := None;
    }

    /**
     * `onChildDrop(event, parentId, targetIndex)`: in admin mode, for a drag
     * from the same parent, stores the drop position on the dragged
     * subtopic (when the parent tile is found) and then moves it to the
     * target index. `parentRect` is the parent tile's box, `None` when the
     * tile is not in the document.
     */
    method OnChildDrop(adminMode: bool, parentId: JsValue, targetIndex: int, parentRect: Option<Camera.Rect>, clientX: real, clientY: real)
      requires parentRect.Some? ==> parentRect.value.width != 0.0 && parentRect.value.height != 0.0
      modifies this, content
      ensures !adminMode || old(dragContext).None? || old(dragContext).value.parentId != parentId ==>
        content.topics == old(content.topics) && events == old(events)
      ensures !adminMode ==> dragContext == old(dragContext)
      ensures adminMode && old(dragContext).Some? && old(dragContext).value.parentId == parentId ==>
        dragContext == None
      ensures (adminMode && old(dragContext).Some? && old(dragContext).value.parentId == parentId) ==>
        var from := old(dragContext).value.childIndex;
        var placed :=
          if old(content.topics).Some? && parentRect.Some? then
            Some(WithPosition(old(content.topics).value, parentId, from,
                              PositionToJs(ComputeRelativePosition(clientX, clientY, parentRect.value))))
          else old(content.topics);
        var moved := if placed.Some? then Reordered(placed.value, parentId, from, targetIndex) else None;
        && content.topics == (if moved.Some? then moved else placed)
        && events == old(events) +
             (if moved.Some? then [ReorderEvent(parentId, moved.value[FindTopic(placed.value, parentId).value].subtopics)] else [])
    {
      if !adminMode {
        return;
      }
      if dragContext.None? || dragContext.value.parentId != parentId {
        return;
      }
      var from := dragContext.value.childIndex;
      dragContext := None;
      if parentRect.Some? {
        var p := ComputeRelativePosition(clientX, clientY, parentRect.value);
        SetSubtopicPosition(parentId, from, p);
      }
      ReorderSubtopicsInData(parentId, from, targetIndex);
    }

    /** `onContainerDrop`: a drop on the container only stores the position of the dragged subtopic. */
    method OnContainerDrop(adminMode: bool, parentRect: Option<Camera.Rect>, clientX: real, clientY: real)
      requires parentRect.Some? ==> parentRect.value.width != 0.0 && parentRect.value.height != 0.0
      modifies this, content
      ensures events == old(events)
      ensures !adminMode || old(dragContext).None? ==> content.topics == old(content.topics) && dragContext == old(dragContext)
      ensures adminMode && old(dragContext).Some? ==> dragContext == None
      ensures adminMode && old(dragContext).Some? && parentRect.Some? && old(content.topics).Some? ==>
        content.topics == Some(WithPosition(old(content.topics).value, old(dragContext).value.parentId, old(dragContext).value.childIndex,
                                            PositionToJs(ComputeRelativePosition(clientX, clientY, parentRect.value))))
      ensures adminMode && old(dragContext).Some? && (parentRect.None? || old(content.topics).None?) ==>
        content.topics == old(content.topics)
    {
      if !adminMode || dragContext.None? {
        return;
      }
      var ctx := dragContext.value;
      dragContext := None;
      if parentRect.None? {
        return;
      }
      SetSubtopicPosition(ctx.parentId, ctx.childIndex, ComputeRelativePosition(clientX, clientY, parentRect.value));
    }
  }

  /**
   * The property the drop handler is written for: after a drop within one
   * parent, the dragged subtopic sits at the target index and carries the
   * drop position, and the list is a permutation of the positioned list.
   */
  lemma DroppedSubtopicArrivesWithPosition(ts: seq<Topic>, parentId: JsValue, from: int, to: int, p: JsValue)
    requires FindTopic(ts, parentId).Some?
    requires 0 <= from < |ts[FindTopic(ts, parentId).value].subtopics|
    requires 0 <= to < |ts[FindTopic(ts, parentId).value].subtopics|
    requires from != to
    ensures var placed := WithPosition(ts, parentId, from, p);
      && Reordered(placed, parentId, from, to).Some?
      && var k := FindTopic(ts, parentId).value;
      && var subs := Reordered(placed, parentId, from, to).value[k].subtopics;
      && subs[to] == ts[k].subtopics[from].(position := p)
      && multiset(subs) == multiset(placed[k].subtopics)
  {
    var placed := WithPosition(ts, parentId, from, p);
    var k := FindTopic(ts, parentId).value;
    FindTopicUnchanged(ts, placed, parentId);
    MoveIsPermutation(placed[k].subtopics, from, to);
  }

  /** Changing subtopics leaves the ids, so the topic lookup finds the same index. */
  lemma {:induction false} FindTopicUnchanged(ts: seq<Topic>, us: seq<Topic>, id: JsValue)
    requires |ts| == |us|
    requires forall j :: 0 <= j < |ts| ==> ts[j].id == us[j].id
    ensures FindTopic(us, id) == FindTopic(ts, id)
  {
    if ts != [] {
      FindTopicUnchanged(ts[1..], us[1..], id);
    }
  }

  // ------------------------------------------------------------ placement

  /** Where a child tile is placed: an offset from the parent centre and an angle. */
  datatype Placement = Placement(x: real, y: real, angle: real)

  /**
   * The `positions` array of `positionChildnodeTiles` for `n` child tiles:
   * a stored position whose x and y are finite wins, otherwise the
   * computed default (`None` when the layout has no entry at that index).
   */
  function ChildPlacements(subs: seq<Subtopic>, defaults: seq<Placement>, n: nat, atan2: (real, real) -> real): (r: seq<Option<Placement>>)
    ensures |r| == n
    ensures forall i :: 0 <= i < n ==>
      r[i] == (if i < |subs| && Truthy(subs[i].position)
                  && IsFinite(Get(subs[i].position, "x")) && IsFinite(Get(subs[i].position, "y"))
               then Some(StoredPlacement(subs[i].position, atan2))
               else if i < |defaults| then Some(defaults[i]) else None)
  {
    seq(n, i requires 0 <= i < n =>
      if i < |subs| && Truthy(subs[i].position) && IsFinite(Get(subs[i].position, "x")) && IsFinite(Get(subs[i].position, "y"))
      then Some(StoredPlacement(subs[i].position, atan2))
      else if i < |defaults| then Some(defaults[i]) else None)
  }

  /** `{x: pos.x, y: pos.y, angle: Math.atan2(pos.y, pos.x)}`. */
  function StoredPlacement(pos: JsValue, atan2: (real, real) -> real): Placement
    requires IsFinite(Get(pos, "x")) && IsFinite(Get(pos, "y"))
  {
    var x := ToNumber(Get(pos, "x"));
    var y := ToNumber(Get(pos, "y"));
    Placement(x, y, atan2(y, x))
  }

  /** A drop-stored position is always used for its child tile. */
  lemma DroppedPositionIsUsed(subs: seq<Subtopic>, defaults: seq<Placement>, n: nat, atan2: (real, real) -> real, i: nat, p: Position)
    requires i < |subs| && i < n
    requires subs[i].position == PositionToJs(p)
    ensures ChildPlacements(subs, defaults, n, atan2)[i] == Some(Placement(p.x, p.y, atan2(p.y, p.x)))
  {
    var pos := subs[i].position;
    assert Get(pos, "x") == Num(p.x) && Get(pos, "y") == Num(p.y);
  }

  /** Subtopics without stored positions take the computed layout unchanged. */
  lemma NoStoredPositionsTakeDefaults(subs: seq<Subtopic>, defaults: seq<Placement>, atan2: (real, real) -> real)
    requires forall i :: 0 <= i < |subs| ==> subs[i].position == Null
    ensures ChildPlacements(subs, defaults, |defaults|, atan2) == seq(|defaults|, i requires 0 <= i < |defaults| => Some(defaults[i]))
  {
  }

  // ------------------------------------------------------------ clicks

  /** `toggleBookmark(parentId, childIndex, childTile)`: the child tile's classes follow the toggle's result. */
  method ToggleBookmark(store: WebStorage.LocalStore, parentId: JsValue, childIndex: int, classes: set<string>) returns (newClasses: set<string>)
    modifies store
    ensures store.items == old(store.items)[Storage.BookmarksKey := WebStorage.BookmarkList(
      Storage.Toggled(Storage.GetBookmarks(old(store.items)), WebStorage.Bookmark(parentId, childIndex)))]
    ensures "bookmarked" in newClasses <==> !Storage.HasBookmark(old(store.items), parentId, childIndex)
    ensures newClasses - {"bookmarked"} == classes - {"bookmarked"}
  {
    var isSet := Storage.ToggleBookmarkStorage(store, parentId, childIndex);
    newClasses := if isSet then classes + {"bookmarked"} else classes - {"bookmarked"};
  }

  /** What `handleChildnodeClick` asks the detail view to show. */
  datatype DetailRequest = DetailRequest(parentId: JsValue, childIndex: int, title: JsValue)

  /** `handleChildnodeClick`: a child tile opens its detail only while a tile is focused. */
  function HandleChildnodeClick(state: Camera.CamState, parentId: JsValue, childIndex: int, title: JsValue): (r: Option<DetailRequest>)
    ensures r.Some? <==> state.Focused?
    ensures r.Some? ==> r.value == DetailRequest(parentId, childIndex, title)
  {
    if state.Focused? then Some(DetailRequest(parentId, childIndex, title)) else None
  }

  // ------------------------------------------------------------ colours

  predicate IsHex(c: char) {
    DigitIn(c, 16).Some?
  }

  function HexByte(hi: char, lo: char): (b: nat)
    requires IsHex(hi) && IsHex(lo)
    ensures b < 256
  {
    DigitIn(hi, 16).value * 16 + DigitIn(lo, 16).value
  }

  /** `/^#?([a-f\d]{2})([a-f\d]{2})([a-f\d]{2})$/i`: the six hex digits, if `hex` has that form. */
  function HexDigits(hex: string): (d: Option<string>)
    ensures d.Some? ==> |d.value| == 6 && forall i :: 0 <= i < 6 ==> IsHex(d.value[i])
  {
    var body := if |hex| == 7 && hex[0] == '#' then hex[1..] else hex;
    if |body| == 6 && forall i :: 0 <= i < 6 ==> IsHex(body[i]) then Some(body) else None
  }

  /** `hexToRgb(hex)`: three bytes for `#rrggbb` or `rrggbb` in either case, `[0, 0, 0]` for anything else. */
  function HexToRgb(hex: string): (rgb: seq<nat>)
    ensures |rgb| == 3 && forall i :: 0 <= i < 3 ==> rgb[i] < 256
    ensures HexDigits(hex).None? ==> rgb == [0, 0, 0]
  {
    match HexDigits(hex)
    case None => [0, 0, 0]
    case Some(d) => [HexByte(d[0], d[1]), HexByte(d[2], d[3]), HexByte(d[4], d[5])]
  }

  /** The lower-case hex digit for 0 .. 15. */
  function HexChar(v: nat): (c: char)
    requires v < 16
    ensures IsHex(c) && DigitIn(c, 16).value == v
  {
    if v < 10 then ('0' as int + v) as char else ('a' as int + v - 10) as char
  }

  /** The two hex digits of a byte. */
  function ByteToHex(b: nat): (s: string)
    requires b < 256
    ensures |s| == 2 && IsHex(s[0]) && IsHex(s[1]) && HexByte(s[0], s[1]) == b
  {
    [HexChar(b / 16), HexChar(b % 16)]
  }

  /** `hexToRgb` reads back every colour written as `#rrggbb`, with or without the `#`. */
  lemma HexToRgbRoundTrip(r: nat, g: nat, b: nat)
    requires r < 256 && g < 256 && b < 256
    ensures HexToRgb("#" + ByteToHex(r) + ByteToHex(g) + ByteToHex(b)) == [r, g, b]
    ensures HexToRgb(ByteToHex(r) + ByteToHex(g) + ByteToHex(b)) == [r, g, b]
  {
    var body := ByteToHex(r) + ByteToHex(g) + ByteToHex(b);
    assert ("#" + body)[1..] == body;
    assert HexDigits("#" + body) == Some(body);
    assert HexDigits(body) == Some(body);
  }
}

=== FILE: menu_layout.dfy ===
/**
 * `computeLayout` and the tile count of `updateLayout` in
 * `js/modules/menu-layout.js`: the responsive sizes of the circular main
 * menu. Applying them to CSS custom properties and tile styles is DOM work
 * and is not part of this model.
 */
module MenuLayout {
  import opened MathUtil

  const Pi: real := 3.141592653589793
  const MinRadius: real := 200.0
  const MinTileSize: real := 90.0
  const MaxTileSize: real := 220.0
  const DefaultTileCount := 5

  datatype FontSizes = FontSizes(title: real, tile: real, labelIdle: real, labelFocus: real, body: real)

  datatype Spacing = Spacing(space1: real, space2: real, space3: real, space4: real, space5: real, space6: real)

  datatype LabelOffsets = LabelOffsets(offsetX: real, offsetY: real, gap: real)

  datatype TilePos = TilePos(x: real, y: real, angle: real)

  /** The object `computeLayout` returns (without its debug strings). */
  datatype Layout = Layout(
    viewportW: real, viewportH: real, aspectRatio: real, vmin: real,
    isUltrawide: bool, isWide: bool, isNarrow: bool, isPortrait: bool,
    radius: real, tileSize: real, containerSize: real,
    centerX: real, centerY: real,
    fontSizes: FontSizes, spacing: Spacing, labelOffsets: LabelOffsets,
    tilePositions: seq<TilePos>)

  /** The share of `vmin` used for the radius: wider for ultrawide, tighter for narrow and portrait screens. */
  function RadiusFactor(aspect: real): (f: real)
    ensures aspect > 2.0 ==> f == 0.32
    ensures aspect < 1.4 ==> f == 0.24
    ensures 1.4 <= aspect <= 2.0 ==> f == 0.28
  {
    if aspect > 2.0 then 0.32 else if aspect < 1.4 || aspect < 1.0 then 0.24 else 0.28
  }

  /** The share of `vmin` used for a tile. */
  function TileSizeFactor(aspect: real): (f: real)
    ensures aspect > 2.0 ==> f == 0.12
    ensures aspect < 1.4 ==> f == 0.16
    ensures 1.4 <= aspect <= 2.0 ==> f == 0.14
  {
    if aspect > 2.0 then 0.12 else if aspect < 1.4 then 0.16 else 0.14
  }

  /** `Math.max(lo, Math.min(x, hi))`. */
  function Bounded(x: real, lo: real, hi: real): (r: real)
    ensures r >= lo
    ensures lo <= hi ==> r <= hi
    ensures lo <= x <= hi ==> r == x
  {
    Max(lo, Min(x, hi))
  }

  /** `angle_i = (i/n)·2π − π/2` around the centre at the menu radius. */
  function TilePositions(n: nat, centerX: real, centerY: real, radius: real, cos: real -> real, sin: real -> real): (ps: seq<TilePos>)
    ensures |ps| == n
    ensures forall i :: 0 <= i < n ==>
      && ps[i].angle == (i as real / n as real) * 2.0 * Pi - Pi / 2.0
      && ps[i].x == centerX + radius * 1.0 * cos(ps[i].angle)
      && ps[i].y == centerY + radius * 1.0 * sin(ps[i].angle)
  {
    seq(n, i requires 0 <= i < n =>
      var angle := (i as real / n as real) * 2.0 * Pi - Pi / 2.0;
      TilePos(centerX + radius * 1.0 * cos(angle), centerY + radius * 1.0 * sin(angle), angle))
  }

  /** `computeLayout(viewportW, viewportH, tileCount)`. */
  function ComputeLayout(w: real, h: real, tileCount: int, cos: real -> real, sin: real -> real): (l: Layout)
    requires h != 0.0
    ensures l.radius >= MinRadius
    ensures MinTileSize <= l.tileSize <= MaxTileSize
    ensures 4.0 <= l.spacing.space2 <= 16.0
    ensures l.containerSize == 2.0 * l.radius + l.tileSize + l.spacing.space6
    ensures l.centerX == l.centerY == l.containerSize / 2.0
    ensures |l.tilePositions| == if tileCount > 0 then tileCount else 0
  {
    var vmin := Min(w, h);
    var aspect := w / h;
    var radius := Max(MinRadius, Min(vmin * RadiusFactor(aspect), vmin * 0.45));
    var tileSize := Bounded(vmin * TileSizeFactor(aspect), MinTileSize, MaxTileSize);
    var fonts := FontSizes(Bounded(vmin * 0.035, 24.0, 56.0), Bounded(vmin * 0.022, 14.0, 28.0),
                           Bounded(vmin * 0.012, 10.0, 16.0), Bounded(vmin * 0.04, 20.0, 56.0), Bounded(vmin * 0.018, 14.0, 22.0));
    var base := Bounded(vmin * 0.01, 4.0, 16.0);
    var spacing := Spacing(base * 0.5, base * 1.0, base * 1.5, base * 2.0, base * 3.0, base * 4.0);
    var containerSize := radius * 2.0 + tileSize + spacing.space6;
    var n := if tileCount > 0 then tileCount else 0;
    Layout(w, h, aspect, vmin, aspect > 2.0, aspect > 1.6, aspect < 1.4, aspect < 1.0,
           radius, tileSize, containerSize, containerSize / 2.0, containerSize / 2.0,
           fonts, spacing, LabelOffsets(spacing.space3, spacing.space2, spacing.space1),
           TilePositions(n, containerSize / 2.0, containerSize / 2.0, radius, cos, sin))
  }

  /** The flags and factors follow the aspect ratio: ultrawide above 2, narrow below 1.4, portrait below 1. */
  lemma LayoutFactors(w: real, h: real, tileCount: int, cos: real -> real, sin: real -> real)
    requires h != 0.0
    ensures var l := ComputeLayout(w, h, tileCount, cos, sin);
      && l.aspectRatio == w / h
      && (l.isUltrawide <==> w / h > 2.0)
      && (l.isNarrow <==> w / h < 1.4)
      && (l.isPortrait ==> l.isNarrow)
      && l.radius == Max(MinRadius, Min(l.vmin * RadiusFactor(w / h), l.vmin * 0.45))
      && l.tileSize == Bounded(l.vmin * TileSizeFactor(w / h), MinTileSize, MaxTileSize)
  {
  }

  /** Every font size lies within its bounds, and each spacing token is a fixed multiple of the base. */
  lemma FontAndSpacingBounds(w: real, h: real, tileCount: int, cos: real -> real, sin: real -> real)
    requires h != 0.0
    ensures var l := ComputeLayout(w, h, tileCount, cos, sin);
      && 24.0 <= l.fontSizes.title <= 56.0
      && 14.0 <= l.fontSizes.tile <= 28.0
      && 10.0 <= l.fontSizes.labelIdle <= 16.0
      && 20.0 <= l.fontSizes.labelFocus <= 56.0
      && 14.0 <= l.fontSizes.body <= 22.0
      && l.spacing.space6 == 4.0 * l.spacing.space2
      && 2.0 <= l.spacing.space1 <= 8.0 && 16.0 <= l.spacing.space6 <= 64.0
      && l.labelOffsets == LabelOffsets(l.spacing.space3, l.spacing.space2, l.spacing.space1)
  {
  }

  /** On a 1920×1080 screen the formula gives a radius of 302.4 and a tile of 151.2. */
  lemma FullHdLayout(tileCount: int, cos: real -> real, sin: real -> real)
    ensures ComputeLayout(1920.0, 1080.0, tileCount, cos, sin).radius == 302.4
    ensures ComputeLayout(1920.0, 1080.0, tileCount, cos, sin).tileSize == 151.2
  {
    assert 1920.0 / 1080.0 < 2.0 && 1920.0 / 1080.0 >= 1.4;
  }

  /** `document.querySelectorAll('.menu-tile').length || 5`. */
  function TileCount(domTiles: nat): (n: nat)
    ensures n > 0
    ensures domTiles > 0 ==> n == domTiles
    ensures domTiles == 0 ==> n == DefaultTileCount
  {
    if domTiles == 0 then DefaultTileCount else domTiles
  }

  /** `updateLayout()`: the layout for the current window and tiles. */
  function UpdateLayout(w: real, h: real, domTiles: nat, cos: real -> real, sin: real -> real): (l: Layout)
    requires h != 0.0
    ensures |l.tilePositions| == TileCount(domTiles)
    ensures domTiles == 0 ==> |l.tilePositions| == DefaultTileCount
  {
    ComputeLayout(w, h, TileCount(domTiles), cos, sin)
  }
}

=== FILE: navigation.dfy ===
/**
 * `js/modules/navigation.js`: the keyboard and back-button decisions. The
 * handlers hold no state of their own; each maps the key, its modifiers,
 * the camera state and Reveal's position to one action.
 */
module Navigation {
  import opened Camera

  /** What a handler asks for: nothing, the camera's `unfocus()`, or `Reveal.slide(h, v)`. */
  datatype Action = NoAction | UnfocusCamera | SlideTo(h: int, v: int)

  datatype KeyPress = KeyPress(key: string, ctrl: bool, alt: bool)

  /** Slide 1 is the main menu. */
  const MainMenuSlide := 1

  predicate IsHomeKey(key: string) {
    key == "h" || key == "H" || key == "Home"
  }

  /** `returnToMainMenu()`. */
  const ReturnToMainMenu := SlideTo(MainMenuSlide, 0)

  /** `goToClosing()`: the last horizontal slide. */
  function GoToClosing(horizontalSlides: int): (a: Action)
    ensures a.SlideTo? && a.v == 0
    ensures horizontalSlides > 0 ==> 0 <= a.h < horizontalSlides && a.h + 1 == horizontalSlides
  {
    SlideTo(horizontalSlides - 1, 0)
  }

  /** `handleKeyboardNavigation(e)` with `indexh` and the number of horizontal slides of the deck. */
  function HandleKeyboardNavigation(e: KeyPress, state: CamState, indexh: int, horizontalSlides: int): (a: Action)
    ensures e.key == "Escape" ==> (a == UnfocusCamera <==> state == Focused) && (a == UnfocusCamera || a == NoAction)
    ensures e.key != "Escape" && state != Idle ==> a == NoAction
    ensures a == UnfocusCamera ==> e.key == "Escape" && state == Focused
    ensures e.key != "Escape" && state == Idle && IsHomeKey(e.key) ==>
      a == (if !e.ctrl && !e.alt && indexh != MainMenuSlide then ReturnToMainMenu else NoAction)
    ensures e.key != "Escape" && state == Idle && e.key == "End" ==>
      a == (if !e.ctrl && !e.alt then GoToClosing(horizontalSlides) else NoAction)
    ensures e.key != "Escape" && !IsHomeKey(e.key) && e.key != "End" ==> a == NoAction
  {
    if e.key == "Escape" then
      if state == Focused then UnfocusCamera else NoAction
    else if state != Idle then NoAction
    else if IsHomeKey(e.key) then
      if !e.ctrl && !e.alt && indexh != MainMenuSlide then ReturnToMainMenu else NoAction
    else if e.key == "End" then
      if !e.ctrl && !e.alt then GoToClosing(horizontalSlides) else NoAction
    else NoAction
  }

  /** `handleBackAction()`: only a focused camera is sent back. */
  function HandleBackAction(state: CamState): (a: Action)
    ensures a == UnfocusCamera <==> state == Focused
    ensures a != UnfocusCamera ==> a == NoAction
  {
    if state == Focused then UnfocusCamera else NoAction
  }

  /** Escape and the back button ask for the same thing in every camera state. */
  lemma EscapeIsBack(ctrl: bool, alt: bool, state: CamState, indexh: int, horizontalSlides: int)
    ensures HandleKeyboardNavigation(KeyPress("Escape", ctrl, alt), state, indexh, horizontalSlides) == HandleBackAction(state)
  {
  }

  /** Only an idle camera lets a key move the deck, and the moves land on the menu or the closing slide. */
  lemma OnlyIdleNavigates(e: KeyPress, state: CamState, indexh: int, horizontalSlides: int)
    requires HandleKeyboardNavigation(e, state, indexh, horizontalSlides).SlideTo?
    ensures state == Idle
    ensures var a := HandleKeyboardNavigation(e, state, indexh, horizontalSlides);
      a == ReturnToMainMenu || a == GoToClosing(horizontalSlides)
  {
  }

  /** `navigateToTopic(topicId, slideIndex = 0)`: topic slides start at horizontal index 2. */
  function NavigateToTopic(topicId: int, slideIndex: int): (a: Action)
    ensures a.SlideTo? && a.h - 1 == topicId && a.v == slideIndex
  {
    SlideTo(topicId + 1, slideIndex)
  }

  /** Topic 1 is the first slide after the menu, and distinct topics go to distinct slides. */
  lemma TopicsFollowTheMenu(t1: int, t2: int, v: int)
    ensures NavigateToTopic(1, v).h == MainMenuSlide + 1
    ensures t1 != t2 ==> NavigateToTopic(t1, v) != NavigateToTopic(t2, v)
  {
  }
}

=== FILE: normalize.dfy ===
/**
 * The normalisers of `js/modules/utils/normalize.js`: every topic and
 * subtopic the menu and the admin panel touch passes through them, so
 * the rest of the model works on their results.
 */
module Normalize {
  import opened JsValues

  /** A normalised subtopic `{title, position}`. */
  datatype Subtopic = Subtopic(title: JsValue, position: JsValue)

  /** A normalised topic `{id, title, color, subtopics}`. */
  datatype Topic = Topic(id: JsValue, title: JsValue, color: JsValue, subtopics: seq<Subtopic>)

  const EmptySubtopic := Subtopic(Str(""), Null)
  const DefaultColor := Str("#000")
  const EmptyTopic := Topic(Null, Str(""), DefaultColor, [])

  /** The shape every normaliser result has: no `undefined`/`null` title or colour, no `undefined` id or position. */
  predicate WellFormedSubtopic(s: Subtopic) {
    !Nullish(s.title) && !s.position.Undefined?
  }

  predicate WellFormedTopic(t: Topic) {
    !t.id.Undefined? && !Nullish(t.title) && !Nullish(t.color)
    && forall i :: 0 <= i < |t.subtopics| ==> WellFormedSubtopic(t.subtopics[i])
  }

  /** The object a normalised subtopic is in JavaScript. */
  function SubtopicToJs(s: Subtopic): JsValue {
    Obj(map["title" := s.title, "position" := s.position])
  }

  function SubtopicsToJs(subs: seq<Subtopic>): (r: seq<JsValue>)
    ensures |r| == |subs|
    ensures forall i :: 0 <= i < |subs| ==> r[i] == SubtopicToJs(subs[i])
  {
    if subs == [] then [] else [SubtopicToJs(subs[0])] + SubtopicsToJs(subs[1..])
  }

  /** The object a normalised topic is in JavaScript. */
  function TopicToJs(t: Topic): JsValue {
    Obj(map["id" := t.id, "title" := t.title, "color" := t.color, "subtopics" := Arr(SubtopicsToJs(t.subtopics))])
  }

  /**
   * `normalizeSubtopic(entry)`: a string becomes the title, an object keeps
   * its `title` and `position` (defaulting to `''` and `null`), anything
   * else becomes the empty subtopic.
   */
  function NormalizeSubtopic(entry: JsValue): (r: Subtopic)
    ensures WellFormedSubtopic(r)
    ensures entry.Str? ==> r == Subtopic(entry, Null)
    ensures IsObjectLike(entry) ==> r.title == Coalesce(Get(entry, "title"), Str(""))
    ensures IsObjectLike(entry) ==> r.position == Coalesce(Get(entry, "position"), Null)
    ensures !entry.Str? && !IsObjectLike(entry) ==> r == EmptySubtopic
  {
    match entry
    case Str(_) => Subtopic(entry, Null)
    case Arr(_) => Subtopic(Coalesce(Get(entry, "title"), Str("")), Coalesce(Get(entry, "position"), Null))
    case Obj(_) => Subtopic(Coalesce(Get(entry, "title"), Str("")), Coalesce(Get(entry, "position"), Null))
    case _ => EmptySubtopic
  }

  function NormalizeSubtopics(items: seq<JsValue>): (r: seq<Subtopic>)
    ensures |r| == |items|
    ensures forall i :: 0 <= i < |items| ==> r[i] == NormalizeSubtopic(items[i])
  {
    if items == [] then [] else [NormalizeSubtopic(items[0])] + NormalizeSubtopics(items[1..])
  }

  /**
   * `normalizeTopic(topic)`: a falsy or non-object value becomes the empty
   * topic; an object keeps `id`, `title`, `color` (defaulting to `null`,
   * `''`, `'#000'`) and its subtopics array, each entry normalised.
   */
  function NormalizeTopic(topic: JsValue): (r: Topic)
    ensures WellFormedTopic(r)
    ensures !IsObjectLike(topic) ==> r == EmptyTopic
    ensures IsObjectLike(topic) ==>
      && r.id == Coalesce(Get(topic, "id"), Null)
      && r.title == Coalesce(Get(topic, "title"), Str(""))
      && r.color == Coalesce(Get(topic, "color"), DefaultColor)
      && r.subtopics == (match Get(topic, "subtopics") case Arr(items) => NormalizeSubtopics(items) case _ => [])
  {
    if !IsObjectLike(topic) then EmptyTopic
    else
      Topic(
        Coalesce(Get(topic, "id"), Null),
        Coalesce(Get(topic, "title"), Str("")),
        Coalesce(Get(topic, "color"), DefaultColor),
        match Get(topic, "subtopics") case Arr(items) => NormalizeSubtopics(items) case _ => [])
  }

  /** A well-formed subtopic is a fixed point of `normalizeSubtopic`. */
  lemma NormalizeSubtopicFixpoint(s: Subtopic)
    requires WellFormedSubtopic(s)
    ensures NormalizeSubtopic(SubtopicToJs(s)) == s
  {
  }

  /** A well-formed topic is a fixed point of `normalizeTopic`. */
  lemma {:induction false} NormalizeTopicFixpoint(t: Topic)
    requires WellFormedTopic(t)
    ensures NormalizeTopic(TopicToJs(t)) == t
  {
    var items := SubtopicsToJs(t.subtopics);
    assert Get(TopicToJs(t), "subtopics") == Arr(items);
    forall i | 0 <= i < |items|
      ensures NormalizeSubtopic(items[i]) == t.subtopics[i]
    {
      NormalizeSubtopicFixpoint(t.subtopics[i]);
    }
  }

  /** Normalising twice is normalising once: `normalizeSubtopic` is idempotent. */
  lemma {:induction false} NormalizeSubtopicIdempotent(entry: JsValue)
    ensures NormalizeSubtopic(SubtopicToJs(NormalizeSubtopic(entry))) == NormalizeSubtopic(entry)
  {
    NormalizeSubtopicFixpoint(NormalizeSubtopic(entry));
  }

  /** Normalising twice is normalising once: `normalizeTopic` is idempotent. */
  lemma {:induction false} NormalizeTopicIdempotent(topic: JsValue)
    ensures NormalizeTopic(TopicToJs(NormalizeTopic(topic))) == NormalizeTopic(topic)
  {
    NormalizeTopicFixpoint(NormalizeTopic(topic));
  }

  /** Subtopics normalised in bulk are all well formed. */
  function NormalizeSubtopicList(subs: seq<Subtopic>): (r: seq<Subtopic>)
    ensures |r| == |subs|
    ensures forall i :: 0 <= i < |r| ==> WellFormedSubtopic(r[i])
    ensures forall i :: 0 <= i < |r| ==> WellFormedSubtopic(subs[i]) ==> r[i] == subs[i]
  {
    if subs == [] then []
    else [NormalizeSubtopic(SubtopicToJs(subs[0]))] + NormalizeSubtopicList(subs[1..])
  }
}

=== FILE: presentation.dfy ===
/**
 * The decisions of `src/presentation.js`: the arrow-key controls with their
 * simulated hover, the next-topic jump, the expandable navigation boxes,
 * the flash fragments of the overview, the circle angles and the path of
 * a listed background image. Slides are named by their `(h, v)` indices;
 * their class lists are a map. Timers (`setTimeout`) are taken to have run.
 */
module Presentation {
  import opened Text
  import SlideGenerator

  /** The `(h, v)` indices of a vertical section. */
  datatype SlidePos = SlidePos(h: int, v: int)

  const SimulatedHover := "simulated-hover"

  /** The colour class of a hovered placeholder. */
  function DirectionClass(vIndex: int): (c: string)
    ensures c != SimulatedHover
  {
    if vIndex == 0 then "hover-left" else if vIndex == 2 then "hover-top" else "hover-bottom"
  }

  function ClassesAt(classes: map<SlidePos, set<string>>, p: SlidePos): set<string> {
    if p in classes then classes[p] else {}
  }

  /** `classList.add(...cs)` on slide `p`. */
  function AddClasses(classes: map<SlidePos, set<string>>, p: SlidePos, cs: set<string>): (r: map<SlidePos, set<string>>)
    ensures ClassesAt(r, p) == ClassesAt(classes, p) + cs
    ensures forall q :: q != p ==> ClassesAt(r, q) == ClassesAt(classes, q)
  {
    classes[p := ClassesAt(classes, p) + cs]
  }

  /** `classList.remove(...cs)` on slide `p`. */
  function RemoveClasses(classes: map<SlidePos, set<string>>, p: SlidePos, cs: set<string>): (r: map<SlidePos, set<string>>)
    ensures ClassesAt(r, p) == ClassesAt(classes, p) - cs
    ensures forall q :: q != p ==> ClassesAt(r, q) == ClassesAt(classes, q)
  {
    classes[p := ClassesAt(classes, p) - cs]
  }

  /** `currentHoveredSlide`, `currentHoveredClass`, `currentHoveredVIndex` and the slides' class lists. */
  datatype Hover = Hover(slide: Option<SlidePos>, cls: Option<string>, vIndex: Option<int>, classes: map<SlidePos, set<string>>)

  /** Takes the hover classes off the hovered slide (when both references are set) and forgets the hover. */
  function ClearHover(s: Hover): (r: Hover)
    ensures r.slide.None? && r.cls.None? && r.vIndex.None?
    ensures s.slide.Some? && s.cls.Some? ==>
      ClassesAt(r.classes, s.slide.value) == ClassesAt(s.classes, s.slide.value) - {SimulatedHover, s.cls.value}
  {
    Hover(None, None, None, if s.slide.Some? && s.cls.Some? then RemoveClasses(s.classes, s.slide.value, {SimulatedHover, s.cls.value}) else s.classes)
  }

  /** `hoverPlaceholder(indices, vIndex)`: marks section `v` of the current horizontal slide, if it exists. */
  function HoverPlaceholder(s: Hover, slides: set<SlidePos>, h: int, vIndex: int): (r: Hover)
    ensures SlidePos(h, vIndex) !in slides ==> r == s
    ensures SlidePos(h, vIndex) in slides ==>
      && r.slide == Some(SlidePos(h, vIndex)) && r.cls == Some(DirectionClass(vIndex)) && r.vIndex == s.vIndex
      && r.classes == AddClasses(s.classes, SlidePos(h, vIndex), {SimulatedHover, DirectionClass(vIndex)})
  {
    var p := SlidePos(h, vIndex);
    if p !in slides then s
    else Hover(Some(p), Some(DirectionClass(vIndex)), s.vIndex, AddClasses(s.classes, p, {SimulatedHover, DirectionClass(vIndex)}))
  }

  /**
   * `toggleHover(indices, vIndex)`: the same key again clears the hover;
   * another key drops the previous hover's classes, marks the new section
   * and records the key (even when that section does not exist).
   */
  function ToggleHover(s: Hover, slides: set<SlidePos>, h: int, vIndex: int): (r: Hover)
    ensures r.vIndex.None? <==> s.vIndex == Some(vIndex) && s.slide.Some?
    ensures r.vIndex.Some? ==> r.vIndex == Some(vIndex)
    ensures r.vIndex.Some? && SlidePos(h, vIndex) in slides ==>
      r.slide == Some(SlidePos(h, vIndex)) && SimulatedHover in ClassesAt(r.classes, SlidePos(h, vIndex))
    ensures forall q :: q != SlidePos(h, vIndex) && s.slide != Some(q) ==> ClassesAt(r.classes, q) == ClassesAt(s.classes, q)
  {
    if s.vIndex == Some(vIndex) && s.slide.Some? then
      Hover(None, None, None, RemoveClasses(s.classes, s.slide.value, {SimulatedHover} + (if s.cls.Some? then {s.cls.value} else {})))
    else
      var cleaned := if s.slide.Some? && s.cls.Some? then RemoveClasses(s.classes, s.slide.value, {SimulatedHover, s.cls.value}) else s.classes;
      HoverPlaceholder(s.(classes := cleaned), slides, h, vIndex).(vIndex := Some(vIndex))
  }

  /** Pressing the hovered key again clears the hover and takes its classes off the slide. */
  lemma SameKeyClearsHover(s: Hover, slides: set<SlidePos>, h: int, vIndex: int)
    requires s.vIndex == Some(vIndex) && s.slide.Some? && s.cls.Some?
    ensures var r := ToggleHover(s, slides, h, vIndex);
      && r.slide.None? && r.cls.None? && r.vIndex.None?
      && SimulatedHover !in ClassesAt(r.classes, s.slide.value)
      && s.cls.value !in ClassesAt(r.classes, s.slide.value)
      && forall q :: q != s.slide.value ==> ClassesAt(r.classes, q) == ClassesAt(s.classes, q)
  {
  }

  /** Another key moves the hover: the old slide loses its marks and the new section carries them. */
  lemma OtherKeyMovesHover(s: Hover, slides: set<SlidePos>, h: int, vIndex: int)
    requires s.vIndex != Some(vIndex) || s.slide.None?
    requires SlidePos(h, vIndex) in slides
    ensures var r := ToggleHover(s, slides, h, vIndex);
      && r.slide == Some(SlidePos(h, vIndex)) && r.cls == Some(DirectionClass(vIndex)) && r.vIndex == Some(vIndex)
      && {SimulatedHover, DirectionClass(vIndex)} <= ClassesAt(r.classes, SlidePos(h, vIndex))
      && (s.slide.Some? && s.cls.Some? && s.slide.value != SlidePos(h, vIndex) ==>
            ClassesAt(r.classes, s.slide.value) == ClassesAt(s.classes, s.slide.value) - {SimulatedHover, s.cls.value})
  {
  }

  /** From no hover, pressing the same key twice leaves every slide's classes as they were. */
  lemma ToggleTwiceRestores(classes: map<SlidePos, set<string>>, slides: set<SlidePos>, h: int, vIndex: int)
    requires SlidePos(h, vIndex) in slides && SlidePos(h, vIndex) in classes
    requires SimulatedHover !in classes[SlidePos(h, vIndex)] && DirectionClass(vIndex) !in classes[SlidePos(h, vIndex)]
    ensures var s := Hover(None, None, None, classes);
      ToggleHover(ToggleHover(s, slides, h, vIndex), slides, h, vIndex) == s
  {
    var p := SlidePos(h, vIndex);
    var s := Hover(None, None, None, classes);
    var once := ToggleHover(s, slides, h, vIndex);
    var twice := ToggleHover(once, slides, h, vIndex);
    assert once.slide == Some(p) && once.cls == Some(DirectionClass(vIndex));
    assert twice.classes[p] == classes[p];
    assert twice.classes == classes;
  }

  /**
   * When the section for a new key does not exist, the previous slide has
   * lost its marks but is still recorded as hovered under the new key, so
   * pressing that key again only clears the record.
   */
  lemma MissingSectionKeepsStaleHover(s: Hover, slides: set<SlidePos>, h: int, vIndex: int)
    requires s.slide.Some? && s.cls.Some? && s.vIndex != Some(vIndex)
    requires SlidePos(h, vIndex) !in slides
    ensures var r := ToggleHover(s, slides, h, vIndex);
      && r.slide == s.slide && r.cls == s.cls && r.vIndex == Some(vIndex)
      && SimulatedHover !in ClassesAt(r.classes, s.slide.value)
  {
  }

  /** `navigateToNextTopic(indices)`: the overview opens topic 1, topics 1 to 11 go on to the next, anything later wraps to 1. */
  function NextTopic(h: int): (p: SlidePos)
    ensures p.v == 1 && 1 <= p.h <= 12
    ensures 0 <= h < 12 ==> p.h == h + 1
    ensures h >= 12 || h < 0 ==> p.h == 1
  {
    if h == 0 then SlidePos(1, 1)
    else if h < 1 then SlidePos(1, 1)
    else if h < 12 then SlidePos(h + 1, 1)
    else SlidePos(1, 1)
  }

  /** On the twelve topics the right arrow is a cycle: topic `k` leads to `k % 12 + 1`. */
  lemma NextTopicCycles(k: int)
    requires 1 <= k <= 12
    ensures NextTopic(k).h == k % 12 + 1
  {
  }

  /** One keydown as the custom controls see it. */
  datatype Key = Key(key: string, ctrl: bool, alt: bool, meta: bool)

  predicate IsArrow(key: string) {
    key == "ArrowLeft" || key == "ArrowRight" || key == "ArrowUp" || key == "ArrowDown"
  }

  /** The arrow controls' module state. */
  class ArrowControls {
    const slides: set<SlidePos>
    var hover: Hover

    constructor (slides: set<SlidePos>, classes: map<SlidePos, set<string>>)
      ensures this.slides == slides && hover == Hover(None, None, None, classes)
    {
      this.slides := slides;
      hover := Hover(None, None, None, classes);
    }

    /**
     * The keydown handler: non-arrow keys and arrows with Ctrl, Alt or Meta
     * are ignored; right clears the hover and jumps to the next topic; left,
     * up and down toggle the hover of sections 0, 2 and 3.
     */
    method OnKeyDown(e: Key, h: int) returns (target: Option<SlidePos>)
      modifies this
      ensures !IsArrow(e.key) || e.ctrl || e.alt || e.meta ==> hover == old(hover) && target.None?
      ensures IsArrow(e.key) && !(e.ctrl || e.alt || e.meta) ==>
        (match e.key
         case "ArrowRight" => target == Some(NextTopic(h))
                              && hover == (if old(hover).slide.Some? && old(hover).cls.Some? then ClearHover(old(hover)) else old(hover))
         case "ArrowLeft" => target.None? && hover == ToggleHover(old(hover), slides, h, 0)
         case "ArrowUp" => target.None? && hover == ToggleHover(old(hover), slides, h, 2)
         case _ => target.None? && hover == ToggleHover(old(hover), slides, h, 3))
    {
      if !IsArrow(e.key) || e.ctrl || e.alt || e.meta {
        return None;
      }
      target := None;
      if e.key == "ArrowRight" {
        if hover.slide.Some? && hover.cls.Some? {
          hover := ClearHover(hover);
        }
        target := Some(NextTopic(h));
      } else if e.key == "ArrowLeft" {
        hover := ToggleHover(hover, slides, h, 0);
      } else if e.key == "ArrowUp" {
        hover := ToggleHover(hover, slides, h, 2);
      } else {
        hover := ToggleHover(hover, slides, h, 3);
      }
    }
  }

  // ------------------------------------------------------------ navigation boxes

  /**
   * The closure state of `setupNavigationBoxes`: the box recorded as
   * expanded, the boxes carrying the `expanded` class, and the overlay.
   * `expandBox` only expands a box whose target slide exists, yet the box
   * is recorded either way.
   */
  class NavBoxes {
    const withTarget: set<int>
    var expandedBox: Option<int>
    var expandedClass: set<int>
    var overlayActive: bool

    ghost predicate Valid()
      reads this
    {
      && expandedClass <= (if expandedBox.Some? then {expandedBox.value} else {})
      && (overlayActive <==> expandedClass != {})
    }

    constructor (withTarget: set<int>)
      ensures Valid() && this.withTarget == withTarget
      ensures expandedBox.None? && expandedClass == {} && !overlayActive
    {
      this.withTarget := withTarget;
      expandedBox := None;
      expandedClass := {};
      overlayActive := false;
    }

    /** `collapseBox(box, overlay)`. */
    method Collapse(box: int)
      modifies this
      ensures expandedClass == old(expandedClass) - {box} && !overlayActive && expandedBox == old(expandedBox)
    {
      expandedClass := expandedClass - {box};
      overlayActive := false;
    }

    /** A click on a `.nav-box`. */
    method ClickBox(box: int)
      requires Valid()
      modifies this
      ensures Valid()
      ensures box in old(expandedClass) ==> expandedClass == {} && expandedBox.None? && !overlayActive
      ensures box !in old(expandedClass) ==>
        && expandedBox == Some(box)
        && expandedClass == (if box in withTarget then {box} else {})
        && overlayActive == (box in withTarget)
    {
      if box in expandedClass {
        Collapse(box);
        expandedBox := None;
        return;
      }
      if expandedBox.Some? {
        Collapse(expandedBox.value);
      }
      if box in withTarget {
        expandedClass := expandedClass + {box};
        overlayActive := true;
      }
      expandedBox := Some(box);
    }

    /** A click on the overlay collapses the recorded box. */
    method ClickOverlay()
      requires Valid()
      modifies this
      ensures Valid() && expandedClass == {} && expandedBox.None? && !overlayActive
    {
      if expandedBox.Some? {
        Collapse(expandedBox.value);
        expandedBox := None;
      }
    }

    /** The close button, which only an expanded box shows, collapses it without clearing the record. */
    method ClickClose(box: int)
      requires Valid() && box in expandedClass
      modifies this
      ensures Valid() && expandedClass == {} && !overlayActive && expandedBox == old(expandedBox)
    {
      Collapse(box);
    }
  }

  /** Under `Valid()` at most one box is expanded. */
  lemma AtMostOneExpanded(expandedBox: Option<int>, expandedClass: set<int>)
    requires expandedClass <= (if expandedBox.Some? then {expandedBox.value} else {})
    ensures |expandedClass| <= 1
    ensures forall a, b :: a in expandedClass && b in expandedClass ==> a == b
  {
    if expandedBox.Some? {
      assert |{expandedBox.value}| == 1;
      SubsetCard(expandedClass, {expandedBox.value});
    }
  }

  lemma SubsetCard(a: set<int>, b: set<int>)
    requires a <= b
    ensures |a| <= |b|
  {
    assert b == a + (b - a);
  }

  // ------------------------------------------------------------ flash fragments

  const CircleFlash := "circle-flash"
  const CircleItem := "circle-item"
  const Done := "done"
  const Shown := "shown"

  /** A fragment's classes and those of its neighbour (the next sibling of a flash, the previous one of a circle). */
  datatype FragmentPair = FragmentPair(el: set<string>, neighbour: Option<set<string>>)

  /** The `fragmentshown` handler. */
  function FragmentShown(f: FragmentPair): (r: FragmentPair)
    ensures CircleFlash in f.el ==> Done !in r.el
    ensures CircleFlash in f.el && f.neighbour.Some? && CircleItem in f.neighbour.value ==>
      r.neighbour == Some(f.neighbour.value - {Shown})
    ensures CircleFlash !in f.el && CircleItem in f.el ==> Shown in r.el
    ensures CircleFlash !in f.el && CircleItem in f.el && f.neighbour.Some? && CircleFlash in f.neighbour.value ==>
      r.neighbour == Some(f.neighbour.value + {Done})
    ensures CircleFlash in f.el && (f.neighbour.None? || CircleItem !in f.neighbour.value) ==> r.neighbour == f.neighbour
    ensures CircleFlash !in f.el && (f.neighbour.None? || CircleFlash !in f.neighbour.value) ==> r.neighbour == f.neighbour
    ensures CircleFlash !in f.el && CircleItem !in f.el ==> r == f
    ensures r.el - {Done, Shown} == f.el - {Done, Shown}
    ensures r.neighbour.Some? <==> f.neighbour.Some?
    ensures r.neighbour.Some? ==> r.neighbour.value - {Done, Shown} == f.neighbour.value - {Done, Shown}
  {
    if CircleFlash in f.el then
      FragmentPair(f.el - {Done},
        if f.neighbour.Some? && CircleItem in f.neighbour.value then Some(f.neighbour.value - {Shown}) else f.neighbour)
    else if CircleItem in f.el then
      FragmentPair(f.el + {Shown},
        if f.neighbour.Some? && CircleFlash in f.neighbour.value then Some(f.neighbour.value + {Done}) else f.neighbour)
    else f
  }

  /** The `fragmenthidden` handler. */
  function FragmentHidden(f: FragmentPair): (r: FragmentPair)
    ensures CircleFlash in f.el ==> Done in r.el
    ensures CircleFlash in f.el && f.neighbour.Some? && CircleItem in f.neighbour.value ==>
      r.neighbour == Some(f.neighbour.value + {Shown})
    ensures CircleFlash !in f.el && CircleItem in f.el ==> Shown !in r.el
    ensures CircleFlash !in f.el && CircleItem in f.el && f.neighbour.Some? && CircleFlash in f.neighbour.value ==>
      r.neighbour == Some(f.neighbour.value - {Done})
    ensures CircleFlash in f.el && (f.neighbour.None? || CircleItem !in f.neighbour.value) ==> r.neighbour == f.neighbour
    ensures CircleFlash !in f.el && (f.neighbour.None? || CircleFlash !in f.neighbour.value) ==> r.neighbour == f.neighbour
    ensures CircleFlash !in f.el && CircleItem !in f.el ==> r == f
    ensures r.el - {Done, Shown} == f.el - {Done, Shown}
    ensures r.neighbour.Some? <==> f.neighbour.Some?
    ensures r.neighbour.Some? ==> r.neighbour.value - {Done, Shown} == f.neighbour.value - {Done, Shown}
  {
    if CircleFlash in f.el then
      FragmentPair(f.el + {Done},
        if f.neighbour.Some? && CircleItem in f.neighbour.value then Some(f.neighbour.value + {Shown}) else f.neighbour)
    else if CircleItem in f.el then
      FragmentPair(f.el - {Shown},
        if f.neighbour.Some? && CircleFlash in f.neighbour.value then Some(f.neighbour.value - {Done}) else f.neighbour)
    else f
  }

  /**
   * Hiding a fragment undoes showing it, and showing undoes hiding: from a
   * state one handler left behind, the other handler and then the first
   * come back to it. Neither handler touches any other class.
   */
  lemma FragmentHandlersUndo(f: FragmentPair)
    ensures FragmentHidden(FragmentShown(FragmentHidden(f))) == FragmentHidden(f)
    ensures FragmentShown(FragmentHidden(FragmentShown(f))) == FragmentShown(f)
    ensures FragmentShown(f).el - {Done, Shown} == f.el - {Done, Shown}
    ensures FragmentHidden(f).el - {Done, Shown} == f.el - {Done, Shown}
  {
    assert Done != CircleFlash && Done != CircleItem && Shown != CircleFlash && Shown != CircleItem;
    if CircleFlash in f.el {
      var h := FragmentHidden(f);
      assert h.el == f.el + {Done};
      assert FragmentShown(h).el == f.el + {Done} - {Done};
      assert FragmentHidden(FragmentShown(h)).el == h.el;
      var s := FragmentShown(f);
      assert FragmentHidden(s).el == f.el - {Done} + {Done};
      assert FragmentShown(FragmentHidden(s)).el == s.el;
      if f.neighbour.Some? && CircleItem in f.neighbour.value {
        var n := f.neighbour.value;
        assert FragmentHidden(FragmentShown(h)).neighbour.value == n + {Shown} - {Shown} + {Shown} == n + {Shown};
        assert FragmentShown(FragmentHidden(s)).neighbour.value == n - {Shown} + {Shown} - {Shown} == n - {Shown};
      }
    } else if CircleItem in f.el {
      var h := FragmentHidden(f);
      assert FragmentHidden(FragmentShown(h)).el == h.el;
      var s := FragmentShown(f);
      assert FragmentShown(FragmentHidden(s)).el == s.el;
      if f.neighbour.Some? && CircleFlash in f.neighbour.value {
        var n := f.neighbour.value;
        assert FragmentHidden(FragmentShown(h)).neighbour.value == n - {Done} + {Done} - {Done} == n - {Done};
        assert FragmentShown(FragmentHidden(s)).neighbour.value == n + {Done} - {Done} + {Done} == n + {Done};
      }
    }
  }

  /** A shown circle is marked `shown` and hides its flash; a hidden one loses both marks. */
  lemma CircleFragmentMarks(el: set<string>, flash: set<string>)
    requires CircleItem in el && CircleFlash !in el && CircleFlash in flash
    ensures FragmentShown(FragmentPair(el, Some(flash))) == FragmentPair(el + {Shown}, Some(flash + {Done}))
    ensures FragmentHidden(FragmentPair(el, Some(flash))) == FragmentPair(el - {Shown}, Some(flash - {Done}))
  {
  }

  // ------------------------------------------------------------ overview circles

  /** `setupCircleNavigation`: circle `idx` of `total` at `idx * (360 / total) - 90` degrees. */
  function SetupCircleAngle(idx: int, total: int): (a: real)
    requires total > 0
    ensures idx == 0 ==> a == -90.0
    ensures 0 <= idx < total ==> -90.0 <= a < 270.0
  {
    var step := 360.0 / total as real;
    if 0 <= idx < total then
      assert step * total as real == 360.0;
      SlideGenerator.StepWithinTurn(idx as real, total as real, step);
      idx as real * step + -90.0
    else
      idx as real * step + -90.0
  }

  /** The angles set at start-up are those the generator wrote into the overview. */
  lemma CircleAnglesAgree(idx: int, total: int)
    requires total > 0
    ensures SetupCircleAngle(idx, total) == SlideGenerator.CircleAngle(idx, total)
  {
  }

  /** A click on a circle goes to `(parseInt(data-slide, 10), 0)` unless that is `NaN`. */
  function CircleClick(dataSlide: string): (target: Option<SlidePos>)
    ensures ParseInt10(dataSlide).None? <==> target.None?
    ensures target.Some? ==> target.value == SlidePos(ParseInt10(dataSlide).value, 0)
  {
    match ParseInt10(dataSlide)
    case None => None
    case Some(h) => Some(SlidePos(h, 0))
  }

  /** Clicking the `i`-th generated circle opens the first slide of topic `i + 1`. */
  lemma GeneratedCircleOpensItsTopic(n: int, topics: seq<SlideGenerator.Normalize.Topic>, i: nat)
    requires i < SlideGenerator.Iterations(Some(n))
    ensures CircleClick(IntToString(SlideGenerator.GenerateOverviewCircles(Some(n), topics)[i].dataSlide)) == Some(SlidePos(i + 1, 0))
  {
    ParseIntOfIntToString(i + 1);
  }

  // ------------------------------------------------------------ background image

  const BackgroundDir := "assets/background/"

  /** A listed `href` becomes a path: `http…` as it is, otherwise under the background folder with one leading `/` dropped. */
  function BackgroundPath(href: string): (p: string)
    ensures StartsWith(href, "http") ==> p == href
    ensures !StartsWith(href, "http") ==> StartsWith(p, BackgroundDir)
    ensures !StartsWith(href, "http") && (href == [] || href[0] != '/') ==> p == BackgroundDir + href
    ensures !StartsWith(href, "http") && href != [] && href[0] == '/' ==> p == BackgroundDir + href[1..]
  {
    if StartsWith(href, "http") then href
    else BackgroundDir + (if href != [] && href[0] == '/' then href[1..] else href)
  }

  predicate EndsWith(s: string, suffix: string) {
    |suffix| <= |s| && s[|s| - |suffix|..] == suffix
  }

  /** `/\.(jpg|jpeg|png|webp)$/i`. */
  predicate IsImageHref(href: string) {
    var l := AsciiLower(href);
    EndsWith(l, ".jpg") || EndsWith(l, ".jpeg") || EndsWith(l, ".png") || EndsWith(l, ".webp")
  }

  /** `findFirstImageInDirectory()` on the `href`s of a directory listing: the first image, as a path. */
  function FirstImageInDirectory(hrefs: seq<string>): (r: Option<string>)
    ensures r.None? <==> forall i :: 0 <= i < |hrefs| ==> !IsImageHref(hrefs[i])
    ensures r.Some? ==> exists i :: 0 <= i < |hrefs| && IsImageHref(hrefs[i]) && r.value == BackgroundPath(hrefs[i])
                          && forall j :: 0 <= j < i ==> !IsImageHref(hrefs[j])
  {
    if hrefs == [] then None
    else if IsImageHref(hrefs[0]) then Some(BackgroundPath(hrefs[0]))
    else
      var rest := FirstImageInDirectory(hrefs[1..]);
      if rest.Some? then
        assert exists i :: 0 <= i < |hrefs| && IsImageHref(hrefs[i]) && rest.value == BackgroundPath(hrefs[i])
                           && forall j :: 0 <= j < i ==> !IsImageHref(hrefs[j]) by {
          var k :| 0 <= k < |hrefs[1..]| && IsImageHref(hrefs[1..][k]) && rest.value == BackgroundPath(hrefs[1..][k])
                   && forall j :: 0 <= j < k ==> !IsImageHref(hrefs[1..][j]);
          assert forall j :: 0 <= j < k + 1 ==> !IsImageHref(hrefs[j]) by {
            forall j | 0 <= j < k + 1 ensures !IsImageHref(hrefs[j]) {
              if j > 0 { assert hrefs[j] == hrefs[1..][j - 1]; }
            }
          }
        }
        rest
      else
        assert forall i :: 0 <= i < |hrefs| ==> !IsImageHref(hrefs[i]) by {
          forall i | 0 <= i < |hrefs| ensures !IsImageHref(hrefs[i]) {
            if i > 0 { assert hrefs[i] == hrefs[1..][i - 1]; }
          }
        }
        None
  }

  /** The extension test ignores case: a link and its lower-cased form are both images or both not. */
  lemma ImageHrefIgnoresCase(href: string)
    ensures IsImageHref(href) == IsImageHref(AsciiLower(href))
  {
    AsciiLowerIdempotent(href);
  }

  lemma UpperCaseImageExample()
    ensures IsImageHref("A.JPG")
  {
    var href := "A.JPG";
    var lower := AsciiLower(href);
    assert |lower| == 5;
    assert lower[0] == 'a' && lower[1] == '.' && lower[2] == 'j' && lower[3] == 'p' && lower[4] == 'g' by {
      assert href[0] == 'A' && href[2] == 'J' && href[3] == 'P' && href[4] == 'G';
    }
    assert lower[1..] == ".jpg";
  }

  /** A file with another extension does not count. */
  lemma TextFileExample()
    ensures !IsImageHref("a.txt")
  {
    var href := "a.txt";
    var lower := AsciiLower(href);
    assert |lower| == 5;
    assert lower[1..] == href[1..] by {
      assert href[1] == '.' && href[2] == 't' && href[3] == 'x' && href[4] == 't';
    }
    assert lower[2] == 't' && lower[0] == 'a';
  }
}

=== FILE: sanitizer.dfy ===
/**
 * `purgeMsOfficeMarkup(root)`, which `js/modules/export-html.js` and
 * `src/editor.js` carry in identical form: Word paste artefacts are
 * removed from the cloned document before it is saved. In order, the
 * `<o:p>` elements go, every inline style loses its `mso-*` declarations,
 * the `MsoNormal` class is dropped, `<p>` elements nested in a `<p>` are
 * unwrapped, and whitespace-only paragraphs without element children are
 * removed.
 */
module Sanitizer {
  import opened Text
  import opened Dom

  // ---------------------------------------------------------------------
  // The style filter
  // ---------------------------------------------------------------------

  /** The property name as the filter reads it: the text before the first `:`, trimmed. */
  function PropertyName(decl: string): string {
    Trim(Split(decl, ':')[0])
  }

  /** `/^mso-/i` on the property name (`/i` folds ASCII letters only). */
  predicate IsMsoDeclaration(decl: string) {
    StartsWith(AsciiLower(PropertyName(decl)), "mso-")
  }

  /** The filter keeps a declaration that is not empty and not an `mso-` one. */
  predicate Keep(decl: string) {
    decl != "" && !IsMsoDeclaration(decl)
  }

  /** `style.split(';').map(s => s.trim())`. */
  function Pieces(style: string): (ps: seq<string>)
    ensures |ps| == |Split(style, ';')| >= 1
    ensures forall i :: 0 <= i < |ps| ==> ps[i] == Trim(Split(style, ';')[i])
  {
    seq(|Split(style, ';')|, i requires 0 <= i < |Split(style, ';')| => Trim(Split(style, ';')[i]))
  }

  /** `.filter(keep)`: the entries that pass the test, in order. */
  function KeepAll(ps: seq<string>, keep: string -> bool): seq<string> {
    if ps == [] then []
    else if keep(ps[0]) then [ps[0]] + KeepAll(ps[1..], keep)
    else KeepAll(ps[1..], keep)
  }

  /** The filter keeps exactly the entries that pass its test. */
  lemma {:induction false} KeepAllSelects(ps: seq<string>, keep: string -> bool, d: string)
    ensures d in KeepAll(ps, keep) <==> d in ps && keep(d)
    decreases |ps|
  {
    if ps != [] {
      KeepAllSelects(ps[1..], keep, d);
      assert ps == [ps[0]] + ps[1..];
    }
  }

  /** The declarations that survive, in their original order. */
  function Kept(style: string): seq<string> {
    KeepAll(Pieces(style), Keep)
  }

  /** The cleaned attribute value: the surviving declarations joined with `"; "`. */
  function CleanStyle(style: string): (r: string)
    ensures r == "" <==> Kept(style) == []
  {
    var ks := Kept(style);
    KeptAreNotEmpty(style);
    JoinOfNonEmpty(ks, "; ");
    Join(ks, "; ")
  }

  /** No surviving declaration is empty. */
  lemma KeptAreNotEmpty(style: string)
    ensures forall i :: 0 <= i < |Kept(style)| ==> Kept(style)[i] != ""
  {
    forall i | 0 <= i < |Kept(style)| ensures Kept(style)[i] != "" {
      KeepAllSelects(Pieces(style), Keep, Kept(style)[i]);
    }
  }

  /** A surviving declaration: not empty, trimmed at both ends, and free of `;`. */
  predicate IsDeclaration(d: string) {
    d != [] && !IsWhitespace(d[0]) && !IsWhitespace(d[|d| - 1]) && ';' !in d
  }

  lemma KeptAreDeclarations(style: string)
    ensures forall d :: d in Kept(style) ==> IsDeclaration(d) && Keep(d)
  {
    forall d | d in Kept(style)
      ensures IsDeclaration(d) && Keep(d)
    {
      var ps := Pieces(style);
      KeepAllSelects(ps, Keep, d);
      var i :| 0 <= i < |ps| && ps[i] == d;
      var part := Split(style, ';')[i];
      assert d == Trim(part);
      if ';' in d {
        TrimKeepsCharacters(part, ';');
      }
    }
  }

  /** The pieces of a string joined with `"; "`: the first as it is, the others behind a space. */
  function Spaced(ds: seq<string>): (r: seq<string>)
    requires |ds| >= 1
    ensures |r| == |ds| && r[0] == ds[0]
    ensures forall i :: 1 <= i < |ds| ==> r[i] == " " + ds[i]
  {
    [ds[0]] + seq(|ds| - 1, i requires 0 <= i < |ds| - 1 => " " + ds[i + 1])
  }

  /** `Spaced` of a longer list: its first entry, then the spaced tail with a space in front of its head. */
  lemma SpacedCons(ds: seq<string>)
    requires |ds| >= 2
    ensures Spaced(ds) == [ds[0]] + ([" " + Spaced(ds[1..])[0]] + Spaced(ds[1..])[1..])
  {
    var tail := Spaced(ds[1..]);
    var whole := [ds[0]] + ([" " + tail[0]] + tail[1..]);
    forall i | 0 <= i < |ds|
      ensures whole[i] == Spaced(ds)[i]
    {
      if i >= 2 {
        assert whole[i] == tail[i - 1];
      }
    }
  }

  /** Splitting `a; j` at `;` when `a` has no `;`. */
  lemma SplitAfterSeparatorSpace(a: string, j: string)
    requires ';' !in a
    ensures Split(a + "; " + j, ';') == [a] + ([" " + Split(j, ';')[0]] + Split(j, ';')[1..])
  {
    assert a + "; " + j == a + [';'] + (" " + j);
    SplitAtFirst(a, ';', " " + j);
    assert (" " + j)[1..] == j;
  }

  lemma {:induction false} SplitJoinSpaced(ds: seq<string>)
    requires |ds| >= 1
    requires forall i :: 0 <= i < |ds| ==> ';' !in ds[i]
    ensures Split(Join(ds, "; "), ';') == Spaced(ds)
    decreases |ds|
  {
    if |ds| == 1 {
      SplitWithoutSeparator(ds[0], ';');
    } else {
      var tail := ds[1..];
      assert forall i :: 0 <= i < |tail| ==> ';' !in tail[i] by {
        forall i | 0 <= i < |tail| ensures ';' !in tail[i] {
          assert tail[i] == ds[i + 1];
        }
      }
      SplitJoinSpaced(tail);
      assert Join(ds, "; ") == ds[0] + "; " + Join(tail, "; ");
      SplitAfterSeparatorSpace(ds[0], Join(tail, "; "));
      SpacedCons(ds);
    }
  }

  /** Trimming the `i`-th piece of joined declarations gives the `i`-th declaration. */
  lemma TrimSpaced(ds: seq<string>, i: nat)
    requires i < |ds| && IsDeclaration(ds[i])
    ensures Trim(Spaced(ds)[i]) == ds[i]
  {
    if i == 0 {
      TrimOfTrimmed(ds[0]);
    } else {
      TrimSpacePrefix(ds[i]);
    }
  }

  /** Trimming every piece of joined declarations gives the declarations. */
  lemma TrimAllSpaced(ds: seq<string>)
    requires |ds| >= 1
    requires forall i :: 0 <= i < |ds| ==> IsDeclaration(ds[i])
    ensures forall i :: 0 <= i < |ds| ==> Trim(Spaced(ds)[i]) == ds[i]
  {
    forall i | 0 <= i < |ds|
      ensures Trim(Spaced(ds)[i]) == ds[i]
    {
      TrimSpaced(ds, i);
    }
  }

  /** The pieces of a value are known once the trim of each split part is. */
  lemma PiecesFromTrims(style: string, ds: seq<string>)
    requires |Split(style, ';')| == |ds|
    requires forall i :: 0 <= i < |ds| ==> Trim(Split(style, ';')[i]) == ds[i]
    ensures Pieces(style) == ds
  {
  }

  /** Splitting and trimming joined declarations gives them back. */
  lemma PiecesOfJoin(ds: seq<string>)
    requires |ds| >= 1
    requires forall i :: 0 <= i < |ds| ==> IsDeclaration(ds[i])
    ensures Pieces(Join(ds, "; ")) == ds
  {
    var sp := Split(Join(ds, "; "), ';');
    SplitJoinSpaced(ds);
    TrimAllSpaced(ds);
    assert sp == Spaced(ds);
    PiecesFromTrims(Join(ds, "; "), ds);
  }

  lemma PiecesOfEmpty()
    ensures Pieces("") == [""]
    ensures !IsMsoDeclaration("") && !Keep("")
  {
    assert Split("", ';') == [""];
    assert Trim("") == "";
  }

  /** Splitting and trimming a cleaned value gives back the declarations it was made of. */
  lemma PiecesOfCleanStyle(style: string)
    requires Kept(style) != []
    ensures Pieces(CleanStyle(style)) == Kept(style)
  {
    var ds := Kept(style);
    KeptAreDeclarations(style);
    assert forall i :: 0 <= i < |ds| ==> IsDeclaration(ds[i]) by {
      forall i | 0 <= i < |ds| ensures IsDeclaration(ds[i]) {
        assert ds[i] in ds;
      }
    }
    PiecesOfJoin(ds);
  }

  /** The cleaned value holds no `mso-` declaration, and no empty one unless it is empty itself. */
  lemma CleanStyleHasNoMso(style: string)
    ensures forall d :: d in Pieces(CleanStyle(style)) ==> !IsMsoDeclaration(d)
    ensures CleanStyle(style) != "" ==> forall d :: d in Pieces(CleanStyle(style)) ==> d != ""
  {
    var ps := Pieces(CleanStyle(style));
    if Kept(style) == [] {
      assert CleanStyle(style) == "";
      PiecesOfEmpty();
      assert ps == [""];
    } else {
      PiecesOfCleanStyle(style);
      KeptAreDeclarations(style);
      forall d | d in ps
        ensures !IsMsoDeclaration(d) && d != ""
      {
        assert d in Kept(style);
      }
    }
  }

  /** A declaration survives exactly when it is a non-empty, non-`mso-` piece of the original. */
  lemma CleanStyleKeepsTheRest(style: string, d: string)
    requires Kept(style) != []
    ensures d in Pieces(CleanStyle(style)) <==> d in Pieces(style) && Keep(d)
  {
    PiecesOfCleanStyle(style);
    KeepAllSelects(Pieces(style), Keep, d);
  }

  /** Filtering a list whose every entry is kept changes nothing. */
  lemma {:induction false} KeepAllOfKept(ds: seq<string>, keep: string -> bool)
    requires forall d :: d in ds ==> keep(d)
    ensures KeepAll(ds, keep) == ds
    decreases |ds|
  {
    if ds != [] {
      var tail := ds[1..];
      assert keep(ds[0]) by {
        assert ds[0] in ds;
      }
      assert KeepAll(ds, keep) == [ds[0]] + KeepAll(tail, keep);
      forall d | d in tail
        ensures keep(d)
      {
        assert d in ds;
      }
      KeepAllOfKept(tail, keep);
      assert ds == [ds[0]] + tail;
    }
  }

  /** Cleaning twice is cleaning once. */
  lemma CleanStyleIdempotent(style: string)
    ensures CleanStyle(CleanStyle(style)) == CleanStyle(style)
  {
    var ds := Kept(style);
    var once := CleanStyle(style);
    if ds == [] {
      assert once == "";
      PiecesOfEmpty();
      assert KeepAll([""], Keep) == [];
    } else {
      PiecesOfCleanStyle(style);
      KeptAreDeclarations(style);
      KeepAllOfKept(ds, Keep);
      calc {
        CleanStyle(once);
        Join(KeepAll(Pieces(once), Keep), "; ");
        { assert Pieces(once) == ds; }
        Join(KeepAll(ds, Keep), "; ");
        Join(ds, "; ");
      }
    }
  }

  /** A style value after the filter: every piece of it is free of `mso-`. */
  predicate StyleIsClean(style: string) {
    forall d :: d in Pieces(style) ==> !IsMsoDeclaration(d)
  }

  /** The `[style]` step on one element: an empty attribute is left; an emptied one is removed. */
  function CleanStyleAttribute(attrs: map<string, string>): (r: map<string, string>)
    ensures forall k :: k != "style" ==> (k in r <==> k in attrs) && (k in r ==> r[k] == attrs[k])
    ensures "style" in r ==> (StyleIsClean(r["style"]) && r["style"] != "") || ("style" in attrs && r["style"] == attrs["style"] == "")
    ensures "style" in attrs && attrs["style"] != "" && CleanStyle(attrs["style"]) == "" ==> "style" !in r
  {
    if "style" !in attrs || attrs["style"] == "" then attrs
    else
      var cleaned := CleanStyle(attrs["style"]);
      CleanStyleHasNoMso(attrs["style"]);
      if cleaned != "" then attrs["style" := cleaned] else attrs - {"style"}
  }

  /** Cleaning an attribute map whose style value is already clean and not empty changes nothing. */
  lemma CleanStyleAttributeOfCleaned(r: map<string, string>)
    requires "style" in r && r["style"] != ""
    requires CleanStyle(r["style"]) == r["style"]
    ensures CleanStyleAttribute(r) == r
  {
    assert CleanStyleAttribute(r) == r["style" := r["style"]];
  }

  lemma CleanStyleAttributeIdempotent(attrs: map<string, string>)
    ensures CleanStyleAttribute(CleanStyleAttribute(attrs)) == CleanStyleAttribute(attrs)
  {
    if "style" in attrs && attrs["style"] != "" {
      var c := CleanStyle(attrs["style"]);
      if c != "" {
        CleanStyleIdempotent(attrs["style"]);
        CleanStyleAttributeOfCleaned(attrs["style" := c]);
      }
    }
  }

  function StyleStep(n: Node): Node {
    match n
    case TextNode(_) => n
    case Element(t, a, c, cs) => Element(t, CleanStyleAttribute(a), c, cs)
  }

  // ---------------------------------------------------------------------
  // The MsoNormal class
  // ---------------------------------------------------------------------

  /** Every occurrence of `token` goes; the rest keep their order. */
  function DropToken(cs: seq<string>, token: string): (r: seq<string>)
    ensures token !in r
    ensures forall x :: x != token ==> (x in r <==> x in cs)
    ensures token !in cs ==> r == cs
    ensures Distinct(cs) ==> Distinct(r)
  {
    if cs == [] then []
    else if cs[0] == token then DropToken(cs[1..], token)
    else
      var rest := DropToken(cs[1..], token);
      assert Distinct(cs) ==> Distinct(cs[1..]) && cs[0] !in cs[1..];
      [cs[0]] + rest
  }

  /** In a list without repeats, dropping a class that occurs at `k` splices it out. */
  lemma {:induction false} DropTokenSplices(cs: seq<string>, token: string, k: nat)
    requires Distinct(cs) && k < |cs| && cs[k] == token
    ensures DropToken(cs, token) == cs[..k] + cs[k + 1..]
    decreases |cs|
  {
    var tail := cs[1..];
    assert Distinct(tail) && cs[0] !in tail;
    if k == 0 {
      assert DropToken(cs, token) == DropToken(tail, token);
      assert cs[..0] + cs[1..] == tail;
    } else {
      assert cs[0] != token;
      assert DropToken(cs, token) == [cs[0]] + DropToken(tail, token);
      DropTokenSplices(tail, token, k - 1);
      assert cs[..k] == [cs[0]] + tail[..k - 1];
      assert cs[k + 1..] == tail[k..];
    }
  }

  /**
   * `classList.remove(token)`: every occurrence of `token` goes, every
   * other class stays once, in the order of its first occurrence.
   */
  function RemoveToken(cs: seq<string>, token: string): (r: seq<string>)
    ensures token !in r
    ensures forall x :: x != token ==> (x in r <==> x in cs)
    ensures Distinct(r)
    ensures Distinct(cs) && token !in cs ==> r == cs
  {
    DropToken(Dedup(cs), token)
  }

  /** On a class list without repeats, `classList.remove` takes out exactly the one occurrence and keeps the order. */
  lemma RemoveTokenSplices(cs: seq<string>, token: string, k: nat)
    requires Distinct(cs) && k < |cs| && cs[k] == token
    ensures RemoveToken(cs, token) == cs[..k] + cs[k + 1..]
  {
    DropTokenSplices(cs, token, k);
  }

  /** The `.MsoNormal` step on one class list: the attribute itself goes when nothing is left. */
  function DropMsoNormal(classes: Option<seq<string>>): (r: Option<seq<string>>)
    ensures r.None? || "MsoNormal" !in r.value || classes.None?
    ensures classes.Some? && "MsoNormal" in classes.value ==>
      r == (if RemoveToken(classes.value, "MsoNormal") == [] then None else Some(RemoveToken(classes.value, "MsoNormal")))
    ensures classes.None? || "MsoNormal" !in classes.value ==> r == classes
  {
    if classes.Some? && "MsoNormal" in classes.value then
      var rest := RemoveToken(classes.value, "MsoNormal");
      if rest == [] then None else Some(rest)
    else classes
  }

  function MsoNormalStep(n: Node): Node {
    match n
    case TextNode(_) => n
    case Element(t, a, c, cs) => Element(t, a, DropMsoNormal(c), cs)
  }

  // ---------------------------------------------------------------------
  // Nested paragraphs
  // ---------------------------------------------------------------------

  predicate IsParagraph(n: Node) {
    n.Element? && n.tag == "p"
  }

  /** The number of `<p>` elements in a forest. */
  function ParagraphCount(ns: seq<Node>): nat
    decreases ns
  {
    if ns == [] then 0
    else match ns[0]
      case TextNode(_) => ParagraphCount(ns[1..])
      case Element(t, _, _, cs) => (if t == "p" then 1 else 0) + ParagraphCount(cs) + ParagraphCount(ns[1..])
  }

  /** `root.querySelector('p p')` finds something: some `<p>` lies inside a `<p>` (`inParagraph`: the forest already does). */
  predicate HasNested(ns: seq<Node>, inParagraph: bool)
    decreases ns
  {
    ns != [] &&
    match ns[0]
    case TextNode(_) => HasNested(ns[1..], inParagraph)
    case Element(t, _, _, cs) =>
      (t == "p" && inParagraph) || HasNested(cs, inParagraph || t == "p") || HasNested(ns[1..], inParagraph)
  }

  /**
   * One pass of the outer loop: the first nested `<p>` in document order
   * is replaced by its children, which move up into its parent in order.
   */
  function UnwrapFirst(ns: seq<Node>, inParagraph: bool): (r: seq<Node>)
    requires HasNested(ns, inParagraph)
    ensures ParagraphCount(r) == ParagraphCount(ns) - 1
    ensures TextContent(r) == TextContent(ns)
    decreases ns
  {
    match ns[0]
    case TextNode(_) =>
      var rest := UnwrapFirst(ns[1..], inParagraph);
      assert ([ns[0]] + rest)[1..] == rest;
      [ns[0]] + rest
    case Element(t, a, c, cs) =>
      if t == "p" && inParagraph then
        ParagraphCountAppend(cs, ns[1..]);
        TextContentAppend(cs, ns[1..]);
        cs + ns[1..]
      else if HasNested(cs, inParagraph || t == "p") then
        var inner := UnwrapFirst(cs, inParagraph || t == "p");
        assert ([Element(t, a, c, inner)] + ns[1..])[1..] == ns[1..];
        [Element(t, a, c, inner)] + ns[1..]
      else
        var rest := UnwrapFirst(ns[1..], inParagraph);
        assert ([ns[0]] + rest)[1..] == rest;
        [ns[0]] + rest
  }

  lemma {:induction false} ParagraphCountAppend(a: seq<Node>, b: seq<Node>)
    ensures ParagraphCount(a + b) == ParagraphCount(a) + ParagraphCount(b)
    decreases a
  {
    if a != [] {
      assert (a + b)[0] == a[0];
      assert (a + b)[1..] == a[1..] + b;
      ParagraphCountAppend(a[1..], b);
    } else {
      assert a + b == b;
    }
  }

  /** Unwrapping removes one `<p>` and leaves every other element's tag, attributes and classes as they were. */
  lemma {:induction false} UnwrapFirstPreserves(ns: seq<Node>, inParagraph: bool, Q: Node -> bool)
    requires HasNested(ns, inParagraph)
    requires EveryElement(ns, Q)
    ensures EveryElement(UnwrapFirst(ns, inParagraph), Q)
    decreases ns
  {
    var r := UnwrapFirst(ns, inParagraph);
    match ns[0]
    case TextNode(_) =>
      UnwrapFirstPreserves(ns[1..], inParagraph, Q);
      assert r[1..] == UnwrapFirst(ns[1..], inParagraph);
    case Element(t, a, c, cs) =>
      if t == "p" && inParagraph {
        EveryElementAppend(cs, ns[1..], Q);
      } else if HasNested(cs, inParagraph || t == "p") {
        UnwrapFirstPreserves(cs, inParagraph || t == "p", Q);
        assert r[1..] == ns[1..];
      } else {
        UnwrapFirstPreserves(ns[1..], inParagraph, Q);
        assert r[1..] == UnwrapFirst(ns[1..], inParagraph);
      }
  }

  lemma {:induction false} HasNestedAppend(a: seq<Node>, b: seq<Node>, inParagraph: bool)
    ensures HasNested(a + b, inParagraph) <==> HasNested(a, inParagraph) || HasNested(b, inParagraph)
    decreases a
  {
    if a != [] {
      assert (a + b)[0] == a[0];
      assert (a + b)[1..] == a[1..] + b;
      HasNestedAppend(a[1..], b, inParagraph);
    } else {
      assert a + b == b;
    }
  }

  /**
   * What the flattening loop converges to, defined node by node: a `<p>`
   * inside a `<p>` is replaced, where it stands, by its own children
   * (flattened in turn); every other node stays in its place with its
   * children flattened. No paragraph is left nested and the text is the
   * original text.
   */
  function Flattened(ns: seq<Node>, inParagraph: bool): (r: seq<Node>)
    ensures !HasNested(r, inParagraph)
    ensures TextContent(r) == TextContent(ns)
    decreases ns
  {
    if ns == [] then []
    else match ns[0]
      case TextNode(_) =>
        var rest := Flattened(ns[1..], inParagraph);
        assert ([ns[0]] + rest)[1..] == rest;
        [ns[0]] + rest
      case Element(t, a, c, cs) =>
        var rest := Flattened(ns[1..], inParagraph);
        if t == "p" && inParagraph then
          var inner := Flattened(cs, true);
          HasNestedAppend(inner, rest, inParagraph);
          TextContentAppend(inner, rest);
          inner + rest
        else
          var inner := Flattened(cs, inParagraph || t == "p");
          assert ([Element(t, a, c, inner)] + rest)[1..] == rest;
          [Element(t, a, c, inner)] + rest
  }

  /** Flattening works piece by piece: the order of the pieces is kept. */
  lemma {:induction false} FlattenedAppend(a: seq<Node>, b: seq<Node>, inParagraph: bool)
    ensures Flattened(a + b, inParagraph) == Flattened(a, inParagraph) + Flattened(b, inParagraph)
    decreases a
  {
    if a != [] {
      assert a + b == [a[0]] + (a[1..] + b);
      assert a == [a[0]] + a[1..];
      FlattenedCons(a[0], a[1..] + b, inParagraph);
      FlattenedCons(a[0], a[1..], inParagraph);
      FlattenedAppend(a[1..], b, inParagraph);
    } else {
      assert a + b == b;
    }
  }

  /** Flattening a node followed by others is flattening the node, then the others. */
  lemma FlattenedCons(n: Node, rest: seq<Node>, inParagraph: bool)
    ensures Flattened([n] + rest, inParagraph) == Flattened([n], inParagraph) + Flattened(rest, inParagraph)
  {
    assert ([n] + rest)[0] == n && ([n] + rest)[1..] == rest;
    assert [n][1..] == [];
  }

  /** A forest with no nested paragraph is already flat: flattening changes nothing, so it is idempotent. */
  lemma {:induction false} FlattenedIdentity(ns: seq<Node>, inParagraph: bool)
    requires !HasNested(ns, inParagraph)
    ensures Flattened(ns, inParagraph) == ns
    decreases ns
  {
    if ns != [] {
      assert ns == [ns[0]] + ns[1..];
      FlattenedCons(ns[0], ns[1..], inParagraph);
      FlattenedIdentity(ns[1..], inParagraph);
      assert [ns[0]][1..] == [];
      match ns[0]
      case TextNode(_) =>
      case Element(t, a, c, cs) =>
        FlattenedIdentity(cs, inParagraph || t == "p");
    }
  }

  lemma FlattenedIdempotent(ns: seq<Node>, inParagraph: bool)
    ensures Flattened(Flattened(ns, inParagraph), inParagraph) == Flattened(ns, inParagraph)
  {
    FlattenedIdentity(Flattened(ns, inParagraph), inParagraph);
  }

  /** One pass of the loop does not change what the loop converges to. */
  lemma {:induction false} UnwrapFirstKeepsFlattened(ns: seq<Node>, inParagraph: bool)
    requires HasNested(ns, inParagraph)
    ensures Flattened(UnwrapFirst(ns, inParagraph), inParagraph) == Flattened(ns, inParagraph)
    decreases ns
  {
    var r := UnwrapFirst(ns, inParagraph);
    match ns[0]
    case TextNode(_) =>
      UnwrapFirstKeepsFlattened(ns[1..], inParagraph);
      assert r[0] == ns[0] && r[1..] == UnwrapFirst(ns[1..], inParagraph);
    case Element(t, a, c, cs) =>
      if t == "p" && inParagraph {
        FlattenedAppend(cs, ns[1..], inParagraph);
      } else if HasNested(cs, inParagraph || t == "p") {
        UnwrapFirstKeepsFlattened(cs, inParagraph || t == "p");
        assert r[1..] == ns[1..];
      } else {
        UnwrapFirstKeepsFlattened(ns[1..], inParagraph);
        assert r[0] == ns[0] && r[1..] == UnwrapFirst(ns[1..], inParagraph);
      }
  }

  /** Flattening removes only paragraphs: every element left keeps its tag, attributes and classes. */
  lemma {:induction false} FlattenedPreserves(ns: seq<Node>, inParagraph: bool, Q: Node -> bool)
    requires EveryElement(ns, Q)
    ensures EveryElement(Flattened(ns, inParagraph), Q)
    decreases ns
  {
    if ns != [] {
      var r := Flattened(ns, inParagraph);
      match ns[0]
      case TextNode(_) =>
        FlattenedPreserves(ns[1..], inParagraph, Q);
        assert r[1..] == Flattened(ns[1..], inParagraph);
      case Element(t, a, c, cs) =>
        FlattenedPreserves(ns[1..], inParagraph, Q);
        if t == "p" && inParagraph {
          FlattenedPreserves(cs, true, Q);
          EveryElementAppend(Flattened(cs, true), Flattened(ns[1..], inParagraph), Q);
        } else {
          FlattenedPreserves(cs, inParagraph || t == "p", Q);
          assert r[1..] == Flattened(ns[1..], inParagraph);
        }
    }
  }

  /** Outside any paragraph, a forest without paragraphs is left exactly as it is. */
  lemma {:induction false} FlattenedWithoutParagraphs(ns: seq<Node>, inParagraph: bool)
    requires ParagraphCount(ns) == 0
    ensures Flattened(ns, inParagraph) == ns
    decreases ns
  {
    NoParagraphNoNesting(ns, inParagraph);
    FlattenedIdentity(ns, inParagraph);
  }

  lemma {:induction false} NoParagraphNoNesting(ns: seq<Node>, inParagraph: bool)
    requires ParagraphCount(ns) == 0
    ensures !HasNested(ns, inParagraph)
    decreases ns
  {
    if ns != [] {
      match ns[0]
      case TextNode(_) => NoParagraphNoNesting(ns[1..], inParagraph);
      case Element(t, _, _, cs) =>
        NoParagraphNoNesting(cs, inParagraph);
        NoParagraphNoNesting(ns[1..], inParagraph);
    }
  }

  /**
   * The flattening loop: while some `<p>` sits inside a `<p>`, the first
   * one is unwrapped. Each pass removes a paragraph, so the loop ends; it
   * ends with no paragraph nested in another and the text in its original
   * order.
   */
  method FlattenNestedParagraphs(root: seq<Node>) returns (r: seq<Node>)
    ensures r == Flattened(root, false)
    ensures !HasNested(r, false)
    ensures TextContent(r) == TextContent(root)
    ensures ParagraphCount(r) <= ParagraphCount(root)
    ensures forall Q: Node -> bool :: EveryElement(root, Q) ==> EveryElement(r, Q)
  {
    r := root;
    while HasNested(r, false)
      invariant Flattened(r, false) == Flattened(root, false)
      invariant TextContent(r) == TextContent(root)
      invariant ParagraphCount(r) <= ParagraphCount(root)
      invariant forall Q: Node -> bool :: EveryElement(root, Q) ==> EveryElement(r, Q)
      decreases ParagraphCount(r)
    {
      forall Q: Node -> bool | EveryElement(r, Q)
        ensures EveryElement(UnwrapFirst(r, false), Q)
      {
        UnwrapFirstPreserves(r, false, Q);
      }
      UnwrapFirstKeepsFlattened(r, false);
      r := UnwrapFirst(r, false);
    }
    FlattenedIdentity(r, false);
  }

  // ---------------------------------------------------------------------
  // Empty paragraphs
  // ---------------------------------------------------------------------

  /** A `<p>` with only white space in its text and no element children. */
  predicate IsEmptyParagraph(n: Node) {
    n.Element? && n.tag == "p" && AllWhitespace(TextContent(n.children)) && ElementChildren(n.children) == []
  }

  predicate NotEmptyParagraph(n: Node) {
    !IsEmptyParagraph(n)
  }

  /**
   * `root.querySelectorAll('p').forEach(...)`: each paragraph is judged on
   * its own subtree, which no earlier removal has changed (a removed
   * paragraph has no element inside it).
   */
  function RemoveEmptyParagraphs(ns: seq<Node>): (r: seq<Node>)
    ensures |r| <= |ns|
    ensures Every(ns, NotEmptyParagraph) ==> r == ns
    decreases ns
  {
    if ns == [] then []
    else match ns[0]
      case TextNode(_) =>
        var rest := RemoveEmptyParagraphs(ns[1..]);
        assert Every(ns, NotEmptyParagraph) ==> [ns[0]] + rest == ns by {
          if Every(ns, NotEmptyParagraph) {
            assert [ns[0]] + ns[1..] == ns;
          }
        }
        [ns[0]] + rest
      case Element(t, a, c, cs) =>
        if IsEmptyParagraph(ns[0]) then RemoveEmptyParagraphs(ns[1..])
        else
          var rest := RemoveEmptyParagraphs(ns[1..]);
          var inner := RemoveEmptyParagraphs(cs);
          assert Every(ns, NotEmptyParagraph) ==> [Element(t, a, c, inner)] + rest == ns by {
            if Every(ns, NotEmptyParagraph) {
              assert [ns[0]] + ns[1..] == ns;
            }
          }
          [Element(t, a, c, inner)] + rest
  }

  /** The removal works node by node: the pieces of a forest keep their order. */
  lemma {:induction false} RemoveEmptyAppend(a: seq<Node>, b: seq<Node>)
    ensures RemoveEmptyParagraphs(a + b) == RemoveEmptyParagraphs(a) + RemoveEmptyParagraphs(b)
    decreases a
  {
    if a != [] {
      assert a + b == [a[0]] + (a[1..] + b);
      assert a == [a[0]] + a[1..];
      RemoveEmptyCons(a[0], a[1..] + b);
      RemoveEmptyCons(a[0], a[1..]);
      RemoveEmptyAppend(a[1..], b);
    } else {
      assert a + b == b;
    }
  }

  /** The removal of a node followed by others is that node's removal followed by theirs. */
  lemma RemoveEmptyCons(n: Node, rest: seq<Node>)
    ensures RemoveEmptyParagraphs([n] + rest) == RemoveEmptyParagraphs([n]) + RemoveEmptyParagraphs(rest)
  {
    assert ([n] + rest)[0] == n && ([n] + rest)[1..] == rest;
    assert [n][1..] == [];
  }

  /**
   * Node by node: an empty paragraph disappears with everything in it, a
   * text node stays, and any other element stays in its place with its
   * tag, attributes and classes, only its own empty paragraphs removed.
   */
  lemma RemoveEmptySingle(n: Node)
    ensures IsEmptyParagraph(n) ==> RemoveEmptyParagraphs([n]) == []
    ensures n.TextNode? ==> RemoveEmptyParagraphs([n]) == [n]
    ensures n.Element? && !IsEmptyParagraph(n) ==>
      RemoveEmptyParagraphs([n]) == [Element(n.tag, n.attrs, n.classes, RemoveEmptyParagraphs(n.children))]
  {
    assert [n][1..] == [];
  }

  /** The characters of a string other than white space, in order. */
  function Visible(s: string): (v: string)
    ensures AllWhitespace(s) <==> v == []
    decreases |s|
  {
    if s == [] then []
    else if IsWhitespace(s[0]) then
      assert AllWhitespace(s) <==> AllWhitespace(s[1..]) by {
        if AllWhitespace(s[1..]) {
          forall i | 0 <= i < |s| ensures IsWhitespace(s[i]) {
            if i > 0 { assert s[i] == s[1..][i - 1]; }
          }
        }
      }
      Visible(s[1..])
    else [s[0]] + Visible(s[1..])
  }

  lemma {:induction false} VisibleAppend(a: string, b: string)
    ensures Visible(a + b) == Visible(a) + Visible(b)
    decreases |a|
  {
    if a != [] {
      assert (a + b)[0] == a[0];
      assert (a + b)[1..] == a[1..] + b;
      VisibleAppend(a[1..], b);
    } else {
      assert a + b == b;
    }
  }

  /** Only white space is lost: every other character of the text is kept, in order. */
  lemma {:induction false} RemoveEmptyKeepsVisibleText(ns: seq<Node>)
    ensures Visible(TextContent(RemoveEmptyParagraphs(ns))) == Visible(TextContent(ns))
    decreases ns
  {
    if ns != [] {
      var r := RemoveEmptyParagraphs(ns);
      RemoveEmptyKeepsVisibleText(ns[1..]);
      match ns[0]
      case TextNode(t) =>
        assert r[0] == ns[0] && r[1..] == RemoveEmptyParagraphs(ns[1..]);
        VisibleAppend(t, TextContent(ns[1..]));
        VisibleAppend(t, TextContent(r[1..]));
      case Element(tag, a, c, cs) =>
        VisibleAppend(TextContent(cs), TextContent(ns[1..]));
        if !IsEmptyParagraph(ns[0]) {
          RemoveEmptyKeepsVisibleText(cs);
          assert r[1..] == RemoveEmptyParagraphs(ns[1..]);
          VisibleAppend(TextContent(RemoveEmptyParagraphs(cs)), TextContent(r[1..]));
        }
    }
  }

  /** A forest without paragraphs loses nothing. */
  lemma {:induction false} RemoveEmptyWithoutParagraphs(ns: seq<Node>)
    requires ParagraphCount(ns) == 0
    ensures RemoveEmptyParagraphs(ns) == ns
    decreases ns
  {
    if ns != [] {
      match ns[0]
      case TextNode(_) =>
        RemoveEmptyWithoutParagraphs(ns[1..]);
        assert [ns[0]] + ns[1..] == ns;
      case Element(t, a, c, cs) =>
        RemoveEmptyWithoutParagraphs(cs);
        RemoveEmptyWithoutParagraphs(ns[1..]);
        assert [ns[0]] + ns[1..] == ns;
    }
  }

  /** Inside a paragraph of a flattened forest there is no paragraph at all. */
  lemma {:induction false} NoNestedInsideParagraph(ns: seq<Node>)
    requires !HasNested(ns, true)
    ensures ParagraphCount(ns) == 0
    decreases ns
  {
    if ns != [] {
      match ns[0]
      case TextNode(_) => NoNestedInsideParagraph(ns[1..]);
      case Element(t, _, _, cs) =>
        NoNestedInsideParagraph(cs);
        NoNestedInsideParagraph(ns[1..]);
    }
  }

  /** Once no paragraph is nested, the removal leaves no empty paragraph behind. */
  lemma {:induction false} NoEmptyParagraphLeft(ns: seq<Node>)
    requires !HasNested(ns, false)
    ensures Every(RemoveEmptyParagraphs(ns), NotEmptyParagraph)
    ensures !HasNested(RemoveEmptyParagraphs(ns), false)
    decreases ns
  {
    if ns != [] {
      var r := RemoveEmptyParagraphs(ns);
      match ns[0]
      case TextNode(_) =>
        NoEmptyParagraphLeft(ns[1..]);
        assert r[1..] == RemoveEmptyParagraphs(ns[1..]);
      case Element(t, a, c, cs) =>
        NoEmptyParagraphLeft(ns[1..]);
        if !IsEmptyParagraph(ns[0]) {
          assert r[1..] == RemoveEmptyParagraphs(ns[1..]);
          if t == "p" {
            NoNestedInsideParagraph(cs);
            RemoveEmptyWithoutParagraphs(cs);
            NoEmptyParagraphLeftInside(cs);
          } else {
            NoEmptyParagraphLeft(cs);
          }
        }
    }
  }

  /** A forest without paragraphs has no empty one and none nested. */
  lemma {:induction false} NoEmptyParagraphLeftInside(ns: seq<Node>)
    requires ParagraphCount(ns) == 0
    ensures Every(ns, NotEmptyParagraph)
    ensures !HasNested(ns, true)
    decreases ns
  {
    if ns != [] {
      match ns[0]
      case TextNode(_) => NoEmptyParagraphLeftInside(ns[1..]);
      case Element(t, _, _, cs) =>
        NoEmptyParagraphLeftInside(cs);
        NoEmptyParagraphLeftInside(ns[1..]);
    }
  }

  /** The removal only deletes paragraphs: every element kept keeps its tag, attributes and classes. */
  lemma {:induction false} RemoveEmptyPreserves(ns: seq<Node>, Q: Node -> bool)
    requires EveryElement(ns, Q)
    ensures EveryElement(RemoveEmptyParagraphs(ns), Q)
    decreases ns
  {
    if ns != [] {
      var r := RemoveEmptyParagraphs(ns);
      match ns[0]
      case TextNode(_) =>
        RemoveEmptyPreserves(ns[1..], Q);
        assert r[1..] == RemoveEmptyParagraphs(ns[1..]);
      case Element(t, a, c, cs) =>
        RemoveEmptyPreserves(cs, Q);
        RemoveEmptyPreserves(ns[1..], Q);
        if !IsEmptyParagraph(ns[0]) {
          assert r[1..] == RemoveEmptyParagraphs(ns[1..]);
        }
    }
  }

  // ---------------------------------------------------------------------
  // The whole purge
  // ---------------------------------------------------------------------

  predicate IsOfficeParagraph(n: Node) {
    HasTag(n, "o:p")
  }

  predicate NotOfficeParagraph(n: Node) {
    !HasTag(n, "o:p")
  }

  predicate HasCleanStyle(n: Node) {
    n.Element? ==> "style" in n.attrs ==> StyleIsClean(n.attrs["style"])
  }

  predicate HasNoMsoNormal(n: Node) {
    !HasClass(n, "MsoNormal")
  }

  /** The three attribute-level steps: `<o:p>` removal, the style filter and the `MsoNormal` strip. */
  function CleanAttributes(root: seq<Node>): seq<Node> {
    MapElements(MapElements(DropWhere(root, IsOfficeParagraph), StyleStep), MsoNormalStep)
  }

  lemma CleanAttributesDropOfficeParagraphs(root: seq<Node>)
    ensures EveryElement(CleanAttributes(root), NotOfficeParagraph)
  {
    var step1 := DropWhere(root, IsOfficeParagraph);
    DropWhereRemovesAll(root, IsOfficeParagraph, NotOfficeParagraph);
    MapElementsPreserves(step1, StyleStep, NotOfficeParagraph);
    MapElementsPreserves(MapElements(step1, StyleStep), MsoNormalStep, NotOfficeParagraph);
  }

  lemma CleanAttributesCleanStyles(root: seq<Node>)
    ensures EveryElement(CleanAttributes(root), HasCleanStyle)
  {
    var step1 := DropWhere(root, IsOfficeParagraph);
    MapElementsEstablishes(step1, StyleStep, HasCleanStyle);
    MapElementsPreserves(MapElements(step1, StyleStep), MsoNormalStep, HasCleanStyle);
  }

  lemma MsoNormalStepRemovesClass()
    ensures ShellStep(MsoNormalStep)
    ensures forall t, a, c :: HasNoMsoNormal(MsoNormalStep(Element(t, a, c, [])))
  {
    forall t, a, c
      ensures HasNoMsoNormal(MsoNormalStep(Element(t, a, c, [])))
    {
      var r := DropMsoNormal(c);
      assert MsoNormalStep(Element(t, a, c, [])) == Element(t, a, r, []);
    }
  }

  lemma CleanAttributesDropMsoNormal(root: seq<Node>)
    ensures EveryElement(CleanAttributes(root), HasNoMsoNormal)
  {
    MsoNormalStepRemovesClass();
    var step2 := MapElements(DropWhere(root, IsOfficeParagraph), StyleStep);
    MapElementsEstablishes(step2, MsoNormalStep, HasNoMsoNormal);
  }

  /** `Q` is a property of an element that the style filter and the `MsoNormal` strip both keep. */
  ghost predicate KeptByAttributeSteps(Q: Node -> bool) {
    forall n :: Q(n) ==> Q(StyleStep(n)) && Q(MsoNormalStep(n))
  }

  /** Whatever the two attribute steps keep on an element survives them, and the `<o:p>` removal. */
  lemma CleanAttributesPreserves(root: seq<Node>, Q: Node -> bool)
    requires KeptByAttributeSteps(Q)
    requires EveryElement(root, Q)
    ensures EveryElement(CleanAttributes(root), Q)
  {
    var step1 := DropWhere(root, IsOfficeParagraph);
    DropWherePreserves(root, IsOfficeParagraph, Q);
    MapElementsPreserves(step1, StyleStep, Q);
    MapElementsPreserves(MapElements(step1, StyleStep), MsoNormalStep, Q);
  }

  /** The three stages of the purge, in their order: attribute steps, flattening, empty-paragraph removal. */
  function Purged(root: seq<Node>): (r: seq<Node>)
    ensures !HasNested(r, false)
    ensures Every(r, NotEmptyParagraph)
  {
    NoEmptyParagraphLeft(Flattened(CleanAttributes(root), false));
    RemoveEmptyParagraphs(Flattened(CleanAttributes(root), false))
  }

  /**
   * `purgeMsOfficeMarkup(root)` on the children of the cloned root: no
   * `<o:p>`, no `mso-` declaration, no `MsoNormal` class, no nested and no
   * empty paragraph is left, and what the attribute steps keep is kept.
   */
  method PurgeMsOfficeMarkup(root: seq<Node>) returns (r: seq<Node>)
    ensures r == Purged(root)
    ensures EveryElement(r, NotOfficeParagraph)
    ensures EveryElement(r, HasCleanStyle)
    ensures EveryElement(r, HasNoMsoNormal)
    ensures !HasNested(r, false)
    ensures Every(r, NotEmptyParagraph)
    ensures forall Q: Node -> bool :: KeptByAttributeSteps(Q) && EveryElement(root, Q) ==> EveryElement(r, Q)
  {
    var cleaned := CleanAttributes(root);
    var flat := FlattenNestedParagraphs(cleaned);
    r := RemoveEmptyParagraphs(flat);
    assert EveryElement(r, NotOfficeParagraph) by {
      CleanAttributesDropOfficeParagraphs(root);
      RemoveEmptyPreserves(flat, NotOfficeParagraph);
    }
    assert EveryElement(r, HasCleanStyle) by {
      CleanAttributesCleanStyles(root);
      RemoveEmptyPreserves(flat, HasCleanStyle);
    }
    assert EveryElement(r, HasNoMsoNormal) by {
      CleanAttributesDropMsoNormal(root);
      RemoveEmptyPreserves(flat, HasNoMsoNormal);
    }
    NoEmptyParagraphLeft(flat);
    forall Q: Node -> bool | KeptByAttributeSteps(Q) && EveryElement(root, Q)
      ensures EveryElement(r, Q)
    {
      CleanAttributesPreserves(root, Q);
      RemoveEmptyPreserves(flat, Q);
    }
  }

  // ---------------------------------------------------------------------
  // Later changes that keep the structure
  // ---------------------------------------------------------------------

  /** Changing the attributes or classes of the first node a query finds leaves paragraph nesting as it was. */
  lemma {:induction false} UpdateFirstKeepsNesting(ns: seq<Node>, inParagraph: bool, P: Node -> bool, f: Node -> Node)
    requires KeepsShape(f)
    ensures HasNested(UpdateFirst(ns, P, f), inParagraph) == HasNested(ns, inParagraph)
    decreases ns
  {
    if ns != [] {
      var r := UpdateFirst(ns, P, f);
      if P(ns[0]) {
        assert r[1..] == ns[1..];
      } else {
        match ns[0]
        case TextNode(_) =>
          UpdateFirstKeepsNesting(ns[1..], inParagraph, P, f);
          assert r[1..] == UpdateFirst(ns[1..], P, f);
        case Element(t, a, c, cs) =>
          if FirstMatch(cs, P).Some? {
            UpdateFirstKeepsNesting(cs, inParagraph || t == "p", P, f);
            assert r[1..] == ns[1..];
          } else {
            UpdateFirstKeepsNesting(ns[1..], inParagraph, P, f);
            assert r[1..] == UpdateFirst(ns[1..], P, f);
          }
      }
    }
  }

  /** ... and creates no empty paragraph. */
  lemma {:induction false} UpdateFirstKeepsNoEmpty(ns: seq<Node>, P: Node -> bool, f: Node -> Node)
    requires KeepsShape(f)
    requires Every(ns, NotEmptyParagraph)
    ensures Every(UpdateFirst(ns, P, f), NotEmptyParagraph)
    decreases ns
  {
    if ns != [] {
      var r := UpdateFirst(ns, P, f);
      if P(ns[0]) {
        assert r[1..] == ns[1..];
        assert r[0] == f(ns[0]);
      } else {
        match ns[0]
        case TextNode(_) =>
          UpdateFirstKeepsNoEmpty(ns[1..], P, f);
          assert r[1..] == UpdateFirst(ns[1..], P, f);
        case Element(t, a, c, cs) =>
          if FirstMatch(cs, P).Some? {
            UpdateFirstKeepsNoEmpty(cs, P, f);
            assert r[1..] == ns[1..];
            UpdateFirstKeepsText(cs, P, f);
            UpdateFirstKeepsElements(cs, P, f);
          } else {
            UpdateFirstKeepsNoEmpty(ns[1..], P, f);
            assert r[1..] == UpdateFirst(ns[1..], P, f);
          }
      }
    }
  }
}

=== FILE: slide_editor.dfy ===
/**
 * Inline editing: `js/modules/slide-editor.js` and the copy of the same
 * functions in `src/editor.js`. Editable elements are switched on once,
 * their content is saved under an edit identifier in the `'slideEdits'`
 * map, stored edits are written back on load (never into a nav box), and a
 * detail slide's title and paragraphs are copied into its nav box.
 *
 * Elements are named by `getElementIdentifier` as written, from the class
 * list `makeEditable` leaves; stored names are looked up with the corrected
 * lookup `Identifiers.FindElement`, and `PageLookupAsWritten` is the lookup
 * as written, under which an element with a class of its own never gets
 * its edit back. DOM queries that the model does not contain (`closest`,
 * `querySelectorAll`, `Reveal.getIndices()`) are parameters.
 */
module SlideEditor {
  import opened Text
  import opened Dom
  import opened Identifiers
  import opened WebStorage
  import Storage
  import SlideGenerator
  import Normalize

  // ---------------------------------------------------------------------
  // validateSlideStructure
  // ---------------------------------------------------------------------

  /**
   * A `.detail-slide` as the structure check sees it: its
   * `data-parent-topic` (`None` when absent) and its closest
   * `section.stack` (`None` when there is none), given by that section's
   * `data-topic-id`.
   */
  datatype DetailInfo = DetailInfo(parentTopic: Option<string>, stack: Option<Option<string>>)

  /** A `dataset` value that is truthy: present and not empty. */
  predicate Present(s: Option<string>) {
    s.Some? && s.value != ""
  }

  /** The one condition of `js/modules/slide-editor.js`: inside a stack, both ids set and equal. */
  predicate IsValidDetail(d: DetailInfo) {
    d.stack.Some? && Present(d.parentTopic) && Present(d.stack.value) && d.parentTopic.value == d.stack.value.value
  }

  /** The warnings `src/editor.js` tells apart, in the order it tests for them. */
  datatype Verdict = Valid | OutsideStack | MissingParentTopic | MissingTopicId | TopicMismatch

  /** The per-slide check of `src/editor.js`. */
  function CheckDetailSlide(d: DetailInfo): (v: Verdict)
    ensures v == OutsideStack <==> d.stack.None?
    ensures v == TopicMismatch <==> Mismatch(d)
  {
    if d.stack.None? then OutsideStack
    else if !Present(d.parentTopic) then MissingParentTopic
    else if !Present(d.stack.value) then MissingTopicId
    else if d.parentTopic.value != d.stack.value.value then TopicMismatch
    else Valid
  }

  /** The two files accept exactly the same detail slides. */
  lemma BothChecksAgree(d: DetailInfo)
    ensures CheckDetailSlide(d) == Valid <==> IsValidDetail(d)
  {
  }

  /** The number of valid slides among `ds`. */
  function CountValid(ds: seq<DetailInfo>): (n: nat)
    ensures n <= |ds|
    decreases |ds|
  {
    if ds == [] then 0
    else CountValid(ds[..|ds| - 1]) + (if IsValidDetail(ds[|ds| - 1]) then 1 else 0)
  }

  /** Every slide counts exactly when every slide is valid. */
  lemma {:induction false} AllCountedIffAllValid(ds: seq<DetailInfo>)
    ensures CountValid(ds) == |ds| <==> forall i :: 0 <= i < |ds| ==> IsValidDetail(ds[i])
    decreases |ds|
  {
    if ds != [] {
      var init := ds[..|ds| - 1];
      AllCountedIffAllValid(init);
      assert forall i :: 0 <= i < |init| ==> init[i] == ds[i];
    }
  }

  /**
   * `validateSlideStructure()`: every detail slide is either counted valid
   * or warned about; `src/editor.js` reports success exactly when there
   * are no warnings.
   */
  method ValidateSlideStructure(slides: seq<DetailInfo>) returns (valid: nat, warnings: nat)
    ensures valid == CountValid(slides)
    ensures valid + warnings == |slides|
    ensures warnings == 0 <==> forall i :: 0 <= i < |slides| ==> IsValidDetail(slides[i])
  {
    valid, warnings := 0, 0;
    var i := 0;
    while i < |slides|
      invariant 0 <= i <= |slides|
      invariant valid == CountValid(slides[..i])
      invariant valid + warnings == i
    {
      assert slides[..i + 1][..i] == slides[..i];
      if CheckDetailSlide(slides[i]) == Valid {
        valid := valid + 1;
      } else {
        warnings := warnings + 1;
      }
      i := i + 1;
    }
    assert slides[..i] == slides;
    AllCountedIffAllValid(slides);
  }

  /** The detail slides the generator emits pass the check: stack and slide carry the same non-empty topic id. */
  lemma GeneratedDetailsAreValid(topicCount: Option<int>, student: Option<StudentConfig>, topics: seq<Normalize.Topic>, i: nat, k: nat)
    requires i < |SlideGenerator.GenerateAllTopicSlides(topicCount, student, topics)|
    requires k < |SlideGenerator.GenerateAllTopicSlides(topicCount, student, topics)[i].details|
    ensures var s := SlideGenerator.GenerateAllTopicSlides(topicCount, student, topics)[i];
      IsValidDetail(DetailInfo(Some(s.details[k].parentTopic), Some(Some(s.topicId))))
  {
    var s := SlideGenerator.GenerateAllTopicSlides(topicCount, student, topics)[i];
    assert s.topicId == SlideGenerator.TopicId(i + 1);
    assert s.details[k].parentTopic == s.topicId;
    assert s.topicId[0] == 't';
  }

  // ---------------------------------------------------------------------
  // makeEditable
  // ---------------------------------------------------------------------

  /**
   * `classList.add(token)`: a class already present is not added twice,
   * and the list is written back as its ordered set, without repeats.
   */
  function AddClass(classes: seq<string>, token: string): (r: seq<string>)
    ensures token in r
    ensures forall x :: x in r <==> x in classes || x == token
    ensures Distinct(r)
    ensures Distinct(classes) ==> r == (if token in classes then classes else classes + [token])
  {
    var d := Dedup(classes);
    if token in d then d else d + [token]
  }

  /** Adding a token to a list of tokens leaves a list of tokens. */
  lemma AddClassKeepsTokens(classes: seq<string>, token: string)
    requires forall i :: 0 <= i < |classes| ==> ClassToken(classes[i])
    requires token == EditableField
    ensures forall i :: 0 <= i < |AddClass(classes, token)| ==> ClassToken(AddClass(classes, token)[i])
  {
    EditableFieldIsNameSafe();
    assert ClassToken([EditableField][0]);
    var r := AddClass(classes, token);
    forall i | 0 <= i < |r| ensures ClassToken(r[i]) {
      assert r[i] in r;
      if r[i] != token {
        var j :| 0 <= j < |classes| && classes[j] == r[i];
      }
    }
  }

  /** An element `makeEditable` is handed, with the state it reads and writes. */
  class EditableElement {
    /** `element.tagName`, upper case for HTML elements. */
    var tagName: string
    /** `element.contentEditable`: `"inherit"`, `"true"` or `"false"`. */
    var contentEditable: string
    var classes: seq<string>
    /** The blur and keydown handlers attached so far, as pairs. */
    var handlerPairs: nat

    /**
     * The class list is a list of tokens, and an element with handlers has
     * been through `makeEditable`, so it carries `editable-field`.
     */
    predicate Valid()
      reads this
    {
      && (forall i :: 0 <= i < |classes| ==> ClassToken(classes[i]))
      && (handlerPairs > 0 ==> EditableField in classes)
    }

    constructor (tagName: string, contentEditable: string, classes: seq<string>)
      requires forall i :: 0 <= i < |classes| ==> ClassToken(classes[i])
      ensures this.tagName == tagName && this.contentEditable == contentEditable && this.classes == classes
      ensures handlerPairs == 0
      ensures Valid()
    {
      this.tagName := tagName;
      this.contentEditable := contentEditable;
      this.classes := classes;
      handlerPairs := 0;
    }

    predicate IsEditable()
      reads this
    {
      contentEditable == "true"
    }

    /**
     * `makeEditable(element)`: an element that is already editable is left
     * alone, so calling it again changes nothing and never attaches a
     * second pair of handlers.
     */
    method MakeEditable()
      requires Valid()
      modifies this
      ensures Valid()
      ensures IsEditable() && tagName == old(tagName)
      ensures old(contentEditable) == "true" ==> classes == old(classes) && handlerPairs == old(handlerPairs)
      ensures old(contentEditable) != "true" ==>
        classes == AddClass(old(classes), EditableField) && handlerPairs == old(handlerPairs) + 1
    {
      if contentEditable == "true" {
        return;
      }
      contentEditable := "true";
      AddClassKeepsTokens(classes, EditableField);
      classes := AddClass(classes, EditableField);
      handlerPairs := handlerPairs + 1;
    }

    /** The keydown handler: Enter without Shift leaves a one-line field; a paragraph takes the line break. */
    function BlursOnKey(key: string, shift: bool): (blurs: bool)
      reads this
      ensures tagName == "P" ==> !blurs
      ensures key != "Enter" || shift ==> !blurs
      ensures tagName != "P" && key == "Enter" && !shift ==> blurs
    {
      key == "Enter" && !shift && tagName != "P"
    }
  }

  /** Making an element editable twice attaches one pair of handlers and one class, like making it editable once. */
  method MakeEditableTwice(e: EditableElement)
    requires e.Valid()
    modifies e
    ensures e.Valid() && e.IsEditable()
    ensures old(e.contentEditable) != "true" ==>
      e.handlerPairs == old(e.handlerPairs) + 1 && e.classes == AddClass(old(e.classes), EditableField)
    ensures old(e.contentEditable) == "true" ==> e.handlerPairs == old(e.handlerPairs) && e.classes == old(e.classes)
  {
    e.MakeEditable();
    e.MakeEditable();
  }

  // ---------------------------------------------------------------------
  // saveElementContent
  // ---------------------------------------------------------------------

  /**
   * `saveElementContent(element)` of `js/modules/slide-editor.js`, run by
   * the blur handler `makeEditable` attaches: the element is named from its
   * lower-case tag and the class list `makeEditable` left, which always
   * holds `editable-field`, so naming never throws. Its content goes into
   * the edits map under that name, then the detail slide it lies in
   * (`detail`, `None` outside one) is synced to its nav box. An element
   * outside every section has no name, and nothing is saved or synced.
   */
  method SaveElementContent(store: LocalStore, el: EditableElement, section: Option<nat>, index: nat, content: string,
                            detail: Option<DetailContext>, indices: Option<RevealIndices>, boxes: seq<NavBoxElement>)
    returns (id: BuildResult, synced: Option<nat>)
    requires el.Valid() && el.handlerPairs > 0
    requires forall i, j :: 0 <= i < j < |boxes| ==> boxes[i] != boxes[j]
    modifies store, boxes
    ensures id == ElementIdentifier(section, AsciiLower(el.tagName), ClassAttr(el.classes), index)
    ensures id.Id? <==> section.Some?
    ensures !id.Id? ==> store.items == old(store.items)
    ensures id.Id? ==>
      store.items == old(store.items)[Storage.SlideEditsKey := EditMap(Storage.GetSlideEdits(old(store.items))[id.name := content])]
    ensures synced == if id.Id? then old(SyncTarget(SlideEditorJs, detail, indices, boxes)) else None
    ensures SyncEffect(boxes, synced, SyncContent(detail))
  {
    var tag, cs := AsciiLower(el.tagName), el.classes;
    ClassListIsNamed(section, tag, cs, index);
    id := ElementIdentifier(section, tag, ClassAttr(cs), index);
    if !id.Id? {
      return id, None;
    }
    ghost var target := SyncTarget(SlideEditorJs, detail, indices, boxes);
    var edits := Storage.GetSlideEdits(store.items);
    Storage.SaveSlideEdits(store, edits[id.name := content]);
    // Writing the store leaves every nav box as it was.
    assert forall b :: b in boxes ==> unchanged(b);
    assert SyncTarget(SlideEditorJs, detail, indices, boxes) == target;
    synced := SyncDetailToNavBox(SlideEditorJs, detail, indices, boxes);
  }

  /**
   * After a save, the edits read back hold the content under the new name
   * and every other stored edit is unchanged. The corrected lookup of the
   * name runs the query that numbered the element; the lookup as written
   * does so only for a class list of one class, and otherwise reads the
   * second class as the element index.
   */
  lemma SavedEditIsFoundAgain(items: map<string, Slot>, slideIndex: nat, tagName: string, cs: seq<string>, index: nat,
                              content: string, slideCount: nat)
    requires slideIndex < slideCount
    requires '_' !in tagName && cs != [] && NameSafe(cs)
    ensures var id := IdentifierText(slideIndex, tagName, ClassAttr(cs), index);
      var after := items[Storage.SlideEditsKey := EditMap(Storage.GetSlideEdits(items)[id := content])];
      && Storage.GetSlideEdits(after)[id] == content
      && (forall k :: k != id ==> (k in Storage.GetSlideEdits(after) <==> k in Storage.GetSlideEdits(items)))
      && FindElement(id, slideCount) == Query(slideIndex, SiblingSelector(tagName, ClassAttr(cs)), Some(index))
      && FindElementAsWritten(id, slideCount) ==
           Query(slideIndex, SiblingSelector(tagName, ClassAttr(cs)), if |cs| == 1 then Some(index) else ParseInt(cs[1]))
  {
    FindFindsTheNamedElement(slideIndex, tagName, cs, index, slideCount);
    FindAsWrittenReadsTheSecondClass(slideIndex, tagName, cs, index, slideCount);
  }

  /** What `loadStoredEdits()` of `src/editor.js` gives: a map, or the exception of `JSON.parse`. */
  datatype EditsLoad = Loaded(edits: map<string, string>) | LoadThrows

  /**
   * `loadStoredEdits()`: no stored value, or an empty one, is `{}`; a
   * stored map is returned; anything else makes `JSON.parse` throw, since
   * unlike `getSlideEdits()` this function catches nothing.
   */
  function LoadStoredEdits(items: map<string, Slot>): (r: EditsLoad)
    ensures Storage.SlideEditsKey !in items ==> r == Loaded(map[])
  {
    if Storage.SlideEditsKey !in items then Loaded(map[])
    else match items[Storage.SlideEditsKey]
      case EditMap(m) => Loaded(m)
      case Text(t) => if t == "" then Loaded(map[]) else LoadThrows
      case Unparseable(raw) => if raw == "" then Loaded(map[]) else LoadThrows
      case _ => LoadThrows
  }

  /** Where it succeeds, the load agrees with `getSlideEdits()`; it fails exactly on a non-empty value that is not a map. */
  lemma LoadAgreesWithGetSlideEdits(items: map<string, Slot>)
    ensures LoadStoredEdits(items).Loaded? ==> LoadStoredEdits(items).edits == Storage.GetSlideEdits(items)
    ensures LoadStoredEdits(items) == LoadThrows <==>
      Storage.SlideEditsKey in items && !items[Storage.SlideEditsKey].EditMap?
      && items[Storage.SlideEditsKey] != Text("") && items[Storage.SlideEditsKey] != Unparseable("")
  {
  }

  datatype SaveOutcome = NotNamed | NotSaved | Saved(id: string)

  /**
   * `saveElementContent(element)` of `src/editor.js`: named as in the other
   * file, except that a stored value that does not parse throws, so nothing
   * is saved and no nav box is synced.
   */
  method EditorSaveElementContent(store: LocalStore, el: EditableElement, section: Option<nat>, index: nat, content: string,
                                  detail: Option<DetailContext>, indices: Option<RevealIndices>, boxes: seq<NavBoxElement>)
    returns (outcome: SaveOutcome, synced: Option<nat>)
    requires el.Valid() && el.handlerPairs > 0
    requires forall i, j :: 0 <= i < j < |boxes| ==> boxes[i] != boxes[j]
    modifies store, boxes
    ensures outcome == NotNamed <==> section.None?
    ensures outcome == NotSaved <==> section.Some? && LoadStoredEdits(old(store.items)) == LoadThrows
    ensures !outcome.Saved? ==> store.items == old(store.items)
    ensures outcome.Saved? ==>
      Id(outcome.id) == ElementIdentifier(section, AsciiLower(el.tagName), ClassAttr(el.classes), index)
    ensures outcome.Saved? ==>
      store.items == old(store.items)[Storage.SlideEditsKey := EditMap(LoadStoredEdits(old(store.items)).edits[outcome.id := content])]
    ensures synced == if outcome.Saved? then old(SyncTarget(EditorJs, detail, indices, boxes)) else None
    ensures SyncEffect(boxes, synced, SyncContent(detail))
  {
    synced := None;
    var tag, cs := AsciiLower(el.tagName), el.classes;
    ClassListIsNamed(section, tag, cs, index);
    var id := ElementIdentifier(section, tag, ClassAttr(cs), index);
    if !id.Id? {
      return NotNamed, None;
    }
    var loaded := LoadStoredEdits(store.items);
    if loaded == LoadThrows {
      return NotSaved, None;
    }
    ghost var target := SyncTarget(EditorJs, detail, indices, boxes);
    store.SetItem(Storage.SlideEditsKey, EditMap(loaded.edits[id.name := content]));
    // Writing the store leaves every nav box as it was.
    assert forall b :: b in boxes ==> unchanged(b);
    assert SyncTarget(EditorJs, detail, indices, boxes) == target;
    outcome := Saved(id.name);
    synced := SyncDetailToNavBox(EditorJs, detail, indices, boxes);
  }

  // ---------------------------------------------------------------------
  // applyStoredEdits
  // ---------------------------------------------------------------------

  /** The corrected `findElementByIdentifier` on one page: the lookup of every stored name. */
  function PageLookup(slideCount: nat): (lookup: string -> Lookup)
    ensures forall k :: lookup(k) == FindElement(k, slideCount)
  {
    k => FindElement(k, slideCount)
  }

  /** `findElementByIdentifier` as written, on one page. */
  function PageLookupAsWritten(slideCount: nat): (lookup: string -> Lookup)
    ensures forall k :: lookup(k) == FindElementAsWritten(k, slideCount)
  {
    k => FindElementAsWritten(k, slideCount)
  }

  /** Where a query lands: nowhere, or on an element that may lie inside a `.nav-box`. */
  datatype Located = Missing | At(element: nat, inNavBox: bool)

  /** The element a stored name lands on: `elements[elementIndex]` after the query; `NaN` and negative positions find nothing. */
  function Landing(k: string, lookup: string -> Lookup, locate: (nat, string, nat) -> Located): (at: Located)
    ensures !lookup(k).Query? ==> at == Missing
  {
    var l := lookup(k);
    if l.Query? && l.index.Some? && l.index.value >= 0 then locate(l.slide, l.selector, l.index.value) else Missing
  }

  /** An edit is written when its element is found outside every nav box and its content is not empty. */
  predicate Applies(edits: map<string, string>, k: string, lookup: string -> Lookup, locate: (nat, string, nat) -> Located)
    requires k in edits
  {
    Landing(k, lookup, locate).At? && !Landing(k, lookup, locate).inNavBox && edits[k] != ""
  }

  /**
   * The `innerHTML` writes of the first `n` edits, in key order: a later
   * write to an element replaces an earlier one.
   */
  function Writes(keys: seq<string>, n: nat, edits: map<string, string>, lookup: string -> Lookup,
                  locate: (nat, string, nat) -> Located): map<nat, string>
    requires n <= |keys|
    requires forall k :: k in keys ==> k in edits
    decreases n
  {
    if n == 0 then map[]
    else
      var w := Writes(keys, n - 1, edits, lookup, locate);
      var k := keys[n - 1];
      if Applies(edits, k, lookup, locate) then w[Landing(k, lookup, locate).element := edits[k]] else w
  }

  /** Every write comes from an applicable edit: never into a nav box, never empty content. */
  lemma {:induction false} WritesComeFromEdits(keys: seq<string>, n: nat, edits: map<string, string>, lookup: string -> Lookup,
                                               locate: (nat, string, nat) -> Located)
    requires n <= |keys|
    requires forall k :: k in keys ==> k in edits
    ensures forall e :: e in Writes(keys, n, edits, lookup, locate) ==>
      exists i :: (0 <= i < n && Applies(edits, keys[i], lookup, locate) && Landing(keys[i], lookup, locate).element == e
                   && Writes(keys, n, edits, lookup, locate)[e] == edits[keys[i]])
    decreases n
  {
    if n > 0 {
      WritesComeFromEdits(keys, n - 1, edits, lookup, locate);
      var w := Writes(keys, n, edits, lookup, locate);
      var w' := Writes(keys, n - 1, edits, lookup, locate);
      forall e | e in w
        ensures exists i :: (0 <= i < n && Applies(edits, keys[i], lookup, locate) && Landing(keys[i], lookup, locate).element == e
                             && w[e] == edits[keys[i]])
      {
        if !(Applies(edits, keys[n - 1], lookup, locate) && Landing(keys[n - 1], lookup, locate).element == e) {
          assert e in w' && w[e] == w'[e];
          var i :| 0 <= i < n - 1 && Applies(edits, keys[i], lookup, locate) && Landing(keys[i], lookup, locate).element == e
            && w'[e] == edits[keys[i]];
        }
      }
    }
  }

  /** Every applicable edit writes its element (possibly overwritten by a later edit to the same element). */
  lemma {:induction false} WritesCoverApplicableEdits(keys: seq<string>, n: nat, edits: map<string, string>, lookup: string -> Lookup,
                                                      locate: (nat, string, nat) -> Located)
    requires n <= |keys|
    requires forall k :: k in keys ==> k in edits
    ensures forall i :: 0 <= i < n && Applies(edits, keys[i], lookup, locate) ==>
      Landing(keys[i], lookup, locate).element in Writes(keys, n, edits, lookup, locate)
    decreases n
  {
    if n > 0 {
      WritesCoverApplicableEdits(keys, n - 1, edits, lookup, locate);
    }
  }

  /** The last edit to an element is the one it shows. */
  lemma {:induction false} LastEditWins(keys: seq<string>, n: nat, edits: map<string, string>, lookup: string -> Lookup,
                                        locate: (nat, string, nat) -> Located, i: nat)
    requires n <= |keys|
    requires forall k :: k in keys ==> k in edits
    requires i < n && Applies(edits, keys[i], lookup, locate)
    requires forall j :: i < j < n && Applies(edits, keys[j], lookup, locate) ==>
      Landing(keys[j], lookup, locate).element != Landing(keys[i], lookup, locate).element
    ensures Landing(keys[i], lookup, locate).element in Writes(keys, n, edits, lookup, locate)
    ensures Writes(keys, n, edits, lookup, locate)[Landing(keys[i], lookup, locate).element] == edits[keys[i]]
    decreases n
  {
    WritesCoverApplicableEdits(keys, n, edits, lookup, locate);
    if i < n - 1 {
      LastEditWins(keys, n - 1, edits, lookup, locate, i);
    }
  }

  /**
   * `applyStoredEdits()`: `keys` is `Object.keys(edits)`, each stored name
   * once. The edits are written in key order; a name whose lookup throws
   * ends the loop there, and the nav-box resync that follows runs only
   * when every name was handled.
   */
  method ApplyStoredEdits(keys: seq<string>, edits: map<string, string>, lookup: string -> Lookup, locate: (nat, string, nat) -> Located)
    returns (writes: map<nat, string>, handled: nat)
    requires forall k :: k in keys <==> k in edits
    requires forall i, j :: 0 <= i < j < |keys| ==> keys[i] != keys[j]
    ensures handled <= |keys|
    ensures handled == |keys| ==> forall k :: k in edits ==> k in keys[..handled]
    ensures forall i :: 0 <= i < handled ==> lookup(keys[i]) != LookupThrows
    ensures handled < |keys| ==> lookup(keys[handled]) == LookupThrows
    ensures writes == Writes(keys, handled, edits, lookup, locate)
  {
    writes := map[];
    handled := 0;
    while handled < |keys|
      invariant handled <= |keys|
      invariant forall i :: 0 <= i < handled ==> lookup(keys[i]) != LookupThrows
      invariant writes == Writes(keys, handled, edits, lookup, locate)
    {
      var k := keys[handled];
      if lookup(k) == LookupThrows {
        return;
      }
      var at := Landing(k, lookup, locate);
      if at.At? && edits[k] != "" && !at.inNavBox {
        writes := writes[at.element := edits[k]];
      }
      handled := handled + 1;
    }
  }

  /**
   * A saved edit shows again after a reload with the corrected lookup: the
   * page lookup of its name finds the element it was saved from, and unless
   * a later edit lands on the same element, that element receives the
   * saved content. This holds for every class list, so also for elements
   * with classes of their own.
   */
  lemma SavedEditIsApplied(keys: seq<string>, edits: map<string, string>, slideCount: nat, locate: (nat, string, nat) -> Located,
                           i: nat, slideIndex: nat, tagName: string, cs: seq<string>, index: nat, element: nat)
    requires forall k :: k in keys ==> k in edits
    requires i < |keys| && keys[i] == IdentifierText(slideIndex, tagName, ClassAttr(cs), index)
    requires slideIndex < slideCount && '_' !in tagName && cs != [] && NameSafe(cs)
    requires locate(slideIndex, SiblingSelector(tagName, ClassAttr(cs)), index) == At(element, false)
    requires edits[keys[i]] != ""
    requires forall j :: i < j < |keys| && Applies(edits, keys[j], PageLookup(slideCount), locate) ==>
      Landing(keys[j], PageLookup(slideCount), locate).element != element
    ensures element in Writes(keys, |keys|, edits, PageLookup(slideCount), locate)
    ensures Writes(keys, |keys|, edits, PageLookup(slideCount), locate)[element] == edits[keys[i]]
  {
    FindFindsTheNamedElement(slideIndex, tagName, cs, index, slideCount);
    assert Landing(keys[i], PageLookup(slideCount), locate) == At(element, false);
    LastEditWins(keys, |keys|, edits, PageLookup(slideCount), locate, i);
  }

  /**
   * As written, an edit saved from an element whose second class starts
   * with neither a digit nor a sign, such as one with the class `c` that
   * `makeEditable` turned into `c editable-field`, lands nowhere: it is
   * never applied, and every write of the reload comes from another name.
   */
  lemma ClassedEditIsNeverApplied(keys: seq<string>, edits: map<string, string>, slideCount: nat, locate: (nat, string, nat) -> Located,
                                  i: nat, slideIndex: nat, tagName: string, cs: seq<string>, index: nat)
    requires forall k :: k in keys ==> k in edits
    requires i < |keys| && keys[i] == IdentifierText(slideIndex, tagName, ClassAttr(cs), index)
    requires slideIndex < slideCount && '_' !in tagName && |cs| >= 2 && NameSafe(cs)
    requires !IsDigit(cs[1][0]) && cs[1][0] != '-' && cs[1][0] != '+'
    ensures Landing(keys[i], PageLookupAsWritten(slideCount), locate) == Missing
    ensures !Applies(edits, keys[i], PageLookupAsWritten(slideCount), locate)
    ensures forall e :: e in Writes(keys, |keys|, edits, PageLookupAsWritten(slideCount), locate) ==>
      exists j :: 0 <= j < |keys| && keys[j] != keys[i]
                  && Writes(keys, |keys|, edits, PageLookupAsWritten(slideCount), locate)[e] == edits[keys[j]]
  {
    TwoClassesAreNeverFound(slideIndex, tagName, cs, index, slideCount);
    WritesComeFromEdits(keys, |keys|, edits, PageLookupAsWritten(slideCount), locate);
  }

  // ---------------------------------------------------------------------
  // syncDetailToNavBox
  // ---------------------------------------------------------------------

  predicate IsTitle(n: Node) {
    HasTag(n, "h3") || HasTag(n, "h5")
  }

  /** `el.className = other.className || ''`: the copy always carries a class attribute. */
  function ClassCopy(classes: Option<seq<string>>): Option<seq<string>> {
    Some(if classes.None? then [] else classes.value)
  }

  /** Setting `textContent`: the empty string leaves no child. */
  function TextChildren(s: string): (r: seq<Node>)
    ensures TextContent(r) == s
  {
    if s == "" then [] else [TextNode(s)]
  }

  /** The `<h4>` copy of the first `h3` or `h5` of the detail slide, if it has one. */
  function TitleCopy(detail: seq<Node>): (r: seq<Node>)
    ensures |r| <= 1
    ensures r == [] <==> FirstMatch(detail, IsTitle).None?
    ensures r != [] ==> (r[0].Element? && r[0].tag == "h4" && r[0].attrs == map[]
                         && TextContent(r[0].children) == TextContent(FirstMatch(detail, IsTitle).value.children))
  {
    match FirstMatch(detail, IsTitle)
    case None => []
    case Some(t) => [Element("h4", map[], ClassCopy(t.classes), TextChildren(TextContent(t.children)))]
  }

  predicate IsNonBlankParagraph(n: Node) {
    n.Element? && n.tag == "p" && Trim(TextContent(n.children)) != ""
  }

  /** The direct `<p>` children with text left after trimming, in order. */
  function NonBlankParagraphs(cs: seq<Node>): (ps: seq<Node>)
    ensures |ps| <= |cs|
    ensures forall i :: 0 <= i < |ps| ==> ps[i].Element? && ps[i].tag == "p"
  {
    ChildrenWhere(cs, IsNonBlankParagraph)
  }

  /** The selection keeps exactly the non-blank paragraphs among the children. */
  lemma NonBlankParagraphsSelect(cs: seq<Node>)
    ensures forall n :: n in NonBlankParagraphs(cs) <==> n in cs && IsNonBlankParagraph(n)
  {
    ChildrenWhereMembers(cs, IsNonBlankParagraph);
  }

  /**
   * The selection keeps document order: it distributes over concatenation,
   * and on a single child it keeps that child exactly when it is a
   * non-blank paragraph.
   */
  lemma NonBlankParagraphsAppend(a: seq<Node>, b: seq<Node>)
    ensures NonBlankParagraphs(a + b) == NonBlankParagraphs(a) + NonBlankParagraphs(b)
    ensures |a| == 1 ==> NonBlankParagraphs(a) == (if IsNonBlankParagraph(a[0]) then a else [])
  {
    ChildrenWhereAppend(a, b, IsNonBlankParagraph);
  }

  /** The new `<p>`: the same class, and the trimmed text as its only child. */
  function CopyParagraph(p: Node): (r: Node)
    requires p.Element?
  {
    Element("p", map[], ClassCopy(p.classes), [TextNode(Trim(TextContent(p.children)))])
  }

  /** The copies of `ps`, in order. */
  function CopyParagraphs(ps: seq<Node>): (r: seq<Node>)
    requires forall i :: 0 <= i < |ps| ==> ps[i].Element?
    ensures |r| == |ps|
    decreases |ps|
  {
    if ps == [] then [] else [CopyParagraph(ps[0])] + CopyParagraphs(ps[1..])
  }

  lemma {:induction false} CopyParagraphsAt(ps: seq<Node>, i: nat)
    requires forall j :: 0 <= j < |ps| ==> ps[j].Element?
    requires i < |ps|
    ensures CopyParagraphs(ps)[i] == CopyParagraph(ps[i])
    decreases |ps|
  {
    if i > 0 {
      CopyParagraphsAt(ps[1..], i - 1);
    }
  }

  /** The fragment the sync builds: the title copy, then one paragraph per non-blank direct paragraph. */
  function NavBoxContent(detail: seq<Node>): (r: seq<Node>)
    ensures |r| == |TitleCopy(detail)| + |NonBlankParagraphs(detail)|
    ensures r[..|TitleCopy(detail)|] == TitleCopy(detail)
  {
    TitleCopy(detail) + CopyParagraphs(NonBlankParagraphs(detail))
  }

  /** After the title, the fragment holds the copy of each non-blank paragraph, in order. */
  lemma NavBoxContentAt(detail: seq<Node>, k: nat)
    requires k < |NonBlankParagraphs(detail)|
    ensures NavBoxContent(detail)[|TitleCopy(detail)| + k] == CopyParagraph(NonBlankParagraphs(detail)[k])
  {
    CopyParagraphsAt(NonBlankParagraphs(detail), k);
  }

  lemma CopyIsTrimmed(p: Node)
    requires IsNonBlankParagraph(p)
    ensures CopyParagraph(p).children[0].text != "" && Trim(CopyParagraph(p).children[0].text) == CopyParagraph(p).children[0].text
  {
    TrimOfTrimmed(Trim(TextContent(p.children)));
  }

  /** Each paragraph of the fragment holds one trimmed, non-empty text. */
  lemma NavBoxParagraphsAreTrimmed(detail: seq<Node>, i: nat)
    requires |TitleCopy(detail)| <= i < |NavBoxContent(detail)|
    ensures var p := NavBoxContent(detail)[i];
      p.Element? && p.tag == "p" && |p.children| == 1 && p.children[0].TextNode?
      && p.children[0].text != "" && Trim(p.children[0].text) == p.children[0].text
  {
    var ps := NonBlankParagraphs(detail);
    var k := i - |TitleCopy(detail)|;
    NavBoxContentAt(detail, k);
    assert IsNonBlankParagraph(ps[k]) by {
      NonBlankParagraphsSelect(detail);
      assert ps[k] in ps;
    }
    CopyIsTrimmed(ps[k]);
  }

  /** A nav box of the topic slide, with the state the sync writes. */
  class NavBoxElement {
    var targetH: string
    var targetV: string
    var expanded: bool
    var children: seq<Node>
    /** `data-original-content`: the nodes whose HTML it holds. */
    var originalContent: seq<Node>

    constructor (targetH: string, targetV: string, expanded: bool, children: seq<Node>, originalContent: seq<Node>)
      ensures this.targetH == targetH && this.targetV == targetV && this.expanded == expanded
      ensures this.children == children && this.originalContent == originalContent
    {
      this.targetH := targetH;
      this.targetV := targetV;
      this.expanded := expanded;
      this.children := children;
      this.originalContent := originalContent;
    }

    /** An expanded box keeps what it shows and only records the new content for when it collapses. */
    method Receive(fragment: seq<Node>)
      modifies this
      ensures expanded == old(expanded) && targetH == old(targetH) && targetV == old(targetV)
      ensures expanded ==> originalContent == fragment && children == old(children)
      ensures !expanded ==> children == fragment && originalContent == old(originalContent)
    {
      if expanded {
        originalContent := fragment;
      } else {
        children := fragment;
      }
    }
  }

  /** Where the detail slide sits: its `data-index-h`/`-v`, whether it is the present slide, and its DOM positions. */
  datatype SlidePlace = SlidePlace(indexH: Option<string>, indexV: Option<string>, present: bool,
                                   stackPosition: int, positionInStack: int)

  /** What `Reveal.getIndices()` returns; `None` when Reveal is missing or the call throws. */
  datatype RevealIndices = RevealIndices(h: int, v: int)

  /** `hIndex`: the data attribute wins (`NaN`, here `None`, when it does not parse), then Reveal, then the position. */
  function HorizontalIndex(place: SlidePlace, indices: Option<RevealIndices>): (h: Option<int>)
    ensures !Present(place.indexH) ==> h.Some?
    ensures Present(place.indexH) ==> h == ParseInt10(place.indexH.value)
  {
    if Present(place.indexH) then ParseInt10(place.indexH.value)
    else if indices.Some? then Some(indices.value.h)
    else Some(place.stackPosition)
  }

  /** `vIndex`: as `hIndex`, but Reveal's index is used only for the present slide. */
  function VerticalIndex(place: SlidePlace, indices: Option<RevealIndices>): (v: Option<int>)
    ensures !Present(place.indexV) && !(indices.Some? && place.present) ==> v == Some(place.positionInStack)
    ensures Present(place.indexV) ==> v == ParseInt10(place.indexV.value)
  {
    if Present(place.indexV) then ParseInt10(place.indexV.value)
    else if indices.Some? && place.present then Some(indices.value.v)
    else Some(place.positionInStack)
  }

  /** `document.querySelector('.nav-box[data-target-h="h"][data-target-v="v"]')`. */
  function FindBox(boxes: seq<NavBoxElement>, h: string, v: string): (r: Option<nat>)
    reads boxes
    ensures r.Some? ==> r.value < |boxes| && boxes[r.value].targetH == h && boxes[r.value].targetV == v
    ensures r.Some? ==> forall j :: 0 <= j < r.value ==> !(boxes[j].targetH == h && boxes[j].targetV == v)
    ensures r.None? ==> forall j :: 0 <= j < |boxes| ==> !(boxes[j].targetH == h && boxes[j].targetV == v)
    decreases |boxes|
  {
    if boxes == [] then None
    else if boxes[0].targetH == h && boxes[0].targetV == v then Some(0)
    else match FindBox(boxes[1..], h, v)
      case None => None
      case Some(j) => Some(j + 1)
  }

  /** The detail slide the sync starts from. */
  datatype DetailContext = DetailContext(children: seq<Node>, info: DetailInfo, place: SlidePlace)

  /** Which file's sync: `src/editor.js` also stops on a topic mismatch. */
  datatype EditorFile = SlideEditorJs | EditorJs

  /** The guard of `src/editor.js`: both ids present and different. */
  predicate Mismatch(info: DetailInfo) {
    info.stack.Some? && Present(info.parentTopic) && Present(info.stack.value) && info.stack.value.value != info.parentTopic.value
  }

  /** The box the sync writes: none outside a stack or on a mismatch (`src/editor.js` only), else the first box addressed by the slide's indices. */
  function SyncTarget(file: EditorFile, detail: Option<DetailContext>, indices: Option<RevealIndices>, boxes: seq<NavBoxElement>): Option<nat>
    reads boxes
  {
    if detail.None? || detail.value.info.stack.None? || (file == EditorJs && Mismatch(detail.value.info)) then None
    else FindBox(boxes, NumberText(HorizontalIndex(detail.value.place, indices)), NumberText(VerticalIndex(detail.value.place, indices)))
  }

  /** The fragment a sync from `detail` delivers. */
  function SyncContent(detail: Option<DetailContext>): seq<Node> {
    if detail.Some? then NavBoxContent(detail.value.children) else []
  }

  /**
   * What a sync did to the boxes: with no target every box is untouched;
   * otherwise the target received `content` (shown when collapsed, kept
   * for later when expanded) and every other box is untouched.
   */
  twostate predicate SyncEffect(boxes: seq<NavBoxElement>, synced: Option<nat>, content: seq<Node>)
    reads boxes
  {
    && (synced.None? ==> forall b :: b in boxes ==> unchanged(b))
    && (synced.Some? ==>
         && synced.value < |boxes|
         && (forall j :: 0 <= j < |boxes| && j != synced.value ==> unchanged(boxes[j]))
         && var b := boxes[synced.value];
         && b.expanded == old(b.expanded) && b.targetH == old(b.targetH) && b.targetV == old(b.targetV)
         && (b.expanded ==> b.originalContent == content && b.children == old(b.children))
         && (!b.expanded ==> b.children == content && b.originalContent == old(b.originalContent)))
  }

  /**
   * `syncDetailToNavBox(element)`: the box addressed by the detail slide's
   * indices receives the fragment built from it; nothing happens outside
   * a stack, on a mismatch (`src/editor.js` only) or when no box matches.
   */
  method SyncDetailToNavBox(file: EditorFile, detail: Option<DetailContext>, indices: Option<RevealIndices>, boxes: seq<NavBoxElement>)
    returns (synced: Option<nat>)
    requires forall i, j :: 0 <= i < j < |boxes| ==> boxes[i] != boxes[j]
    modifies boxes
    ensures synced.None? ==> forall b :: b in boxes ==> unchanged(b)
    ensures detail.None? || detail.value.info.stack.None? ==> synced.None?
    ensures file == EditorJs && detail.Some? && Mismatch(detail.value.info) ==> synced.None?
    ensures detail.Some? && detail.value.info.stack.Some? && !(file == EditorJs && Mismatch(detail.value.info)) ==>
      synced == old(FindBox(boxes, NumberText(HorizontalIndex(detail.value.place, indices)),
                            NumberText(VerticalIndex(detail.value.place, indices))))
    ensures synced.Some? ==> (detail.Some? &&
      synced == old(FindBox(boxes, NumberText(HorizontalIndex(detail.value.place, indices)),
                            NumberText(VerticalIndex(detail.value.place, indices)))))
    ensures synced.Some? ==> (synced.value < |boxes| && detail.Some? &&
      (boxes[synced.value].expanded ==>
         boxes[synced.value].originalContent == NavBoxContent(detail.value.children)
         && boxes[synced.value].children == old(boxes[synced.value].children)))
    ensures synced.Some? ==> (synced.value < |boxes| && detail.Some? &&
      (!boxes[synced.value].expanded ==>
         boxes[synced.value].children == NavBoxContent(detail.value.children)
         && boxes[synced.value].originalContent == old(boxes[synced.value].originalContent)))
    ensures synced.Some? ==> forall j :: 0 <= j < |boxes| && j != synced.value ==> unchanged(boxes[j])
    ensures synced == old(SyncTarget(file, detail, indices, boxes))
    ensures SyncEffect(boxes, synced, SyncContent(detail))
  {
    if detail.None? || detail.value.info.stack.None? {
      return None;
    }
    var d := detail.value;
    if file == EditorJs && Mismatch(d.info) {
      return None;
    }
    var h := NumberText(HorizontalIndex(d.place, indices));
    var v := NumberText(VerticalIndex(d.place, indices));
    synced := FindBox(boxes, h, v);
    if synced.None? {
      return;
    }
    boxes[synced.value].Receive(NavBoxContent(d.children));
  }
}

=== FILE: slide_generator.dfy ===
/**
 * `js/modules/slide-generator.js`: builds the Reveal.js deck skeleton for
 * a number of topics. The generated HTML is modelled by the structure it
 * encodes: one overview circle per topic, and per topic a stack with an
 * intro slide of navigation boxes followed by the detail slides.
 *
 * A count is `Option<int>`: `None` is `NaN`, which the source can be handed
 * (see the admin panel) and which its own guard lets through.
 */
module SlideGenerator {
  import opened Text
  import opened JsValues
  import opened Normalize
  import opened WebStorage

  const OuterRadius := 430
  const StartAngle: real := -90.0
  const DefaultDetailSlides := 3
  const MinCircles := 3
  const MaxCircles := 25

  const MetadataKey := "slide-generation-metadata"
  const CircleCountKey := "overview-circle-count"

  /** One `.circle-item` of the overview. */
  datatype Circle = Circle(dataSlide: int, angle: real, radius: int, title: JsValue)

  /** One `.nav-box` button of a topic's intro slide. */
  datatype NavBox = NavBox(targetH: int, targetV: int, boxIndex: int)

  /** One `.detail-slide` section. */
  datatype DetailSlide = DetailSlide(parentTopic: string, index: int, topicTitle: JsValue)

  /** One `section.stack` with its `data-topic-id`. */
  datatype TopicStack = TopicStack(topicNumber: int, topicId: string, title: JsValue, navBoxes: seq<NavBox>, details: seq<DetailSlide>)

  /** The whole generated deck: overview, topic stacks, closing slide. */
  datatype Deck = Deck(overviewTitle: string, authorLine: string, circles: seq<Circle>, stacks: seq<TopicStack>)

  /** How often `for (let i = 0; i < count; i++)` runs: never for `NaN` or a count below 1. */
  function Iterations(count: Option<int>): (n: nat)
    ensures count.Some? && count.value >= 0 ==> n == count.value
    ensures count.None? || count.value <= 0 ==> n == 0
  {
    if count.Some? && count.value > 0 then count.value else 0
  }

  /** `"Thema " + n`. */
  function FallbackTitle(n: int): string {
    "Thema " + IntToString(n)
  }

  /** `topics[i]?.title || "Thema {i+1}"`. */
  function TitleAt(topics: seq<Topic>, i: nat): (t: JsValue)
    ensures Truthy(t)
    ensures i < |topics| && Truthy(topics[i].title) ==> t == topics[i].title
    ensures !(i < |topics| && Truthy(topics[i].title)) ==> t == Str(FallbackTitle(i + 1))
  {
    if i < |topics| && Truthy(topics[i].title) then topics[i].title else Str(FallbackTitle(i + 1))
  }

  /** The angle of circle `i` of `n`: `i * (360 / n) - 90` degrees. */
  function CircleAngle(i: int, n: int): (r: real)
    requires n > 0
    ensures i == 0 ==> r == StartAngle
  {
    i as real * (360.0 / n as real) + StartAngle
  }

  /** Every circle's angle lies within one turn starting at twelve o'clock. */
  lemma CircleAngleWithinTurn(i: int, n: int)
    requires 0 <= i < n
    ensures StartAngle <= CircleAngle(i, n) < StartAngle + 360.0
  {
    var step := 360.0 / n as real;
    assert step * n as real == 360.0;
    StepWithinTurn(i as real, n as real, step);
  }

  /** Less than `t` steps of a `360 / t` turn stay below a full turn. */
  lemma StepWithinTurn(k: real, t: real, step: real)
    requires 0.0 <= k <= t - 1.0 && step > 0.0 && step * t == 360.0
    ensures 0.0 <= k * step < 360.0
  {
    MulMonotone(k, t - 1.0, step);
    assert t * step == 360.0;
    assert (t - 1.0) * step == t * step - step;
    assert k * step <= 360.0 - step;
  }

  lemma MulMonotone(x: real, y: real, c: real)
    requires 0.0 <= x <= y && c > 0.0
    ensures 0.0 <= x * c <= y * c
  {
    assert (y - x) * c >= 0.0;
  }

  /** `generateOverviewCircles(circleCount)` with the topics of the content data. */
  function GenerateOverviewCircles(count: Option<int>, topics: seq<Topic>): (cs: seq<Circle>)
    ensures |cs| == Iterations(count)
    ensures forall i :: 0 <= i < |cs| ==>
      cs[i] == Circle(i + 1, CircleAngle(i, count.value), OuterRadius, TitleAt(topics, i))
  {
    var n := Iterations(count);
    seq(n, i requires 0 <= i < n => Circle(i + 1, CircleAngle(i, count.value), OuterRadius, TitleAt(topics, i)))
  }

  /** The circles start at twelve o'clock and are spaced evenly around the full turn. */
  lemma CirclesSpreadEvenly(n: int, topics: seq<Topic>, i: nat)
    requires n > 0 && i + 1 < n
    ensures GenerateOverviewCircles(Some(n), topics)[0].angle == -90.0
    ensures GenerateOverviewCircles(Some(n), topics)[i + 1].angle - GenerateOverviewCircles(Some(n), topics)[i].angle == 360.0 / n as real
    ensures CircleAngle(n, n) == CircleAngle(0, n) + 360.0
  {
    var cs := GenerateOverviewCircles(Some(n), topics);
    assert cs[0].angle == CircleAngle(0, n);
    assert cs[i].angle == CircleAngle(i, n) && cs[i + 1].angle == CircleAngle(i + 1, n);
    CircleStep(i, n);
    FullTurn(n);
  }

  /** Neighbouring circles are one step of `360 / n` degrees apart. */
  lemma CircleStep(i: int, n: int)
    requires n > 0
    ensures CircleAngle(i + 1, n) - CircleAngle(i, n) == 360.0 / n as real
  {
    var step := 360.0 / n as real;
    var x := i as real;
    assert (i + 1) as real == x + 1.0;
    AddOneStep(x, step);
  }

  /** The circle after the last would close the turn. */
  lemma FullTurn(n: int)
    requires n > 0
    ensures CircleAngle(n, n) == CircleAngle(0, n) + 360.0
  {
    StepTimesCount(n);
  }

  lemma AddOneStep(x: real, step: real)
    ensures (x + 1.0) * step == x * step + step
  {
  }

  lemma StepTimesCount(n: int)
    requires n > 0
    ensures n as real * (360.0 / n as real) == 360.0
  {
  }

  /** `generateTopicSlide(topicNumber, topicTitle, topicId, detailSlidesCount)`. */
  function GenerateTopicSlide(topicNumber: int, title: JsValue, topicId: string, detailCount: int): (s: TopicStack)
    ensures s.topicNumber == topicNumber && s.topicId == topicId && s.title == title
    ensures |s.navBoxes| == |s.details| == Iterations(Some(detailCount))
    ensures forall k :: 0 <= k < |s.navBoxes| ==> s.navBoxes[k] == NavBox(topicNumber, k + 1, k)
    ensures forall k :: 0 <= k < |s.details| ==> s.details[k] == DetailSlide(topicId, k + 1, title)
  {
    var n := Iterations(Some(detailCount));
    TopicStack(topicNumber, topicId, title,
      seq(n, k requires 0 <= k < n => NavBox(topicNumber, k + 1, k)),
      seq(n, k requires 0 <= k < n => DetailSlide(topicId, k + 1, title)))
  }

  /** The `data-topic-id` of the `i`-th generated stack. */
  function TopicId(i: int): string {
    "topic-" + IntToString(i)
  }

  /** `generateAllTopicSlides(topicCount)`: a current student's counts override the argument and the default of 3 details. */
  function GenerateAllTopicSlides(topicCount: Option<int>, student: Option<StudentConfig>, topics: seq<Topic>): (ss: seq<TopicStack>)
    ensures var count := if student.Some? then Some(student.value.topicCount) else topicCount;
      |ss| == Iterations(count)
    ensures var details := if student.Some? then student.value.detailSlidesPerTopic else DefaultDetailSlides;
      forall i :: 0 <= i < |ss| ==> ss[i] == GenerateTopicSlide(i + 1, TitleAt(topics, i), TopicId(i + 1), details)
  {
    var count := if student.Some? then Some(student.value.topicCount) else topicCount;
    var details := if student.Some? then student.value.detailSlidesPerTopic else DefaultDetailSlides;
    var n := Iterations(count);
    seq(n, i requires 0 <= i < n => GenerateTopicSlide(i + 1, TitleAt(topics, i), TopicId(i + 1), details))
  }

  /** The guard of `generateCompleteSlidesHTML` as written: `NaN` fails both comparisons and passes. */
  predicate CompleteCountAccepted(count: Option<int>) {
    !(count.Some? && (count.value < MinCircles || count.value > MaxCircles))
  }

  /**
   * `generateCompleteSlidesHTML(circleCount, title, subtitle, author)`:
   * `None` stands for the empty string returned for a refused count. The
   * subtitle argument is not used by the source.
   */
  function GenerateCompleteSlides(circleCount: Option<int>, title: string, subtitle: string, author: string,
                                  student: Option<StudentConfig>, topics: seq<Topic>): (d: Option<Deck>)
    ensures var count := if student.Some? then Some(student.value.topicCount) else circleCount;
      && (d.Some? <==> CompleteCountAccepted(count))
      && (d.Some? ==>
            && d.value.circles == GenerateOverviewCircles(count, topics)
            && d.value.stacks == GenerateAllTopicSlides(count, student, topics))
  {
    var count := if student.Some? then Some(student.value.topicCount) else circleCount;
    if !CompleteCountAccepted(count) then None
    else Some(Deck(title + "<br>Untertitel Platzhalter", author + " – TT.MM.JJJJ<br>Betreuung: Betreuende Person",
                   GenerateOverviewCircles(count, topics), GenerateAllTopicSlides(count, student, topics)))
  }

  /** For an accepted count there is one circle per stack, and circle `i` opens stack `i` (`data-slide` = topic number). */
  lemma CirclesMatchStacks(circleCount: int, title: string, subtitle: string, author: string, topics: seq<Topic>)
    requires MinCircles <= circleCount <= MaxCircles
    ensures var d := GenerateCompleteSlides(Some(circleCount), title, subtitle, author, None, topics);
      && d.Some?
      && |d.value.circles| == |d.value.stacks| == circleCount
      && forall i :: 0 <= i < circleCount ==>
           && d.value.circles[i].dataSlide == d.value.stacks[i].topicNumber
           && d.value.circles[i].title == d.value.stacks[i].title
           && |d.value.stacks[i].details| == DefaultDetailSlides
  {
  }

  /** A current student's `topicCount` and `detailSlidesPerTopic` decide the deck, whatever count was asked for. */
  lemma StudentOverridesCount(circleCount: Option<int>, title: string, subtitle: string, author: string, s: StudentConfig, topics: seq<Topic>)
    requires MinCircles <= s.topicCount <= MaxCircles && s.detailSlidesPerTopic >= 0
    ensures var d := GenerateCompleteSlides(circleCount, title, subtitle, author, Some(s), topics);
      && d.Some?
      && |d.value.stacks| == s.topicCount
      && forall i :: 0 <= i < s.topicCount ==> |d.value.stacks[i].details| == s.detailSlidesPerTopic
  {
  }

  /** `saveGenerationMetadata(circleCount, metadata)`: the record (always 3 details) and the count as text. */
  method SaveGenerationMetadata(store: LocalStore, circleCount: int, metadata: JsValue, now: string)
    modifies store
    ensures store.items == old(store.items)[MetadataKey := MetadataRecord(GenerationMetadata(now, circleCount, DefaultDetailSlides, metadata))]
                                           [CircleCountKey := Text(IntToString(circleCount))]
  {
    store.SetItem(MetadataKey, MetadataRecord(GenerationMetadata(now, circleCount, DefaultDetailSlides, metadata)));
    store.SetItem(CircleCountKey, Text(IntToString(circleCount)));
  }

  /**
   * What `loadGenerationMetadata` ends in: `null`, the parsed record, some
   * other parsed JSON value stored under the key, or a `JSON.parse`
   * exception.
   */
  datatype MetadataLoad = NoMetadata | Loaded(meta: GenerationMetadata) | LoadedOther(value: Slot) | ParseError

  /** An empty string is falsy, so `if (data)` treats it as no value at all. */
  predicate EmptyRaw(slot: Slot) {
    slot == Text("") || slot == Unparseable("")
  }

  /** `loadGenerationMetadata()`: `null` for a missing or empty value, otherwise what `JSON.parse` makes of it. */
  function LoadGenerationMetadata(items: map<string, Slot>): (r: MetadataLoad)
    ensures r == NoMetadata <==> MetadataKey !in items || EmptyRaw(items[MetadataKey])
    ensures MetadataKey in items && items[MetadataKey].MetadataRecord? ==> r == Loaded(items[MetadataKey].meta)
    ensures r.LoadedOther? ==>
      MetadataKey in items && r.value == items[MetadataKey] && (r.value.EditMap? || r.value.BookmarkList? || r.value.StudentList?)
    ensures r == ParseError <==>
      MetadataKey in items && !EmptyRaw(items[MetadataKey]) && (items[MetadataKey].Text? || items[MetadataKey].Unparseable?)
  {
    if MetadataKey !in items || EmptyRaw(items[MetadataKey]) then NoMetadata
    else match items[MetadataKey]
      case MetadataRecord(m) => Loaded(m)
      case Text(_) => ParseError
      case Unparseable(_) => ParseError
      case other => LoadedOther(other)
  }

  /** Loading after saving gives back the saved record. */
  lemma LoadAfterSave(items: map<string, Slot>, circleCount: int, metadata: JsValue, now: string)
    ensures LoadGenerationMetadata(items[MetadataKey := MetadataRecord(GenerationMetadata(now, circleCount, DefaultDetailSlides, metadata))]
                                        [CircleCountKey := Text(IntToString(circleCount))])
            == Loaded(GenerationMetadata(now, circleCount, DefaultDetailSlides, metadata))
  {
  }
}

=== FILE: splice.dfy ===
/**
 * The in-place array moves of the source: `splice(from, 1)` followed by
 * `splice(to, 0, moved)` (student and subtopic reordering) and `splice(i, 1)`.
 */
module Splice {

  /** `splice(from, 1)` followed by `splice(to, 0, moved)`. */
  function Move<T>(s: seq<T>, from: int, to: int): (r: seq<T>)
    requires 0 <= from < |s| && 0 <= to < |s|
    ensures |r| == |s|
    ensures r[to] == s[from]
  {
    var rest := s[..from] + s[from + 1..];
    rest[..to] + [s[from]] + rest[to..]
  }

  /** Where the element at `i` ends up after `Move(s, from, to)`: the index adjustment `reorderStudents` makes. */
  function IndexAfterMove(i: int, from: int, to: int): int {
    if i == from then to
    else if from < i && to >= i then i - 1
    else if from > i && to <= i then i + 1
    else i
  }

  /** The index adjustment follows the moved list: the entry at `i` is found at its new index. */
  lemma {:induction false} MoveTracksIndex<T>(s: seq<T>, from: int, to: int, i: int)
    requires 0 <= from < |s| && 0 <= to < |s| && 0 <= i < |s|
    ensures 0 <= IndexAfterMove(i, from, to) < |s|
    ensures Move(s, from, to)[IndexAfterMove(i, from, to)] == s[i]
  {
    var rest := s[..from] + s[from + 1..];
    var r := Move(s, from, to);
    assert r == rest[..to] + [s[from]] + rest[to..];
    var j := IndexAfterMove(i, from, to);
    if i != from {
      var ri := if i < from then i else i - 1;
      assert rest[ri] == s[i];
      if ri < to {
        assert j == ri;
        assert r[j] == rest[ri];
      } else {
        assert j == ri + 1;
        assert r[j] == rest[ri];
      }
    }
  }

  /** Moving an entry neither adds nor drops anything. */
  lemma {:induction false} MoveIsPermutation<T>(s: seq<T>, from: int, to: int)
    requires 0 <= from < |s| && 0 <= to < |s|
    ensures multiset(Move(s, from, to)) == multiset(s)
  {
    var rest := s[..from] + s[from + 1..];
    assert s == s[..from] + [s[from]] + s[from + 1..];
    assert rest == rest[..to] + rest[to..];
    calc {
      multiset(Move(s, from, to));
      multiset(rest[..to]) + multiset{s[from]} + multiset(rest[to..]);
      multiset(rest) + multiset{s[from]};
      multiset(s[..from]) + multiset(s[from + 1..]) + multiset{s[from]};
      multiset(s);
    }
  }


  /** The position `splice(index, ...)` starts at in a list of length `len`: a negative index counts from the end. */
  function SpliceStart(index: int, len: nat): (k: nat)
    ensures k <= len
    ensures 0 <= index <= len ==> k == index
    ensures index > len ==> k == len
    ensures index < 0 && len + index >= 0 ==> k == len + index
    ensures len + index < 0 ==> k == 0
  {
    if index < 0 then (if len + index < 0 then 0 else len + index)
    else if index > len then len
    else index
  }

  /** `splice(index, 1)`: removes the entry at the start position, if there is one there. */
  function RemoveAt<T>(s: seq<T>, index: int): (r: seq<T>)
    ensures SpliceStart(index, |s|) < |s| ==> |r| == |s| - 1
    ensures index >= |s| ==> r == s
    ensures 0 <= index < |s| ==>
      (forall j :: 0 <= j < index ==> r[j] == s[j]) && (forall j :: index <= j < |r| ==> r[j] == s[j + 1])
    ensures 0 <= index < |s| ==> multiset(r) + multiset{s[index]} == multiset(s)
  {
    var k := SpliceStart(index, |s|);
    if k < |s| then
      assert s == s[..k] + [s[k]] + s[k + 1..];
      s[..k] + s[k + 1..]
    else s
  }
}

=== FILE: storage.dfy ===
/**
 * `js/modules/storage.js`: the fallback content built from the page, and
 * the two `localStorage` records it owns, the slide edits
 * (`'slideEdits'`, identifier -> HTML) and the bookmark list
 * (`'thesis-presentation-bookmarks'`).
 */
module Storage {
  import opened JsValues
  import opened Text
  import opened WebStorage

  const SlideEditsKey := "slideEdits"
  const BookmarksKey := "thesis-presentation-bookmarks"

  const Palette: seq<string> := ["#4CAF50", "#2196F3", "#FF9800", "#9C27B0", "#F44336", "#009688"]

  /**
   * `getDefaultColor(index)`: `colors[(index - 1) % 6]` with JavaScript's
   * `%`, whose remainder keeps the sign of the dividend. Indices 1.. cycle
   * through the palette; for index 0 and below a negative remainder reads
   * outside the array and yields `undefined`, while a remainder of `-0`
   * reads the first colour.
   */
  function GetDefaultColor(index: int): (c: JsValue)
    ensures index >= 1 ==> c == Str(Palette[(index - 1) % 6])
    ensures index <= 0 && (1 - index) % 6 != 0 ==> c == Undefined
    ensures index <= 0 && (1 - index) % 6 == 0 ==> c == Str(Palette[0])
  {
    var r := if index - 1 >= 0 then (index - 1) % 6 else -((1 - index) % 6);
    if 0 <= r then Str(Palette[r]) else Undefined
  }

  /** The default colours repeat every six topics. */
  lemma DefaultColorCycles(index: int)
    requires index >= 1
    ensures GetDefaultColor(index + 6) == GetDefaultColor(index)
  {
    assert (index + 5) % 6 == (index - 1) % 6;
  }

  /** A topic of the fallback content. */
  datatype FallbackTopic = FallbackTopic(id: int, title: string, color: JsValue, slideTitle: string, slideContent: string)

  datatype FallbackContent = FallbackContent(
    title: string, subtitle: string, author: string, topics: seq<FallbackTopic>, closingMessage: string)

  /** `element?.textContent || fallback`. */
  function TextOr(text: Option<string>, fallback: string): (r: string)
    ensures text.Some? && text.value != "" ==> r == text.value
    ensures text.None? || text.value == "" ==> r == fallback
  {
    if text.Some? && text.value != "" then text.value else fallback
  }

  /** The fallback topic with id `i`. */
  function FallbackTopicAt(i: int): FallbackTopic {
    FallbackTopic(i, "Thema " + IntToString(i), GetDefaultColor(i),
                  "Thema " + IntToString(i) + " - Übersicht", "Inhalt für Thema " + IntToString(i))
  }

  function FallbackTopics(n: nat): (ts: seq<FallbackTopic>)
    ensures |ts| == n
    ensures forall i :: 0 <= i < n ==> ts[i] == FallbackTopicAt(i + 1)
  {
    if n == 0 then [] else FallbackTopics(n - 1) + [FallbackTopicAt(n)]
  }

  /**
   * `extractContentFromHTML`: the texts found in the page or their defaults,
   * and six topics with ids 1..6 and titles "Thema i".
   */
  function ExtractContentFromHtml(title: Option<string>, subtitle: Option<string>, author: Option<string>,
                                  closing: Option<string>): (c: FallbackContent)
    ensures |c.topics| == 6
    ensures forall i :: 0 <= i < 6 ==> c.topics[i] == FallbackTopicAt(i + 1)
    ensures c.title == TextOr(title, "Masterarbeit") && c.subtitle == TextOr(subtitle, "Präsentation")
    ensures c.author == TextOr(author, "Autor") && c.closingMessage == TextOr(closing, "Danke!")
  {
    FallbackContent(TextOr(title, "Masterarbeit"), TextOr(subtitle, "Präsentation"), TextOr(author, "Autor"),
                    FallbackTopics(6), TextOr(closing, "Danke!"))
  }

  /** The six fallback topics get the six palette colours in order, each once. */
  lemma FallbackTopicsUseThePalette(c: FallbackContent)
    requires c == ExtractContentFromHtml(None, None, None, None)
    ensures forall i :: 0 <= i < 6 ==> c.topics[i].color == Str(Palette[i])
    ensures forall i, j :: 0 <= i < j < 6 ==> c.topics[i].color != c.topics[j].color
  {
    forall i | 0 <= i < 6 ensures c.topics[i].color == Str(Palette[i]) {
      assert c.topics[i] == FallbackTopicAt(i + 1);
    }
    PaletteIsDistinct();
  }

  /** No colour appears twice in the palette. */
  lemma PaletteIsDistinct()
    ensures forall i, j :: 0 <= i < j < 6 ==> Palette[i] != Palette[j]
  {
    var prefixes := ["4C", "21", "FF", "9C", "F4", "00"];
    forall i | 0 <= i < 6 ensures Palette[i][1..3] == prefixes[i] {
      if i == 0 {} else if i == 1 {} else if i == 2 {} else if i == 3 {} else if i == 4 {} else {}
    }
    forall i, j | 0 <= i < j < 6 ensures Palette[i] != Palette[j] {
      assert prefixes[i] != prefixes[j];
    }
  }

  // ---------------------------------------------------------------- slide edits

  /** `getSlideEdits()`: the stored map, or `{}` when the key is absent or does not parse. */
  function GetSlideEdits(items: map<string, Slot>): (edits: map<string, string>)
    ensures SlideEditsKey !in items ==> edits == map[]
    ensures SlideEditsKey in items && items[SlideEditsKey].EditMap? ==> edits == items[SlideEditsKey].edits
    ensures SlideEditsKey in items && !items[SlideEditsKey].EditMap? ==> edits == map[]
  {
    if SlideEditsKey in items && items[SlideEditsKey].EditMap? then items[SlideEditsKey].edits else map[]
  }

  /** `saveSlideEdits(edits)`. */
  method SaveSlideEdits(store: LocalStore, edits: map<string, string>)
    modifies store
    ensures store.items == old(store.items)[SlideEditsKey := EditMap(edits)]
    ensures GetSlideEdits(store.items) == edits
  {
    store.SetItem(SlideEditsKey, EditMap(edits));
  }

  /** `updateSlideEdit(identifier, content)`: one entry set, every other stored entry kept. */
  method UpdateSlideEdit(store: LocalStore, identifier: string, content: string)
    modifies store
    ensures store.items == old(store.items)[SlideEditsKey := EditMap(GetSlideEdits(old(store.items))[identifier := content])]
    ensures identifier in GetSlideEdits(store.items) && GetSlideEdits(store.items)[identifier] == content
    ensures forall k :: k != identifier ==>
      (k in GetSlideEdits(store.items) <==> k in GetSlideEdits(old(store.items)))
      && (k in GetSlideEdits(store.items) ==> GetSlideEdits(store.items)[k] == GetSlideEdits(old(store.items))[k])
  {
    var edits := GetSlideEdits(store.items);
    edits := edits[identifier := content];
    SaveSlideEdits(store, edits);
  }

  /** `removeSlideEdit(identifier)`: that entry gone, every other stored entry kept. */
  method RemoveSlideEdit(store: LocalStore, identifier: string)
    modifies store
    ensures store.items == old(store.items)[SlideEditsKey := EditMap(GetSlideEdits(old(store.items)) - {identifier})]
    ensures identifier !in GetSlideEdits(store.items)
  {
    var edits := GetSlideEdits(store.items);
    SaveSlideEdits(store, edits - {identifier});
  }

  /** `clearAllSlideEdits()`: removes the key, so the edits read back empty. */
  method ClearAllSlideEdits(store: LocalStore)
    modifies store
    ensures store.items == old(store.items) - {SlideEditsKey}
    ensures GetSlideEdits(store.items) == map[]
  {
    store.RemoveItem(SlideEditsKey);
  }

  // ---------------------------------------------------------------- bookmarks

  /** `getBookmarks()`: the stored list, or `[]` when the key is absent or does not parse. */
  function GetBookmarks(items: map<string, Slot>): (bs: seq<Bookmark>)
    ensures BookmarksKey in items && items[BookmarksKey].BookmarkList? ==> bs == items[BookmarksKey].bookmarks
    ensures !(BookmarksKey in items && items[BookmarksKey].BookmarkList?) ==> bs == []
  {
    if BookmarksKey in items && items[BookmarksKey].BookmarkList? then items[BookmarksKey].bookmarks else []
  }

  /** `hasBookmark(parentId, childIndex)`. */
  predicate HasBookmark(items: map<string, Slot>, parentId: JsValue, childIndex: int): (r: bool)
    ensures r <==>
      exists i :: 0 <= i < |GetBookmarks(items)| && GetBookmarks(items)[i].parentId == parentId && GetBookmarks(items)[i].childIndex == childIndex
  {
    Bookmark(parentId, childIndex) in GetBookmarks(items)
  }

  /** `findIndex`: the position of the first entry equal to `b`. */
  function FindBookmark(bs: seq<Bookmark>, b: Bookmark): (k: Option<nat>)
    ensures k.None? <==> b !in bs
    ensures k.Some? ==> k.value < |bs| && bs[k.value] == b && b !in bs[..k.value]
  {
    if bs == [] then None
    else if bs[0] == b then Some(0)
    else
      match FindBookmark(bs[1..], b)
      case None => None
      case Some(k) =>
        assert bs[..k + 1] == [bs[0]] + bs[1..][..k];
        Some(k + 1)
  }

  predicate NoDuplicates(bs: seq<Bookmark>) {
    forall i, j :: 0 <= i < j < |bs| ==> bs[i] != bs[j]
  }

  /** The list `toggleBookmarkStorage` saves: the first equal entry spliced out, or `b` pushed. */
  function Toggled(bs: seq<Bookmark>, b: Bookmark): (r: seq<Bookmark>)
    ensures b !in bs ==> r == bs + [b]
    ensures b in bs ==> var k := FindBookmark(bs, b).value; r == bs[..k] + bs[k + 1..]
    ensures b in bs ==> multiset(r) == multiset(bs) - multiset{b}
  {
    match FindBookmark(bs, b)
    case None => bs + [b]
    case Some(k) =>
      assert bs == bs[..k] + [bs[k]] + bs[k + 1..];
      bs[..k] + bs[k + 1..]
  }

  /**
   * `toggleBookmarkStorage(parentId, childIndex)`: removes the first equal
   * bookmark and returns false, or appends one and returns true.
   */
  method ToggleBookmarkStorage(store: LocalStore, parentId: JsValue, childIndex: int) returns (isSet: bool)
    modifies store
    ensures isSet <==> !HasBookmark(old(store.items), parentId, childIndex)
    ensures store.items == old(store.items)[BookmarksKey := BookmarkList(Toggled(GetBookmarks(old(store.items)), Bookmark(parentId, childIndex)))]
    ensures isSet ==> HasBookmark(store.items, parentId, childIndex)
  {
    var bookmarks := GetBookmarks(store.items);
    var b := Bookmark(parentId, childIndex);
    var existing := FindBookmark(bookmarks, b);
    if existing.Some? {
      var k := existing.value;
      store.SetItem(BookmarksKey, BookmarkList(bookmarks[..k] + bookmarks[k + 1..]));
      isSet := false;
    } else {
      store.SetItem(BookmarksKey, BookmarkList(bookmarks + [b]));
      isSet := true;
    }
  }

  /** Every entry not equal to `b`, in order. */
  function Without(bs: seq<Bookmark>, b: Bookmark): (r: seq<Bookmark>)
    ensures b !in r
    ensures forall x :: x in bs && x != b ==> x in r
    ensures forall x :: x in r ==> x in bs
    ensures multiset(r) == multiset(bs)[b := 0]
  {
    if bs == [] then []
    else
      assert bs == [bs[0]] + bs[1..];
      if bs[0] == b then Without(bs[1..], b)
      else [bs[0]] + Without(bs[1..], b)
  }

  /** Filtering distributes over concatenation, so the remaining entries keep their order. */
  lemma {:induction false} WithoutAppend(xs: seq<Bookmark>, ys: seq<Bookmark>, b: Bookmark)
    ensures Without(xs + ys, b) == Without(xs, b) + Without(ys, b)
  {
    if xs == [] {
      assert xs + ys == ys;
    } else {
      assert (xs + ys)[0] == xs[0];
      assert (xs + ys)[1..] == xs[1..] + ys;
      WithoutAppend(xs[1..], ys, b);
    }
  }

  /** On one entry the filter keeps it exactly when it differs from `b`; a list without `b` is kept whole. */
  lemma {:induction false} WithoutSingle(x: Bookmark, bs: seq<Bookmark>, b: Bookmark)
    ensures Without([x], b) == (if x == b then [] else [x])
    ensures b !in bs ==> Without(bs, b) == bs
  {
    assert [x][1..] == [];
    if b !in bs && bs != [] {
      assert bs[0] != b;
      assert b !in bs[1..];
      WithoutSingle(x, bs[1..], b);
      assert bs == [bs[0]] + bs[1..];
    }
  }

  /** `removeBookmark(parentId, childIndex)`: every equal entry filtered out. */
  method RemoveBookmark(store: LocalStore, parentId: JsValue, childIndex: int)
    modifies store
    ensures store.items == old(store.items)[BookmarksKey := BookmarkList(Without(GetBookmarks(old(store.items)), Bookmark(parentId, childIndex)))]
    ensures !HasBookmark(store.items, parentId, childIndex)
  {
    var bookmarks := GetBookmarks(store.items);
    store.SetItem(BookmarksKey, BookmarkList(Without(bookmarks, Bookmark(parentId, childIndex))));
  }

  /** `clearAllBookmarks()`: saves the empty list. */
  method ClearAllBookmarks(store: LocalStore)
    modifies store
    ensures store.items == old(store.items)[BookmarksKey := BookmarkList([])]
    ensures GetBookmarks(store.items) == []
  {
    store.SetItem(BookmarksKey, BookmarkList([]));
  }

  /** On a list without duplicates, the toggle's result is exactly "the bookmark is now present". */
  lemma {:induction false} ToggleResultIsMembership(bs: seq<Bookmark>, b: Bookmark)
    requires NoDuplicates(bs)
    ensures (b !in bs) <==> b in Toggled(bs, b)
  {
    if b in bs {
      var k := FindBookmark(bs, b).value;
      var r := Toggled(bs, b);
      assert r == bs[..k] + bs[k + 1..];
      forall j | 0 <= j < |r| ensures r[j] != b {
        if j < k {
          assert r[j] == bs[j];
        } else {
          assert r[j] == bs[j + 1];
        }
      }
    }
  }

  /** With a duplicated bookmark the toggle reports "removed" while the bookmark is still stored. */
  lemma DuplicateDefeatsToggle(b: Bookmark)
    ensures b in [b, b] && b in Toggled([b, b], b)
  {
    assert FindBookmark([b, b], b) == Some(0);
    assert Toggled([b, b], b) == [b];
  }

  /** Toggling keeps a list free of duplicates. */
  lemma {:induction false} ToggleKeepsNoDuplicates(bs: seq<Bookmark>, b: Bookmark)
    requires NoDuplicates(bs)
    ensures NoDuplicates(Toggled(bs, b))
  {
    if b in bs {
      var k := FindBookmark(bs, b).value;
      var r := Toggled(bs, b);
      assert r == bs[..k] + bs[k + 1..];
      forall i, j | 0 <= i < j < |r| ensures r[i] != r[j] {
        var i' := if i < k then i else i + 1;
        var j' := if j < k then j else j + 1;
        assert r[i] == bs[i'] && r[j] == bs[j'];
      }
    }
  }

  /**
   * Toggling the same bookmark twice restores the stored set of bookmarks:
   * an absent one leaves the list as it was, and on a list without
   * duplicates a present one moves to the end.
   */
  lemma {:induction false} ToggleTwice(bs: seq<Bookmark>, b: Bookmark)
    ensures b !in bs ==> Toggled(Toggled(bs, b), b) == bs
    ensures NoDuplicates(bs) ==> multiset(Toggled(Toggled(bs, b), b)) == multiset(bs)
    ensures NoDuplicates(bs) && b in bs ==> Toggled(Toggled(bs, b), b) == Without(bs, b) + [b]
  {
    if b !in bs {
      var once := bs + [b];
      var k := FindBookmark(once, b).value;
      assert forall j :: 0 <= j < |bs| ==> once[j] == bs[j];
      assert k == |bs|;
      assert once[..|bs|] == bs;
    } else {
      var once := Toggled(bs, b);
      if NoDuplicates(bs) {
        ToggleResultIsMembership(bs, b);
        assert b !in once;
        ToggledIsWithout(bs, b);
      }
    }
  }

  /** Filtering out an entry that occurs once, between two runs free of it, leaves the two runs. */
  lemma WithoutSplice(pre: seq<Bookmark>, post: seq<Bookmark>, b: Bookmark)
    requires b !in pre && b !in post
    ensures Without(pre + [b] + post, b) == pre + post
  {
    assert pre + [b] + post == pre + ([b] + post);
    WithoutAppend(pre, [b] + post, b);
    WithoutAppend([b], post, b);
    WithoutSingle(b, pre, b);
    WithoutSingle(b, post, b);
  }

  /** On a list without duplicates, removing a present bookmark by toggling is filtering it out. */
  lemma ToggledIsWithout(bs: seq<Bookmark>, b: Bookmark)
    requires NoDuplicates(bs) && b in bs
    ensures Toggled(bs, b) == Without(bs, b)
  {
    var k := FindBookmark(bs, b).value;
    var pre, post := bs[..k], bs[k + 1..];
    assert b !in post by {
      forall j | 0 <= j < |post| ensures post[j] != b { assert post[j] == bs[k + 1 + j]; }
    }
    assert bs == pre + [b] + post;
    WithoutSplice(pre, post, b);
  }
}

=== FILE: student_layer_controller.dfy ===
/**
 * `js/modules/student-layer-controller.js`: the presentation-side half of
 * the student layers. Switching student saves the live slide edits and
 * bookmarks into the student being left, switches the registry, hands the
 * new student's state to the page and regenerates the deck.
 *
 * The page is reduced to what the code decides: which elements the saved
 * edits are written into (`present` says whether `elements[i]` exists for a
 * slide and a selector), which title the overview gets, which option the
 * dropdown selects, and what ends up in `localStorage`.
 */
module StudentLayerController {
  import opened Text
  import opened JsValues
  import opened WebStorage
  import opened Storage
  import opened StudentManager
  import SlideGenerator
  import Identifiers

  // ---------------------------------------------------------------------
  // updateOverviewTitleForStudent
  // ---------------------------------------------------------------------

  /** `lines = html.split('<br>'); lines[0] = title; lines.join('<br>')`. */
  function ReplaceFirstLine(html: string, title: string): (r: string)
    ensures StartsWith(r, title)
    ensures |SplitOn(html, "<br>")| == 1 ==> r == title
  {
    var lines := SplitOn(html, "<br>")[0 := title];
    JoinStartsWithHead(lines, "<br>");
    Join(lines, "<br>")
  }

  /** Only the first `<br>`-separated line changes: everything from the first `<br>` on is kept. */
  lemma ReplaceFirstLineKeepsTheRest(html: string, title: string)
    ensures IndexOfFrom(html, "<br>", 0).None? ==> ReplaceFirstLine(html, title) == title
    ensures IndexOfFrom(html, "<br>", 0).Some? ==>
      ReplaceFirstLine(html, title) == title + html[IndexOfFrom(html, "<br>", 0).value..]
  {
    match IndexOfFrom(html, "<br>", 0)
    case None =>
      assert SplitOn(html, "<br>") == [html];
    case Some(i) =>
      var rest := html[i + 4..];
      var tail := SplitOn(rest, "<br>");
      assert SplitOn(html, "<br>") == [html[..i]] + tail;
      assert ([html[..i]] + tail)[0 := title] == [title] + tail;
      JoinCons(title, tail, "<br>");
      JoinSplitOn(rest, "<br>");
      AppendAssociative(title, "<br>", rest);
      SuffixAtMatch(html, "<br>", i);
  }

  // ---------------------------------------------------------------------
  // updateStudentDropdown
  // ---------------------------------------------------------------------

  /**
   * The option `selector.value = current >= count ? 0 : current` selects
   * among the options `0 .. count-1`; `None` when no option has that value.
   */
  function DropdownSelection(current: int, count: nat): (r: Option<nat>)
    ensures r.Some? ==> r.value < count
    ensures 0 <= current < count ==> r == Some(current)
    ensures current >= count && count > 0 ==> r == Some(0)
    ensures r.None? <==> count == 0 || current < 0
  {
    var v := if current >= count then 0 else current;
    if 0 <= v < count then Some(v) else None
  }

  /** While a student is current, the dropdown shows that student. */
  lemma DropdownShowsCurrentStudent(reg: StudentRegistry)
    requires reg.GetCurrentStudent().Some?
    ensures DropdownSelection(reg.current, |reg.configs|) == Some(reg.current as nat)
  {
  }

  // ---------------------------------------------------------------------
  // updateSlideEditsFromState
  // ---------------------------------------------------------------------

  /** Where one saved edit goes: skipped, or the element `index` of `selector` in slide `slide` (`None` is `NaN`). */
  datatype EditTarget = Skip | Target(slide: nat, selector: string, index: Option<int>)

  /**
   * The loop body for one identifier: split on `_`, skip unless the name
   * starts with `slide` and has five fields, read the slide index, and use
   * `tag.firstClass`, or the tag alone when the class field is empty.
   */
  function EditTargetOf(identifier: string, slideCount: nat): (t: EditTarget)
    ensures Split(identifier, '_')[0] != "slide" || |Split(identifier, '_')| < 5 ==> t == Skip
    ensures t.Target? ==> t.slide < slideCount && t.index == ParseInt(Split(identifier, '_')[4])
  {
    var parts := Split(identifier, '_');
    if parts[0] != "slide" || |parts| < 5 then Skip
    else
      match ParseInt(parts[1])
      case None => Skip
      case Some(k) =>
        if k < 0 || k >= slideCount then Skip
        else
          var firstClass := Split(parts[3], '_')[0];
          Target(k, if firstClass != "" then parts[2] + "." + firstClass else parts[2], ParseInt(parts[4]))
  }

  /**
   * On names with five or more fields and a non-empty class field, the
   * controller aims where the editor's lookup as written aims: both read
   * the element index from the fifth field.
   */
  lemma TargetAgreesWithEditorLookup(identifier: string, slideCount: nat)
    requires |Split(identifier, '_')| >= 5 && Split(identifier, '_')[3] != ""
    ensures EditTargetOf(identifier, slideCount).Skip? <==> Identifiers.FindElementAsWritten(identifier, slideCount).NotFound?
    ensures EditTargetOf(identifier, slideCount).Target? ==>
      Identifiers.FindElementAsWritten(identifier, slideCount) ==
        Identifiers.Query(EditTargetOf(identifier, slideCount).slide, EditTargetOf(identifier, slideCount).selector,
                          EditTargetOf(identifier, slideCount).index)
  {
    var parts := Split(identifier, '_');
    SplitWithoutSeparator(parts[3], '_');
  }

  /**
   * The controller aims at the slide and selector a name was built for;
   * like the editor's lookup as written it takes the element index from the
   * fifth field, which is the index itself only for a single class.
   */
  lemma ControllerFindsTheNamedElement(slideIndex: nat, tagName: string, cs: seq<string>, index: nat, slideCount: nat)
    requires slideIndex < slideCount
    requires '_' !in tagName && cs != [] && Identifiers.NameSafe(cs)
    ensures EditTargetOf(Identifiers.IdentifierText(slideIndex, tagName, Identifiers.ClassAttr(cs), index), slideCount) ==
      Target(slideIndex, Identifiers.SiblingSelector(tagName, Identifiers.ClassAttr(cs)),
             if |cs| == 1 then Some(index) else ParseInt(cs[1]))
  {
    var name := Identifiers.IdentifierText(slideIndex, tagName, Identifiers.ClassAttr(cs), index);
    Identifiers.NameSplits(slideIndex, tagName, cs, index);
    assert Split(name, '_')[3] == cs[0];
    Identifiers.FindAsWrittenReadsTheSecondClass(slideIndex, tagName, cs, index, slideCount);
    TargetAgreesWithEditorLookup(name, slideCount);
  }

  /** One `innerHTML` assignment: element `position` of `selector` in slide `slide` gets `html`. */
  datatype Write = Write(slide: nat, selector: string, position: nat, html: string)

  /** The write one entry `[identifier, html]` makes: only when `elements[elementIndex]` exists. */
  function WriteFor(entry: (string, string), slideCount: nat, present: (nat, string, nat) -> bool): (w: Option<Write>)
    ensures w.Some? <==>
      var t := EditTargetOf(entry.0, slideCount);
      t.Target? && t.index.Some? && t.index.value >= 0 && present(t.slide, t.selector, t.index.value)
    ensures w.Some? ==>
      EditTargetOf(entry.0, slideCount) == Target(w.value.slide, w.value.selector, Some(w.value.position))
      && w.value.html == entry.1
  {
    match EditTargetOf(entry.0, slideCount)
    case Skip => None
    case Target(s, sel, i) =>
      if i.Some? && i.value >= 0 && present(s, sel, i.value) then Some(Write(s, sel, i.value, entry.1)) else None
  }

  /** The writes of the entries in order. */
  function StateWrites(entries: seq<(string, string)>, slideCount: nat, present: (nat, string, nat) -> bool): seq<Write>
  {
    if entries == [] then []
    else
      var last := WriteFor(entries[|entries| - 1], slideCount, present);
      StateWrites(entries[..|entries| - 1], slideCount, present) + (if last.Some? then [last.value] else [])
  }

  /**
   * The `for (const [identifier, html] of Object.entries(slideEdits))`
   * loop: `entries` is `Object.entries(slideEdits)`, the result the writes
   * made in order. A failing query is caught and skips the entry.
   */
  method ApplyEditsFromState(entries: seq<(string, string)>, slideCount: nat, present: (nat, string, nat) -> bool)
    returns (writes: seq<Write>)
    ensures writes == StateWrites(entries, slideCount, present)
  {
    writes := [];
    var i := 0;
    while i < |entries|
      invariant 0 <= i <= |entries|
      invariant writes == StateWrites(entries[..i], slideCount, present)
    {
      assert entries[..i + 1][..i] == entries[..i];
      var w := WriteFor(entries[i], slideCount, present);
      if w.Some? {
        writes := writes + [w.value];
      }
      i := i + 1;
    }
    assert entries[..|entries|] == entries;
  }

  /** A write happens exactly for the entries whose target element exists. */
  lemma {:induction false} WritesAreTheFoundTargets(entries: seq<(string, string)>, slideCount: nat,
                                                    present: (nat, string, nat) -> bool, w: Write)
    ensures w in StateWrites(entries, slideCount, present) <==>
      exists j :: 0 <= j < |entries| && WriteFor(entries[j], slideCount, present) == Some(w)
    decreases |entries|
  {
    if entries != [] {
      var init := entries[..|entries| - 1];
      WritesAreTheFoundTargets(init, slideCount, present, w);
      if w in StateWrites(entries, slideCount, present) && w !in StateWrites(init, slideCount, present) {
        assert WriteFor(entries[|entries| - 1], slideCount, present) == Some(w);
      }
      if exists j :: 0 <= j < |entries| && WriteFor(entries[j], slideCount, present) == Some(w) {
        var j :| 0 <= j < |entries| && WriteFor(entries[j], slideCount, present) == Some(w);
        if j < |entries| - 1 {
          assert init[j] == entries[j];
        }
      }
    }
  }

  /** `entries` lists exactly the entries of `edits`. */
  predicate EntriesOf(entries: seq<(string, string)>, edits: map<string, string>) {
    && (forall j :: 0 <= j < |entries| ==> entries[j].0 in edits && edits[entries[j].0] == entries[j].1)
    && (forall k :: k in edits ==> exists j :: 0 <= j < |entries| && entries[j].0 == k)
  }

  /**
   * A saved edit of an element whose class list is one class (after
   * `makeEditable`, an element without a class of its own) is written into
   * that element when it is on the page.
   */
  lemma SavedEditLands(entries: seq<(string, string)>, edits: map<string, string>, slideCount: nat,
                       present: (nat, string, nat) -> bool,
                       slideIndex: nat, tagName: string, c: string, index: nat)
    requires EntriesOf(entries, edits)
    requires slideIndex < slideCount
    requires '_' !in tagName && Identifiers.NameSafe([c])
    requires Identifiers.IdentifierText(slideIndex, tagName, Identifiers.ClassAttr([c]), index) in edits
    requires present(slideIndex, tagName + "." + c, index)
    ensures Write(slideIndex, tagName + "." + c, index,
                  edits[Identifiers.IdentifierText(slideIndex, tagName, Identifiers.ClassAttr([c]), index)])
            in StateWrites(entries, slideCount, present)
  {
    var name := Identifiers.IdentifierText(slideIndex, tagName, Identifiers.ClassAttr([c]), index);
    var j :| 0 <= j < |entries| && entries[j].0 == name;
    ControllerFindsTheNamedElement(slideIndex, tagName, [c], index, slideCount);
    Identifiers.FirstClassOfClassAttr([c]);
    var w := Write(slideIndex, tagName + "." + c, index, edits[name]);
    assert WriteFor(entries[j], slideCount, present) == Some(w);
    WritesAreTheFoundTargets(entries, slideCount, present, w);
  }

  /**
   * The same defect as the editor's lookup as written: a saved edit of an
   * element whose second class starts with neither a digit nor a sign
   * (such as `c editable-field`) is never written.
   */
  lemma ClassedEditNeverLands(entries: seq<(string, string)>, slideCount: nat,
                              present: (nat, string, nat) -> bool,
                              slideIndex: nat, tagName: string, cs: seq<string>, index: nat)
    requires slideIndex < slideCount
    requires '_' !in tagName && |cs| >= 2 && Identifiers.NameSafe(cs)
    requires !IsDigit(cs[1][0]) && cs[1][0] != '-' && cs[1][0] != '+'
    ensures forall j :: 0 <= j < |entries| && entries[j].0 == Identifiers.IdentifierText(slideIndex, tagName, Identifiers.ClassAttr(cs), index) ==>
      WriteFor(entries[j], slideCount, present).None?
  {
    ControllerFindsTheNamedElement(slideIndex, tagName, cs, index, slideCount);
    assert Identifiers.ClassToken(cs[1]);
    Identifiers.WordIsNaN(cs[1]);
  }

  // ---------------------------------------------------------------------
  // reloadPresentationForStudent
  // ---------------------------------------------------------------------

  /** The object `{title, author, student}` the reload records as metadata. */
  function ReloadMetadata(content: JsValue, student: StudentConfig): JsValue {
    Obj(map["title" := Get(content, "title"), "author" := Get(content, "author"), "student" := Str(student.name)])
  }

  /** What the reload leaves in `localStorage` once it regenerates for `student`. */
  function ReloadedItems(items: map<string, Slot>, student: StudentConfig, content: JsValue, now: string): (r: map<string, Slot>)
    ensures SlideGenerator.LoadGenerationMetadata(r) ==
      SlideGenerator.Loaded(GenerationMetadata(now, student.topicCount, SlideGenerator.DefaultDetailSlides, ReloadMetadata(content, student)))
    ensures forall k :: k in items && k != SlideGenerator.MetadataKey && k != SlideGenerator.CircleCountKey ==> k in r && r[k] == items[k]
  {
    items[SlideGenerator.MetadataKey := MetadataRecord(GenerationMetadata(now, student.topicCount, SlideGenerator.DefaultDetailSlides, ReloadMetadata(content, student)))]
         [SlideGenerator.CircleCountKey := Text(IntToString(student.topicCount))]
  }

  /**
   * `reloadPresentationForStudent()` without its DOM work: nothing without a
   * current student or without content data, otherwise the generation
   * metadata of the student's deck is saved. `content` is `getContentData()`.
   */
  method ReloadPresentationForStudent(reg: StudentRegistry, content: JsValue, now: string) returns (regenerated: bool)
    modifies reg.store
    ensures regenerated <==> reg.GetCurrentStudent().Some? && Truthy(content)
    ensures regenerated ==> reg.store.items == ReloadedItems(old(reg.store.items), reg.GetCurrentStudent().value, content, now)
    ensures !regenerated ==> reg.store.items == old(reg.store.items)
  {
    var student := reg.GetCurrentStudent();
    if student.None? || !Truthy(content) {
      return false;
    }
    SlideGenerator.SaveGenerationMetadata(reg.store, student.value.topicCount, ReloadMetadata(content, student.value), now);
    regenerated := true;
  }

  // ---------------------------------------------------------------------
  // handleStudentSwitch
  // ---------------------------------------------------------------------

  /** How a switch ends: the same index, a refused switch, or the new student's state and the title set, if any. */
  datatype SwitchOutcome = SameIndex | SwitchFailed | Switched(state: StudentState, title: Option<JsValue>)

  /** The title the overview gets: the student's name if chosen, else a truthy `contentData.title`, else none. */
  function TitleFor(student: StudentConfig, content: JsValue): (t: Option<JsValue>)
    ensures student.useNameAsTitle ==> t == Some(Str(student.name))
    ensures !student.useNameAsTitle ==> (t.Some? <==> Truthy(content) && Truthy(Get(content, "title")))
    ensures t.Some? ==> Truthy(t.value) || student.useNameAsTitle
  {
    if student.useNameAsTitle then Some(Str(student.name))
    else if Truthy(content) && Truthy(Get(content, "title")) then Some(Get(content, "title"))
    else None
  }

  /** The list after the auto-save: the student being left holds the live edits and bookmarks. */
  function AutoSaved(configs: seq<StudentConfig>, current: int, layerMode: bool, items: map<string, Slot>, now: string)
    : (r: seq<StudentConfig>)
    ensures |r| == |configs|
    ensures layerMode && 0 <= current < |configs| ==>
      && r[current].slideEdits == GetSlideEdits(items) && r[current].bookmarks == GetBookmarks(items)
      && r[current].lastModified == now
    ensures forall k :: 0 <= k < |configs| && (k != current || !layerMode) ==> r[k] == configs[k]
  {
    if layerMode && 0 <= current < |configs|
    then configs[current := configs[current].(slideEdits := GetSlideEdits(items), bookmarks := GetBookmarks(items), lastModified := now)]
    else configs
  }

  /** `localStorage` after the auto-save: the list is written only when a student was current. */
  function AutoSavedItems(configs: seq<StudentConfig>, current: int, layerMode: bool, items: map<string, Slot>, now: string)
    : map<string, Slot>
  {
    if layerMode && 0 <= current < |configs|
    then items[StudentConfigsKey := StudentList(AutoSaved(configs, current, layerMode, items, now))]
    else items
  }

  /**
   * `handleStudentSwitch(newStudentIndex)` as written: the live slide edits
   * and bookmarks are saved into the student being left, but the new
   * student's state is only drawn on the page and never put into the live
   * stores, which still hold the old student's edits.
   */
  method HandleStudentSwitchAsWritten(reg: StudentRegistry, newIndex: int, content: JsValue, now: string)
    returns (out: SwitchOutcome)
    modifies reg, reg.store
    ensures reg.layerMode == old(reg.layerMode)
    ensures out == SameIndex <==> newIndex == old(reg.current)
    ensures newIndex == old(reg.current) ==>
      reg.configs == old(reg.configs) && reg.current == old(reg.current) && reg.store.items == old(reg.store.items)
    ensures newIndex != old(reg.current) ==>
      reg.configs == AutoSaved(old(reg.configs), old(reg.current), old(reg.layerMode), old(reg.store.items), now)
    ensures out == SwitchFailed <==> newIndex != old(reg.current) && !(old(reg.layerMode) && 0 <= newIndex < |old(reg.configs)|)
    ensures out == SwitchFailed ==>
      reg.current == old(reg.current)
      && reg.store.items == AutoSavedItems(old(reg.configs), old(reg.current), old(reg.layerMode), old(reg.store.items), now)
    ensures out.Switched? ==>
      && reg.current == newIndex
      && out.state == StudentState(reg.configs[newIndex].slideEdits, reg.configs[newIndex].bookmarks)
      && out.title == TitleFor(reg.configs[newIndex], content)
      && reg.store.items == (
           var saved := AutoSavedItems(old(reg.configs), old(reg.current), old(reg.layerMode), old(reg.store.items), now)
                          [CurrentStudentKey := Text(IntToString(newIndex))];
           if Truthy(content) then ReloadedItems(saved, reg.configs[newIndex], content, now) else saved)
  {
    var oldIndex := reg.current;
    var oldStudent := reg.GetCurrentStudent();
    if oldIndex == newIndex {
      return SameIndex;
    }
    if oldStudent.Some? {
      var slideEdits := GetSlideEdits(reg.store.items);
      var bookmarks := GetBookmarks(reg.store.items);
      reg.SaveStudentState(oldIndex, StateUpdate(Some(slideEdits), Some(bookmarks)), now);
    }
    var newStudent := reg.SwitchStudent(newIndex);
    if newStudent.None? {
      return SwitchFailed;
    }
    var state := reg.LoadStudentState(newIndex);
    var title := TitleFor(newStudent.value, content);
    var _ := ReloadPresentationForStudent(reg, content, now);
    out := Switched(state, title);
  }

  /** The live stores hold the saved state of the current student. */
  predicate Mirrors(layerMode: bool, current: int, configs: seq<StudentConfig>, items: map<string, Slot>) {
    layerMode && 0 <= current < |configs| ==>
      GetSlideEdits(items) == configs[current].slideEdits && GetBookmarks(items) == configs[current].bookmarks
  }

  /**
   * `handleStudentSwitch`, corrected: after loading the new student's
   * state it also writes that state into the live slide edits and
   * bookmarks, so the next auto-save stores what belongs to that student.
   */
  method HandleStudentSwitch(reg: StudentRegistry, newIndex: int, content: JsValue, now: string)
    returns (out: SwitchOutcome)
    modifies reg, reg.store
    ensures reg.layerMode == old(reg.layerMode)
    ensures out == SameIndex <==> newIndex == old(reg.current)
    ensures newIndex == old(reg.current) ==>
      reg.configs == old(reg.configs) && reg.current == old(reg.current) && reg.store.items == old(reg.store.items)
    ensures newIndex != old(reg.current) ==>
      reg.configs == AutoSaved(old(reg.configs), old(reg.current), old(reg.layerMode), old(reg.store.items), now)
    ensures out == SwitchFailed <==> newIndex != old(reg.current) && !(old(reg.layerMode) && 0 <= newIndex < |old(reg.configs)|)
    ensures out == SwitchFailed ==> reg.current == old(reg.current)
    ensures out.Switched? ==>
      && reg.current == newIndex
      && out.state == StudentState(reg.configs[newIndex].slideEdits, reg.configs[newIndex].bookmarks)
      && out.title == TitleFor(reg.configs[newIndex], content)
      && Mirrors(reg.layerMode, reg.current, reg.configs, reg.store.items)
    ensures old(Mirrors(reg.layerMode, reg.current, reg.configs, reg.store.items)) ==>
      forall k :: 0 <= k < |reg.configs| ==>
        reg.configs[k].slideEdits == old(reg.configs[k].slideEdits) && reg.configs[k].bookmarks == old(reg.configs[k].bookmarks)
  {
    ghost var configs0, current0, mode0, items0 := reg.configs, reg.current, reg.layerMode, reg.store.items;
    if old(Mirrors(reg.layerMode, reg.current, reg.configs, reg.store.items)) {
      AutoSavedKeepsMirroredState(configs0, current0, mode0, items0, now);
    }
    var oldIndex := reg.current;
    var oldStudent := reg.GetCurrentStudent();
    if oldIndex == newIndex {
      return SameIndex;
    }
    if oldStudent.Some? {
      var slideEdits := GetSlideEdits(reg.store.items);
      var bookmarks := GetBookmarks(reg.store.items);
      reg.SaveStudentState(oldIndex, StateUpdate(Some(slideEdits), Some(bookmarks)), now);
    }
    assert reg.configs == AutoSaved(configs0, current0, mode0, items0, now);
    var newStudent := reg.SwitchStudent(newIndex);
    if newStudent.None? {
      return SwitchFailed;
    }
    var state := reg.LoadStudentState(newIndex);
    SaveSlideEdits(reg.store, state.slideEdits);
    reg.store.SetItem(BookmarksKey, BookmarkList(state.bookmarks));
    assert GetSlideEdits(reg.store.items) == state.slideEdits && GetBookmarks(reg.store.items) == state.bookmarks;
    var title := TitleFor(newStudent.value, content);
    LiveStateSurvivesReload(reg.store.items, newStudent.value, content, now);
    var _ := ReloadPresentationForStudent(reg, content, now);
    out := Switched(state, title);
  }

  /** With the live stores mirroring the student being left, the auto-save changes no student's edits or bookmarks. */
  lemma AutoSavedKeepsMirroredState(configs: seq<StudentConfig>, current: int, layerMode: bool, items: map<string, Slot>, now: string)
    requires Mirrors(layerMode, current, configs, items)
    ensures forall k :: 0 <= k < |configs| ==>
      AutoSaved(configs, current, layerMode, items, now)[k].slideEdits == configs[k].slideEdits
      && AutoSaved(configs, current, layerMode, items, now)[k].bookmarks == configs[k].bookmarks
  {
  }

  /** The reload writes neither the slide edits nor the bookmarks. */
  lemma LiveStateSurvivesReload(items: map<string, Slot>, student: StudentConfig, content: JsValue, now: string)
    ensures GetSlideEdits(ReloadedItems(items, student, content, now)) == GetSlideEdits(items)
    ensures GetBookmarks(ReloadedItems(items, student, content, now)) == GetBookmarks(items)
  {
  }

  /** Two students: A with the edit `x: "a"` (on the page), B without edits. */
  method TwoStudents() returns (reg: StudentRegistry)
    ensures fresh(reg) && fresh(reg.store)
    ensures reg.layerMode && reg.current == 0 && |reg.configs| == 2
    ensures reg.configs[0].slideEdits == map["x" := "a"] && reg.configs[1].slideEdits == map[]
    ensures GetSlideEdits(reg.store.items) == map["x" := "a"]
  {
    var store := new LocalStore();
    store.SetItem(SlideEditsKey, EditMap(map["x" := "a"]));
    reg := new StudentRegistry(store);
    reg.layerMode := true;
    reg.configs := [NewStudent(1, "t0").(slideEdits := map["x" := "a"]), NewStudent(2, "t0")];
    reg.current := 0;
  }

  /**
   * As written, switching from A to B and back stores A's edit in B: the
   * live edits were never replaced by B's, and the second auto-save files
   * them under B.
   */
  method EditsLeakAsWritten() returns (savedForB: map<string, string>)
    ensures savedForB == map["x" := "a"]
  {
    var reg := TwoStudents();
    var first := HandleStudentSwitchAsWritten(reg, 1, Undefined, "t1");
    assert first.Switched? && reg.current == 1;
    assert GetSlideEdits(reg.store.items) == map["x" := "a"];
    var second := HandleStudentSwitchAsWritten(reg, 0, Undefined, "t2");
    savedForB := reg.configs[1].slideEdits;
  }

  /** With the correction, the same two switches leave B without edits and A with its own. */
  method EditsStayWithTheirStudent() returns (savedForA: map<string, string>, savedForB: map<string, string>)
    ensures savedForA == map["x" := "a"] && savedForB == map[]
  {
    var reg := TwoStudents();
    var first := HandleStudentSwitch(reg, 1, Undefined, "t1");
    assert first.Switched? && reg.current == 1;
    assert GetSlideEdits(reg.store.items) == map[];
    var second := HandleStudentSwitch(reg, 0, Undefined, "t2");
    savedForA := reg.configs[0].slideEdits;
    savedForB := reg.configs[1].slideEdits;
  }
}

=== FILE: student_manager.dfy ===
/**
 * `js/modules/student-manager.js`: the list of students ("layers"), the
 * index of the current student and the layer-mode switch, mirrored into
 * four `localStorage` keys.
 *
 * The module-level variables of the source become the fields of one
 * `StudentRegistry` object; timestamps (`new Date().toISOString()`) are
 * passed in as `now`, and the confirmation dialog of `updateLayerCount` as
 * the answer it would give.
 */
module StudentManager {
  import opened Text
  import opened WebStorage
  import opened Splice

  const LayerModeKey := "layerModeEnabled"
  const LayerCountKey := "layerCount"
  const StudentConfigsKey := "studentConfigs"
  const CurrentStudentKey := "currentStudent"

  const MaxStudents := 25
  const DefaultTopicCount := 8
  const DefaultDetailSlides := 3

  /** The prefix of a default student name, matched by `/Schüler \d+/`. */
  const Label := "Schüler "

  /** The record `createStudentConfigs` and `updateLayerCount` push for index `i`. */
  function NewStudent(i: int, now: string): StudentConfig {
    StudentConfig(i, Label + IntToString(i + 1), DefaultTopicCount, DefaultDetailSlides, map[], [], now, now, false)
  }

  /** The students with indices `from` .. `to - 1`, as the creation loops push them. */
  function NewStudents(from: int, to: int, now: string): (s: seq<StudentConfig>)
    ensures |s| == if to <= from then 0 else to - from
    ensures forall k :: 0 <= k < |s| ==> s[k] == NewStudent(from + k, now)
  {
    if to <= from then [] else seq(to - from, k requires 0 <= k < to - from => NewStudent(from + k, now))
  }

  /** One more student at the end of the range. */
  lemma NewStudentsSnoc(from: int, to: int, now: string)
    requires from <= to
    ensures NewStudents(from, to + 1, now) == NewStudents(from, to, now) + [NewStudent(to, now)]
  {
    var longer, shorter := NewStudents(from, to + 1, now), NewStudents(from, to, now);
    assert |longer| == |shorter| + 1;
    forall k | 0 <= k < |longer|
      ensures longer[k] == (shorter + [NewStudent(to, now)])[k]
    {
      if k < |shorter| {
        assert longer[k] == NewStudent(from + k, now) == shorter[k];
      }
    }
  }

  /** `{ slideEdits, bookmarks }` as passed to `saveStudentState`; `None` for a missing (falsy) field. */
  datatype StateUpdate = StateUpdate(slideEdits: Option<map<string, string>>, bookmarks: Option<seq<Bookmark>>)

  /** `{ slideEdits, bookmarks }` as returned by `loadStudentState`. */
  datatype StudentState = StudentState(slideEdits: map<string, string>, bookmarks: seq<Bookmark>)

  /** The fields `updateStudentConfig` may be given; `None` for a field the update object does not carry. */
  datatype StudentUpdate = StudentUpdate(
    name: Option<string>,
    topicCount: Option<int>,
    detailSlidesPerTopic: Option<int>,
    slideEdits: Option<map<string, string>>,
    bookmarks: Option<seq<Bookmark>>,
    useNameAsTitle: Option<bool>)

  function Pick<T>(update: Option<T>, current: T): T {
    if update.Some? then update.value else current
  }

  /** `{...student, ...updates, lastModified}`: each given field overrides, the rest are kept. */
  function Merge(s: StudentConfig, u: StudentUpdate, now: string): (r: StudentConfig)
    ensures r.id == s.id && r.createdAt == s.createdAt && r.lastModified == now
    ensures r.name == (if u.name.Some? then u.name.value else s.name)
    ensures r.topicCount == (if u.topicCount.Some? then u.topicCount.value else s.topicCount)
    ensures r.detailSlidesPerTopic == (if u.detailSlidesPerTopic.Some? then u.detailSlidesPerTopic.value else s.detailSlidesPerTopic)
    ensures r.slideEdits == (if u.slideEdits.Some? then u.slideEdits.value else s.slideEdits)
    ensures r.bookmarks == (if u.bookmarks.Some? then u.bookmarks.value else s.bookmarks)
    ensures r.useNameAsTitle == (if u.useNameAsTitle.Some? then u.useNameAsTitle.value else s.useNameAsTitle)
  {
    s.(name := Pick(u.name, s.name),
       topicCount := Pick(u.topicCount, s.topicCount),
       detailSlidesPerTopic := Pick(u.detailSlidesPerTopic, s.detailSlidesPerTopic),
       slideEdits := Pick(u.slideEdits, s.slideEdits),
       bookmarks := Pick(u.bookmarks, s.bookmarks),
       useNameAsTitle := Pick(u.useNameAsTitle, s.useNameAsTitle),
       lastModified := now)
  }

  // ------------------------------------------------------------ renumbering names

  predicate LabelAt(name: string, i: nat) {
    i + |Label| < |name| && name[i..i + |Label|] == Label && IsDigit(name[i + |Label|])
  }

  /** Leftmost match of `/Schüler \d+/` at or after `from`. */
  function FindLabel(name: string, from: nat): (r: Option<nat>)
    ensures r.Some? ==> from <= r.value && LabelAt(name, r.value)
    ensures r.Some? ==> forall k: nat :: from <= k < r.value ==> !LabelAt(name, k)
    ensures r.None? ==> forall k: nat :: from <= k ==> !LabelAt(name, k)
    decreases |name| - from
  {
    if from + |Label| >= |name| then None
    else if LabelAt(name, from) then Some(from)
    else FindLabel(name, from + 1)
  }

  /** The end of the run of digits starting at `j` (greedy `\d+`). */
  function DigitsEnd(name: string, j: nat): (e: nat)
    requires j <= |name|
    ensures j <= e <= |name|
    ensures forall k :: j <= k < e ==> IsDigit(name[k])
    ensures e < |name| ==> !IsDigit(name[e])
    decreases |name| - j
  {
    if j < |name| && IsDigit(name[j]) then DigitsEnd(name, j + 1) else j
  }

  /** `name.replace(/Schüler \d+/, 'Schüler ' + n)`. */
  function RenumberName(name: string, n: int): (r: string)
  {
    match FindLabel(name, 0)
    case None => name
    case Some(i) => name[..i] + Label + IntToString(n) + name[DigitsEnd(name, i + |Label|)..]
  }

  /** A default name "Schüler k" becomes "Schüler n". */
  lemma RenumberDefaultName(k: nat, n: int)
    ensures RenumberName(Label + NatToString(k), n) == Label + IntToString(n)
  {
    RenumberLabelledDigits(NatToString(k), n);
  }

  /** The label followed by nothing but digits is replaced as a whole. */
  lemma RenumberLabelledDigits(digits: string, n: int)
    requires digits != [] && AllDigits(digits)
    ensures RenumberName(Label + digits, n) == Label + IntToString(n)
  {
    var name := Label + digits;
    LabelFoundAtStart(digits);
    LabelledDigitsRunToEnd(digits);
    assert RenumberName(name, n) == name[..0] + Label + IntToString(n) + name[|name|..];
    assert name[|name|..] == [];
    assert name[..0] == [];
  }

  lemma LabelFoundAtStart(digits: string)
    requires digits != [] && IsDigit(digits[0])
    ensures FindLabel(Label + digits, 0) == Some(0)
  {
    var name := Label + digits;
    assert name[0..|Label|] == Label;
    assert name[|Label|] == digits[0];
    assert LabelAt(name, 0);
  }

  lemma LabelledDigitsRunToEnd(digits: string)
    requires AllDigits(digits)
    ensures DigitsEnd(Label + digits, 0 + |Label|) == |Label + digits|
  {
    var name := Label + digits;
    forall j | |Label| <= j < |name|
      ensures IsDigit(name[j])
    {
      assert name[j] == digits[j - |Label|];
    }
    DigitsRunToEnd(name, |Label|);
  }

  lemma {:induction false} DigitsRunToEnd(name: string, j: nat)
    requires j <= |name|
    requires forall k :: j <= k < |name| ==> IsDigit(name[k])
    ensures DigitsEnd(name, j) == |name|
    decreases |name| - j
  {
    if j < |name| {
      DigitsRunToEnd(name, j + 1);
    }
  }

  /** A name without the numbered label is left alone. */
  lemma RenumberCustomName(name: string, n: int)
    requires forall k: nat :: !LabelAt(name, k)
    ensures RenumberName(name, n) == name
  {
  }

  /** The body of the renumbering `forEach` for index `k`. */
  function Renumbered(s: StudentConfig, k: int): StudentConfig {
    s.(id := k, name := RenumberName(s.name, k + 1))
  }

  /** The list after the renumbering loop: every id equals the position. */
  function RenumberAll(s: seq<StudentConfig>): (r: seq<StudentConfig>)
    ensures |r| == |s|
    ensures forall k :: 0 <= k < |r| ==> r[k] == Renumbered(s[k], k)
  {
    seq(|s|, k requires 0 <= k < |s| => Renumbered(s[k], k))
  }

  // ------------------------------------------------------------ index adjustments

  /** `deleteStudent`'s adjustment of the current index after the list shrank to `len`. */
  function IndexAfterDelete(current: int, len: int): (r: int)
    requires len >= 0
    ensures len == 0 ==> r == 0
    ensures 0 <= current <= len && len > 0 ==> 0 <= r < len
    ensures 0 <= current < len ==> r == current
  {
    if current >= len && len > 0 then len - 1 else if len == 0 then 0 else current
  }

  /** `updateLayerCount`'s adjustment of the current index after the list was cut to `len >= 1`. */
  function IndexAfterShrink(current: int, len: int): (r: int)
    requires len >= 1
    ensures r < len
    ensures current >= 0 ==> 0 <= r
    ensures current < len ==> r == current
  {
    if current >= len then len - 1 else current
  }

  /** `localStorage.getItem(key)` is truthy: present and not the empty string. */
  predicate StoredTruthy(slot: Slot) {
    slot != Text("") && slot != Unparseable("")
  }

  class StudentRegistry {
    var configs: seq<StudentConfig>
    var current: int
    var layerMode: bool
    const store: LocalStore

    constructor (store: LocalStore)
      ensures this.store == store
      ensures configs == [] && current == 0 && !layerMode
    {
      this.store := store;
      configs := [];
      current := 0;
      layerMode := false;
    }

    /**
     * `initStudentManager()`: reads the switch, the list and the current
     * index back from storage. A list that does not parse becomes empty; a
     * missing or empty (falsy) list or index leaves the one in memory.
     */
    method InitStudentManager()
      modifies this
      ensures layerMode <==> LayerModeKey in store.items && store.items[LayerModeKey] == Text("true")
      ensures !(StudentConfigsKey in store.items && StoredTruthy(store.items[StudentConfigsKey])) ==> configs == old(configs)
      ensures StudentConfigsKey in store.items && StoredTruthy(store.items[StudentConfigsKey]) ==>
        configs == (match store.items[StudentConfigsKey] case StudentList(l) => l case _ => [])
      ensures current == (
        if CurrentStudentKey in store.items && store.items[CurrentStudentKey].Text? && store.items[CurrentStudentKey].text != ""
           && ParseInt(store.items[CurrentStudentKey].text).Some?
        then ParseInt(store.items[CurrentStudentKey].text).value
        else old(current))
    {
      var items := store.items;
      layerMode := LayerModeKey in items && items[LayerModeKey] == Text("true");
      if StudentConfigsKey in items && StoredTruthy(items[StudentConfigsKey]) {
        match items[StudentConfigsKey]
        case StudentList(l) => configs := l;
        case _ => configs := [];
      }
      if CurrentStudentKey in items {
        var saved := items[CurrentStudentKey];
        if saved.Text? && saved.text != "" {
          var parsed := ParseInt(saved.text);
          if parsed.Some? {
            current := parsed.value;
          }
        }
      }
    }

    /** `getCurrentStudent()`: `null` when layer mode is off, the list is empty or the index points nowhere. */
    function GetCurrentStudent(): (r: Option<StudentConfig>)
      reads this
      ensures r.Some? <==> layerMode && 0 <= current < |configs|
      ensures r.Some? ==> r.value == configs[current]
    {
      if !layerMode || |configs| == 0 then None
      else if 0 <= current < |configs| then Some(configs[current]) else None
    }

    /** `getStudentConfig(index)`. */
    function GetStudentConfig(index: int): (r: Option<StudentConfig>)
      reads this
      ensures r.Some? <==> 0 <= index < |configs|
      ensures r.Some? ==> r.value == configs[index]
    {
      if index < 0 || index >= |configs| then None else Some(configs[index])
    }

    /** `loadStudentState(index)`: that student's edits and bookmarks, or empty ones for a bad index. */
    function LoadStudentState(index: int): (r: StudentState)
      reads this
      ensures 0 <= index < |configs| ==> r == StudentState(configs[index].slideEdits, configs[index].bookmarks)
      ensures !(0 <= index < |configs|) ==> r == StudentState(map[], [])
    {
      if index < 0 || index >= |configs| then StudentState(map[], [])
      else StudentState(configs[index].slideEdits, configs[index].bookmarks)
    }

    /** `setLayerMode(enabled)`: switching off forgets every student and resets the stored keys. */
    method SetLayerMode(enabled: bool)
      modifies this, store
      ensures layerMode == enabled
      ensures enabled ==>
        && configs == old(configs) && current == old(current)
        && store.items == old(store.items)[LayerModeKey := Text("true")]
      ensures !enabled ==>
        && configs == [] && current == 0
        && store.items == (old(store.items)[LayerModeKey := Text("false")] - {StudentConfigsKey, CurrentStudentKey})[LayerCountKey := Text("0")]
    {
      layerMode := enabled;
      store.SetItem(LayerModeKey, Text(if enabled then "true" else "false"));
      if !enabled {
        configs := [];
        current := 0;
        store.RemoveItem(StudentConfigsKey);
        store.RemoveItem(CurrentStudentKey);
        store.SetItem(LayerCountKey, Text("0"));
      }
    }

    /** The creation loop: pushes the default students with indices `|configs|` .. `upTo - 1`. */
    method AppendStudents(upTo: int, now: string)
      modifies this
      ensures configs == old(configs) + NewStudents(|old(configs)|, upTo, now)
      ensures current == old(current) && layerMode == old(layerMode)
    {
      var i := |configs|;
      ghost var start := i;
      while i < upTo
        invariant start <= i && (i <= upTo || i == start)
        invariant configs == old(configs) + NewStudents(start, i, now)
        invariant current == old(current) && layerMode == old(layerMode)
      {
        NewStudentsSnoc(start, i, now);
        configs := configs + [NewStudent(i, now)];
        i := i + 1;
      }
    }

    /** Stores the list and its length, as every operation that resizes the list does. */
    method PersistList()
      modifies store
      ensures store.items == old(store.items)[StudentConfigsKey := StudentList(configs)][LayerCountKey := Text(IntToString(|configs|))]
    {
      store.SetItem(StudentConfigsKey, StudentList(configs));
      store.SetItem(LayerCountKey, Text(IntToString(|configs|)));
    }

    /**
     * `createStudentConfigs(count, clearExisting)`: for 1 <= count <= 25,
     * optionally clears the list and then fills it up to `count` students
     * numbered by position; other counts change nothing.
     */
    method CreateStudentConfigs(count: int, clearExisting: bool, now: string)
      modifies this, store
      ensures current == old(current) && layerMode == old(layerMode)
      ensures count < 1 || count > MaxStudents ==> configs == old(configs) && store.items == old(store.items)
      ensures 1 <= count <= MaxStudents ==>
        var kept := if clearExisting then [] else old(configs);
        && configs == kept + NewStudents(|kept|, count, now)
        && store.items == old(store.items)[StudentConfigsKey := StudentList(configs)][LayerCountKey := Text(IntToString(|configs|))]
      ensures 1 <= count <= MaxStudents && clearExisting ==>
        |configs| == count && forall k :: 0 <= k < count ==> configs[k].id == k
    {
      if count < 1 || count > MaxStudents {
        return;
      }
      if clearExisting {
        configs := [];
      }
      AppendStudents(count, now);
      PersistList();
    }

    /** `updateStudentConfig(index, updates)`: merges the updates into that student only. */
    method UpdateStudentConfig(index: int, updates: StudentUpdate, now: string)
      modifies this, store
      ensures current == old(current) && layerMode == old(layerMode)
      ensures !(0 <= index < |old(configs)|) ==> configs == old(configs) && store.items == old(store.items)
      ensures 0 <= index < |old(configs)| ==>
        && configs == old(configs)[index := Merge(old(configs)[index], updates, now)]
        && store.items == old(store.items)[StudentConfigsKey := StudentList(configs)]
    {
      if index < 0 || index >= |configs| {
        return;
      }
      configs := configs[index := Merge(configs[index], updates, now)];
      store.SetItem(StudentConfigsKey, StudentList(configs));
    }

    /**
     * `deleteStudent(index)`: removes that student; a current index that now
     * points past the end moves to the last student, and to 0 when none is left.
     */
    method DeleteStudent(index: int)
      modifies this, store
      ensures layerMode == old(layerMode)
      ensures !(0 <= index < |old(configs)|) ==>
        configs == old(configs) && current == old(current) && store.items == old(store.items)
      ensures 0 <= index < |old(configs)| ==>
        && configs == old(configs)[..index] + old(configs)[index + 1..]
        && current == IndexAfterDelete(old(current), |configs|)
        && store.items == old(store.items)[StudentConfigsKey := StudentList(configs)]
                           [LayerCountKey := Text(IntToString(|configs|))][CurrentStudentKey := Text(IntToString(current))]
      ensures 0 <= index < |old(configs)| && 0 <= old(current) < |old(configs)| ==>
        (|configs| > 0 ==> 0 <= current < |configs|) && (|configs| == 0 ==> current == 0)
    {
      if index < 0 || index >= |configs| {
        return;
      }
      configs := configs[..index] + configs[index + 1..];
      current := IndexAfterDelete(current, |configs|);
      PersistList();
      store.SetItem(CurrentStudentKey, Text(IntToString(current)));
    }

    /** `switchStudent(index)`: only in layer mode and for an existing student. */
    method SwitchStudent(index: int) returns (r: Option<StudentConfig>)
      modifies this, store
      ensures configs == old(configs) && layerMode == old(layerMode)
      ensures r.Some? <==> old(layerMode) && 0 <= index < |configs|
      ensures r.Some? ==>
        && r.value == configs[index] && current == index
        && store.items == old(store.items)[CurrentStudentKey := Text(IntToString(index))]
      ensures r.None? ==> current == old(current) && store.items == old(store.items)
    {
      if !layerMode || index < 0 || index >= |configs| {
        return None;
      }
      current := index;
      store.SetItem(CurrentStudentKey, Text(IntToString(index)));
      r := Some(configs[index]);
    }

    /**
     * `updateLayerCount(newCount, confirm)`: for 1 <= newCount <= 25, cuts
     * the list to `newCount` when the user confirms, or pads it with new
     * students; every accepted change stores the list, its length and the index.
     */
    method UpdateLayerCount(newCount: int, confirmed: bool, now: string)
      modifies this, store
      ensures layerMode == old(layerMode)
      ensures newCount < 1 || newCount > MaxStudents || (newCount < |old(configs)| && !confirmed) ==>
        configs == old(configs) && current == old(current) && store.items == old(store.items)
      ensures 1 <= newCount <= MaxStudents && newCount < |old(configs)| && confirmed ==>
        && configs == old(configs)[..newCount]
        && current == IndexAfterShrink(old(current), newCount)
      ensures 1 <= newCount <= MaxStudents && newCount >= |old(configs)| ==>
        && configs == old(configs) + NewStudents(|old(configs)|, newCount, now)
        && current == old(current)
      ensures 1 <= newCount <= MaxStudents && (newCount >= |old(configs)| || confirmed) ==>
        && |configs| == newCount
        && store.items == old(store.items)[StudentConfigsKey := StudentList(configs)]
                           [LayerCountKey := Text(IntToString(|configs|))][CurrentStudentKey := Text(IntToString(current))]
    {
      if newCount < 1 || newCount > MaxStudents {
        return;
      }
      var currentCount := |configs|;
      if newCount < currentCount {
        if !confirmed {
          return;
        }
        configs := configs[..newCount];
        current := IndexAfterShrink(current, |configs|);
      } else if newCount > currentCount {
        AppendStudents(newCount, now);
      }
      PersistList();
      store.SetItem(CurrentStudentKey, Text(IntToString(current)));
    }

    /** `saveStudentState(index, state)`: copies the given edits and bookmarks into that student. */
    method SaveStudentState(index: int, state: StateUpdate, now: string)
      modifies this, store
      ensures current == old(current) && layerMode == old(layerMode)
      ensures !(0 <= index < |old(configs)|) ==> configs == old(configs) && store.items == old(store.items)
      ensures 0 <= index < |old(configs)| ==>
        && |configs| == |old(configs)|
        && (forall k :: 0 <= k < |configs| && k != index ==> configs[k] == old(configs)[k])
        && configs[index] == old(configs)[index].(
             slideEdits := Pick(state.slideEdits, old(configs)[index].slideEdits),
             bookmarks := Pick(state.bookmarks, old(configs)[index].bookmarks),
             lastModified := now)
        && store.items == old(store.items)[StudentConfigsKey := StudentList(configs)]
      ensures 0 <= index < |old(configs)| && state.slideEdits.Some? && state.bookmarks.Some? ==>
        LoadStudentState(index) == StudentState(state.slideEdits.value, state.bookmarks.value)
    {
      if index < 0 || index >= |configs| {
        return;
      }
      var s := configs[index];
      if state.slideEdits.Some? {
        s := s.(slideEdits := state.slideEdits.value);
      }
      if state.bookmarks.Some? {
        s := s.(bookmarks := state.bookmarks.value);
      }
      s := s.(lastModified := now);
      configs := configs[index := s];
      store.SetItem(StudentConfigsKey, StudentList(configs));
    }

    /** The `forEach` of `reorderStudents`: every student gets its position as id and in its default name. */
    method RenumberIds()
      modifies this
      ensures configs == RenumberAll(old(configs))
      ensures current == old(current) && layerMode == old(layerMode)
    {
      var k := 0;
      while k < |configs|
        invariant |configs| == |old(configs)| && 0 <= k <= |configs|
        invariant forall j :: 0 <= j < k ==> configs[j] == Renumbered(old(configs)[j], j)
        invariant forall j :: k <= j < |configs| ==> configs[j] == old(configs)[j]
        invariant current == old(current) && layerMode == old(layerMode)
      {
        configs := configs[k := Renumbered(configs[k], k)];
        k := k + 1;
      }
    }

    /**
     * `reorderStudents(from, to)`: moves one student, renumbers ids and
     * default names by position, and keeps the current index on the same
     * student.
     */
    method ReorderStudents(from: int, to: int)
      modifies this, store
      ensures layerMode == old(layerMode)
      ensures !(0 <= from < |old(configs)| && 0 <= to < |old(configs)|) ==>
        configs == old(configs) && current == old(current) && store.items == old(store.items)
      ensures 0 <= from < |old(configs)| && 0 <= to < |old(configs)| ==>
        && configs == RenumberAll(Move(old(configs), from, to))
        && current == IndexAfterMove(old(current), from, to)
        && store.items == old(store.items)[StudentConfigsKey := StudentList(configs)][CurrentStudentKey := Text(IntToString(current))]
      ensures 0 <= from < |old(configs)| && 0 <= to < |old(configs)| && 0 <= old(current) < |old(configs)| ==>
        0 <= current < |configs| && configs[current] == Renumbered(old(configs)[old(current)], current)
    {
      if from < 0 || from >= |configs| || to < 0 || to >= |configs| {
        return;
      }
      var moved := Move(configs, from, to);
      configs := moved;
      RenumberIds();
      ghost var oldCurrent := current;
      current := IndexAfterMove(current, from, to);
      store.SetItem(StudentConfigsKey, StudentList(configs));
      store.SetItem(CurrentStudentKey, Text(IntToString(current)));
      if 0 <= oldCurrent < |moved| {
        MoveTracksIndex(old(configs), from, to, oldCurrent);
      }
    }
  }
}

=== FILE: subtopic_detail.dfy ===
/**
 * The two data functions of `js/modules/subtopic-detail.js`: `escapeHtml`,
 * which replaces the five HTML-significant characters by entities before
 * text is put into the detail panel, and `getSubtopicContent`, which looks
 * up the optional `content` of a subtopic in the global content data.
 * Showing and closing the panel rewrite the DOM and are not modelled.
 */
module SubtopicDetail {
  import opened Text
  import opened JsValues

  // ---------------------------------------------------------------------
  // escapeHtml
  // ---------------------------------------------------------------------

  /** The characters the pattern `/[&<>"']/g` matches. */
  predicate IsSpecial(c: char) {
    c == '&' || c == '<' || c == '>' || c == '"' || c == '\''
  }

  /** The replacement for one character: its entity from the table, or the character itself. */
  function EscapeChar(c: char): (e: string)
    ensures !IsSpecial(c) ==> e == [c]
    ensures IsSpecial(c) ==> |e| >= 4 && e[0] == '&' && e[|e| - 1] == ';'
    ensures forall i :: 0 <= i < |e| ==> e[i] != '<' && e[i] != '>' && e[i] != '"' && e[i] != '\''
  {
    if c == '&' then "&amp;"
    else if c == '<' then "&lt;"
    else if c == '>' then "&gt;"
    else if c == '"' then "&quot;"
    else if c == '\'' then "&#039;"
    else [c]
  }

  /** `escapeHtml(text)`: every character replaced by `EscapeChar`, left to right. */
  function EscapeHtml(text: string): (r: string)
    ensures |r| >= |text|
    ensures forall i :: 0 <= i < |r| ==> r[i] != '<' && r[i] != '>' && r[i] != '"' && r[i] != '\''
  {
    if text == [] then [] else EscapeChar(text[0]) + EscapeHtml(text[1..])
  }

  /** Escaping works character by character: escaping a concatenation escapes each part. */
  lemma {:induction false} EscapeHtmlAppend(a: string, b: string)
    ensures EscapeHtml(a + b) == EscapeHtml(a) + EscapeHtml(b)
    decreases |a|
  {
    if a != [] {
      assert (a + b)[0] == a[0];
      assert (a + b)[1..] == a[1..] + b;
      EscapeHtmlAppend(a[1..], b);
      calc {
        EscapeHtml(a + b);
        EscapeChar(a[0]) + EscapeHtml(a[1..] + b);
        EscapeChar(a[0]) + (EscapeHtml(a[1..]) + EscapeHtml(b));
        (EscapeChar(a[0]) + EscapeHtml(a[1..])) + EscapeHtml(b);
      }
    } else {
      assert a + b == b;
    }
  }

  /** Text without any of the five characters comes out unchanged. */
  lemma {:induction false} EscapeHtmlIdentity(text: string)
    requires forall i :: 0 <= i < |text| ==> !IsSpecial(text[i])
    ensures EscapeHtml(text) == text
    decreases |text|
  {
    if text != [] {
      EscapeHtmlIdentity(text[1..]);
      assert [text[0]] + text[1..] == text;
    }
  }

  /** Reads the five entities back to their characters; every other character is kept. */
  function Unescape(s: string): string
    decreases |s|
  {
    if s == [] then []
    else if StartsWith(s, "&amp;") then "&" + Unescape(s[5..])
    else if StartsWith(s, "&lt;") then "<" + Unescape(s[4..])
    else if StartsWith(s, "&gt;") then ">" + Unescape(s[4..])
    else if StartsWith(s, "&quot;") then "\"" + Unescape(s[6..])
    else if StartsWith(s, "&#039;") then "'" + Unescape(s[6..])
    else [s[0]] + Unescape(s[1..])
  }

  /** A character other than `&` is read back as itself. */
  lemma UnescapePlain(c: char, rest: string)
    requires c != '&'
    ensures Unescape([c] + rest) == [c] + Unescape(rest)
  {
    var s := [c] + rest;
    assert s[0] == c;
    assert forall p :: StartsWith(s, p) && |p| > 0 ==> p[0] == c;
    assert s[1..] == rest;
  }

  lemma UnescapeAmp(rest: string)
    ensures Unescape("&amp;" + rest) == "&" + Unescape(rest)
  {
    var s := "&amp;" + rest;
    assert s[..5] == "&amp;" && s[5..] == rest;
  }

  lemma UnescapeLt(rest: string)
    ensures Unescape("&lt;" + rest) == "<" + Unescape(rest)
  {
    var s := "&lt;" + rest;
    assert s[1] == 'l';
    assert !StartsWith(s, "&amp;");
    assert s[..4] == "&lt;" && s[4..] == rest;
  }

  lemma UnescapeGt(rest: string)
    ensures Unescape("&gt;" + rest) == ">" + Unescape(rest)
  {
    var s := "&gt;" + rest;
    assert s[1] == 'g';
    assert !StartsWith(s, "&amp;") && !StartsWith(s, "&lt;");
    assert s[..4] == "&gt;" && s[4..] == rest;
  }

  lemma UnescapeQuot(rest: string)
    ensures Unescape("&quot;" + rest) == "\"" + Unescape(rest)
  {
    var s := "&quot;" + rest;
    assert s[1] == 'q';
    assert !StartsWith(s, "&amp;") && !StartsWith(s, "&lt;") && !StartsWith(s, "&gt;");
    assert s[..6] == "&quot;" && s[6..] == rest;
  }

  lemma UnescapeApos(rest: string)
    ensures Unescape("&#039;" + rest) == "'" + Unescape(rest)
  {
    var s := "&#039;" + rest;
    assert s[1] == '#';
    assert !StartsWith(s, "&amp;") && !StartsWith(s, "&lt;") && !StartsWith(s, "&gt;") && !StartsWith(s, "&quot;");
    assert s[..6] == "&#039;" && s[6..] == rest;
  }

  /** Reading back the replacement of one character, whatever follows it. */
  lemma UnescapeChar(c: char, rest: string)
    ensures Unescape(EscapeChar(c) + rest) == [c] + Unescape(rest)
  {
    if c == '&' {
      UnescapeAmp(rest);
    } else if c == '<' {
      UnescapeLt(rest);
    } else if c == '>' {
      UnescapeGt(rest);
    } else if c == '"' {
      UnescapeQuot(rest);
    } else if c == '\'' {
      UnescapeApos(rest);
    } else {
      UnescapePlain(c, rest);
    }
  }

  /** Unescaping undoes escaping. */
  lemma {:induction false} UnescapeEscapeHtml(text: string)
    ensures Unescape(EscapeHtml(text)) == text
    decreases |text|
  {
    if text != [] {
      UnescapeChar(text[0], EscapeHtml(text[1..]));
      UnescapeEscapeHtml(text[1..]);
      assert [text[0]] + text[1..] == text;
    }
  }

  /** Different texts escape to different strings. */
  lemma EscapeHtmlInjective(a: string, b: string)
    requires EscapeHtml(a) == EscapeHtml(b)
    ensures a == b
  {
    UnescapeEscapeHtml(a);
    UnescapeEscapeHtml(b);
  }

  /** Escaping is not idempotent: the `&` of an entity is escaped again. */
  lemma EscapeHtmlNotIdempotent()
    ensures EscapeHtml("&") == "&amp;"
    ensures EscapeHtml(EscapeHtml("&")) == "&amp;amp;"
  {
    assert EscapeHtml("&") == EscapeChar('&') + EscapeHtml([]);
    EscapeHtmlAppend("&", "amp;");
    EscapeHtmlIdentity("amp;");
    assert "&amp;" == "&" + "amp;";
  }

  // ---------------------------------------------------------------------
  // getSubtopicContent
  // ---------------------------------------------------------------------

  /** How `topics.find(t => t.id === topicId)` ends: a `TypeError` on a `null` entry, no match, or the first match. */
  datatype FindResult = FindThrows | NotFound | Found(index: nat)

  /** `t.id === topicId` for an entry that is neither `null` nor `undefined`. */
  predicate HasId(t: JsValue, topicId: real) {
    Get(t, "id") == Num(topicId)
  }

  /** `Array.prototype.find` over `ts[from..]`, reading `.id` of each entry in turn. */
  function FindTopic(ts: seq<JsValue>, topicId: real, from: nat): (r: FindResult)
    requires from <= |ts|
    ensures r.Found? ==> from <= r.index < |ts| && !Nullish(ts[r.index]) && HasId(ts[r.index], topicId)
    ensures r.Found? || r.NotFound? ==>
      forall i :: from <= i < |ts| && (r.NotFound? || i < r.index) ==> !Nullish(ts[i]) && !HasId(ts[i], topicId)
    ensures r.FindThrows? <==>
      (exists j :: from <= j < |ts| && Nullish(ts[j]) &&
         forall i :: from <= i < j ==> !Nullish(ts[i]) && !HasId(ts[i], topicId))
    decreases |ts| - from
  {
    if from == |ts| then NotFound
    else if Nullish(ts[from]) then FindThrows
    else if HasId(ts[from], topicId) then Found(from)
    else FindTopic(ts, topicId, from + 1)
  }

  /** `subtopics[subtopicIndex]` on the value `topic.subtopics || []` yields. */
  function Index(v: JsValue, k: int): JsValue {
    match v
    case Arr(items) => if 0 <= k < |items| then items[k] else Undefined
    case Obj(_) => Get(v, IntToString(k))
    case Str(s) => if 0 <= k < |s| then Str([s[k]]) else Undefined
    case _ => Undefined
  }

  /**
   * `getSubtopicContent(topicId, subtopicIndex)` on `window.contentData`
   * (`Undefined` when it is not set). `None` is the `null` the function
   * returns, also for every exception its `catch` swallows.
   */
  function GetSubtopicContent(contentData: JsValue, topicId: real, subtopicIndex: int): (r: Option<JsValue>)
    ensures contentData.Undefined? || contentData.Null? ==> r.None?
    ensures r.Some? ==> Truthy(r.value)
  {
    if contentData.Undefined? || contentData.Null? then None
    else
      match Or(Get(contentData, "topics"), Arr([]))
      case Arr(ts) =>
        (match FindTopic(ts, topicId, 0)
         case Found(j) =>
           var subtopic := Index(Or(Get(ts[j], "subtopics"), Arr([])), subtopicIndex);
           if Truthy(subtopic) && IsObjectLike(subtopic) && Truthy(Get(subtopic, "content"))
           then Some(Get(subtopic, "content"))
           else None
         case _ => None)
      case _ => None
  }

  /** The topic with the id, after entries that are neither `null` nor match. */
  predicate IsTopicAt(ts: seq<JsValue>, topicId: real, j: nat) {
    j < |ts| && HasId(ts[j], topicId) && forall i :: 0 <= i < j ==> !Nullish(ts[i]) && !HasId(ts[i], topicId)
  }

  /** An object subtopic with truthy `content` gives that content. */
  lemma ContentOfObjectSubtopic(topics: seq<JsValue>, topicId: real, j: nat, subtopics: seq<JsValue>, k: nat, fields: map<string, JsValue>)
    requires IsTopicAt(topics, topicId, j)
    requires Get(topics[j], "subtopics") == Arr(subtopics) && k < |subtopics|
    requires subtopics[k] == Obj(fields) && "content" in fields && Truthy(fields["content"])
    ensures GetSubtopicContent(Obj(map["topics" := Arr(topics)]), topicId, k) == Some(fields["content"])
  {
    assert FindTopic(topics, topicId, 0) == Found(j) by {
      FindTopicFindsFirst(topics, topicId, j, 0);
    }
  }

  /** A string subtopic (the older format) has no content. */
  lemma StringSubtopicHasNoContent(topics: seq<JsValue>, topicId: real, j: nat, subtopics: seq<JsValue>, k: nat, title: string)
    requires IsTopicAt(topics, topicId, j)
    requires Get(topics[j], "subtopics") == Arr(subtopics) && k < |subtopics| && subtopics[k] == Str(title)
    ensures GetSubtopicContent(Obj(map["topics" := Arr(topics)]), topicId, k) == None
  {
    FindTopicFindsFirst(topics, topicId, j, 0);
  }

  /** A topic list without `null` entries and without the id gives no content. */
  lemma MissingTopicHasNoContent(topics: seq<JsValue>, topicId: real, k: int)
    requires forall i :: 0 <= i < |topics| ==> !Nullish(topics[i]) && !HasId(topics[i], topicId)
    ensures GetSubtopicContent(Obj(map["topics" := Arr(topics)]), topicId, k) == None
  {
    assert FindTopic(topics, topicId, 0) == NotFound by {
      FindTopicMisses(topics, topicId, 0);
    }
  }

  /** A subtopic index outside the list gives no content. */
  lemma MissingSubtopicHasNoContent(topics: seq<JsValue>, topicId: real, j: nat, subtopics: seq<JsValue>, k: int)
    requires IsTopicAt(topics, topicId, j)
    requires Get(topics[j], "subtopics") == Arr(subtopics) && !(0 <= k < |subtopics|)
    ensures GetSubtopicContent(Obj(map["topics" := Arr(topics)]), topicId, k) == None
  {
    FindTopicFindsFirst(topics, topicId, j, 0);
  }

  lemma {:induction false} FindTopicFindsFirst(ts: seq<JsValue>, topicId: real, j: nat, from: nat)
    requires from <= j && IsTopicAt(ts, topicId, j)
    ensures FindTopic(ts, topicId, from) == Found(j)
    decreases j - from
  {
    if from < j {
      FindTopicFindsFirst(ts, topicId, j, from + 1);
    }
  }

  lemma {:induction false} FindTopicMisses(ts: seq<JsValue>, topicId: real, from: nat)
    requires from <= |ts|
    requires forall i :: from <= i < |ts| ==> !Nullish(ts[i]) && !HasId(ts[i], topicId)
    ensures FindTopic(ts, topicId, from) == NotFound
    decreases |ts| - from
  {
    if from < |ts| {
      FindTopicMisses(ts, topicId, from + 1);
    }
  }
}

=== FILE: text.dfy ===
/**
 * String helpers with the semantics of the JavaScript built-ins the
 * editor relies on: `String.prototype.trim`, `split` on one character or
 * on a separator string, `join`, the regular-expression class `\s`,
 * `Number#toString` for integers, and `parseInt`.
 */
module Text {

  datatype Option<T> = None | Some(value: T)

  /** The characters JavaScript's `trim` and the regex class `\s` treat as white space. */
  predicate IsWhitespace(c: char) {
    c == ' ' || c == '\t' || c == '\n' || c == '\r' || c == '\U{000B}' || c == '\U{000C}'
    || c == '\U{00A0}' || c == '\U{1680}' || ('\U{2000}' <= c <= '\U{200A}')
    || c == '\U{2028}' || c == '\U{2029}' || c == '\U{202F}' || c == '\U{205F}'
    || c == '\U{3000}' || c == '\U{FEFF}'
  }

  predicate AllWhitespace(s: string) {
    forall i :: 0 <= i < |s| ==> IsWhitespace(s[i])
  }

  predicate NoWhitespace(s: string) {
    forall i :: 0 <= i < |s| ==> !IsWhitespace(s[i])
  }

  /** Drops leading white space (`trimStart`). */
  function TrimStart(s: string): (r: string)
    ensures |r| <= |s| && r == s[|s| - |r|..]
    ensures r == [] || !IsWhitespace(r[0])
  {
    if s != [] && IsWhitespace(s[0]) then TrimStart(s[1..]) else s
  }

  /** What `trimStart` drops is white space. */
  lemma {:induction false} TrimStartDropsWhitespace(s: string)
    ensures AllWhitespace(s[..|s| - |TrimStart(s)|])
    decreases |s|
  {
    if s != [] && IsWhitespace(s[0]) {
      var r := TrimStart(s[1..]);
      assert TrimStart(s) == r;
      TrimStartDropsWhitespace(s[1..]);
      var later := s[1..][..|s| - 1 - |r|];
      assert AllWhitespace(later);
      var dropped := s[..|s| - |r|];
      forall i | 0 <= i < |dropped|
        ensures IsWhitespace(dropped[i])
      {
        if i > 0 {
          assert dropped[i] == later[i - 1];
        }
      }
    }
  }

  /** Drops trailing white space (`trimEnd`). */
  function TrimEnd(s: string): (r: string)
    ensures |r| <= |s| && r == s[..|r|]
    ensures r == [] || !IsWhitespace(r[|r| - 1])
    ensures AllWhitespace(s[|r|..])
  {
    if s != [] && IsWhitespace(s[|s| - 1]) then
      var r := TrimEnd(s[..|s| - 1]);
      assert s[..|s| - 1][|r|..] + [s[|s| - 1]] == s[|r|..];
      r
    else s
  }

  /** JavaScript `trim`: a substring of the input with no white space at either end. */
  function Trim(s: string): (r: string)
    ensures |r| <= |s|
    ensures r == [] || (!IsWhitespace(r[0]) && !IsWhitespace(r[|r| - 1]))
    ensures r == [] <==> AllWhitespace(s)
  {
    var t := TrimStart(s);
    var r := TrimEnd(t);
    assert r == [] ==> AllWhitespace(s) by {
      if r == [] {
        TrimStartDropsWhitespace(s);
        assert s == s[..|s| - |t|] + t;
        assert t == t[0..];
      }
    }
    assert r != [] ==> !AllWhitespace(s) by {
      if r != [] {
        assert r[0] == t[0] == s[|s| - |t|];
      }
    }
    r
  }

  /** `trim` only removes characters: every character it keeps comes from its input. */
  lemma TrimKeepsCharacters(s: string, c: char)
    requires c in Trim(s)
    ensures c in s
  {
    var t := TrimStart(s);
    var r := TrimEnd(t);
    assert r == t[..|r|];
    assert t == s[|s| - |t|..];
  }

  /** A string with no white space at either end is its own trim. */
  lemma TrimOfTrimmed(s: string)
    requires s == [] || (!IsWhitespace(s[0]) && !IsWhitespace(s[|s| - 1]))
    ensures Trim(s) == s
  {
    assert TrimStart(s) == s;
    assert TrimEnd(s) == s;
  }

  /** Trimming a leading space off a trimmed, non-empty string gives the string back. */
  lemma TrimSpacePrefix(s: string)
    requires s != [] && !IsWhitespace(s[0]) && !IsWhitespace(s[|s| - 1])
    ensures Trim(" " + s) == s
  {
    assert (" " + s)[1..] == s;
    assert TrimStart(s) == s;
    assert TrimStart(" " + s) == s;
    assert TrimEnd(s) == s;
  }

  predicate IsDigit(c: char) { '0' <= c <= '9' }

  predicate AllDigits(s: string) {
    forall i :: 0 <= i < |s| ==> IsDigit(s[i])
  }

  function DigitValue(c: char): (d: nat)
    requires IsDigit(c)
    ensures d < 10
  {
    c as int - '0' as int
  }

  function DigitChar(d: nat): (c: char)
    requires d < 10
    ensures IsDigit(c) && DigitValue(c) == d
  {
    ('0' as int + d) as char
  }

  /** Decimal digits of a natural number, as `String(n)` prints it. */
  function NatToString(n: nat): (s: string)
    ensures |s| >= 1 && AllDigits(s)
    ensures |s| > 1 ==> s[0] != '0'
    decreases n
  {
    if n < 10 then [DigitChar(n)] else NatToString(n / 10) + [DigitChar(n % 10)]
  }

  /** `String(n)` for an integer value. */
  function IntToString(n: int): (s: string)
    ensures |s| >= 1
    ensures s[0] == '-' <==> n < 0
  {
    if n < 0 then "-" + NatToString(-n) else NatToString(n)
  }

  /** `String(n)` for an integer or `NaN` (`None`). */
  function NumberText(n: Option<int>): string {
    if n.Some? then IntToString(n.value) else "NaN"
  }

  /** The value of a string of decimal digits. */
  function DigitsValue(s: string): nat
    requires AllDigits(s)
  {
    if s == [] then 0 else DigitsValue(s[..|s| - 1]) * 10 + DigitValue(s[|s| - 1])
  }

  lemma {:induction false} DigitsValueOfNatToString(n: nat)
    ensures DigitsValue(NatToString(n)) == n
    decreases n
  {
    var s := NatToString(n);
    if n >= 10 {
      DigitsValueOfNatToString(n / 10);
      assert s[..|s| - 1] == NatToString(n / 10);
    }
  }

  /** The longest prefix of `s` made of characters satisfying `IsDigitIn(radix, _)`. */
  function LeadingDigits(s: string, radix: nat): (p: string)
    ensures |p| <= |s| && p == s[..|p|]
    ensures |p| < |s| ==> DigitIn(s[|p|], radix).None?
  {
    if s != [] && DigitIn(s[0], radix).Some? then [s[0]] + LeadingDigits(s[1..], radix) else []
  }

  /** Every character the digit prefix takes is a digit. */
  lemma {:induction false} LeadingDigitsAreDigits(s: string, radix: nat)
    ensures forall i :: 0 <= i < |LeadingDigits(s, radix)| ==> DigitIn(s[i], radix).Some?
    decreases |s|
  {
    if s != [] && DigitIn(s[0], radix).Some? {
      LeadingDigitsAreDigits(s[1..], radix);
    }
  }

  /** The value of a character as a digit in base 10 or 16, if it is one. */
  function DigitIn(c: char, radix: nat): (d: Option<nat>)
    ensures d.Some? ==> d.value < radix
  {
    if '0' <= c <= '9' && (c as int - '0' as int) < radix then Some(c as int - '0' as int)
    else if radix == 16 && 'a' <= c <= 'f' then Some(c as int - 'a' as int + 10)
    else if radix == 16 && 'A' <= c <= 'F' then Some(c as int - 'A' as int + 10)
    else None
  }

  /** The value of a string of digits in the radix (a character that is not a digit counts as 0). */
  function ValueIn(s: string, radix: nat): nat
  {
    if s == [] then 0
    else ValueIn(s[..|s| - 1], radix) * radix + (match DigitIn(s[|s| - 1], radix) case Some(d) => d case None => 0)
  }

  lemma {:induction false} ValueInDecimal(s: string)
    requires AllDigits(s)
    ensures forall i :: 0 <= i < |s| ==> DigitIn(s[i], 10).Some?
    ensures ValueIn(s, 10) == DigitsValue(s)
  {
    if s != [] {
      ValueInDecimal(s[..|s| - 1]);
    }
  }

  /** Reads the digits after the sign and optional hex prefix; `None` plays the part of `NaN`. */
  function ParseDigits(s: string, allowHex: bool): (r: Option<nat>)
  {
    var hex := allowHex && |s| >= 2 && s[0] == '0' && (s[1] == 'x' || s[1] == 'X');
    var body := if hex then s[2..] else s;
    var radix := if hex then 16 else 10;
    var digits := LeadingDigits(body, radix);
    if digits == [] then None else Some(ValueIn(digits, radix))
  }

  function ParseSigned(s: string, allowHex: bool): Option<int>
  {
    var t := TrimStart(s);
    var negative := t != [] && t[0] == '-';
    var unsigned := if t != [] && (t[0] == '-' || t[0] == '+') then t[1..] else t;
    match ParseDigits(unsigned, allowHex)
    case None => None
    case Some(v) =>
      var value: int := if negative then 0 - v as int else v;
      Some(value)
  }

  /** After leading white space, a number can only start with a digit or a sign. */
  predicate StartsNumber(s: string) {
    var t := TrimStart(s);
    t != [] && (IsDigit(t[0]) || t[0] == '-' || t[0] == '+')
  }

  /**
   * JavaScript `parseInt(s)` (no radix: a `0x` prefix switches to base
   * 16); `None` is `NaN`, which is what a blank string or one starting with
   * anything but a digit or a sign gives.
   */
  function ParseInt(s: string): (r: Option<int>)
    ensures r.Some? ==> StartsNumber(s)
  {
    ParseSigned(s, true)
  }

  /** JavaScript `parseInt(s, 10)`; `None` is `NaN`, as for `ParseInt`. */
  function ParseInt10(s: string): (r: Option<int>)
    ensures r.Some? ==> StartsNumber(s)
  {
    ParseSigned(s, false)
  }

  lemma {:induction false} ParseDigitsOfNatToString(n: nat, allowHex: bool)
    ensures ParseDigits(NatToString(n), allowHex) == Some(n)
  {
    var s := NatToString(n);
    assert !(|s| >= 2 && s[0] == '0');
    ValueInDecimal(s);
    var d := LeadingDigits(s, 10);
    assert |d| == |s|;
    assert d == s;
    DigitsValueOfNatToString(n);
  }

  /** `parseInt` reads back every integer `String` prints, with or without a radix. */
  lemma {:induction false} ParseIntOfIntToString(n: int)
    ensures ParseInt(IntToString(n)) == Some(n)
    ensures ParseInt10(IntToString(n)) == Some(n)
  {
    ParseSignedOfIntToString(n, true);
    ParseSignedOfIntToString(n, false);
  }

  lemma {:induction false} ParseSignedOfIntToString(n: int, allowHex: bool)
    ensures ParseSigned(IntToString(n), allowHex) == Some(n)
  {
    var s := IntToString(n);
    if n < 0 {
      var digits := NatToString(-n);
      assert s == "-" + digits;
      assert !IsWhitespace(s[0]);
      assert TrimStart(s) == s;
      assert s[1..] == digits;
      ParseDigitsOfNatToString(-n, allowHex);
    } else {
      assert s == NatToString(n);
      assert IsDigit(s[0]);
      assert !IsWhitespace(s[0]);
      assert TrimStart(s) == s;
      ParseDigitsOfNatToString(n, allowHex);
    }
  }

  /** `s.split(sep)` for a one-character separator. */
  function Split(s: string, sep: char): (parts: seq<string>)
    ensures |parts| >= 1
    ensures forall i :: 0 <= i < |parts| ==> sep !in parts[i]
  {
    if s == [] then [""]
    else
      var rest := Split(s[1..], sep);
      if s[0] == sep then [""] + rest
      else [[s[0]] + rest[0]] + rest[1..]
  }

  /** `parts.join(sep)`. */
  function Join(parts: seq<string>, sep: string): string
  {
    if parts == [] then ""
    else if |parts| == 1 then parts[0]
    else parts[0] + sep + Join(parts[1..], sep)
  }

  /** `join` of a list of two or more entries: the first, the separator, then the join of the rest. */
  lemma JoinCons(a: string, rest: seq<string>, sep: string)
    requires |rest| >= 1
    ensures Join([a] + rest, sep) == a + sep + Join(rest, sep)
  {
    assert ([a] + rest)[1..] == rest;
  }

  /** Concatenation is associative. */
  lemma AppendAssociative(x: string, y: string, z: string)
    ensures x + (y + z) == x + y + z
  {
  }

  /** A join starts with its first entry. */
  lemma JoinStartsWithHead(parts: seq<string>, sep: string)
    requires parts != []
    ensures StartsWith(Join(parts, sep), parts[0])
  {
    var j := Join(parts, sep);
    if |parts| > 1 {
      assert j == parts[0] + (sep + Join(parts[1..], sep));
    }
    assert j[..|parts[0]|] == parts[0];
  }

  /** A join whose first entry is not empty starts with that entry's first character. */
  lemma JoinFirstCharacter(parts: seq<string>, sep: string)
    requires parts != [] && parts[0] != ""
    ensures Join(parts, sep) != [] && Join(parts, sep)[0] == parts[0][0]
  {
    JoinStartsWithHead(parts, sep);
    assert Join(parts, sep)[..|parts[0]|][0] == parts[0][0];
  }

  /** A join is empty exactly when there is nothing to join, as long as the first entry is not empty. */
  lemma JoinOfNonEmpty(parts: seq<string>, sep: string)
    requires parts != [] ==> parts[0] != ""
    ensures Join(parts, sep) == "" <==> parts == []
  {
    if parts != [] {
      JoinStartsWithHead(parts, sep);
    }
  }

  /** Joining two non-empty lists one after the other puts one separator between their joins. */
  lemma {:induction false} JoinAppend(xs: seq<string>, ys: seq<string>, sep: string)
    requires xs != [] && ys != []
    ensures Join(xs + ys, sep) == Join(xs, sep) + sep + Join(ys, sep)
    decreases |xs|
  {
    if |xs| == 1 {
      assert xs + ys == [xs[0]] + ys;
      JoinCons(xs[0], ys, sep);
    } else {
      JoinAppend(xs[1..], ys, sep);
      assert xs + ys == [xs[0]] + (xs[1..] + ys);
      JoinCons(xs[0], xs[1..] + ys, sep);
      assert xs == [xs[0]] + xs[1..];
      JoinCons(xs[0], xs[1..], sep);
    }
  }

  lemma {:induction false} SplitWithoutSeparator(s: string, sep: char)
    requires sep !in s
    ensures Split(s, sep) == [s]
  {
    if s != [] {
      SplitWithoutSeparator(s[1..], sep);
      assert [s[0]] + s[1..] == s;
    }
  }

  lemma {:induction false} SplitAtFirst(a: string, sep: char, b: string)
    requires sep !in a
    ensures Split(a + [sep] + b, sep) == [a] + Split(b, sep)
  {
    if a == [] {
      assert a + [sep] + b == [sep] + b;
      assert ([sep] + b)[1..] == b;
    } else {
      assert (a + [sep] + b)[1..] == a[1..] + [sep] + b;
      SplitAtFirst(a[1..], sep, b);
      assert [a[0]] + a[1..] == a;
    }
  }

  /** Joining the pieces of a split gives back the original string. */
  lemma {:induction false} JoinSplit(s: string, sep: char)
    ensures Join(Split(s, sep), [sep]) == s
  {
    if s != [] {
      JoinSplit(s[1..], sep);
      var rest := Split(s[1..], sep);
      if s[0] != sep {
        if |rest| == 1 {
          assert Join(rest, [sep]) == rest[0];
        } else {
          assert Join(rest, [sep]) == rest[0] + [sep] + Join(rest[1..], [sep]);
        }
      }
    }
  }

  predicate StartsWith(s: string, prefix: string) {
    |prefix| <= |s| && s[..|prefix|] == prefix
  }

  predicate MatchesAt(s: string, pat: string, k: nat) {
    k + |pat| <= |s| && s[k..k + |pat|] == pat
  }

  /** Index of the first occurrence of `pat` in `s` at or after `from`, as `indexOf` finds it. */
  function IndexOfFrom(s: string, pat: string, from: nat): (r: Option<nat>)
    requires |pat| > 0
    ensures r.Some? ==> from <= r.value && MatchesAt(s, pat, r.value)
    ensures r.Some? ==> forall k: nat :: from <= k < r.value ==> !MatchesAt(s, pat, k)
    ensures r.None? ==> forall k: nat :: from <= k ==> !MatchesAt(s, pat, k)
    decreases |s| - from
  {
    if from + |pat| > |s| then None
    else if MatchesAt(s, pat, from) then Some(from)
    else IndexOfFrom(s, pat, from + 1)
  }

  /** From a match of `pat` on, the text is `pat` and what follows it. */
  lemma SuffixAtMatch(s: string, pat: string, i: nat)
    requires MatchesAt(s, pat, i)
    ensures s[i..] == pat + s[i + |pat|..]
  {
    assert s[i..] == s[i..i + |pat|] + s[i + |pat|..];
  }

  /** `s.split(sep)` for a separator string of one or more characters. */
  function SplitOn(s: string, sep: string): (parts: seq<string>)
    requires |sep| > 0
    ensures |parts| >= 1
    decreases |s|
  {
    match IndexOfFrom(s, sep, 0)
    case None => [s]
    case Some(i) => [s[..i]] + SplitOn(s[i + |sep|..], sep)
  }

  /** Joining the pieces of `split(sep)` with `sep` gives back the string. */
  lemma {:induction false} JoinSplitOn(s: string, sep: string)
    requires |sep| > 0
    ensures Join(SplitOn(s, sep), sep) == s
    decreases |s|
  {
    match IndexOfFrom(s, sep, 0)
    case None =>
    case Some(i) =>
      var rest := s[i + |sep|..];
      assert SplitOn(s, sep) == [s[..i]] + SplitOn(rest, sep);
      JoinSplitOn(rest, sep);
      JoinCons(s[..i], SplitOn(rest, sep), sep);
      assert s == s[..i] + sep + rest by {
        assert s[i..i + |sep|] == sep;
        assert s == s[..i] + s[i..i + |sep|] + s[i + |sep|..];
      }
  }

  /** Lower-cases ASCII letters, as `toLowerCase` does for tag names. */
  function AsciiLower(s: string): (r: string)
    ensures |r| == |s|
    ensures forall i :: 0 <= i < |s| ==> r[i] == (if 'A' <= s[i] <= 'Z' then (s[i] as int + 32) as char else s[i])
  {
    if s == [] then [] else
      [if 'A' <= s[0] <= 'Z' then (s[0] as int + 32) as char else s[0]] + AsciiLower(s[1..])
  }

  /** Lower-casing twice is lower-casing once. */
  lemma AsciiLowerIdempotent(s: string)
    ensures AsciiLower(AsciiLower(s)) == AsciiLower(s)
  {
    var l := AsciiLower(s);
    assert forall i :: 0 <= i < |l| ==> AsciiLower(l)[i] == l[i];
  }

  /** Drops the white space at the front of `s`. */
  function DropWhitespace(s: string): (r: string)
    ensures |r| <= |s| && r == s[|s| - |r|..]
    ensures r == [] || !IsWhitespace(r[0])
  {
    if s != [] && IsWhitespace(s[0]) then DropWhitespace(s[1..]) else s
  }

  /** `s.replace(/\s+/g, '_')`: each run of white space becomes a single underscore. */
  function UnderscoreWhitespace(s: string): (r: string)
    ensures NoWhitespace(r)
    ensures |r| <= |s|
    decreases |s|
  {
    if s == [] then []
    else if IsWhitespace(s[0]) then "_" + UnderscoreWhitespace(DropWhitespace(s))
    else [s[0]] + UnderscoreWhitespace(s[1..])
  }

  lemma {:induction false} UnderscoreWhitespaceIdentity(s: string)
    requires NoWhitespace(s)
    ensures UnderscoreWhitespace(s) == s
  {
    if s != [] {
      UnderscoreWhitespaceIdentity(s[1..]);
    }
  }

  /** Replacing white space keeps every character except the white space runs, so no underscore means no white space. */
  lemma {:induction false} UnderscoreWhitespaceHasUnderscore(s: string)
    requires !NoWhitespace(s)
    ensures '_' in UnderscoreWhitespace(s)
    decreases |s|
  {
    if !IsWhitespace(s[0]) {
      UnderscoreWhitespaceHasUnderscore(s[1..]);
      assert UnderscoreWhitespace(s) == [s[0]] + UnderscoreWhitespace(s[1..]);
    } else {
      assert UnderscoreWhitespace(s)[0] == '_';
    }
  }
}

=== FILE: web_storage.dfy ===
/**
 * The browser's `localStorage` and the records the editor keeps in it.
 *
 * `localStorage` maps keys to strings; the editor stores `JSON.stringify`
 * results and reads them back with `JSON.parse`. The model stores the
 * decoded value (the JSON round trip is taken as exact) and tags each slot
 * with the kind of value its writers put there. A slot holding text that
 * does not parse as the expected kind is `Unparseable`.
 */
module WebStorage {
  import opened JsValues

  /** `{parentId, childIndex}` as kept in the bookmark list. */
  datatype Bookmark = Bookmark(parentId: JsValue, childIndex: int)

  /** One student ("layer") of `js/modules/student-manager.js`. */
  datatype StudentConfig = StudentConfig(
    id: int,
    name: string,
    topicCount: int,
    detailSlidesPerTopic: int,
    slideEdits: map<string, string>,
    bookmarks: seq<Bookmark>,
    createdAt: string,
    lastModified: string,
    useNameAsTitle: bool)

  /** What `saveGenerationMetadata` records. */
  datatype GenerationMetadata = GenerationMetadata(
    generatedAt: string,
    circleCount: int,
    detailSlidesPerTopic: int,
    metadata: JsValue)

  datatype Slot =
    | Text(text: string)
    | EditMap(edits: map<string, string>)
    | BookmarkList(bookmarks: seq<Bookmark>)
    | StudentList(students: seq<StudentConfig>)
    | MetadataRecord(meta: GenerationMetadata)
    | Unparseable(raw: string)

  /** `window.localStorage`. */
  class LocalStore {
    var items: map<string, Slot>

    constructor ()
      ensures items == map[]
    {
      items := map[];
    }

    /** `localStorage.setItem(key, value)`. */
    method SetItem(key: string, value: Slot)
      modifies this
      ensures items == old(items)[key := value]
    {
      items := items[key := value];
    }

    /** `localStorage.removeItem(key)`. */
    method RemoveItem(key: string)
      modifies this
      ensures items == old(items) - {key}
    {
      items := items - {key};
    }
  }
}
